=== FILE: README.md ===
# MELVIN onboard controller: a Dafny model of its planning and geometry core

MELVIN is the satellite of the CIARC-CUIYC onboard software (`melvin-ob`). It is a Rust
program that drives a simulated Earth-observation satellite. The satellite circles a
toroidal 21600 x 10800 map and switches between charging and acquiring images. It
photographs the map into a coverage bitmap, works through zoned imaging objectives and
locates radio beacons from noisy distance measurements.

This project models the deterministic core of that controller and proves properties of it.

- **Charge/acquisition planner.** Both snapshots of the task controller are modelled: the
  newer `src/scheduling/` one and the older `src/flight_control/task/` one.
  - The planner runs a backward dynamic program over (second, battery level, state). It keeps
    score grids in a fixed-size `LinkedBox` and writes an `AtomicDecision` per cell into a
    decision cube.
  - The replay walks the cube forwards from the satellite's battery and state, and turns
    every switch decision into a `SwitchState` task on the task queue.
  - Also modelled: the batteries' fixed-point mapping onto DP indices, the objective time
    window and the queue operations.
- **Common geometry.** `Vec2D` wrap-around on the torus, including the shortest unwrapped
  vector to a point and the `as u32` cast. Also the M x N matrices (entries as exact reals)
  with Gauss-Jordan inversion, `gcd`/`lcm` on `i32`, and the Kalman state vector's
  slicing/arithmetic.
- **Imaging.** The coverage bitmaps of both snapshots, with region marking on the torus, the
  RGB image buffer, the sub-buffer view with offset wrap-around, and the imaging cycle's
  bookkeeping.
- **Objectives.** Known-image (zoned) objectives with their corner/imaging-point geometry and
  their conversion from the server's objectives. Beacon objectives with their measurement
  log. The Bayesian beacon set: ring slices and the greedy minimal circle cover.
- **Small enums and codecs.** Flight states, camera angles, the global mode's `should_map`,
  the console message discriminants/names, pinned time delays and switch-state tasks.

Module names follow the source files. `Fc*` modules (and `Buffers`, `SubBuffers`,
`CycleStates`) model files under `src/flight_control/`. Un-prefixed modules for objectives,
bitmaps and the task controller model the newer `src/objective/`, `src/flight_control/common/`
and `src/scheduling/` files. `OrbitDp` is shared by both task controllers: it is
parameterised by whether switching is blocked until the score box is full (`guarded`).

Numbers are unbounded integers. Where the source depends on width, the model says so
explicitly:
- `i32` score bounds are proved to fit (`OrbitDp.ScoresFitI32`);
- `u32` casts wrap modulo 2^32;
- Rust's truncating `%` and `/` are `IntArith.TRem`/`IntArith.TDiv`.

Fixed-point battery levels (`I32F32`) are modelled as exact reals with the resolution `0.1`.
`round` rounds half away from zero and `to_num`/`to_usize` floors.

## Model

| member | source | states |
|---|---|---|
| OrbitDp.PDt | src/scheduling/task_controller.rs:168 | the reward of a second is 1 exactly when its orbit position is not yet covered, else 0 |
| OrbitDp.Decide | src/scheduling/task_controller.rs:193-199 | the kept score is the larger of stay and switch; the decision stays (in `s`) exactly when stay >= switch, so a tie stays, and otherwise switches to the other state |
| OrbitDp.ScoreCell | src/scheduling/task_controller.rs:170-199 | the score is at least the charge candidate (next level, capped at the top) in charge, at least the acquisition candidate (one level less plus the reward) in acquisition, and at least the switch candidate once switching is allowed; staying wins exactly when its score is at least the switch score (so a tie stays); the decision targets `s` when it stays and `1 - s` otherwise; on an empty battery in acquisition, with switching allowed and any charge score above `i32::MIN`, it switches to charge |
| OrbitDp.FillRow | src/scheduling/task_controller.rs:167-203 | after the battery/state loops, the new grid is the reference step grid, row `t` of the cube holds every cell's reference decision and every other row is untouched |
| OrbitDp.CalculateOptimalOrbitSchedule | src/scheduling/task_controller.rs:158-207 | every cell `(t, e, s)` of the returned cube is the decision of the backward recursion from the starting box, each cube entry stays in or switches out of its own state, and the returned box is the starting box after `pred_dt` pushes |
| OrbitDp.StepGrid | src/scheduling/task_controller.rs:167-201 | the grid computed for one second holds, in every cell, the better of the stay and switch scores |
| OrbitDp.BoxAfterStep | src/scheduling/task_controller.rs:203 | the box after `k + 1` steps is the box after `k` steps with the next step grid pushed |
| OrbitDp.StartBox | src/scheduling/task_controller.rs:130-131 | a fresh 180-slot box holding the final-state grid alone |
| OrbitDp.WindowFront | src/scheduling/task_controller.rs:176-179 | at every step the box's front is the score grid of the second just after the one being computed, so staying costs one second |
| OrbitDp.WindowFullBack | src/scheduling/task_controller.rs:188-190 | once the box is full its back is the score grid 180 seconds later, the time a state switch takes |
| OrbitDp.WindowPartialBack | src/scheduling/task_controller.rs:185-187 | until the box is full its back is the final-state grid, which is why the newer program blocks switching then |
| OrbitDp.StepGridsStable | src/scheduling/task_controller.rs:203 | a grid pushed at step `i` never changes in later steps: the backward recursion only appends |
| OrbitDp.StepBounded | src/scheduling/task_controller.rs:174-199 | from a box whose scores lie in `[i32::MIN, hi]`, one step yields scores in `[i32::MIN, hi + 1]`; the charge column never drops below `MIN_SCORE` |
| OrbitDp.BoxAfterBounded | src/scheduling/task_controller.rs:166-204 | after `k` steps every score is at most the start bound plus `k`: each second adds at most one point |
| OrbitDp.ScoresFitI32 | src/scheduling/task_controller.rs:179 | with start bound plus horizon below `i32::MAX`, every stay and switch score fits an `i32`, so `get(..) + p_dt` never overflows |
| OrbitDp.EmptyBatterySwitchesToCharge | src/scheduling/task_controller.rs:180-182 | from a bounded box, the cell (empty battery, acquisition) always switches to charge, whether switching is blocked or not |
| OrbitDp.NeverStayInAcquisitionWhenEmpty | src/scheduling/task_controller.rs:166-204 | for every second of the horizon the plan tells an empty acquiring battery to switch to charge |
| LinkedBoxes.LinkedBox.Push | src/scheduling/linked_box.rs:30-35 | the item becomes the front, the previous elements follow it, the capacity never changes, and the length grows by one unless that passes the capacity |
| LinkedBoxes.LinkedBox.Front | src/scheduling/linked_box.rs:41 | `None` exactly on an empty box, else the newest element |
| LinkedBoxes.LinkedBox.Back | src/scheduling/linked_box.rs:47 | `None` exactly on an empty box, else the oldest retained element |
| LinkedBoxes.LinkedBox.IsEmpty | src/scheduling/linked_box.rs:65 | empty exactly when the length is 0 |
| LinkedBoxes.New | src/scheduling/linked_box.rs:22 | a new box is empty and has the requested capacity |
| LinkedBoxes.PushAllWindow | src/scheduling/linked_box.rs:30-35 | a box filled from empty holds the last `size` pushed items, newest first |
| LinkedBoxes.FrontBackAfterPushes | src/scheduling/linked_box.rs:41-47 | after pushes the front is the last item; the back is the item `size - 1` pushes earlier once full, and the first item before that |
| LinkedBoxes.PushAllAppend | src/scheduling/linked_box.rs:30-35 | pushing two runs one after the other equals pushing their concatenation |
| FcLinkedBoxes.LinkedBox.Push | src/flight_control/common/linked_box.rs:19-24 | the older push puts the item in front of the previous elements and keeps a box within `max_size` within it |
| FcLinkedBoxes.LinkedBox.PopBack | src/flight_control/common/linked_box.rs:22 | dropping the back keeps every other element in place and shortens the box by one |
| FcLinkedBoxes.LinkedBox.Front | src/flight_control/common/linked_box.rs:27-29 | `None` exactly on an empty box, else the newest element |
| FcLinkedBoxes.LinkedBox.Back | src/flight_control/common/linked_box.rs:32-34 | `None` exactly on an empty box, else the oldest retained element |
| FcLinkedBoxes.New | src/flight_control/common/linked_box.rs:10-15 | a new box is empty with the requested `max_size` |
| FcLinkedBoxes.PushAgrees | src/flight_control/common/linked_box.rs:8-45 | the older box corresponds to the newer one: empty boxes, pushes, lengths, fronts and backs agree, so the older planner may run on the newer box |
| ScoreGrids.ScoreGrid.Set | src/scheduling/score_grid.rs:85-87 | `get` after `set(e, s, v)` returns `v` and every other cell keeps its score |
| ScoreGrids.ScoreGrid.Get | src/scheduling/score_grid.rs:66 | reads cell `(e, s)` at flat index `e * s_len + s`, inside the grid for every in-range cell; `Set` and `GridExtensionality` state what reads determine |
| ScoreGrids.ScoreGrid.GetMaxS | src/scheduling/score_grid.rs:75-77 | a state with the largest score in row `e`; on a tie the highest state wins, as `max_by_key` keeps the last maximum |
| ScoreGrids.New | src/scheduling/score_grid.rs:25-27 | `e_len * s_len` cells, every one 0 |
| ScoreGrids.ConditionGrid | src/scheduling/score_grid.rs:40-56 | reference final-state grid: cells at or below `end_min_e` (in column `end_s` if given, else in every column) are 0, all others the fill score |
| ScoreGrids.NewFromCondition | src/scheduling/score_grid.rs:40-56 | the strided sweep from `end_min_e * s_len + end_s` yields exactly the reference final-state grid, including the untouched all-fill grid when the start lies outside |
| ScoreGrids.GridExtensionality | src/scheduling/score_grid.rs:66 | two grids of one shape that agree on every `get` are equal |
| FcScoreGrids.NewFromCondition | src/flight_control/task/score_grid.rs:42-62 | a cell is 0 exactly in column `end_s` at or below row `end_min_e`, and `i32::MIN` everywhere else |
| FcScoreGrids.OutOfRangeAllMin | src/flight_control/task/score_grid.rs:47-48 | an end column or row outside the grid leaves every cell at `i32::MIN` |
| AtomicDecisions.Stay | src/flight_control/task/atomic_decision.rs:27-35 | `stay(s)` is a stay decision whose resulting state is `s` (charge for 0, acquisition for 1) |
| AtomicDecisions.Switch | src/flight_control/task/atomic_decision.rs:49-57 | `switch(s)` is a switch decision whose resulting state is `s`, so it never coincides with a stay |
| AtomicDecisions.DecisionDeterminedByKindAndTarget | src/flight_control/task/atomic_decision.rs:3-57 | every decision is exactly `stay` or `switch` of its resulting state: the two constructors together are onto and do not overlap |
| DecisionCubes.AtomicDecisionCube.GetFlat | src/scheduling/atomic_decision_cube.rs:44-46 | an in-range triple reads its own cell; an index past the slice panics (`None`) |
| DecisionCubes.AtomicDecisionCube.Get | src/scheduling/atomic_decision_cube.rs:44-46 | reads the decision of an in-range triple; `Set` and `SetKeepsCell` state what a read after a write returns |
| DecisionCubes.AtomicDecisionCube.Set | src/scheduling/atomic_decision_cube.rs:55-57 | `get` after `set` returns the decision and no other in-range triple changes |
| DecisionCubes.SetKeepsCell | src/scheduling/atomic_decision_cube.rs:44-57 | the flat indices of two distinct in-range triples are distinct and inside the slice |
| DecisionCubes.New | src/scheduling/atomic_decision_cube.rs:25-33 | `dt_len * e_len * s_len` decisions, every one `StayInCharge` |
| FcDecisionCubes.OlderIndexAgrees | src/flight_control/task/atomic_decision_cube.rs:22 | the older left-to-right index `dt * e_len * s_len + e * s_len + s` names the same slot as the newer one |
| FcDecisionCubes.New | src/flight_control/task/atomic_decision_cube.rs:11-19 | every decision of a new cube is `StayInCharge` |
| FcDecisionCubes.Get | src/flight_control/task/atomic_decision_cube.rs:21-23 | the older `get` reads the same decision as the newer cube |
| FcDecisionCubes.Set | src/flight_control/task/atomic_decision_cube.rs:25-27 | `get` after `set` returns the decision; no other in-range cell changes |
| FlatIndex.Index3Injective | src/scheduling/atomic_decision_cube.rs:44-57 | distinct in-range triples have distinct flat indices |
| FlatIndex.Index3InBounds | src/scheduling/atomic_decision_cube.rs:44-57 | an in-range triple's flat index lies inside the `dt_len * e_len * s_len` slice |
| FlatIndex.Index2Injective | src/scheduling/score_grid.rs:66 | distinct grid cells have distinct flat indices `e * s_len + s` |
| SchedTaskController.MaxBatteryMatchesThresholds | src/scheduling/task_controller.rs:100-102 | `round((90 - 10) / 0.1)` is 800 battery levels above the minimum, so grids have 801 rows |
| SchedTaskController.MapEToDp | src/scheduling/task_controller.rs:642-648 | the index lies in `[0, 800]` and maps back to within half a resolution step of the battery level clamped to `[10, 90]` |
| SchedTaskController.MapDpToE | src/scheduling/task_controller.rs:657-660 | the level never leaves `[10, 90]` and is exactly `10 + 0.1 * dp` for every index of the energy dimension |
| SchedTaskController.DpToEToDp | src/scheduling/task_controller.rs:642-660 | `map_e_to_dp(map_dp_to_e(dp)) == dp` for every index up to 800; larger indices come back as 800 |
| SchedTaskController.MaxMappedIsTopIndex | src/scheduling/task_controller.rs:688 | `max_mapped`, the replay's battery cap, is the top index 800 |
| SchedTaskController.TerminalBoxBounded | src/scheduling/task_controller.rs:123-131 | every score of the starting box is at most 0, the bound the overflow and empty-battery lemmas start from |
| SchedTaskController.InitSchedDp | src/scheduling/task_controller.rs:90-140 | the set-up fails exactly when the horizon exceeds the orbit period (unsigned subtraction); otherwise the cube has the horizon's length and 801 x 2 cells, each the recursion's decision from the final-state grid, and never keeps an empty battery acquiring |
| SchedTaskController.ReplayFrom | src/scheduling/task_controller.rs:696-732 | the replay's battery index stays within `[0, 800]`, its switches lie inside the horizon in increasing order at least 180 s apart, and each targets charge or acquisition |
| SchedTaskController.ConsAlternating | src/scheduling/task_controller.rs:717-730 | prepending a switch into a state other than the one left keeps the switch sequence alternating |
| SchedTaskController.ReplayAlternates | src/scheduling/task_controller.rs:696-732 | on a cube whose decisions stay in or switch out of their own state, the scheduled switches start with the other state and alternate charge/acquisition |
| SchedTaskController.ReplayNeverDrainsEmptyBattery | src/scheduling/task_controller.rs:706-715 | if no second tells an empty acquiring battery to stay, the "battery already at 0" error branch is never taken |
| SchedTaskController.ReplayStayStep | src/scheduling/task_controller.rs:700-716 | a stay decision moves one second on and leaves the switches and the final battery to the rest of the replay |
| SchedTaskController.ReplaySwitchStep | src/scheduling/task_controller.rs:717-730 | a switch decision emits one switch at `dt` and resumes 180 s later, capped at the horizon |
| SchedTaskController.ApplyDecision | src/scheduling/task_controller.rs:697-731 | one loop turn strictly advances `dt` within the horizon, keeps the battery in range, and appends exactly the switch tasks the replay emits at that second |
| SchedTaskController.SchedOptOrbitRes | src/scheduling/task_controller.rs:674-738 | the queue afterwards is the old queue (or empty with `trunc`) followed by one switch task at `base_t + dt` per replayed switch, the count is its length, and the returned level is the replay's final battery index mapped back |
| SchedTaskController.GetMinMaxDt | src/scheduling/task_controller.rs:383-405 | fails (usize underflow) exactly when fewer than 100 s remain; otherwise `max_dt` ends exactly 100 s before the deadline when at most 8 h remain and is exactly 28 700 (8 h less 100 s) when more remain, and `min_dt` is 0 once the window opened, else 100 s after its start |
| SchedTaskController.GetMinMaxDtLaterDeadline | src/scheduling/task_controller.rs:383-405 | a later deadline never turns the window into a failure, never shortens `max_dt` and leaves `min_dt` unchanged |
| FcTaskController.MaxBatteryMatchesThresholds | src/flight_control/task/task_controller.rs:121-124 | both ways the older code computes it, the battery range `[10, 100]` has 900 levels above the minimum, so grids have 901 rows |
| FcTaskController.PredictionSecs | src/flight_control/task/task_controller.rs:126-135 | the horizon is `min(80000, period, dt)` (without `dt`: `min(80000, period)`); it never exceeds the period, so `period - prediction_secs` cannot underflow |
| FcTaskController.EndBattAsWritten | src/flight_control/task/task_controller.rs:148-150 | the end battery index as written lies in `[100, 1000]`: it is not measured from the minimum threshold |
| FcTaskController.TerminalGridAsWritten | src/flight_control/task/task_controller.rs:146-157 | the as-written final-state grid has the planner's shape: 901 rows, two states |
| FcTaskController.InitOrbitSchedCalc | src/flight_control/task/task_controller.rs:112-169 | the cube has the horizon's length and 901 x 2 cells, each the unguarded recursion's decision from the as-written final-state grid; without an end status an empty acquiring battery always switches to charge |
| FcTaskController.TerminalAsWrittenIgnoresEndState | src/flight_control/task/task_controller.rs:151-153 | with a charge or acquisition end state every cell of the as-written final grid is `i32::MIN`: `end.0 as usize` is 2 or 3, outside the two columns |
| FcTaskController.AsWrittenStaysInAcquisitionWhenEmpty | src/flight_control/task/task_controller.rs:203-224 | with any end status, the last second's decision for an empty acquiring battery is to stay in acquisition: stay and switch both score `i32::MIN` and the tie stays |
| FcTaskController.DpState | src/flight_control/task/task_controller.rs:725-729 | the replay's starting state is 1 for acquisition and 0 for charge, and any other flight state panics |
| FcTaskController.Discriminant | src/flight_control/flight_state.rs:4-11 | the declaration-order table: Deployment 0, Transition 1, Acquisition 2, Charge 3, Comms 4, Safe 5, each in both directions |
| FcTaskController.StartBatt | src/flight_control/task/task_controller.rs:742 | the start index is the battery's distance above 10 in 0.1 steps, rounded down; a battery below 10 panics in `to_usize().unwrap()` |
| FcTaskController.ReplayFrom | src/flight_control/task/task_controller.rs:747-778 | when the replay succeeds its switches lie inside the horizon in increasing order at least 180 s apart; a cube index past the end or `batt -= 1` at 0 is an error |
| FcTaskController.ReplayNeverUnderflows | src/flight_control/task/task_controller.rs:757-762 | on a consistent cube that never keeps an empty acquiring battery, the replay from any in-range battery and state succeeds |
| FcTaskController.AsWrittenPlanUnderflows | src/flight_control/task/task_controller.rs:146-153 | the as-written plan for a one-second horizon with end status (charge, 50), replayed in acquisition from a battery of exactly 10, underflows |
| FcTaskController.ApplyDecision | src/flight_control/task/task_controller.rs:748-777 | one loop turn either fails exactly as the replay does, or strictly advances `dt` within the horizon and appends exactly the switch tasks the replay emits |
| FcTaskController.ScheduleOptimalOrbitResult | src/flight_control/task/task_controller.rs:707-782 | an unexpected flight state or a battery below 10 fails; otherwise the result fails exactly when the replay does, and on success the queue is the old one (or empty with `trunc`) plus one switch task per replayed switch, and the count is its length |
| FcTaskController.EndStateIndex | src/flight_control/task/task_controller.rs:151 | corrected: charge and acquisition select their DP column 0 or 1, any other end state selects no column |
| FcTaskController.EndBattIndex | src/flight_control/task/task_controller.rs:148-150 | corrected: the end battery index lies in `[0, 900]`, measured from the minimum threshold after clamping |
| FcTaskController.TerminalGrid | src/flight_control/task/task_controller.rs:146-157 | the corrected final-state grid has the planner's shape: 901 rows, two states |
| FcTaskController.TerminalGridHonoursEndState | src/flight_control/task/task_controller.rs:146-157 | the corrected final grid scores 0 exactly in the end state's column at or above the end battery index, and `MIN_SCORE` elsewhere |
| FcTaskController.CorrectedTerminalBoxBounded | src/flight_control/task/task_controller.rs:159-160 | every score of the corrected starting box is at most 0 |
| FcTaskController.InitOrbitSchedCalcCorrected | src/flight_control/task/task_controller.rs:112-169 | with the corrected final-state grid, the plan never keeps an empty acquiring battery, so its replay from every in-range battery and state succeeds |
| FcTaskController.PlanReplaysFromEveryStart | src/flight_control/task/task_controller.rs:747-778 | a consistent plan that switches every empty acquiring battery to charge replays without underflow from every start |
| TaskSchedules.EnqueueTask | src/scheduling/task_controller.rs:833 | the task is appended at the back and the earlier tasks keep their order |
| TaskSchedules.ClearSchedule | src/scheduling/task_controller.rs:836-840 | the queue is empty afterwards |
| TaskSchedules.ScheduleSwitch | src/scheduling/task_controller.rs:751-753 | exactly one switch task into the target state, due at the given instant, is appended |
| TaskSchedules.FirstDueAfter | src/scheduling/task_controller.rs:820-825 | the position of the first task due after `dt`: all earlier ones are due no later than `dt` |
| TaskSchedules.ClearAfterDtAsWritten | src/scheduling/task_controller.rs:812-827 | as written, the queue is returned unchanged for every input: a non-empty queue returns early and an empty one has nothing to drain |
| TaskSchedules.ClearAfterDt | src/scheduling/task_controller.rs:812-827 | corrected: the result is the longest prefix of tasks due no later than `dt`; on a queue sorted by due time every removed task is due after `dt` |
| TaskSchedules.ClearAfterDtKeepsLateTask | src/flight_control/task/task_controller.rs:847-862 | a queue holding one task due after the cutoff keeps it as written and loses it once corrected |
| TaskSchedules.SwitchTasks | src/flight_control/task/task_controller.rs:763-776 | one switch task per scheduled switch, into the switch's flight state and due at `base_t + dt` |
| TaskSchedules.SwitchTasksSnoc | src/flight_control/task/task_controller.rs:805-813 | scheduling one more switch appends exactly its task to the switch tasks so far |
| PinnedDt.PinnedTimeDelay.RemoveDelay | src/flight_control/common/pinned_dt.rs:16 | the start stays and the end moves `delta` earlier |
| PinnedDt.PinnedTimeDelay.AddDelay | src/flight_control/common/pinned_dt.rs:17 | the start stays and the end moves `delta` later |
| PinnedDt.PinnedTimeDelay.SetDelay | src/flight_control/common/pinned_dt.rs:18 | the start stays and the end becomes start plus `delta` |
| PinnedDt.PinnedTimeDelay.TimeLeft | src/flight_control/common/pinned_dt.rs:21 | `now` plus the time left is the end instant |
| PinnedDt.New | src/flight_control/common/pinned_dt.rs:10-15 | pinned at `now`, ending `delta` later, with `delta` left at `now` |
| PinnedDt.AddThenRemove | src/flight_control/common.rs:141-144 | adding and then removing the same delta restores the delay, in the older copy of the type as in the newer |
| SwitchStateTasks.New | src/flight_control/task/switch_state_task.rs:11-20 | a task exists exactly for charge, comms and acquisition, and its `target_state` is the argument |
| Vec2Ds.WrapCoordinate | src/flight_control/common/vec2d.rs:517-519 | for a positive map size the double truncating remainder lands in `[0, m)` and is congruent to the input, whatever its sign |
| Vec2Ds.DoubleRemIsMod | src/flight_control/common/vec2d.rs:62-64 | `((v % m) + m) % m` with Rust's truncating `%` equals the Euclidean remainder for every `v` |
| Vec2Ds.WrapCoordinateIdempotent | src/flight_control/common/vec2d.rs:517-519 | wrapping twice is wrapping once, and a coordinate already on the map is left alone |
| Vec2Ds.WrapCoordinatePeriodic | src/flight_control/common/vec2d.rs:517-519 | adding whole map sizes does not change where a coordinate wraps to |
| Vec2Ds.WrapAroundMap | src/flight_control/common/vec2d.rs:499-507 | the result lies on the 21600 x 10800 map, x wrapped by 21600 and y by 10800 |
| Vec2Ds.WrapAroundMapIdempotent | src/flight_control/common/vec2d.rs:499-507 | wrapping twice is wrapping once and points on the map are fixed |
| Vec2Ds.To | src/flight_control/common/vec2d.rs:230 | `self + self.to(o) == o`: the vector from `self` to `o` |
| Vec2Ds.ArithmeticLaws | src/flight_control/common/vec2d.rs:441-603 | subtraction undoes addition, addition commutes, `dot` is symmetric with `a . a` the squared length, and `cross` is antisymmetric, zero for a vector with itself |
| Vec2Ds.IsClockwiseTo | src/flight_control/common/vec2d.rs:335-342 | `Some(true)` exactly when the cross product is negative, `Some(false)` exactly when positive, `None` exactly when the vectors are parallel |
| Vec2Ds.IsClockwiseAntisymmetric | src/flight_control/common/vec2d.rs:335-342 | swapping the vectors flips the answer and keeps `None` |
| Vec2Ds.Projected | src/flight_control/common/vec2d.rs:266-274 | each option carries the squared length of its vector |
| Vec2Ds.ProjectedInRange | src/flight_control/common/vec2d.rs:262-278 | one option per pair of shifts, x shifts in the outer loop |
| Vec2Ds.MinByIndex | src/flight_control/common/vec2d.rs:249 | `min_by`: an option of least squared length, and the first such in iteration order |
| Vec2Ds.NineOptions | src/flight_control/common/vec2d.rs:248 | the nine options are the shifts by (1, 0, -1) map sizes in x and y, in that iteration order |
| Vec2Ds.ChosenShift | src/flight_control/common/vec2d.rs:247-250 | the chosen shift is a first shortest one among the nine |
| Vec2Ds.UnwrappedTo | src/flight_control/common/vec2d.rs:247-250 | the result is the vector to one of the nine shifted copies of `other`, no longer than any other option, and the first in iteration order among equally short ones |
| Vec2Ds.ShiftLandsWithinHalf | src/flight_control/common/vec2d.rs:262-278 | for any coordinate difference inside the map, one of the three shifts brings it within half a map size |
| Vec2Ds.UnwrappedXWithinHalf | src/flight_control/common/vec2d.rs:247-250 | between points on the map the shortest vector's x lies in `[-10800, 10800]` |
| Vec2Ds.UnwrappedYWithinHalf | src/flight_control/common/vec2d.rs:247-250 | between points on the map the shortest vector's y lies in `[-5400, 5400]` |
| Vec2Ds.UnwrappedToIsShortest | src/flight_control/common/vec2d.rs:247-278 | between points on the map the shortest vector is within half the map size in each direction and `self` plus it wraps back to `other` |
| Vec2Ds.FourOptions | src/flight_control/common/vec2d.rs:253 | the four options are the shifts by (1, 0) map sizes in x and y, in that order |
| Vec2Ds.ChosenTopRightShift | src/flight_control/common/vec2d.rs:252-255 | the chosen shift is a first shortest one among the four |
| Vec2Ds.UnwrappedToTopRight | src/flight_control/common/vec2d.rs:252-255 | the shortest vector to a copy of `other` shifted right and/or up by at most one map size, first among equals |
| Vec2Ds.UnwrappedToTopRightWraps | src/flight_control/common/vec2d.rs:252-255 | between points on the map, `self` plus the result is `other` or its copy one map size right/up, and wraps back to `other` |
| Vec2Ds.ToUnsigned | src/flight_control/common/vec2d.rs:483-488 | each `i32` component becomes the `u32` congruent to it modulo 2^32, so negatives wrap |
| Vec2Ds.ToUnsignedRoundTrip | src/flight_control/common/vec2d.rs:483-488 | casting back to `i32` recovers the original vector: the cast loses no information |
| Vec2Ds.FromArray | src/flight_control/common/vec2d.rs:643-648 | the first array element becomes x and the second y |
| Vec2Ds.TupleRoundTrip | src/flight_control/common/vec2d.rs:614-630 | vector to tuple to vector, and tuple to vector to tuple, are identities |
| Vec2Ds.Display | src/flight_control/common/vec2d.rs:87-89 | the rendering is bracketed, `[x, y]` |
| Vec2Ds.DisplayRoundTrip | src/flight_control/common/vec2d.rs:87-89 | the `[x, y]` rendering parses back to the same vector, so it is injective |
| FcCommon.VectorSpaceLaws | src/flight_control/common.rs:48-126 | the older vector's addition is commutative and associative with `zero` as unit, scaling distributes over addition, `dot` is symmetric and linear, and `From<(T, T)>` keeps the order |
| FcCommon.WrapCoordinateAsWritten | src/flight_control/common.rs:85-87 | `(v + m) % m` lands in `[0, m)` and agrees with the Euclidean remainder exactly for `v >= -m`; below that it stays in `(-m, 0]` |
| FcCommon.WrapAroundMapAsWritten | src/flight_control/common.rs:76-82 | each coordinate lies strictly between minus and plus the map side, is the Euclidean remainder when the input is at least minus the side, and is at most 0 below that |
| FcCommon.WrapCoordinateCounterexample | src/flight_control/common.rs:85-87 | `-21601` wraps to `-1` as written, off the map, where the double remainder gives 21599 |
| FcCommon.WrapAroundMap | src/flight_control/common.rs:76-82 | corrected: every point lands on the map, and the result agrees with the as-written wrapping wherever that one is correct |
| IntMath.GcdNat | src/flight_control/common/math.rs:28-33 | the reference Euclid recursion is zero exactly when both arguments are zero |
| IntMath.Gcd | src/flight_control/common/math.rs:25-34 | the gcd of the absolute values is zero exactly when both inputs are zero |
| IntMath.GcdI32 | src/flight_control/common/math.rs:25-34 | `gcd_i32` fails (the `abs` overflow) exactly when an input is `i32::MIN`; otherwise it returns the reference gcd, which is a non-negative `i32` dividing both inputs and divisible by every common divisor |
| IntMath.LcmI32 | src/flight_control/common/math.rs:50-52 | both inputs zero (division by zero) or an `i32::MIN` input fails; any other failure is a true `a * b / gcd` outside `i32`; a result is an `i32` multiple of both `|a|` and `|b|` whose product with the gcd is `a * b` |
| Matrices.Set | src/flight_control/common/matrix.rs:16 | the shape is kept, the named entry holds the new value and every other entry is unchanged |
| Matrices.Get | src/flight_control/common/matrix.rs:14 | reads entry `(row, col)`; `Set` states what a read after a write returns |
| Matrices.Mul | src/flight_control/common/matrix.rs:99-113 | an `m x p` product, row `i` being row `i` of `a` times `b`; its meaning as a product is stated by `IdentityNeutral` (the identity is neutral on both sides) and `InverseIsLeftInverse` (a returned inverse times the matrix is the identity) |
| Matrices.Zero | src/flight_control/common/matrix.rs:22-26 | an `m x n` matrix of zeros |
| Matrices.Eye | src/flight_control/common/matrix.rs:46-55 | an `m x n` matrix with ones exactly on the diagonal `i == j`, for non-square shapes too |
| Matrices.Identity | src/flight_control/common/matrix.rs:32-40 | the square identity agrees with `eye` of the same size |
| Matrices.Add | src/flight_control/common/matrix.rs:63-74 | shape kept, each entry the sum of the two entries |
| Matrices.Sub | src/flight_control/common/matrix.rs:81-91 | shape kept, each entry the difference of the two entries |
| Matrices.AddSubInverse | src/flight_control/common/matrix.rs:63-91 | subtracting `b` undoes adding `b`, and `a - a` is the zero matrix |
| Matrices.Transpose | src/flight_control/common/matrix.rs:119-131 | an `m x n` matrix becomes `n x m` with entry `(j, i)` taken from `(i, j)` |
| Matrices.TransposeInvolution | src/flight_control/common/matrix.rs:119-131 | transposing twice gives back the matrix |
| Matrices.IdentityNeutral | src/flight_control/common/matrix.rs:99-113 | the product with the identity, on the left or on the right, is the matrix itself |
| Matrices.TryInverse | src/flight_control/common/matrix.rs:145-179 | a result is square of the same size; a zero in the top-left pivot gives `None` at once; the empty matrix is its own inverse |
| Matrices.GaussJordanCorrect | src/flight_control/common/matrix.rs:150-176 | with the row operations tracked on both halves, finishing the elimination leaves a right half whose product with the original matrix is the identity, row by row |
| Matrices.InverseIsLeftInverse | src/flight_control/common/matrix.rs:145-179 | whenever `try_inverse` returns a matrix, that matrix times the original is the identity |
| Matrices.SwapHasNoInverse | src/flight_control/common/matrix.rs:152-156 | the 2x2 exchange matrix is its own inverse, yet its zero first pivot makes `try_inverse` return `None`: no row pivoting is done |
| StateVectors.Zero | src/flight_control/common/state_vector.rs:13-17 | `n` zeros |
| StateVectors.FromMatrix | src/flight_control/common/state_vector.rs:19-25 | entry `i` is the matrix's entry `(i, 0)` |
| StateVectors.ToMatrix | src/flight_control/common/state_vector.rs:27-33 | an `n x 1` column whose entry `(i, 0)` is entry `i` |
| StateVectors.MatrixRoundTrip | src/flight_control/common/state_vector.rs:19-33 | vector to column to vector, and column to vector to column, are identities |
| StateVectors.FromVec2D | src/flight_control/common/state_vector.rs:35-41 | fails (index panic) exactly when `N < 2`; otherwise x and y in the first two entries and zeros after |
| StateVectors.GetSlice | src/flight_control/common/state_vector.rs:43-45 | fails (slice panic) exactly when `start + range` passes the end; otherwise the `range` entries from `start` |
| StateVectors.At | src/flight_control/common/state_vector.rs:70-73 | fails exactly past the end; a value is the one-entry slice at that index |
| StateVectors.Add | src/flight_control/common/state_vector.rs:48-57 | entrywise sum of equal-length vectors |
| StateVectors.Sub | src/flight_control/common/state_vector.rs:59-68 | entrywise difference of equal-length vectors |
| StateVectors.SubInvertsAdd | src/flight_control/common/state_vector.rs:48-68 | subtracting `b` undoes adding `b`, and `a - a` is zero |
| Bitmaps.New | src/flight_control/common/bitmap.rs:16-23 | fails (the `u32` multiplication overflow) exactly when `width * height` passes `u32`; otherwise `width * height` clear bits with the given sides |
| Bitmaps.FromMapSize | src/flight_control/common/bitmap.rs:25-28 | a 21600 x 10800 bitmap of 233 280 000 clear bits |
| Bitmaps.Size | src/flight_control/common/bitmap.rs:45 | the number of bits, which fits in `u32` |
| Bitmaps.IndexInjective | src/flight_control/common/bitmap.rs:134 | the row-major index of a pixel on the map lies inside the data, and distinct pixels get distinct indices |
| Bitmaps.Index | src/flight_control/common/bitmap.rs:134 | row-major: for a column inside the width, dividing the index by the width gives the row back and the remainder gives the column back |
| Bitmaps.CheckPixel | src/flight_control/common/bitmap.rs:123-126 | a set answer implies the index is inside the data: an index past the end reads as clear |
| Bitmaps.SetPixel | src/flight_control/common/bitmap.rs:128-131 | fails (the `set` panic) exactly when the index passes the data; otherwise the pixel reads back as `state` and every other bit is kept |
| Bitmaps.SetPixelKeepsOthers | src/flight_control/common/bitmap.rs:128-134 | on the map, setting one pixel succeeds and leaves every other pixel's reading unchanged |
| Bitmaps.IsPhotographed | src/flight_control/common/bitmap.rs:115-121 | `"EDGE"` exactly when the pixel is off the map; otherwise the pixel's own bit |
| Bitmaps.Span | src/flight_control/common/bitmap.rs:72-74 | the row's start and end columns are `x - r` and `x + r` wrapped into `[0, width)` |
| Bitmaps.RowsFrom | src/flight_control/common/bitmap.rs:76-93 | two slices per row when the square is wrapped and one otherwise |
| Bitmaps.RegionSlices | src/flight_control/common/bitmap.rs:61-95 | fails (division by zero in the wrap) exactly for a zero width, or a zero height with some row to visit; otherwise `2r` slices, or `4r` when wrapped |
| Bitmaps.RowSlicesCover | src/flight_control/common/bitmap.rs:79-92 | the slices of one row hold exactly the pixels of that row whose column is in the span, for wrapped and contiguous rows alike |
| Bitmaps.RowsReached | src/flight_control/common/bitmap.rs:76-77 | the loop over `count` rows from `y0` visits map row `row` exactly when `row` is fewer than `count` rows below `y0` round the map |
| Bitmaps.RowsFromCover | src/flight_control/common/bitmap.rs:76-93 | the slices of all rows hold exactly the pixels of a visited row whose column is in the span |
| Bitmaps.SpanColumns | src/flight_control/common/bitmap.rs:72-74 | for a square narrower than a quarter of the map, the `is_wrapped` test picks exactly the columns less than `2r` right of `x - r` round the map |
| Bitmaps.RegionSlicesCoverSquare | src/flight_control/common/bitmap.rs:61-95 | for such a square, the slices succeed and cover exactly the `2r x 2r` square with top-left corner `(x - r, y - r)` on the torus |
| Bitmaps.RowSlicesShape | src/flight_control/common/bitmap.rs:79-92 | every slice of a row ends inside the data, and the slices are well-formed ranges exactly when the row is wrapped or its start is not after its end |
| Bitmaps.RowsFromShape | src/flight_control/common/bitmap.rs:76-93 | every slice of the region ends inside the data, and all are well-formed when each row is |
| Bitmaps.FillSlices | src/flight_control/common/bitmap.rs:52-58 | fails (the `get_mut` panic) exactly when some slice, end cut to the length, starts after its end; otherwise a bit takes `setTo` exactly when some slice covers it and keeps its value otherwise |
| Bitmaps.RegionCaptured | src/flight_control/common/bitmap.rs:47-59 | on success the sides and length are kept, the bits of the region's slices take `setTo` and the rest are unchanged |
| Bitmaps.RegionCapturedSetsSquare | src/flight_control/common/bitmap.rs:47-95 | for a square narrower than a quarter of the map, `region_captured` succeeds and sets exactly the pixels of the square on the torus |
| Bitmaps.CountOnes | src/flight_control/common/bitmap.rs:107 | the count of set bits is at most the slice's length |
| Bitmaps.EnoughFrom | src/flight_control/common/bitmap.rs:102-112 | with valid slices, the early-returning loop answers whether there is a slice and the ones counted plus those in all slices reach `min`; with only invalid slices it panics |
| Bitmaps.CountOnesIsCardinality | src/flight_control/common/bitmap.rs:105-108 | `count_ones` of a range is the number of set bits with index in it |
| Bitmaps.TotalOnesAppend | src/flight_control/common/bitmap.rs:102-108 | the running count over two lists of slices is the sum of their counts |
| Bitmaps.RowCount | src/flight_control/common/bitmap.rs:77-92 | one row's slices count each of its set bits once: a wrapped row's second slice ends before its first starts |
| Bitmaps.RowAtDistinct | src/flight_control/common/bitmap.rs:74-75 | fewer steps than the map height from one start row visit distinct rows |
| Bitmaps.RowsFromCount | src/flight_control/common/bitmap.rs:74-92 | over at most `height` rows, the slices are in range and their count is the number of distinct set bits they cover |
| Bitmaps.EnoughOnesInSquareCounts | src/flight_control/common/bitmap.rs:97-113 | for a square narrower than a quarter of the map and no taller than it, the answer is whether the radius is positive and at least `min` set pixels lie in the square |
| Bitmaps.EnoughOnesInSquare | src/flight_control/common/bitmap.rs:97-113 | with valid slices, the answer is whether the square is non-empty and its slices hold at least `min` set bits |
| FcBitmaps.New | src/flight_control/camera_controller.rs:10-17 | `width * height` clear bits with the given sides |
| FcBitmaps.Index | src/flight_control/camera_controller.rs:47-49 | row-major: for a column inside the width, dividing the index by the width gives the row back and the remainder gives the column back |
| FcBitmaps.CheckPixel | src/flight_control/camera_controller.rs:37-40 | set exactly when the index is inside the data and that bit is set |
| FcBitmaps.IsPhotographed | src/flight_control/camera_controller.rs:29-35 | `"EDGE"` exactly when off the map; otherwise the pixel's bit |
| FcBitmaps.FlipPixel | src/flight_control/camera_controller.rs:42-45 | fails (the `set` panic) exactly when the index passes the data; otherwise the pixel becomes set, never cleared, and every other bit is kept |
| FcBitmaps.FlipPixelIdempotent | src/flight_control/camera_controller.rs:42-45 | flipping a pixel a second time changes nothing |
| FcBitmaps.BlockIndexMonotone | src/flight_control/camera_controller.rs:19-27 | the block's last pixel has the largest index, so it decides whether the loop panics |
| FcBitmaps.FlipRegion | src/flight_control/camera_controller.rs:19-27 | fails exactly when the block's last pixel passes the data; otherwise every pixel of the 600 x 600 block from `(x, y)`, taken row-major without wrapping, is set and all other bits are kept |
| Buffers.New | src/flight_control/common/img_buffer.rs:36-42 | fails (the `u32` multiplication overflow) exactly when `width * height` passes `u32`; otherwise a black buffer of that many pixels with the given dimensions |
| Buffers.FromMapSize | src/flight_control/common/img_buffer.rs:49-52 | a black buffer of the 21600 x 10800 map |
| Buffers.BufferIndex | src/flight_control/common/img_buffer.rs:79-81 | fails (overflow) exactly when `y * width + x` passes `u32`; an index of an in-row pixel decodes back to its row `y` and column `x` |
| Buffers.BufferIndexExample | src/flight_control/common/img_buffer.rs:73-78 | the documented example: on a 4 x 4 buffer pixel `(2, 3)` has index 14 |
| Buffers.BufferIndexInside | src/flight_control/common/img_buffer.rs:79-81 | every pixel of the buffer has an index inside the data |
| Buffers.SavePixel | src/flight_control/common/img_buffer.rs:59-62 | fails (the index panic) exactly when the index overflows or passes the data; otherwise dimensions kept, the pixel reads back as `rgb` and every other pixel is kept |
| Buffers.GetPixel | src/flight_control/common/img_buffer.rs:91-93 | fails exactly when the index overflows or passes the data; otherwise the pixel at the index `save_pixel` writes |
| Buffers.SaveKeepsOtherPixels | src/flight_control/common/img_buffer.rs:59-81 | on the buffer, saving one pixel succeeds and leaves every other pixel as it was |
| SubBuffers.Dimensions | src/flight_control/imaging/sub_buffer.rs:27 | the window's size, not the underlying image's |
| SubBuffers.Loc | src/flight_control/imaging/sub_buffer.rs:40-41 | fails exactly on a `u32` overflow of `coordinate + offset` or a zero buffer side (division by zero); otherwise the cell `(x + offset) % size` per axis, inside the buffer |
| SubBuffers.LocPeriodic | src/flight_control/imaging/sub_buffer.rs:40-41 | moving a whole buffer width or height through the window lands on the same cell |
| SubBuffers.GetPixel | src/flight_control/imaging/sub_buffer.rs:39-43 | a pixel read is the underlying buffer's pixel at the mapped cell, and a failing mapping fails |
| SubBuffers.GetPixelMut | src/flight_control/imaging/sub_buffer.rs:62-66 | the returned cell holds exactly the pixel `get_pixel` reads; it fails exactly when the mapping or the buffer read fails |
| SubBuffers.PutPixel | src/flight_control/imaging/sub_buffer.rs:75-79 | the window's geometry is kept and the pixel reads back through the window; it fails exactly when `get_pixel_mut` would |
| SubBuffers.BlendPixel | src/flight_control/imaging/sub_buffer.rs:89-93 | the window's geometry is kept and the mapped cell then holds the blend of its old pixel with the new one; it fails exactly when `get_pixel_mut` would |
| SubBuffers.PutPixelKeepsOthers | src/flight_control/imaging/sub_buffer.rs:75-79 | writing through the window leaves every other mapped cell as it was |
| CycleStates.InitCycle | src/flight_control/imaging/cycle_state.rs:14-26 | no ranges, no picture and the flag clear; the overlap is half the floored maximal spacing, floored; the mark is the overlap before the start index and before now |
| CycleStates.PSecs | src/flight_control/imaging/cycle_state.rs:28-34 | zero with no picture since the mark; otherwise the whole seconds in the span from the mark to the picture plus the overlap, truncated |
| CycleStates.CurrentRange | src/flight_control/imaging/cycle_state.rs:39 | the range starts at the mark and is `p_secs` long |
| CycleStates.UpdateFailed | src/flight_control/imaging/cycle_state.rs:37-43 | the current range is appended to the done ranges, the picture is cleared, and the mark becomes (whole seconds from the old mark less the overlap to the failed picture, now) |
| CycleStates.UpdateSuccess | src/flight_control/imaging/cycle_state.rs:45-47 | the last picture is the new one and nothing else changes |
| CycleStates.Finish | src/flight_control/imaging/cycle_state.rs:50-54 | the done ranges, unchanged, followed by the current range |
| CycleStates.FinishCountsFailures | src/flight_control/imaging/cycle_state.rs:37-54 | any run of pictures closes one range per failure plus one at the finish, and never rewrites earlier ranges |
| CycleStates.SuccessesOnlyGiveOneRange | src/flight_control/imaging/cycle_state.rs:14-54 | a fresh cycle that sees only good pictures finishes with the single range from its mark to the last picture plus the overlap |
| CycleStates.SuccessesKeepMark | src/flight_control/imaging/cycle_state.rs:45-47 | successful pictures only move the last picture's time |
| BayesianSets.NewSlice | src/flight_control/common/bayesian_set.rs:16-22 | the corner lies on the map, the sides are twice the half-width, and the corner plus the half-width wraps to the same point as `pos` |
| BayesianSets.MapRightTop | src/flight_control/common/bayesian_set.rs:24-26 | for a corner and a point on the map, the result wraps back to the point and is the point itself or its copy one map size to the right and/or above |
| BayesianSets.Intersect | src/flight_control/common/bayesian_set.rs:32-62 | the sides are never negative and never longer than either input's |
| BayesianSets.IntersectIsBoxIntersection | src/flight_control/common/bayesian_set.rs:32-62 | a point is in the intersection's box exactly when it is in this box and in `other`'s box moved to its top-right copy; with no overlap the box is empty |
| BayesianSets.IntersectStartsAtLaterCorner | src/flight_control/common/bayesian_set.rs:33-35 | the intersection's corner is, per axis, the later of this corner and the moved corner of `other` |
| FixedPoint.Ceil | src/flight_control/common/bayesian_set.rs:150 | the least integer at least `x`, as `ceil` rounds the outer radius |
| BayesianSets.GetDists | src/flight_control/common/bayesian_set.rs:147-151 | the ring's inner radius is never negative and its outer radius never passes 2000 |
| BayesianSets.GetDistsContainsTrueDistance | src/flight_control/common/bayesian_set.rs:138-151 | any true distance up to 2000 that a gain between 0.9 and 1.1 and an offset of at most 225.1 turn into the reading lies inside the ring |
| BayesianSets.GetDistsMonotone | src/flight_control/common/bayesian_set.rs:147-151 | a stronger reading never moves either end of the ring inwards |
| BayesianSets.NewSliceCorner | src/flight_control/common/bayesian_set.rs:16-22 | for a position on the map and half-widths under half the map, the corner is `pos - max_dist` moved right/up by one map size exactly on the axes where it would be negative |
| BayesianSets.NewSliceCentred | src/flight_control/common/bayesian_set.rs:16-26 | the top-right copy of the slice's own centre is the corner plus the half-width, so the slice is centred on it |
| BayesianSets.CeilSqrt | src/flight_control/common/bayesian_set.rs:89 | the least natural number whose square reaches `n`, which is unique (`CeilSqrtUnique`) |
| BayesianSets.CeilSqrtUnique | src/flight_control/common/bayesian_set.rs:89 | two natural numbers that are both the least with square reaching `n` are equal |
| BayesianSets.ScanColumn | src/flight_control/common/bayesian_set.rs:94-101 | only ring candidates are added, and every ring point of the column within the scanned rows is added, wrapped |
| BayesianSets.ScanReach | src/flight_control/common/bayesian_set.rs:80-101 | one column adds only ring candidates of the slice, and on a slice centred on `u` in y it adds all of the column's ring points |
| BayesianSets.GetCoordSet | src/flight_control/common/bayesian_set.rs:64-104 | the set is exactly the wrapped lattice points of the slice in the ring around the top-right copy of `pos` that lie in each column's scanned rows: `[max(y_start, y_start + h/2 - w), min(y_end, y_end - (h/2 - w))]` with `w` the ceiling square root of `max_dist² - dx²`; so it is a subset of the ring's points, all on the map, and equal to them when the slice is centred on the copy in y |
| BayesianSets.New | src/flight_control/common/bayesian_set.rs:153-164 | one measurement kept, the slice built around the corrected position with the ring's outer radius, and the candidates inside that slice's ring; for a position on the map the candidates are exactly the ring's points |
| BayesianSets.Update | src/flight_control/common/bayesian_set.rs:166-175 | the measurements are kept as they are, the slice becomes the intersection with the new measurement's slice, and the candidates become exactly the old candidates that `get_coord_set` scans on the new slice; so candidates are only ever removed and every survivor lies in the new ring |
| BayesianSets.UpdateCorrected | src/flight_control/common/bayesian_set.rs:166-175 | corrected: the candidates become exactly the old candidates inside the new ring on the intersected slice |
| BayesianSets.GetCoordSetCorrected | src/flight_control/common/bayesian_set.rs:64-104 | corrected: the set is exactly the wrapped ring points of the slice around the top-right copy of `pos`, all on the map |
| BayesianSets.ScannedWithinRing | src/flight_control/common/bayesian_set.rs:80-101 | every scanned point is a ring point of the slice |
| BayesianSets.CentredScanIsRing | src/flight_control/common/bayesian_set.rs:88-92 | on a slice centred on the ring's centre in y, the scanned rows of every column hold all of its ring points |
| BayesianSets.GetCoordSetDropsCandidate | src/flight_control/common/bayesian_set.rs:88-92 | readings 1570 at (5000, 5000) then 40.4 at (5000, 6800): the point (5283, 6870) lies in both rings and in the intersected slice, but the second scan skips it |
| BayesianSets.IsInSet | src/flight_control/common/bayesian_set.rs:177 | membership in the candidate set, and a member of a valid set is a map point |
| BayesianSets.MaxKey | src/flight_control/common/bayesian_set.rs:243-247 | a key of the map whose covered set is as large as any other's |
| BayesianSets.CoverInvariantStep | src/flight_control/common/bayesian_set.rs:242-252 | picking a largest remaining centre while a point is uncovered keeps the greedy loop's invariant: picks distinct and greedy, each made while some point was uncovered, covered points covered by a pick, uncovered ones covered by no pick but by a centre left |
| BayesianSets.SelectMinimalCircles | src/flight_control/common/bayesian_set.rs:235-254 | the picked centres are distinct keys of the input, every point any centre covers is covered by a pick, each pick covers at least as much as any centre not picked before it, and each was picked while some point was not yet covered by the earlier picks, so the loop stops once everything is covered |
| BayesianSets.StaleGreedyPicksRedundant | src/flight_control/common/bayesian_set.rs:245-251 | because centres are ranked by their original cover, when two centres cover the same points and outrank the only centre holding some point, every result meeting the loop's contract holds a pick all of whose points earlier picks already cover |
| BayesianSets.StaleExampleRedundant | src/flight_control/common/bayesian_set.rs:235-254 | on three centres, two covering the same two points and one covering a third point, every result the loop may return holds a pick covering nothing new |
| BayesianSets.SelectMinimalCirclesCorrected | src/flight_control/common/bayesian_set.rs:235-254 | corrected: ranking centres by the points they cover that are still uncovered, the picks are distinct input keys that cover every point, each pick covers a point no earlier pick covers, and each covers at least as many uncovered points as any centre |
| BayesianSets.CorrectedPicksBounded | src/flight_control/common/bayesian_set.rs:235 | when every pick covers a new point, there are no more picks than points to cover |
| BeaconObjectives.New | src/objective/beacon_objective.rs:85-87 | the objective keeps the given id, name and time window and has no measurement set yet |
| BeaconObjectives.AppendMeasurement | src/objective/beacon_objective.rs:106-112 | afterwards there is a measurement set, and the id, name and time window are unchanged |
| BeaconObjectives.AppendAllUpdates | src/objective/beacon_objective.rs:106-112 | once a set exists, appending several measurements is updating that set with each of them in order |
| BeaconObjectives.FirstAppendCreates | src/objective/beacon_objective.rs:85-112 | on a fresh objective the first measurement creates the set and the rest update it in order; nothing else changes |
| BeaconObjectives.FileName | src/objective/beacon_objective.rs:71 | the name is `bo_`, the decimal digits of the id, then `.json`, and those digits parse back to the id |
| BeaconObjectives.FileNameInjective | src/objective/beacon_objective.rs:71 | two objectives share a dump file name exactly when they share an id |
| BeaconObjectives.CmpAgreesWithEq | src/objective/beacon_objective.rs:115-130 | `cmp` says `Equal` exactly when `eq` holds, swapping the operands reverses it, and `Less` means an earlier end |
| BeaconObjectives.FromHttp | src/objective/beacon_objective.rs:137-146 | the announced objective becomes `new` on its id, name and time window |
| FcBeaconObjectives.New | src/flight_control/objective/beacon_objective.rs:45-53 | the given id, name and time window, no candidate set yet |
| FcBeaconObjectives.AppendMeasurement | src/flight_control/objective/beacon_objective.rs:59-65 | afterwards there is a candidate set and the objective's identity and window are unchanged; the first measurement creates a set holding just it, a later one only removes candidates and keeps the measurement list |
| FcBeaconObjectives.AppendAll | src/flight_control/objective/beacon_objective.rs:59-65 | after any run of measurements the identity is unchanged; the set is the first measurement's, its candidates never grow and its measurement list stays that first one alone |
| FcBeaconObjectives.CmpAgreesWithEq | src/flight_control/objective/beacon_objective.rs:68-80 | `cmp` says `Equal` exactly when `eq` holds, swapping the operands reverses it, and `Less` means an earlier end |
| FcBeaconObjectives.FromHttp | src/flight_control/objective/beacon_objective.rs:82-92 | the announced objective becomes `new` on its id, name and time window |
| KnownImgObjectives.GetSingleImagePoint | src/objective/known_img_objective.rs:64-69 | the point lies on the map and is the zone's midpoint, wrapped |
| KnownImgObjectives.Width | src/objective/known_img_objective.rs:59 | the lower x edge plus the width is the upper x edge, and the width is non-negative exactly when the edges are in order |
| KnownImgObjectives.Height | src/objective/known_img_objective.rs:61 | the lower y edge plus the height is the upper y edge, and the height is non-negative exactly when the edges are in order |
| KnownImgObjectives.SingleImagePointInZone | src/objective/known_img_objective.rs:59-69 | for a zone inside the map, the point lies within the zone, half its width and height (rounded down) from its lower corner |
| KnownImgObjectives.GetCorners | src/objective/known_img_objective.rs:72-83 | four corners: the lower one, the one above it, and their opposites reached by adding the zone's width and height |
| KnownImgObjectives.CornersPointAcross | src/objective/known_img_objective.rs:72-83 | for corners on the map, each corner's vector leads, wrapped, to the diagonally opposite corner and is at most half the map long per axis |
| KnownImgObjectives.TryFrom | src/objective/known_img_objective.rs:111-127 | succeeds exactly for a known zone, and then copies the zone, the lens, the id, name, window and coverage |
| KnownImgObjectives.TryFromWithZone | src/objective/known_img_objective.rs:137-154 | succeeds exactly for a secret zone, and then takes the supplied zone and copies the rest |
| KnownImgObjectives.ExactlyOneConversion | src/objective/known_img_objective.rs:111-154 | exactly one of the two conversions accepts any announced objective, and for a known zone both build the same objective from that zone |
| KnownImgObjectives.CmpAgreesWithEq | src/objective/known_img_objective.rs:157-172 | `cmp` says `Equal` exactly when `eq` holds, swapping the operands reverses it, and `Less` means an earlier end |
| FcKnownImgObjectives.New | src/flight_control/objective/known_img_objective.rs:18-36 | the given fields, no coverage required, and the lens parsed from its name: `Normal` exactly when the lower-cased name is neither `narrow` nor `wide` |
| FcKnownImgObjectives.NewKeepsNamedLens | src/flight_control/objective/known_img_objective.rs:18-36 | naming a lens by its own name gives that lens back |
| FcKnownImgObjectives.GetImagingPoints | src/flight_control/objective/known_img_objective.rs:45-52 | a single point, on the map: the zone's midpoint wrapped |
| FcKnownImgObjectives.ImagingPointInZone | src/flight_control/objective/known_img_objective.rs:45-52 | for a zone inside the map, the imaging point lies within the zone |
| FlightStates.FromStr | src/flight_control/flight_state.rs:13-24 | `Safe` exactly when the lower-cased text is none of the five other names, and any other state is the one whose name is the lower-cased text |
| FlightStates.RoundTrip | src/flight_control/flight_state.rs:13-37 | parsing a state's name gives the state back, and every name is already lower case |
| FlightStates.FromStrIgnoresCase | src/flight_control/flight_state.rs:15 | parsing does not depend on letter case |
| FlightStates.AnyCaseParses | src/flight_control/flight_state.rs:13-24 | any string whose lower-case form is a state's name parses to that state, whatever its letter case |
| CameraStates.FromStr | src/flight_control/camera_state.rs:8-17 | `Normal` exactly when the lower-cased text is neither `narrow` nor `wide`, and any other angle is the one whose name is the lower-cased text |
| CameraStates.RoundTrip | src/flight_control/camera_state.rs:8-26 | parsing an angle's name gives the angle back, and every name is already lower case |
| CameraStates.FromStrIgnoresCase | src/flight_control/camera_state.rs:10 | parsing does not depend on letter case |
| GlobalModes.ShouldMap | src/global_mode.rs:16-23 | mapping continues exactly in `MappingMode`, `BeaconObjectivePassiveScanningMode` and `ZonedObjectivePrepMode` |
| GlobalModes.ShouldMapIgnoresPayload | src/global_mode.rs:16-23 | the answer depends only on the variant, not on the objective it carries |
| GlobalModes.ShouldMapFalseCases | src/global_mode.rs:21 | retrieval, return and active beacon scanning stop mapping |
| ConsoleMessages.Discriminant | src/console_communication/melvin_messages.rs:109-119 | the full value table: None 0, Deployment 1, Safe 2, Communication 3, Charge 4, Acquisition 5, Transition 6, each in both directions |
| ConsoleMessages.DiscriminantInjective | src/console_communication/melvin_messages.rs:109-119 | different states have different discriminants |
| ConsoleMessages.AsStrName | src/console_communication/melvin_messages.rs:125-135 | the protobuf name parses back to the same state |
| ConsoleMessages.FromStrName | src/console_communication/melvin_messages.rs:137-148 | a state is found exactly for the seven lower-case names |
| ConsoleMessages.FromStrNameLeftInverse | src/console_communication/melvin_messages.rs:125-148 | any accepted name is the name of the state it parses to |
| ConsoleMessages.NameIsLowerCase | src/console_communication/melvin_messages.rs:125-135 | every state's field name is already lower case |
| ConsoleMessages.UpperCaseNameRejected | src/console_communication/melvin_messages.rs:137-148 | lookup is case-sensitive: any string holding an upper-case letter is rejected |
| ConsoleMessages.NewFullSize | src/console_communication/melvin_messages.rs:41-49 | the image has no offset, carries the encoded bytes, and its sides times the thumbnail scale factor 25 are the map's sides |
| MelvinMessages.Discriminant | src/melvin_messages.rs:69-79 | the full value table: None 0, Deployment 1, Safe 2, Communication 3, Charge 4, Acquisition 5, Transition 6, each in both directions |
| MelvinMessages.DiscriminantInjective | src/melvin_messages.rs:69-79 | different states have different discriminants |
| MelvinMessages.AsStrName | src/melvin_messages.rs:85-95 | the protobuf name parses back to the same state |
| MelvinMessages.AsStrNameInjective | src/melvin_messages.rs:85-95 | different states have different names |
| MelvinMessages.FromStrName | src/melvin_messages.rs:97-108 | a state is found exactly for the seven lower-case names |
| MelvinMessages.UpperCaseNameRejected | src/melvin_messages.rs:97-108 | lookup is case-sensitive: any string holding an upper-case letter is rejected |
| MelvinMessages.NameIsLowerCase | src/melvin_messages.rs:85-95 | every state's field name is already lower case |
| Text.ToLower | src/flight_control/flight_state.rs:15 | same length, each ASCII letter lower-cased and every other character kept |
| Text.ToLowerIdempotent | src/flight_control/camera_state.rs:10 | lower-casing twice is lower-casing once |
| Text.NatToString | src/objective/beacon_objective.rs:71 | a non-empty string of decimal digits without a leading zero |
| Text.ParseNatToString | src/objective/beacon_objective.rs:71 | the digits `format!` writes for a number parse back to it |
| Text.IntToString | src/flight_control/common/vec2d.rs:87-89 | a non-empty rendering with no comma, space or bracket, so `[x, y]` can be split again |
| Text.IntToStringRoundTrip | src/flight_control/common/vec2d.rs:87-89 | the rendering of any integer, negative ones included, parses back to it |
| Orderings.CmpInt | src/objective/beacon_objective.rs:129 | `Less`, `Equal` and `Greater` exactly when the first is smaller, equal or larger |
| Orderings.CmpIntAntisymmetric | src/objective/beacon_objective.rs:129 | swapping the operands reverses the ordering |
| Orderings.CmpIntTransitive | src/objective/beacon_objective.rs:129 | `Less` is transitive |
| FixedPoint.Round | src/scheduling/task_controller.rs:102 | the nearest integer, with halves going away from zero |
| FixedPoint.ToNumFloor | src/flight_control/task/task_controller.rs:742 | the greatest integer at most `x`, as fixed-point `to_num` rounds |
| FixedPoint.Clamp | src/scheduling/task_controller.rs:643 | the result lies in `[lo, hi]` and is `x` itself when `x` already does |
| IntArith.TRem | src/flight_control/common/vec2d.rs:517-519 | Rust's `%`: the remainder takes the dividend's sign, is smaller than the divisor in size, and leaves a multiple of the divisor |
| IntArith.TDiv | src/objective/known_img_objective.rs:67 | Rust's `/`: quotient times divisor plus the truncating remainder gives the dividend back |
| IntArith.Midpoint | src/objective/known_img_objective.rs:65-67 | `a + (b - a) / 2` lies between `a` and `b` and is their average rounded towards `a` |

## Left out

- Async orchestration and concurrency: `main.rs`, the mode control, the supervisor, the beacon controllers, the keychains and the `Condvar` notification of the old task controller are tokio tasks, channels, locks and the wall clock.
- Network and I/O: the HTTP handler, the flight computer, the objective scheduler, the console endpoints and the logger talk to the simulator or the operator console.
- Image encoding and memory mapping: the PNG export of `map_image.rs` and the `mmap`ed `file_based_buffer.rs` are library and operating-system calls. Only the constant `THUMBNAIL_SCALE_FACTOR` is taken from `map_image.rs`.
- Floating-point numerics: orbits, closed orbits, orbit characteristics and indices, the Kalman filter, the `f32`/`f64` `gcd`/`lcm`/`fmod` helpers of `math.rs` and `modular_arithmetics.rs`, and the `Vec2D` methods built on square roots and trigonometry (`abs`, `normalize`, `angle_to`, `rotate_by`, `perp_unit`, `flip_unit`).
- `Vec2D` multiplication and division by fixed-point scalars and `unwrapped_to_bottom_right` are left out: the former produce fractional coordinates, and the latter mirrors `UnwrappedToTopRight`.
- Burn-sequence search: `calculate_single_target_burn_sequence`, `calculate_multi_target_burn_sequence`, `find_last_possible_dt` and `calculate_orbit_correction_burn` are square-root-heavy fixed-point searches.
- `schedule_retrieval_phase`, `schedule_zo_image` and `schedule_vel_change` read `Utc::now` and depend on the burn sequences, so only the queue operations they share are modelled.
- `min_images`, `ImageTask::done` and `BayesianSet::guess_estimate` compute in `f64`. The hex grid, the kd-tree assignment of points to hexes and `pack_perfect_circles` do as well. `select_minimal_circles` is modelled over whatever assignment it receives.
- `extract_id_and_d` depends on a regex engine and `f64` parsing, and `generate_random_guesses` on a random source.
- The `Mutex<VecDeque>` task queues are thin lock wrappers: the queue is a sequence here. The data-only structs (`BurnSequence`, `EndCondition`, `ObjectiveBase`, the HTTP objects) appear only as plain datatypes.
- Instants and durations are whole milliseconds (or whole seconds where the source counts seconds), not nanosecond `DateTime`s. The clock is always a parameter (`now`).
- `I32F32` battery levels are exact reals, so `0.1` is exactly one tenth rather than the nearest binary fraction. A tenth-of-a-percent drift that the fixed-point rounding might cause in `map_e_to_dp` is not modelled.
- Bayesian positions are integers rather than `I32F32`. The beacon's corrected position (`corr_pos`, which uses the orbit velocity and the measurement delay in fixed point) is a parameter. The `println!` calls are dropped, and the unused `map_right_bottom` is left out.
- The newer `BayesianSet` and the newer `CameraAngle` belong to files outside this model. `BeaconObjectives` is generic over the set type, with its creation and update as parameters, and the known-image objectives are generic over the lens.
- The camera controller's `is_photographed` calls `get_pixel`, which the source does not define; the model reads the bit through `check_pixel`.
- `bitmap.rs` casts float positions to `isize`; the model takes the integer coordinates after that cast.
- Panics are either `Result` errors (the `i32` overflow of `gcd_i32`/`lcm_i32` and the replay's battery underflow) or preconditions (index and slice bounds, and `AtomicDecision::stay`/`switch` being given a state above 1).
- The newer `init_sched_dp` maps its end state through a `FlightState` discriminant. The model receives the end state as a DP state index (0 for charge, 1 for acquisition).
- `HashMap` iteration order is unspecified, so `max_by_key` in `select_minimal_circles` may pick any key of maximal count: `BayesianSets.MaxKey` returns an arbitrary maximal key.
- `update_failed` sets the mark index to the number of seconds passed rather than to an absolute index; `CycleStates.UpdateFailed` models it as written.
- Bitmaps.CheckPixel: states only that a set answer implies an in-range index and leaves the bit itself to `SetPixel` and `SetPixelKeepsOthers`, which pin it down.
- `Matrices` entries are exact reals. For floating-point `T`, `try_inverse`'s pivot test `== T::zero()` (src/flight_control/common/matrix.rs:154) would let a tiny rounded pivot through; with exact reals it fires only on an exact zero.
- `try_inverse` does no row exchange, so its "matrix is singular" answer is also given for invertible matrices with a zero on the diagonal (`Matrices.SwapHasNoInverse`). The model keeps that behaviour; a pivoting inverse is not modelled.
- `get_coord_set` takes the fixed-point `sqrt().ceil()` of `max_dist² - dx²`. The model uses the exact integer ceiling square root (`BayesianSets.CeilSqrt`), so it does not model the fixed-point rounding of `sqrt`.
- Bitmaps.EnoughOnesInSquareCounts: relates the answer to the number of set pixels only for squares narrower than a quarter of the map and no taller than the map. For a taller square the loop revisits rows and counts their pixels again, and a wider one can make `is_wrapped` misjudge a row.
- `SubBuffers` wraps a `Buffers.Buffer` rather than an `image::ImageBuffer` (an `Rgb<u8>` buffer over a file-backed store, or the `Rgba<u8>` thumbnail). The pixel type and the file-backed storage are not modelled. The program always sets `buffer_size` to the wrapped image's own size, so the window arithmetic is unchanged.
- `Text.ToLower` lower-cases ASCII letters only, while the source calls Rust's Unicode `to_lowercase` (src/flight_control/flight_state.rs:15, src/flight_control/camera_state.rs:10). The only non-ASCII character that lower-cases to an ASCII letter is the Kelvin sign, which becomes `k`. No flight-state or lens name contains `k`, so the `FromStr` results agree, but other Unicode case mappings are not modelled.
- BeaconObjectives.AppendMeasurement: states only that a measurement set exists afterwards and that the identity is unchanged. `AppendAllUpdates` and `FirstAppendCreates` state the create-then-update behaviour.

## Findings

| source | as written | input that shows it | evidently intended | confidence | as-written member | corrected member |
|---|---|---|---|---|---|---|
| src/scheduling/task_controller.rs:812-827 | `clear_after_dt` returns early when the queue is not empty, so it never removes a task (the older copy at src/flight_control/task/task_controller.rs:847-862 is the same) | a queue of one task due after the cutoff | drop every task due after `dt` from the back of the queue, and nothing when none is; with only the early return removed, `first_remove` would stay 0 and drain a queue with no late task completely | not executed | TaskSchedules.ClearAfterDtAsWritten | TaskSchedules.ClearAfterDt |
| src/flight_control/task/task_controller.rs:146-153 | the final-state grid indexes the state column with `end.0 as usize` (3 for charge, 2 for acquisition) and does not offset the battery by the minimum, so every cell is `i32::MIN` | one-second horizon, end status (charge, 50), replay in acquisition from battery 10 | score the end state's own column, with the battery measured from the minimum threshold | not executed | FcTaskController.AsWrittenPlanUnderflows | FcTaskController.InitOrbitSchedCalcCorrected |
| src/flight_control/common/bayesian_set.rs:88-92 | `get_coord_set` scans, in each column, only the rows within `max_y_dist` of the slice's middle row, not of the ring centre's row, so after an `update` has shrunk the slice off-centre it skips ring points | reading 1570 at (5000, 5000), then reading 40.4 at (5000, 6800): the point (5283, 6870) lies in both rings and in the intersected slice, but at x = 5283 the scan covers only rows 6650 to 6850 | keep every candidate inside the new ring, scanning each column's rows around the ring centre | not executed | BayesianSets.GetCoordSetDropsCandidate | BayesianSets.UpdateCorrected |
| src/flight_control/common/bayesian_set.rs:242-251 | `select_minimal_circles` ranks the centres left by the size of their original sets and only removes the picked key, so a centre whose points are all covered already can still outrank one that covers a new point | centres A and B both covering {(1,0),(2,0)} and C covering {(3,0)}: after A, B is picked before C although it covers nothing new | pick only the centres needed, each ranked by how many still-uncovered points it covers | not executed | BayesianSets.StaleExampleRedundant | BayesianSets.SelectMinimalCirclesCorrected |
| src/flight_control/common.rs:85-87 | `wrap_coordinate` computes `(v + m) % m`, which stays negative for `v < -m` | `-21601` on the 21600-wide axis gives `-1` | a coordinate on the map, `((v % m) + m) % m` | not executed | FcCommon.WrapCoordinateCounterexample | FcCommon.WrapAroundMap |

=== FILE: atomic_decision.dfy ===
/** The four per-second decisions of the charge/acquisition dynamic program
    (src/flight_control/task/atomic_decision.rs). States are DP indices: 0 is charge and
    1 is acquisition. */
module AtomicDecisions {

  const CHARGE: nat := 0
  const ACQUISITION: nat := 1

  datatype AtomicDecision = StayInCharge | StayInAcquisition | SwitchToCharge | SwitchToAcquisition

  predicate IsStay(d: AtomicDecision) { d.StayInCharge? || d.StayInAcquisition? }

  /** The DP state the satellite is in after the decision. */
  function TargetState(d: AtomicDecision): (s: nat)
    ensures s <= 1
  {
    match d
    case StayInCharge => CHARGE
    case SwitchToCharge => CHARGE
    case StayInAcquisition => ACQUISITION
    case SwitchToAcquisition => ACQUISITION
  }

  /** The decision to remain in `state`; any state other than 0 or 1 is a panic. */
  function Stay(state: nat): (r: AtomicDecision)
    requires state <= 1
    ensures IsStay(r) && TargetState(r) == state
  {
    if state == 0 then StayInCharge else StayInAcquisition
  }

  /** The decision to move into `toState`; any state other than 0 or 1 is a panic. */
  function Switch(toState: nat): (r: AtomicDecision)
    requires toState <= 1
    ensures !IsStay(r) && TargetState(r) == toState
  {
    if toState == 0 then SwitchToCharge else SwitchToAcquisition
  }

  /** Every decision is recovered from its kind and its target state. */
  lemma DecisionDeterminedByKindAndTarget(d: AtomicDecision)
    ensures IsStay(d) ==> d == Stay(TargetState(d))
    ensures !IsStay(d) ==> d == Switch(TargetState(d))
  {
  }
}

=== FILE: bayesian_set.dfy ===
/** The beacon candidate set of the older snapshot (src/flight_control/common/bayesian_set.rs).
    A `SquareSlice` is an axis-aligned box on the unwrapped map plane; a `BayesianSet` keeps
    the lattice points, wrapped onto the map, that every beacon measurement so far allows.
    The fixed-point values the source keeps are whole numbers here: positions come rounded,
    and distances floored or ceiled, before they reach this code. */
module BayesianSets {
  import opened Wrappers
  import opened IntArith
  import opened FixedPoint
  import opened Vec2Ds

  datatype SquareSlice = SquareSlice(offset: Vec2D, sideLength: Vec2D)

  /** The half-open box a slice spans on the unwrapped plane. */
  predicate InBox(s: SquareSlice, p: Vec2D)
  {
    s.offset.x <= p.x < s.offset.x + s.sideLength.x &&
    s.offset.y <= p.y < s.offset.y + s.sideLength.y
  }

  /** `SquareSlice::new`: the box of half-width `maxDist` around `pos`, its corner wrapped
      onto the map. */
  function NewSlice(pos: Vec2D, maxDist: Vec2D): (r: SquareSlice)
    ensures OnMap(r.offset)
    ensures r.sideLength == Vec2D(2 * maxDist.x, 2 * maxDist.y)
    ensures WrapAroundMap(Add(r.offset, maxDist)) == WrapAroundMap(pos)
  {
    var offset := WrapAroundMap(Sub(pos, maxDist));
    ModAddMod(pos.x - maxDist.x, maxDist.x, MAP_X);
    ModAddMod(pos.y - maxDist.y, maxDist.y, MAP_Y);
    SquareSlice(offset, Vec2D(2 * maxDist.x, 2 * maxDist.y))
  }

  /** `map_right_top`: the copy of `p` that lies at or above and right of the slice's corner,
      the nearest such. */
  function MapRightTop(s: SquareSlice, p: Vec2D): (r: Vec2D)
    ensures OnMap(s.offset) && OnMap(p) ==>
      WrapAroundMap(r) == p && (r.x == p.x || r.x == p.x + MAP_X) && (r.y == p.y || r.y == p.y + MAP_Y)
  {
    if OnMap(s.offset) && OnMap(p) then
      UnwrappedToTopRightWraps(s.offset, p);
      Add(s.offset, UnwrappedToTopRight(s.offset, p))
    else Add(s.offset, UnwrappedToTopRight(s.offset, p))
  }

  /** `intersect`: the overlap of this box with `other` moved to its top-right copy; an empty
      overlap keeps the start corner and has zero sides. */
  function Intersect(self: SquareSlice, other: SquareSlice): (r: SquareSlice)
    ensures r.sideLength.x >= 0 && r.sideLength.y >= 0
    ensures self.sideLength.x >= 0 && other.sideLength.x >= 0 ==>
      r.sideLength.x <= self.sideLength.x && r.sideLength.x <= other.sideLength.x
    ensures self.sideLength.y >= 0 && other.sideLength.y >= 0 ==>
      r.sideLength.y <= self.sideLength.y && r.sideLength.y <= other.sideLength.y
  {
    var corrOffs := MapRightTop(self, other.offset);
    var startX := Max(self.offset.x, corrOffs.x);
    var startY := Max(self.offset.y, corrOffs.y);
    var endX := Min(self.offset.x + self.sideLength.x, corrOffs.x + other.sideLength.x);
    var endY := Min(self.offset.y + self.sideLength.y, corrOffs.y + other.sideLength.y);
    if startX >= endX || startY >= endY then SquareSlice(Vec2D(startX, startY), Vec2D(0, 0))
    else SquareSlice(Vec2D(startX, startY), Vec2D(endX - startX, endY - startY))
  }

  /** The intersection's box holds exactly the points both boxes hold, `other` taken at its
      top-right copy; with no overlap it is empty. */
  lemma IntersectIsBoxIntersection(self: SquareSlice, other: SquareSlice, p: Vec2D)
    ensures var moved := SquareSlice(MapRightTop(self, other.offset), other.sideLength);
      InBox(Intersect(self, other), p) <==> InBox(self, p) && InBox(moved, p)
  {
  }

  /** The corner of the intersection is the later of the two corners. */
  lemma IntersectStartsAtLaterCorner(self: SquareSlice, other: SquareSlice)
    ensures var c := MapRightTop(self, other.offset);
      var r := Intersect(self, other);
      r.offset.x >= self.offset.x && r.offset.x >= c.x && (r.offset.x == self.offset.x || r.offset.x == c.x) &&
      r.offset.y >= self.offset.y && r.offset.y >= c.y && (r.offset.y == self.offset.y || r.offset.y == c.y)
  {
  }

  const K_FAC_MAX: real := 0.9
  const K_FAC_MIN: real := 1.1
  const STD_DIST_SAFETY: real := 5.0
  const MAX_DIST: real := 2000.0
  const MIN_DIST: real := 0.0
  const K_ADD: real := 225.1

  /** `get_dists`: the ring of true distances a noisy distance reading allows, floored below
      at zero and capped at 2000. */
  function GetDists(dNoisy: real): (r: (int, int))
    ensures 0 <= r.0 && r.1 <= 2000
  {
    var minDist := ((dNoisy - K_ADD) / K_FAC_MIN) - STD_DIST_SAFETY;
    var maxDist := ((dNoisy + K_ADD) / K_FAC_MAX) + STD_DIST_SAFETY;
    (ToNumFloor(MaxReal(minDist, MIN_DIST)), Ceil(MinReal(maxDist, MAX_DIST)))
  }

  lemma DivAtMost(x: real, y: real, c: real)
    requires c > 0.0 && x <= y * c
    ensures x / c <= y
  {
    assert x / c * c == x;
  }

  lemma DivAtLeast(x: real, y: real, c: real)
    requires c > 0.0 && y * c <= x
    ensures y <= x / c
  {
    assert x / c * c == x;
  }

  lemma ScaleBetween(t: real, k: real)
    requires t >= 0.0 && K_FAC_MAX <= k <= K_FAC_MIN
    ensures t * K_FAC_MAX <= t * k <= t * K_FAC_MIN
  {
  }

  /** The same with the scaled distance `p` standing for `t * k`, which keeps it linear. */
  lemma RingBounds(t: real, p: real, a: real)
    requires 0.0 <= t <= MAX_DIST
    requires t * K_FAC_MAX <= p <= t * K_FAC_MIN && -K_ADD <= a <= K_ADD
    ensures var r := GetDists(p + a);
      r.0 as real <= t <= r.1 as real
  {
    DivAtMost(p + a - K_ADD, t, K_FAC_MIN);
    DivAtLeast(p + a + K_ADD, t, K_FAC_MAX);
  }

  /** Every true distance up to 2000 that the noise model behind the constants can turn into
      the reading (a factor between 0.9 and 1.1, plus at most 225.1 either way) lies in the ring. */
  lemma {:induction false} GetDistsContainsTrueDistance(t: real, k: real, a: real)
    requires 0.0 <= t <= MAX_DIST
    requires K_FAC_MAX <= k <= K_FAC_MIN && -K_ADD <= a <= K_ADD
    ensures var r := GetDists(t * k + a);
      r.0 as real <= t <= r.1 as real
  {
    ScaleBetween(t, k);
    RingBounds(t, t * k, a);
  }

  /** Stronger readings never shrink either end of the ring. */
  lemma GetDistsMonotone(d1: real, d2: real)
    requires d1 <= d2
    ensures GetDists(d1).0 <= GetDists(d2).0 && GetDists(d1).1 <= GetDists(d2).1
  {
    var min1 := ((d1 - K_ADD) / K_FAC_MIN) - STD_DIST_SAFETY;
    var min2 := ((d2 - K_ADD) / K_FAC_MIN) - STD_DIST_SAFETY;
    var max1 := ((d1 + K_ADD) / K_FAC_MAX) + STD_DIST_SAFETY;
    var max2 := ((d2 + K_ADD) / K_FAC_MAX) + STD_DIST_SAFETY;
    assert min1 <= min2 && max1 <= max2;
  }

  /** Shifting a coordinate shorter than half the map by a whole map size makes it longer. */
  lemma ShiftLonger(a: int, m: int, e: int)
    requires 0 <= a && 2 * a < m && -1 <= e <= 1 && e != 0
    ensures (a + m * e) * (a + m * e) > a * a
  {
    var v := Abs(a + m * e);
    assert v > a;
    SquareGrows(v, a);
    assert v * v == (a + m * e) * (a + m * e);
  }

  /** Moving either coordinate of a short vector by a whole map size makes it longer. */
  lemma OptionLonger(md: Vec2D, ex: int, ey: int)
    requires 0 <= md.x && 2 * md.x < MAP_X && 0 <= md.y && 2 * md.y < MAP_Y
    requires -1 <= ex <= 1 && -1 <= ey <= 1 && (ex != 0 || ey != 0)
    ensures AbsSq(Vec2D(md.x + MAP_X * ex, md.y + MAP_Y * ey)) > AbsSq(md)
  {
    if ex != 0 {
      ShiftLonger(md.x, MAP_X, ex);
      if ey != 0 { ShiftLonger(md.y, MAP_Y, ey); }
    } else {
      ShiftLonger(md.y, MAP_Y, ey);
    }
  }

  /** The corner `SquareSlice::new` computes: `pos - md` moved onto the map by at most one map
      size, `kx` and `ky` saying whether it was. */
  lemma NewSliceCorner(pos: Vec2D, md: Vec2D, kx: int, ky: int)
    requires OnMap(pos) && 0 <= md.x && 2 * md.x < MAP_X && 0 <= md.y && 2 * md.y < MAP_Y
    requires kx == (if pos.x >= md.x then 0 else 1) && ky == (if pos.y >= md.y then 0 else 1)
    ensures NewSlice(pos, md).offset == Vec2D(pos.x - md.x + MAP_X * kx, pos.y - md.y + MAP_Y * ky)
  {
    ModInWindow(pos.x - md.x, MAP_X, -kx);
    ModInWindow(pos.y - md.y, MAP_Y, -ky);
  }

  /** For the slice `SquareSlice::new` builds around an on-map `pos`, with half-widths under
      half the map, `map_right_top(pos)` is the slice's centre. */
  lemma {:induction false} NewSliceCentred(pos: Vec2D, md: Vec2D)
    requires OnMap(pos) && 0 <= md.x && 2 * md.x < MAP_X && 0 <= md.y && 2 * md.y < MAP_Y
    ensures MapRightTop(NewSlice(pos, md), pos) == Add(NewSlice(pos, md).offset, md)
  {
    var o := NewSlice(pos, md).offset;
    var kx := if pos.x >= md.x then 0 else 1;
    var ky := if pos.y >= md.y then 0 else 1;
    NewSliceCorner(pos, md, kx, ky);
    var best := 2 * (1 - kx) + (1 - ky);
    assert Option4(o, pos, best).0 == md;
    var c := ChosenTopRightShift(o, pos);
    if c != best {
      var ex := UNIT_SIGNS[c / 2] - kx;
      var ey := UNIT_SIGNS[c % 2] - ky;
      assert Option4(o, pos, c).0 == Vec2D(md.x + MAP_X * ex, md.y + MAP_Y * ey);
      OptionLonger(md, ex, ey);
      assert false;
    }
  }

  /** Whether the lattice point `(x, y)` lies in the ring `[minSq, maxSq]` of squared
      distances around `u`. */
  predicate InRing(u: Vec2D, minSq: int, maxSq: int, x: int, y: int)
  {
    minSq <= (x - u.x) * (x - u.x) + (y - u.y) * (y - u.y) <= maxSq
  }

  /** The ring points of column `x` in rows `lo..=hi`, wrapped onto the map. */
  ghost function ColumnSet(u: Vec2D, minSq: int, maxSq: int, x: int, lo: int, hi: int): set<Vec2D>
  {
    set y: int | lo <= y <= hi && InRing(u, minSq, maxSq, x, y) :: WrapAroundMap(Vec2D(x, y))
  }

  /** The candidates the slice's columns before `xHi` hold for a ring around `u`: their
      lattice points, the upper y edge included, whose squared distance to `u` lies in
      `[minSq, maxSq]`, wrapped onto the map. */
  ghost function RingUpTo(s: SquareSlice, u: Vec2D, minSq: int, maxSq: int, xHi: int): set<Vec2D>
  {
    set x: int, y: int | s.offset.x <= x < xHi && s.offset.y <= y <= s.offset.y + s.sideLength.y &&
      InRing(u, minSq, maxSq, x, y) :: WrapAroundMap(Vec2D(x, y))
  }

  /** All the candidates a slice holds for a ring around `u`. */
  ghost function RingSet(s: SquareSlice, u: Vec2D, minSq: int, maxSq: int): set<Vec2D>
  {
    RingUpTo(s, u, minSq, maxSq, s.offset.x + s.sideLength.x)
  }

  /** `r` is `sqrt().ceil()` of the whole number `n`. */
  predicate IsCeilSqrt(n: nat, r: nat)
  {
    r * r >= n && (r == 0 || (r - 1) * (r - 1) < n)
  }

  lemma SquareMonotone(a: nat, b: nat)
    requires a <= b
    ensures a * a <= b * b
  {
    if a < b { SquareGrows(b, a); }
  }

  /** The ceiling of a square root is unique. */
  lemma CeilSqrtUnique(n: nat, a: nat, b: nat)
    requires IsCeilSqrt(n, a) && IsCeilSqrt(n, b)
    ensures a == b
  {
    if a < b {
      SquareMonotone(a, b - 1);
    } else if b < a {
      SquareMonotone(b, a - 1);
    }
  }

  ghost function CeilSqrtFrom(n: nat, r: nat): (w: nat)
    requires r == 0 || (r - 1) * (r - 1) < n
    ensures IsCeilSqrt(n, w)
    decreases n - r
  {
    if r * r >= n then r
    else
      assert r < n by { if r > 0 { MulAtLeast(r, r); } }
      CeilSqrtFrom(n, r + 1)
  }

  /** The reference ceiling square root: counting up from zero. */
  ghost function CeilSqrtRef(n: nat): (w: nat)
    ensures IsCeilSqrt(n, w)
  {
    CeilSqrtFrom(n, 0)
  }

  /** The smallest natural number whose square reaches `n`: `sqrt().ceil()` on whole numbers. */
  method CeilSqrt(n: nat) returns (r: nat)
    ensures r * r >= n
    ensures r == 0 || (r - 1) * (r - 1) < n
    ensures r == CeilSqrtRef(n)
  {
    r := 0;
    while r * r < n
      invariant r == 0 || (r - 1) * (r - 1) < n
      invariant r <= n
      decreases n - r
    {
      if r > 0 { MulAtLeast(r, r); }
      r := r + 1;
    }
    CeilSqrtUnique(n, r, CeilSqrtRef(n));
  }

  lemma HalfOfNat(a: int)
    requires a >= 0
    ensures TDiv(a, 2) == a / 2
  {
    RemNonNeg(a, 2);
  }

  /** The rows `get_coord_set` scans in a column whose reach is `w` rows: `w` rows either
      side of the middle row of the slice, cut to the slice. */
  function ScanLo(s: SquareSlice, w: int): int
  {
    Max(s.offset.y, s.offset.y + (TDiv(s.sideLength.y, 2) - w))
  }

  function ScanHi(s: SquareSlice, w: int): int
  {
    Min(s.offset.y + s.sideLength.y, s.offset.y + s.sideLength.y - (TDiv(s.sideLength.y, 2) - w))
  }

  /** Whether `get_coord_set` keeps `(x, y)`: the column is within reach of `u`, the row is in
      the window scanned for that column, and the point lies in the ring. */
  ghost predicate Scanned(s: SquareSlice, u: Vec2D, minSq: int, maxSq: int, x: int, y: int)
  {
    var dxSq := (x - u.x) * (x - u.x);
    dxSq <= maxSq &&
    ScanLo(s, CeilSqrtRef(maxSq - dxSq)) <= y <= ScanHi(s, CeilSqrtRef(maxSq - dxSq)) &&
    InRing(u, minSq, maxSq, x, y)
  }

  /** The points `get_coord_set` keeps in the columns before `xHi`, wrapped onto the map. */
  ghost function ScannedUpTo(s: SquareSlice, u: Vec2D, minSq: int, maxSq: int, xHi: int): set<Vec2D>
  {
    set x: int, y: int | s.offset.x <= x < xHi && s.offset.y <= y <= s.offset.y + s.sideLength.y &&
      Scanned(s, u, minSq, maxSq, x, y) :: WrapAroundMap(Vec2D(x, y))
  }

  /** Everything `get_coord_set` keeps. */
  ghost function ScannedSet(s: SquareSlice, u: Vec2D, minSq: int, maxSq: int): set<Vec2D>
  {
    ScannedUpTo(s, u, minSq, maxSq, s.offset.x + s.sideLength.x)
  }

  /** What one column contributes to `ScannedUpTo`. */
  ghost function ScannedColumn(s: SquareSlice, u: Vec2D, minSq: int, maxSq: int, x: int): set<Vec2D>
  {
    var dxSq := (x - u.x) * (x - u.x);
    if dxSq > maxSq then {}
    else ColumnSet(u, minSq, maxSq, x, ScanLo(s, CeilSqrtRef(maxSq - dxSq)), ScanHi(s, CeilSqrtRef(maxSq - dxSq)))
  }

  /** What one column contributes to `RingUpTo`. */
  ghost function RingColumn(s: SquareSlice, u: Vec2D, minSq: int, maxSq: int, x: int): set<Vec2D>
  {
    ColumnSet(u, minSq, maxSq, x, s.offset.y, s.offset.y + s.sideLength.y)
  }

  lemma ColumnSetEmpty(u: Vec2D, minSq: int, maxSq: int, x: int, lo: int, hi: int)
    requires lo > hi
    ensures ColumnSet(u, minSq, maxSq, x, lo, hi) == {}
  {
  }

  /** Scanning one more row adds that row's point when it is in the ring. */
  lemma ColumnSetSnoc(u: Vec2D, minSq: int, maxSq: int, x: int, lo: int, y: int)
    requires lo <= y
    ensures ColumnSet(u, minSq, maxSq, x, lo, y) ==
      ColumnSet(u, minSq, maxSq, x, lo, y - 1) + (if InRing(u, minSq, maxSq, x, y) then {WrapAroundMap(Vec2D(x, y))} else {})
  {
    var a := ColumnSet(u, minSq, maxSq, x, lo, y);
    var c := ColumnSet(u, minSq, maxSq, x, lo, y - 1);
    forall p | p in a
      ensures p in c || (InRing(u, minSq, maxSq, x, y) && p == WrapAroundMap(Vec2D(x, y)))
    {
      var y' :| lo <= y' <= y && InRing(u, minSq, maxSq, x, y') && p == WrapAroundMap(Vec2D(x, y'));
      if y' < y {
        assert lo <= y' <= y - 1;
      }
    }
    forall p | p in c
      ensures p in a
    {
      var y' :| lo <= y' <= y - 1 && InRing(u, minSq, maxSq, x, y') && p == WrapAroundMap(Vec2D(x, y'));
      assert lo <= y' <= y;
    }
    if InRing(u, minSq, maxSq, x, y) {
      assert lo <= y <= y;
    }
  }

  /** A column farther from `u` than `maxSq` allows meets no point of the ring. */
  lemma ColumnOutOfReach(u: Vec2D, minSq: int, maxSq: int, x: int, y: int)
    requires (x - u.x) * (x - u.x) > maxSq
    ensures !InRing(u, minSq, maxSq, x, y)
  {
    SquareNonNeg(y - u.y);
  }

  lemma SquareNonNeg(a: int)
    ensures a * a >= 0
  {
  }

  /** Adding column `xHi` to the scanned columns adds exactly what the scan of that column keeps. */
  lemma ScannedUpToStep(s: SquareSlice, u: Vec2D, minSq: int, maxSq: int, xHi: int)
    requires s.offset.x <= xHi
    ensures ScannedUpTo(s, u, minSq, maxSq, xHi + 1) ==
      ScannedUpTo(s, u, minSq, maxSq, xHi) + ScannedColumn(s, u, minSq, maxSq, xHi)
  {
    ScannedUpToStepSub(s, u, minSq, maxSq, xHi);
    ScannedUpToMonotone(s, u, minSq, maxSq, xHi);
    ScannedColumnWithin(s, u, minSq, maxSq, xHi);
  }

  lemma ScannedUpToStepSub(s: SquareSlice, u: Vec2D, minSq: int, maxSq: int, xHi: int)
    ensures ScannedUpTo(s, u, minSq, maxSq, xHi + 1) <=
      ScannedUpTo(s, u, minSq, maxSq, xHi) + ScannedColumn(s, u, minSq, maxSq, xHi)
  {
    forall p | p in ScannedUpTo(s, u, minSq, maxSq, xHi + 1)
      ensures p in ScannedUpTo(s, u, minSq, maxSq, xHi) || p in ScannedColumn(s, u, minSq, maxSq, xHi)
    {
      var x, y :| s.offset.x <= x < xHi + 1 && s.offset.y <= y <= s.offset.y + s.sideLength.y &&
        Scanned(s, u, minSq, maxSq, x, y) && p == WrapAroundMap(Vec2D(x, y));
      if x < xHi {
        assert s.offset.x <= x < xHi;
      } else {
        ScannedPointInColumn(s, u, minSq, maxSq, xHi, y);
      }
    }
  }

  lemma ScannedPointInColumn(s: SquareSlice, u: Vec2D, minSq: int, maxSq: int, x: int, y: int)
    requires Scanned(s, u, minSq, maxSq, x, y)
    ensures WrapAroundMap(Vec2D(x, y)) in ScannedColumn(s, u, minSq, maxSq, x)
  {
    var w := CeilSqrtRef(maxSq - (x - u.x) * (x - u.x));
    assert ScanLo(s, w) <= y <= ScanHi(s, w);
  }

  lemma ScannedUpToMonotone(s: SquareSlice, u: Vec2D, minSq: int, maxSq: int, xHi: int)
    ensures ScannedUpTo(s, u, minSq, maxSq, xHi) <= ScannedUpTo(s, u, minSq, maxSq, xHi + 1)
  {
    forall p | p in ScannedUpTo(s, u, minSq, maxSq, xHi)
      ensures p in ScannedUpTo(s, u, minSq, maxSq, xHi + 1)
    {
      var x, y :| s.offset.x <= x < xHi && s.offset.y <= y <= s.offset.y + s.sideLength.y &&
        Scanned(s, u, minSq, maxSq, x, y) && p == WrapAroundMap(Vec2D(x, y));
      assert s.offset.x <= x < xHi + 1;
    }
  }

  lemma ScannedColumnWithin(s: SquareSlice, u: Vec2D, minSq: int, maxSq: int, xHi: int)
    requires s.offset.x <= xHi
    ensures ScannedColumn(s, u, minSq, maxSq, xHi) <= ScannedUpTo(s, u, minSq, maxSq, xHi + 1)
  {
    forall p | p in ScannedColumn(s, u, minSq, maxSq, xHi)
      ensures p in ScannedUpTo(s, u, minSq, maxSq, xHi + 1)
    {
      var dxSq := (xHi - u.x) * (xHi - u.x);
      var w := CeilSqrtRef(maxSq - dxSq);
      var y :| ScanLo(s, w) <= y <= ScanHi(s, w) && InRing(u, minSq, maxSq, xHi, y) && p == WrapAroundMap(Vec2D(xHi, y));
      assert Scanned(s, u, minSq, maxSq, xHi, y);
      assert s.offset.x <= xHi < xHi + 1 && s.offset.y <= y <= s.offset.y + s.sideLength.y;
    }
  }

  /** Adding column `xHi` to the ring's columns adds exactly that column's ring points. */
  lemma RingUpToStep(s: SquareSlice, u: Vec2D, minSq: int, maxSq: int, xHi: int)
    requires s.offset.x <= xHi
    ensures RingUpTo(s, u, minSq, maxSq, xHi + 1) ==
      RingUpTo(s, u, minSq, maxSq, xHi) + RingColumn(s, u, minSq, maxSq, xHi)
  {
    var a := RingUpTo(s, u, minSq, maxSq, xHi + 1);
    var c := RingUpTo(s, u, minSq, maxSq, xHi);
    var col := RingColumn(s, u, minSq, maxSq, xHi);
    forall p | p in a
      ensures p in c || p in col
    {
      var x, y :| s.offset.x <= x < xHi + 1 && s.offset.y <= y <= s.offset.y + s.sideLength.y &&
        InRing(u, minSq, maxSq, x, y) && p == WrapAroundMap(Vec2D(x, y));
      if x < xHi {
        assert s.offset.x <= x < xHi;
      }
    }
    forall p | p in c
      ensures p in a
    {
      var x, y :| s.offset.x <= x < xHi && s.offset.y <= y <= s.offset.y + s.sideLength.y &&
        InRing(u, minSq, maxSq, x, y) && p == WrapAroundMap(Vec2D(x, y));
      assert s.offset.x <= x < xHi + 1;
    }
    forall p | p in col
      ensures p in a
    {
      var y :| s.offset.y <= y <= s.offset.y + s.sideLength.y && InRing(u, minSq, maxSq, xHi, y) && p == WrapAroundMap(Vec2D(xHi, y));
      assert s.offset.x <= xHi < xHi + 1;
    }
  }

  /** No column below the slice's first one is scanned. */
  lemma UpToEmpty(s: SquareSlice, u: Vec2D, minSq: int, maxSq: int, xHi: int)
    requires xHi <= s.offset.x
    ensures ScannedUpTo(s, u, minSq, maxSq, xHi) == {} && RingUpTo(s, u, minSq, maxSq, xHi) == {}
  {
  }

  /** One column's scan: rows `yMin..=yMax` of column `x`, keeping the wrapped points in the ring. */
  method ScanColumn(u: Vec2D, minSq: int, maxSq: int, x: int, dxSq: int, yMin: int, yMax: int, r0: set<Vec2D>)
    returns (r: set<Vec2D>)
    requires dxSq == (x - u.x) * (x - u.x)
    ensures r == r0 + ColumnSet(u, minSq, maxSq, x, yMin, yMax)
  {
    r := r0;
    var y := yMin;
    ColumnSetEmpty(u, minSq, maxSq, x, yMin, yMin - 1);
    while y <= yMax
      invariant yMin <= y && (y <= yMax + 1 || y == yMin)
      invariant r == r0 + ColumnSet(u, minSq, maxSq, x, yMin, y - 1)
      decreases yMax - y
    {
      ColumnSetSnoc(u, minSq, maxSq, x, yMin, y);
      var distSq := dxSq + (y - u.y) * (y - u.y);
      if minSq <= distSq && distSq <= maxSq {
        r := r + {WrapAroundMap(Vec2D(x, y))};
      }
      y := y + 1;
    }
    if y == yMin {
      ColumnSetEmpty(u, minSq, maxSq, x, yMin, yMax);
    }
  }

  /** One column of `get_coord_set`: a column beyond `maxSq` is skipped; any other is scanned
      over the rows within its reach of the slice's middle row. */
  method ScanReach(s: SquareSlice, u: Vec2D, minSq: int, maxSq: int, x: int, r0: set<Vec2D>)
    returns (r: set<Vec2D>)
    ensures r == r0 + ScannedColumn(s, u, minSq, maxSq, x)
  {
    var yStart := s.offset.y;
    var yEnd := yStart + s.sideLength.y;
    var dxSq := (x - u.x) * (x - u.x);
    if dxSq <= maxSq {
      var maxYDist := CeilSqrt(maxSq - dxSq);
      var sideLen := TDiv(s.sideLength.y, 2) - maxYDist;
      var yMin := Max(yStart, yStart + sideLen);
      var yMax := Min(yEnd, yEnd - sideLen);
      r := ScanColumn(u, minSq, maxSq, x, dxSq, yMin, yMax, r0);
    } else {
      r := r0;
    }
  }

  /** `get_coord_set`: scans the slice column by column from the top-right copy `u` of `pos`.
      It keeps exactly the points `Scanned` describes; they are all candidates of the slice,
      and when the slice is centred on `u` in y they are all of them. */
  method GetCoordSet(s: SquareSlice, pos: Vec2D, minDist: int, maxDist: int) returns (r: set<Vec2D>)
    ensures r == ScannedSet(s, MapRightTop(s, pos), minDist * minDist, maxDist * maxDist)
    ensures r <= RingSet(s, MapRightTop(s, pos), minDist * minDist, maxDist * maxDist)
    ensures forall p :: p in r ==> OnMap(p)
    ensures var u := MapRightTop(s, pos);
      s.sideLength.y >= 0 && u.y == s.offset.y + s.sideLength.y / 2 ==>
      r == RingSet(s, u, minDist * minDist, maxDist * maxDist)
  {
    var minSq := minDist * minDist;
    var maxSq := maxDist * maxDist;
    var u := MapRightTop(s, pos);
    var xStart := s.offset.x;
    var xEnd := xStart + s.sideLength.x;
    r := {};
    UpToEmpty(s, u, minSq, maxSq, xStart);
    var x := xStart;
    while x < xEnd
      invariant xStart <= x && (x <= xEnd || x == xStart)
      invariant r == ScannedUpTo(s, u, minSq, maxSq, x)
    {
      ScannedUpToStep(s, u, minSq, maxSq, x);
      r := ScanReach(s, u, minSq, maxSq, x, r);
      x := x + 1;
    }
    if x == xStart {
      UpToEmpty(s, u, minSq, maxSq, xEnd);
    }
    ScannedWithinRing(s, u, minSq, maxSq, xEnd);
    if s.sideLength.y >= 0 && u.y == s.offset.y + s.sideLength.y / 2 {
      CentredScanIsRing(s, u, minSq, maxSq, xEnd);
    }
  }

  /** Every point the scan keeps is a candidate of the slice. */
  lemma ScannedWithinRing(s: SquareSlice, u: Vec2D, minSq: int, maxSq: int, xHi: int)
    ensures ScannedUpTo(s, u, minSq, maxSq, xHi) <= RingUpTo(s, u, minSq, maxSq, xHi)
  {
    forall p | p in ScannedUpTo(s, u, minSq, maxSq, xHi)
      ensures p in RingUpTo(s, u, minSq, maxSq, xHi)
    {
      var x, y :| s.offset.x <= x < xHi && s.offset.y <= y <= s.offset.y + s.sideLength.y &&
        Scanned(s, u, minSq, maxSq, x, y) && p == WrapAroundMap(Vec2D(x, y));
      assert InRing(u, minSq, maxSq, x, y);
    }
  }

  /** In a slice centred on `u` in y, every row a column's ring reaches is inside the window
      `get_coord_set` scans for that column. */
  lemma InWindow(s: SquareSlice, u: Vec2D, w: nat, y: int)
    requires s.sideLength.y >= 0 && u.y == s.offset.y + s.sideLength.y / 2
    requires (y - u.y) * (y - u.y) <= w * w
    requires s.offset.y <= y <= s.offset.y + s.sideLength.y
    ensures ScanLo(s, w) <= y <= ScanHi(s, w)
  {
    HalfOfNat(s.sideLength.y);
    SquareBound(y - u.y, w);
  }

  /** On a slice centred on `u` in y the scan keeps every candidate. */
  lemma CentredScanIsRing(s: SquareSlice, u: Vec2D, minSq: int, maxSq: int, xHi: int)
    requires s.sideLength.y >= 0 && u.y == s.offset.y + s.sideLength.y / 2
    ensures RingUpTo(s, u, minSq, maxSq, xHi) <= ScannedUpTo(s, u, minSq, maxSq, xHi)
  {
    forall p | p in RingUpTo(s, u, minSq, maxSq, xHi)
      ensures p in ScannedUpTo(s, u, minSq, maxSq, xHi)
    {
      var x, y :| s.offset.x <= x < xHi && s.offset.y <= y <= s.offset.y + s.sideLength.y &&
        InRing(u, minSq, maxSq, x, y) && p == WrapAroundMap(Vec2D(x, y));
      CentredPointScanned(s, u, minSq, maxSq, x, y);
    }
  }

  /** On a slice centred on `u` in y, the scan keeps each ring point inside the slice. */
  lemma CentredPointScanned(s: SquareSlice, u: Vec2D, minSq: int, maxSq: int, x: int, y: int)
    requires s.sideLength.y >= 0 && u.y == s.offset.y + s.sideLength.y / 2
    requires s.offset.y <= y <= s.offset.y + s.sideLength.y && InRing(u, minSq, maxSq, x, y)
    ensures Scanned(s, u, minSq, maxSq, x, y)
  {
    var dxSq := (x - u.x) * (x - u.x);
    SquareNonNeg(y - u.y);
    assert dxSq <= maxSq;
    var w := CeilSqrtRef(maxSq - dxSq);
    InWindow(s, u, w, y);
  }

  /** With the rows centred on `u` instead, a column's window holds all of its ring points. */
  lemma CentredColumnIsRing(s: SquareSlice, u: Vec2D, minSq: int, maxSq: int, x: int, w: nat)
    requires (x - u.x) * (x - u.x) <= maxSq && w * w >= maxSq - (x - u.x) * (x - u.x)
    ensures ColumnSet(u, minSq, maxSq, x, Max(s.offset.y, u.y - w), Min(s.offset.y + s.sideLength.y, u.y + w)) ==
      RingColumn(s, u, minSq, maxSq, x)
  {
    var lo, hi := Max(s.offset.y, u.y - w), Min(s.offset.y + s.sideLength.y, u.y + w);
    forall p | p in RingColumn(s, u, minSq, maxSq, x)
      ensures p in ColumnSet(u, minSq, maxSq, x, lo, hi)
    {
      var y :| s.offset.y <= y <= s.offset.y + s.sideLength.y && InRing(u, minSq, maxSq, x, y) && p == WrapAroundMap(Vec2D(x, y));
      SquareBound(y - u.y, w);
      assert lo <= y <= hi;
    }
    forall p | p in ColumnSet(u, minSq, maxSq, x, lo, hi)
      ensures p in RingColumn(s, u, minSq, maxSq, x)
    {
      var y :| lo <= y <= hi && InRing(u, minSq, maxSq, x, y) && p == WrapAroundMap(Vec2D(x, y));
      assert s.offset.y <= y <= s.offset.y + s.sideLength.y;
    }
  }

  /** A column farther from `u` than `maxSq` allows holds no candidate. */
  lemma RingColumnOutOfReach(s: SquareSlice, u: Vec2D, minSq: int, maxSq: int, x: int)
    requires (x - u.x) * (x - u.x) > maxSq
    ensures RingColumn(s, u, minSq, maxSq, x) == {}
  {
    forall y ensures !InRing(u, minSq, maxSq, x, y) {
      ColumnOutOfReach(u, minSq, maxSq, x, y);
    }
  }

  /** One column of the corrected scan: rows within reach of `u`'s row, cut to the slice. */
  method ScanCentred(s: SquareSlice, u: Vec2D, minSq: int, maxSq: int, x: int, r0: set<Vec2D>)
    returns (r: set<Vec2D>)
    ensures r == r0 + RingColumn(s, u, minSq, maxSq, x)
  {
    var yStart := s.offset.y;
    var yEnd := yStart + s.sideLength.y;
    var dxSq := (x - u.x) * (x - u.x);
    if dxSq <= maxSq {
      var maxYDist := CeilSqrt(maxSq - dxSq);
      CentredColumnIsRing(s, u, minSq, maxSq, x, maxYDist);
      r := ScanColumn(u, minSq, maxSq, x, dxSq, Max(yStart, u.y - maxYDist), Min(yEnd, u.y + maxYDist), r0);
    } else {
      RingColumnOutOfReach(s, u, minSq, maxSq, x);
      r := r0;
    }
  }

  /** `get_coord_set` with each column's rows centred on `u`'s row rather than on the slice's
      middle: it keeps every candidate of the slice, whatever the slice. */
  method GetCoordSetCorrected(s: SquareSlice, pos: Vec2D, minDist: int, maxDist: int) returns (r: set<Vec2D>)
    ensures r == RingSet(s, MapRightTop(s, pos), minDist * minDist, maxDist * maxDist)
    ensures forall p :: p in r ==> OnMap(p)
  {
    var minSq := minDist * minDist;
    var maxSq := maxDist * maxDist;
    var u := MapRightTop(s, pos);
    var xStart := s.offset.x;
    var xEnd := xStart + s.sideLength.x;
    r := {};
    UpToEmpty(s, u, minSq, maxSq, xStart);
    var x := xStart;
    while x < xEnd
      invariant xStart <= x && (x <= xEnd || x == xStart)
      invariant r == RingUpTo(s, u, minSq, maxSq, x)
    {
      RingUpToStep(s, u, minSq, maxSq, x);
      r := ScanCentred(s, u, minSq, maxSq, x, r);
      x := x + 1;
    }
    if x == xStart {
      UpToEmpty(s, u, minSq, maxSq, xEnd);
    }
  }

  lemma ReadingsRings()
    ensures GetDists(1570.0) == (1217, 2000) && GetDists(40.4) == (0, 300)
  {
  }

  lemma ReadingsSlices()
    ensures NewSlice(Vec2D(5000, 5000), Vec2D(2000, 2000)) == SquareSlice(Vec2D(3000, 3000), Vec2D(4000, 4000))
    ensures NewSlice(Vec2D(5000, 6800), Vec2D(300, 300)) == SquareSlice(Vec2D(4700, 6500), Vec2D(600, 600))
  {
  }

  /** A point up to half the map right of and above a slice's corner is its own top-right
      copy. */
  lemma {:induction false} MapRightTopNear(s: SquareSlice, p: Vec2D)
    requires 0 <= p.x - s.offset.x && 2 * (p.x - s.offset.x) < MAP_X
    requires 0 <= p.y - s.offset.y && 2 * (p.y - s.offset.y) < MAP_Y
    ensures MapRightTop(s, p) == p
  {
    var d := Sub(p, s.offset);
    var k := ChosenTopRightShift(s.offset, p);
    assert Option4(s.offset, p, 3).0 == d;
    if k != 3 {
      var ex := UNIT_SIGNS[k / 2];
      var ey := UNIT_SIGNS[k % 2];
      assert Option4(s.offset, p, k).0 == Vec2D(d.x + MAP_X * ex, d.y + MAP_Y * ey);
      OptionLonger(d, ex, ey);
      assert false;
    }
  }

  lemma ReadingsOverlap()
    ensures MapRightTop(SquareSlice(Vec2D(3000, 3000), Vec2D(4000, 4000)), Vec2D(4700, 6500)) == Vec2D(4700, 6500)
    ensures Intersect(SquareSlice(Vec2D(3000, 3000), Vec2D(4000, 4000)), SquareSlice(Vec2D(4700, 6500), Vec2D(600, 600))) ==
      SquareSlice(Vec2D(4700, 6500), Vec2D(600, 500))
    ensures MapRightTop(SquareSlice(Vec2D(4700, 6500), Vec2D(600, 500)), Vec2D(5000, 6800)) == Vec2D(5000, 6800)
  {
    MapRightTopNear(SquareSlice(Vec2D(3000, 3000), Vec2D(4000, 4000)), Vec2D(4700, 6500));
    MapRightTopNear(SquareSlice(Vec2D(4700, 6500), Vec2D(600, 500)), Vec2D(5000, 6800));
  }

  /** The beacon at (5283, 6870) against the overlap of the two slices: a candidate of the
      second ring, 291 from where it was heard, but in a column whose scanned rows stop at
      6850. */
  lemma DroppedPoint()
    ensures var s := SquareSlice(Vec2D(4700, 6500), Vec2D(600, 500));
      var u := Vec2D(5000, 6800);
      var p := Vec2D(5283, 6870);
      p in RingSet(SquareSlice(Vec2D(3000, 3000), Vec2D(4000, 4000)), Vec2D(5000, 5000), 1217 * 1217, 2000 * 2000) &&
      p in RingSet(s, u, 0, 300 * 300) && p !in ScannedSet(s, u, 0, 300 * 300)
  {
    var s := SquareSlice(Vec2D(4700, 6500), Vec2D(600, 500));
    var u := Vec2D(5000, 6800);
    var p := Vec2D(5283, 6870);
    assert WrapAroundMap(Vec2D(5283, 6870)) == p;
    assert InRing(Vec2D(5000, 5000), 1217 * 1217, 2000 * 2000, 5283, 6870);
    assert 3000 <= 5283 < 3000 + 4000 && 3000 <= 6870 <= 3000 + 4000;
    assert InRing(u, 0, 300 * 300, 5283, 6870);
    assert 4700 <= 5283 < 4700 + 600 && 6500 <= 6870 <= 6500 + 500;
    assert IsCeilSqrt(9911, 100);
    CeilSqrtUnique(9911, 100, CeilSqrtRef(9911));
    if p in ScannedSet(s, u, 0, 300 * 300) {
      var x, y :| 4700 <= x < 4700 + 600 && 6500 <= y <= 6500 + 500 &&
        Scanned(s, u, 0, 300 * 300, x, y) && p == WrapAroundMap(Vec2D(x, y));
      ModInWindow(x, MAP_X, 0);
      ModInWindow(y, MAP_Y, 0);
      assert false;
    }
  }

  /** The beacon behind two readings that `update` loses: 1891 from where the first (1570)
      was heard and 291 from where the second (40.4) was, inside both rings and both slices,
      yet outside what the as-written scan of the overlap keeps. */
  lemma GetCoordSetDropsCandidate()
    ensures GetDists(1570.0) == (1217, 2000) && GetDists(40.4) == (0, 300)
    ensures var first := NewSlice(Vec2D(5000, 5000), Vec2D(2000, 2000));
      var s := Intersect(first, NewSlice(Vec2D(5000, 6800), Vec2D(300, 300)));
      var u := MapRightTop(s, Vec2D(5000, 6800));
      var p := Vec2D(5283, 6870);
      p in RingSet(first, MapRightTop(first, Vec2D(5000, 5000)), 1217 * 1217, 2000 * 2000) &&
      p in RingSet(s, u, 0, 300 * 300) && p !in ScannedSet(s, u, 0, 300 * 300)
  {
    ReadingsRings();
    ReadingsSlices();
    ReadingsOverlap();
    MapRightTopNear(SquareSlice(Vec2D(3000, 3000), Vec2D(4000, 4000)), Vec2D(5000, 5000));
    DroppedPoint();
  }

  /** A beacon measurement (declared in src/flight_control/objective/beacon_objective.rs):
      the beacon id, the position it was heard from, the signal reading and the delay. */
  datatype BeaconMeas = BeaconMeas(id: nat, pos: Vec2D, rssi: real, delayMs: int)

  /** The candidate points, the slice they were drawn from, and the measurements kept. */
  datatype BayesianSet = BayesianSet(points: set<Vec2D>, currSlice: SquareSlice, measurements: seq<BeaconMeas>)

  /** Every candidate is a point of the map. */
  predicate Valid(b: BayesianSet)
  {
    forall p :: p in b.points ==> OnMap(p)
  }

  /** `BayesianSet::new`: the ring the reading allows around the measurement's corrected
      position `corrPos`, over the square slice of half-width `max_dist`. On the map, with a
      non-negative `max_dist`, the set is exactly the wrapped lattice points of the slice in
      that ring. */
  method New(meas: BeaconMeas, corrPos: Vec2D) returns (r: BayesianSet)
    ensures Valid(r) && r.measurements == [meas]
    ensures var (minD, maxD) := GetDists(meas.rssi);
      r.currSlice == NewSlice(corrPos, Vec2D(maxD, maxD)) &&
      r.points <= RingSet(r.currSlice, MapRightTop(r.currSlice, corrPos), minD * minD, maxD * maxD)
    ensures var (minD, maxD) := GetDists(meas.rssi);
      OnMap(corrPos) && maxD >= 0 ==>
      r.points == RingSet(r.currSlice, Add(r.currSlice.offset, Vec2D(maxD, maxD)), minD * minD, maxD * maxD)
  {
    var (minD, maxD) := GetDists(meas.rssi);
    var slice := NewSlice(corrPos, Vec2D(maxD, maxD));
    var points := GetCoordSet(slice, corrPos, minD, maxD);
    if OnMap(corrPos) && maxD >= 0 {
      NewSliceCentred(corrPos, Vec2D(maxD, maxD));
    }
    r := BayesianSet(points, slice, [meas]);
  }

  /** `update`: narrows the slice to its overlap with the new measurement's slice and keeps
      the candidates the scan of that overlap for the new ring also keeps. Candidates are
      never added, and the measurement list is left as it is. */
  method Update(b: BayesianSet, meas: BeaconMeas, corrPos: Vec2D) returns (r: BayesianSet)
    ensures r.measurements == b.measurements
    ensures var (minD, maxD) := GetDists(meas.rssi);
      r.currSlice == Intersect(b.currSlice, NewSlice(corrPos, Vec2D(maxD, maxD))) &&
      r.points == b.points * ScannedSet(r.currSlice, MapRightTop(r.currSlice, corrPos), minD * minD, maxD * maxD)
    ensures var (minD, maxD) := GetDists(meas.rssi);
      r.points <= b.points && r.points <= RingSet(r.currSlice, MapRightTop(r.currSlice, corrPos), minD * minD, maxD * maxD)
  {
    var (minD, maxD) := GetDists(meas.rssi);
    var slice := Intersect(b.currSlice, NewSlice(corrPos, Vec2D(maxD, maxD)));
    var newSet := GetCoordSet(slice, corrPos, minD, maxD);
    r := b.(points := b.points * newSet, currSlice := slice);
  }

  /** `update` over the corrected scan: the candidates kept are exactly the old ones that
      the new ring allows within the overlap of the slices. */
  method UpdateCorrected(b: BayesianSet, meas: BeaconMeas, corrPos: Vec2D) returns (r: BayesianSet)
    ensures r.measurements == b.measurements
    ensures var (minD, maxD) := GetDists(meas.rssi);
      r.currSlice == Intersect(b.currSlice, NewSlice(corrPos, Vec2D(maxD, maxD))) &&
      r.points == b.points * RingSet(r.currSlice, MapRightTop(r.currSlice, corrPos), minD * minD, maxD * maxD)
  {
    var (minD, maxD) := GetDists(meas.rssi);
    var slice := Intersect(b.currSlice, NewSlice(corrPos, Vec2D(maxD, maxD)));
    var newSet := GetCoordSetCorrected(slice, corrPos, minD, maxD);
    r := b.(points := b.points * newSet, currSlice := slice);
  }

  /** `is_in_set`: membership; only map points can be candidates of a valid set. */
  function IsInSet(b: BayesianSet, p: Vec2D): (r: bool)
    ensures r <==> p in b.points
    ensures Valid(b) && r ==> OnMap(p)
  {
    p in b.points
  }

  /** Every point some centre covers. */
  function Covered(a: map<Vec2D, set<Vec2D>>): set<Vec2D>
  {
    set k, p | k in a && p in a[k] :: p
  }

  /** `max_by_key` on the size of the covered set; the map's iteration order is not
      determined, so any key of largest cover may come out. */
  method MaxKey(a: map<Vec2D, set<Vec2D>>) returns (best: Vec2D)
    requires |a| > 0
    ensures best in a
    ensures forall k :: k in a ==> |a[k]| <= |a[best]|
  {
    var keys := a.Keys;
    best :| best in keys;
    keys := keys - {best};
    while keys != {}
      invariant best in a && keys <= a.Keys
      invariant forall k :: k in a && k !in keys ==> |a[k]| <= |a[best]|
      decreases |keys|
    {
      var k :| k in keys;
      if |a[k]| >= |a[best]| {
        best := k;
      }
      keys := keys - {k};
    }
  }

  /** Point `p` is covered by one of the centres picked so far. */
  predicate CoveredByPick(a: map<Vec2D, set<Vec2D>>, picked: seq<Vec2D>, p: Vec2D)
  {
    exists i :: 0 <= i < |picked| && picked[i] in a && p in a[picked[i]]
  }

  /** `left` is the input without the picked keys, and the picks are distinct input keys. */
  ghost predicate KeysLeft(a: map<Vec2D, set<Vec2D>>, left: map<Vec2D, set<Vec2D>>, picked: seq<Vec2D>)
  {
    (forall k :: k in left <==> k in a && k !in picked) &&
    (forall k :: k in left ==> left[k] == a[k]) &&
    (forall i :: 0 <= i < |picked| ==> picked[i] in a) &&
    (forall i, j :: 0 <= i < j < |picked| ==> picked[i] != picked[j])
  }

  /** Every point some centre covers is covered by a pick. */
  ghost predicate CoversAll(a: map<Vec2D, set<Vec2D>>, picked: seq<Vec2D>)
  {
    forall p :: p in Covered(a) ==> CoveredByPick(a, picked, p)
  }

  /** Each pick was of largest cover among the keys not picked before it. */
  ghost predicate PicksGreedy(a: map<Vec2D, set<Vec2D>>, picked: seq<Vec2D>)
  {
    forall i, k :: 0 <= i < |picked| && picked[i] in a && k in a && k !in picked[..i] ==> |a[k]| <= |a[picked[i]]|
  }

  /** Every point no longer uncovered is covered by a pick, and every uncovered point is still
      covered by a key left. */
  ghost predicate PointsAccounted(a: map<Vec2D, set<Vec2D>>, left: map<Vec2D, set<Vec2D>>,
                                  picked: seq<Vec2D>, uncovered: set<Vec2D>)
  {
    (forall p :: p in Covered(a) && p !in uncovered ==> CoveredByPick(a, picked, p)) &&
    (forall p :: p in uncovered ==> p in Covered(a) && !CoveredByPick(a, picked, p)) &&
    (forall p :: p in uncovered ==> exists k :: k in left && p in left[k])
  }

  /** Each pick was made while some covered point was not yet covered by an earlier pick. */
  ghost predicate PicksNeeded(a: map<Vec2D, set<Vec2D>>, picked: seq<Vec2D>)
  {
    forall i :: 0 <= i < |picked| ==> exists p :: p in Covered(a) && !CoveredByPick(a, picked[..i], p)
  }

  /** What `select_minimal_circles` keeps true from one pick to the next. */
  ghost predicate CoverInvariant(a: map<Vec2D, set<Vec2D>>, left: map<Vec2D, set<Vec2D>>,
                                 picked: seq<Vec2D>, uncovered: set<Vec2D>)
  {
    KeysLeft(a, left, picked) && PicksGreedy(a, picked) && PicksNeeded(a, picked) &&
    PointsAccounted(a, left, picked, uncovered)
  }

  lemma CoverInvariantInit(a: map<Vec2D, set<Vec2D>>)
    ensures CoverInvariant(a, a, [], Covered(a))
  {
  }

  lemma KeysLeftStep(a: map<Vec2D, set<Vec2D>>, left: map<Vec2D, set<Vec2D>>, picked: seq<Vec2D>, best: Vec2D)
    requires KeysLeft(a, left, picked) && best in left
    ensures KeysLeft(a, left - {best}, picked + [best])
  {
  }

  lemma {:induction false} PicksGreedyStep(a: map<Vec2D, set<Vec2D>>, left: map<Vec2D, set<Vec2D>>,
                                           picked: seq<Vec2D>, best: Vec2D)
    requires KeysLeft(a, left, picked) && PicksGreedy(a, picked)
    requires best in left && forall k :: k in left ==> |left[k]| <= |left[best]|
    ensures PicksGreedy(a, picked + [best])
  {
    var picked' := picked + [best];
    forall i, k | 0 <= i < |picked'| && k in a && k !in picked'[..i]
      ensures |a[k]| <= |a[picked'[i]]|
    {
      if i < |picked| {
        assert picked'[..i] == picked[..i];
      } else {
        assert picked'[..i] == picked;
        assert k in left;
      }
    }
  }

  lemma {:induction false} PointsAccountedStep(a: map<Vec2D, set<Vec2D>>, left: map<Vec2D, set<Vec2D>>,
                                               picked: seq<Vec2D>, uncovered: set<Vec2D>, best: Vec2D)
    requires KeysLeft(a, left, picked) && PointsAccounted(a, left, picked, uncovered) && best in left
    ensures PointsAccounted(a, left - {best}, picked + [best], uncovered - left[best])
  {
    var picked' := picked + [best];
    var left' := left - {best};
    var uncovered' := uncovered - left[best];
    forall p | p in Covered(a) && p !in uncovered'
      ensures CoveredByPick(a, picked', p)
    {
      if p in uncovered {
        assert picked'[|picked|] == best;
      } else {
        var i :| 0 <= i < |picked| && picked[i] in a && p in a[picked[i]];
        assert picked'[i] == picked[i];
      }
    }
    forall p | p in uncovered'
      ensures p in Covered(a) && !CoveredByPick(a, picked', p)
    {
      assert p !in a[best];
      forall i | 0 <= i < |picked'| && picked'[i] in a
        ensures p !in a[picked'[i]]
      {
        if i < |picked| {
          assert picked'[i] == picked[i];
        }
      }
    }
    forall p | p in uncovered'
      ensures exists k :: k in left' && p in left'[k]
    {
      var k :| k in left && p in left[k];
      assert k != best && k in left';
    }
  }

  lemma {:induction false} PicksNeededStep(a: map<Vec2D, set<Vec2D>>, left: map<Vec2D, set<Vec2D>>,
                                          picked: seq<Vec2D>, uncovered: set<Vec2D>, best: Vec2D)
    requires PicksNeeded(a, picked) && PointsAccounted(a, left, picked, uncovered) && uncovered != {}
    ensures PicksNeeded(a, picked + [best])
  {
    var picked' := picked + [best];
    forall i | 0 <= i < |picked'|
      ensures exists p :: p in Covered(a) && !CoveredByPick(a, picked'[..i], p)
    {
      if i < |picked| {
        assert picked'[..i] == picked[..i];
      } else {
        assert picked'[..i] == picked;
        var p :| p in uncovered;
        assert p in Covered(a) && !CoveredByPick(a, picked, p);
      }
    }
  }

  lemma CoverInvariantStep(a: map<Vec2D, set<Vec2D>>, left: map<Vec2D, set<Vec2D>>,
                           picked: seq<Vec2D>, uncovered: set<Vec2D>, best: Vec2D)
    requires CoverInvariant(a, left, picked, uncovered) && uncovered != {}
    requires best in left && forall k :: k in left ==> |left[k]| <= |left[best]|
    ensures CoverInvariant(a, left - {best}, picked + [best], uncovered - left[best])
  {
    KeysLeftStep(a, left, picked, best);
    PicksGreedyStep(a, left, picked, best);
    PicksNeededStep(a, left, picked, uncovered, best);
    PointsAccountedStep(a, left, picked, uncovered, best);
  }

  /** `select_minimal_circles`: greedy set cover. It picks a centre of largest cover among
      those left, removes what it covers, and stops once every point is covered. The centres
      picked are distinct keys of the input, every covered point is covered by one of them,
      each was of largest cover among the centres not yet picked, and each was picked while
      some covered point was still not covered by the picks before it. */
  method SelectMinimalCircles(assignments: map<Vec2D, set<Vec2D>>) returns (selected: seq<Vec2D>)
    ensures forall i :: 0 <= i < |selected| ==> selected[i] in assignments
    ensures forall i, j :: 0 <= i < j < |selected| ==> selected[i] != selected[j]
    ensures forall p :: p in Covered(assignments) ==> CoveredByPick(assignments, selected, p)
    ensures forall i, k :: 0 <= i < |selected| && k in assignments && k !in selected[..i] ==>
      |assignments[k]| <= |assignments[selected[i]]|
    ensures forall i :: 0 <= i < |selected| ==>
      exists p :: p in Covered(assignments) && !CoveredByPick(assignments, selected[..i], p)
  {
    var left := assignments;
    selected := [];
    var uncovered := Covered(assignments);
    CoverInvariantInit(assignments);
    while uncovered != {}
      invariant CoverInvariant(assignments, left, selected, uncovered)
      decreases |left|
    {
      var p :| p in uncovered;
      var holder :| holder in left && p in left[holder];
      assert holder in left.Keys;
      var best := MaxKey(left);
      CoverInvariantStep(assignments, left, selected, uncovered, best);
      uncovered := uncovered - left[best];
      selected := selected + [best];
      ghost var prevLeft := left;
      left := left - {best};
      assert left.Keys == prevLeft.Keys - {best};
    }
  }

  /** Pick `i` covers no point that the picks before it did not already cover. */
  predicate Redundant(a: map<Vec2D, set<Vec2D>>, picked: seq<Vec2D>, i: nat)
    requires i < |picked| && picked[i] in a
  {
    forall p :: p in a[picked[i]] ==> CoveredByPick(a, picked[..i], p)
  }

  /** The loop ranks centres by their original cover and never shrinks the sets left. So when
      two centres cover the same points and outrank the only centre covering some point `r`,
      any result `SelectMinimalCircles` may return holds a pick all of whose points an earlier
      pick already covered. */
  lemma {:induction false} StaleGreedyPicksRedundant(a: map<Vec2D, set<Vec2D>>, selected: seq<Vec2D>,
                                                     ka: Vec2D, kb: Vec2D, kc: Vec2D, r: Vec2D)
    returns (m: nat)
    requires ka in a && kb in a && kc in a && ka != kb && a[ka] == a[kb] && |a[kc]| < |a[ka]|
    requires r in a[kc] && forall k :: k in a && r in a[k] ==> k == kc
    requires forall i :: 0 <= i < |selected| ==> selected[i] in a
    requires CoversAll(a, selected) && PicksGreedy(a, selected)
    ensures m < |selected| && selected[m] in a && Redundant(a, selected, m)
  {
    var j := OnlyHolderPicked(a, selected, kc, r);
    OutrankingPickedBefore(a, selected, j, ka);
    OutrankingPickedBefore(a, selected, j, kb);
    var ia := IndexBefore(selected, j, ka);
    var ib := IndexBefore(selected, j, kb);
    m := if ia < ib then ib else ia;
    LaterTwinRedundant(a, selected, if ia < ib then ia else ib, m);
  }

  /** A point only `kc` covers is covered by the picks only if `kc` is one of them. */
  lemma OnlyHolderPicked(a: map<Vec2D, set<Vec2D>>, selected: seq<Vec2D>, kc: Vec2D, r: Vec2D) returns (j: nat)
    requires kc in a && r in a[kc] && forall k :: k in a && r in a[k] ==> k == kc
    requires CoversAll(a, selected)
    ensures j < |selected| && selected[j] == kc
  {
    assert r in Covered(a);
    j :| 0 <= j < |selected| && selected[j] in a && r in a[selected[j]];
  }

  /** Under the greedy ranking, a centre of larger cover than pick `j` was picked before it. */
  lemma OutrankingPickedBefore(a: map<Vec2D, set<Vec2D>>, selected: seq<Vec2D>, j: nat, k: Vec2D)
    requires j < |selected| && selected[j] in a && k in a && |a[selected[j]]| < |a[k]|
    requires PicksGreedy(a, selected)
    ensures k in selected[..j]
  {
  }

  /** A key found in a prefix sits at some index of it. */
  lemma IndexBefore(s: seq<Vec2D>, j: nat, k: Vec2D) returns (i: nat)
    requires j <= |s| && k in s[..j]
    ensures i < j && s[i] == k
  {
    i :| 0 <= i < j && s[..j][i] == k;
  }

  /** A later pick covering the same points as an earlier one is redundant. */
  lemma LaterTwinRedundant(a: map<Vec2D, set<Vec2D>>, picked: seq<Vec2D>, first: nat, m: nat)
    requires first < m < |picked| && picked[first] in a && picked[m] in a
    requires a[picked[m]] == a[picked[first]]
    ensures Redundant(a, picked, m)
  {
    forall x | x in a[picked[m]]
      ensures CoveredByPick(a, picked[..m], x)
    {
      assert picked[..m][first] == picked[first];
    }
  }

  /** Three centres: two cover the same two points, the third one point of its own. */
  function StaleExample(): map<Vec2D, set<Vec2D>>
  {
    map[Vec2D(0, 0) := {Vec2D(1, 0), Vec2D(2, 0)},
        Vec2D(10, 0) := {Vec2D(1, 0), Vec2D(2, 0)},
        Vec2D(20, 0) := {Vec2D(3, 0)}]
  }

  /** On `StaleExample` every result `SelectMinimalCircles` may return picks one of the twin
      centres after the other, although it covers nothing new. */
  lemma StaleExampleRedundant(selected: seq<Vec2D>) returns (m: nat)
    requires forall i :: 0 <= i < |selected| ==> selected[i] in StaleExample()
    requires forall p :: p in Covered(StaleExample()) ==> CoveredByPick(StaleExample(), selected, p)
    requires forall i, k :: 0 <= i < |selected| && k in StaleExample() && k !in selected[..i] ==>
      |StaleExample()[k]| <= |StaleExample()[selected[i]]|
    ensures m < |selected| && selected[m] in StaleExample() && Redundant(StaleExample(), selected, m)
  {
    var a := StaleExample();
    var p, q, r := Vec2D(1, 0), Vec2D(2, 0), Vec2D(3, 0);
    assert |a[Vec2D(0, 0)]| == 2 && |a[Vec2D(20, 0)]| == 1 by {
      assert a[Vec2D(0, 0)] == {p} + {q};
    }
    m := StaleGreedyPicksRedundant(a, selected, Vec2D(0, 0), Vec2D(10, 0), Vec2D(20, 0), r);
  }

  /** The points the picks cover between them. */
  ghost function PickedCover(a: map<Vec2D, set<Vec2D>>, picked: seq<Vec2D>): set<Vec2D>
    decreases |picked|
  {
    if |picked| == 0 then {}
    else
      var last := picked[|picked| - 1];
      PickedCover(a, picked[..|picked| - 1]) + (if last in a then a[last] else {})
  }

  lemma PickedCoverSnoc(a: map<Vec2D, set<Vec2D>>, picked: seq<Vec2D>, best: Vec2D)
    requires best in a
    ensures PickedCover(a, picked + [best]) == PickedCover(a, picked) + a[best]
  {
    assert (picked + [best])[..|picked|] == picked;
  }

  /** A pick's points are among those the picks cover. */
  lemma {:induction false} PickInPickedCover(a: map<Vec2D, set<Vec2D>>, picked: seq<Vec2D>, j: nat)
    requires j < |picked| && picked[j] in a
    ensures a[picked[j]] <= PickedCover(a, picked)
    decreases |picked|
  {
    var n := |picked| - 1;
    if j < n {
      assert picked[..n][j] == picked[j];
      PickInPickedCover(a, picked[..n], j);
    }
  }

  /** The picks cover only points some centre covers. */
  lemma {:induction false} PickedCoverWithin(a: map<Vec2D, set<Vec2D>>, picked: seq<Vec2D>)
    ensures PickedCover(a, picked) <= Covered(a)
    decreases |picked|
  {
    if |picked| > 0 {
      var n := |picked| - 1;
      PickedCoverWithin(a, picked[..n]);
      if picked[n] in a {
        forall p | p in a[picked[n]]
          ensures p in Covered(a)
        {
        }
      }
    }
  }

  /** The points of the keys left, less those the newest pick covers. */
  function Shrink(left: map<Vec2D, set<Vec2D>>, best: Vec2D, covered: set<Vec2D>): (r: map<Vec2D, set<Vec2D>>)
    ensures r.Keys == left.Keys - {best}
    ensures forall k :: k in r ==> r[k] == left[k] - covered
  {
    map k | k in left && k != best :: left[k] - covered
  }

  /** `left` maps every centre not yet picked to the points it covers that no pick covers. */
  ghost predicate LeftUncovered(a: map<Vec2D, set<Vec2D>>, left: map<Vec2D, set<Vec2D>>, picked: seq<Vec2D>)
  {
    (forall k :: k in left <==> k in a && k !in picked) &&
    (forall k :: k in left ==> left[k] == a[k] - PickedCover(a, picked))
  }

  /** The picks are distinct keys of the input. */
  ghost predicate DistinctPicks(a: map<Vec2D, set<Vec2D>>, picked: seq<Vec2D>)
  {
    (forall i :: 0 <= i < |picked| ==> picked[i] in a) &&
    (forall i, j :: 0 <= i < j < |picked| ==> picked[i] != picked[j])
  }

  /** Each pick covers a point no earlier pick covers. */
  ghost predicate PicksNew(a: map<Vec2D, set<Vec2D>>, picked: seq<Vec2D>)
  {
    forall i :: 0 <= i < |picked| && picked[i] in a ==> a[picked[i]] - PickedCover(a, picked[..i]) != {}
  }

  /** Each pick covers at least as many not yet covered points as any other centre. */
  ghost predicate PicksGreedyNew(a: map<Vec2D, set<Vec2D>>, picked: seq<Vec2D>)
  {
    forall i, k :: 0 <= i < |picked| && picked[i] in a && k in a ==>
      |a[k] - PickedCover(a, picked[..i])| <= |a[picked[i]] - PickedCover(a, picked[..i])|
  }

  lemma ShrinkSmaller(left: map<Vec2D, set<Vec2D>>, best: Vec2D, covered: set<Vec2D>)
    requires best in left
    ensures |Shrink(left, best, covered)| < |left|
  {
    assert Shrink(left, best, covered).Keys == left.Keys - {best};
  }

  /** What the corrected loop keeps true from one pick to the next. */
  ghost predicate CorrectedInvariant(a: map<Vec2D, set<Vec2D>>, left: map<Vec2D, set<Vec2D>>,
                                     picked: seq<Vec2D>, uncovered: set<Vec2D>)
  {
    LeftUncovered(a, left, picked) && DistinctPicks(a, picked) && PicksNew(a, picked) &&
    PicksGreedyNew(a, picked) && uncovered == Covered(a) - PickedCover(a, picked)
  }

  lemma CorrectedInvariantInit(a: map<Vec2D, set<Vec2D>>)
    ensures CorrectedInvariant(a, a, [], Covered(a))
  {
    assert PickedCover(a, []) == {};
  }

  /** Appending a pick leaves the earlier prefixes alone. */
  lemma PrefixesKept(picked: seq<Vec2D>, best: Vec2D)
    ensures (picked + [best])[..|picked|] == picked
    ensures forall i :: 0 <= i <= |picked| ==> (picked + [best])[..i] == picked[..i]
  {
  }

  /** While a point is uncovered, some centre left covers it, so a largest one covers one. */
  lemma {:induction false} LargestLeftCoversNew(a: map<Vec2D, set<Vec2D>>, left: map<Vec2D, set<Vec2D>>,
                                                picked: seq<Vec2D>, uncovered: set<Vec2D>, best: Vec2D)
    requires CorrectedInvariant(a, left, picked, uncovered) && uncovered != {}
    requires best in left && forall k :: k in left ==> |left[k]| <= |left[best]|
    ensures left[best] != {}
  {
    var holder := UncoveredHolderLeft(a, left, picked, uncovered);
    assert |left[holder]| >= 1;
  }

  lemma LeftNonEmpty(a: map<Vec2D, set<Vec2D>>, left: map<Vec2D, set<Vec2D>>,
                      picked: seq<Vec2D>, uncovered: set<Vec2D>)
    requires CorrectedInvariant(a, left, picked, uncovered) && uncovered != {}
    ensures |left| > 0
  {
    var holder := UncoveredHolderLeft(a, left, picked, uncovered);
    assert holder in left.Keys;
  }

  /** While a point is uncovered, a centre not yet picked covers it. */
  lemma {:induction false} UncoveredHolderLeft(a: map<Vec2D, set<Vec2D>>, left: map<Vec2D, set<Vec2D>>,
                                               picked: seq<Vec2D>, uncovered: set<Vec2D>)
    returns (holder: Vec2D)
    requires CorrectedInvariant(a, left, picked, uncovered) && uncovered != {}
    ensures holder in left && left[holder] != {}
  {
    var p :| p in uncovered;
    assert p in Covered(a) && p !in PickedCover(a, picked);
    holder :| holder in a && p in a[holder];
    if holder in picked {
      var j :| 0 <= j < |picked| && picked[j] == holder;
      PickInPickedCover(a, picked, j);
    }
    assert holder in left;
    assert p in left[holder];
  }

  lemma {:induction false} LeftUncoveredStep(a: map<Vec2D, set<Vec2D>>, left: map<Vec2D, set<Vec2D>>,
                                             picked: seq<Vec2D>, best: Vec2D)
    requires LeftUncovered(a, left, picked) && best in left
    ensures LeftUncovered(a, Shrink(left, best, a[best]), picked + [best])
  {
    PickedCoverSnoc(a, picked, best);
  }

  lemma {:induction false} DistinctPicksStep(a: map<Vec2D, set<Vec2D>>, left: map<Vec2D, set<Vec2D>>,
                                             picked: seq<Vec2D>, best: Vec2D)
    requires LeftUncovered(a, left, picked) && DistinctPicks(a, picked) && best in left
    ensures DistinctPicks(a, picked + [best])
  {
  }

  lemma {:induction false} PicksNewStep(a: map<Vec2D, set<Vec2D>>, left: map<Vec2D, set<Vec2D>>,
                                        picked: seq<Vec2D>, best: Vec2D)
    requires LeftUncovered(a, left, picked) && PicksNew(a, picked) && best in left && left[best] != {}
    ensures PicksNew(a, picked + [best])
  {
    PrefixesKept(picked, best);
  }

  lemma {:induction false} PicksGreedyNewStep(a: map<Vec2D, set<Vec2D>>, left: map<Vec2D, set<Vec2D>>,
                                              picked: seq<Vec2D>, best: Vec2D)
    requires LeftUncovered(a, left, picked) && PicksGreedyNew(a, picked)
    requires best in left && forall k :: k in left ==> |left[k]| <= |left[best]|
    ensures PicksGreedyNew(a, picked + [best])
  {
    var picked' := picked + [best];
    PrefixesKept(picked, best);
    forall i, k | 0 <= i < |picked'| && picked'[i] in a && k in a
      ensures |a[k] - PickedCover(a, picked'[..i])| <= |a[picked'[i]] - PickedCover(a, picked'[..i])|
    {
      if i == |picked| {
        NewestPickGreedy(a, left, picked, best, k);
      } else {
        assert picked'[i] == picked[i];
      }
    }
  }

  /** The newest pick covers at least as many uncovered points as any centre. */
  lemma {:induction false} NewestPickGreedy(a: map<Vec2D, set<Vec2D>>, left: map<Vec2D, set<Vec2D>>,
                                            picked: seq<Vec2D>, best: Vec2D, k: Vec2D)
    requires LeftUncovered(a, left, picked) && k in a
    requires best in left && forall k :: k in left ==> |left[k]| <= |left[best]|
    ensures |a[k] - PickedCover(a, picked)| <= |a[best] - PickedCover(a, picked)|
  {
    if k !in left {
      var j :| 0 <= j < |picked| && picked[j] == k;
      PickInPickedCover(a, picked, j);
      assert a[k] - PickedCover(a, picked) == {};
    }
  }

  lemma CorrectedInvariantStep(a: map<Vec2D, set<Vec2D>>, left: map<Vec2D, set<Vec2D>>,
                               picked: seq<Vec2D>, uncovered: set<Vec2D>, best: Vec2D)
    requires CorrectedInvariant(a, left, picked, uncovered) && uncovered != {}
    requires best in left && forall k :: k in left ==> |left[k]| <= |left[best]|
    ensures CorrectedInvariant(a, Shrink(left, best, a[best]), picked + [best], uncovered - a[best])
  {
    LargestLeftCoversNew(a, left, picked, uncovered, best);
    LeftUncoveredStep(a, left, picked, best);
    DistinctPicksStep(a, left, picked, best);
    PicksNewStep(a, left, picked, best);
    PicksGreedyNewStep(a, left, picked, best);
    UncoveredStep(a, picked, uncovered, best);
  }

  lemma UncoveredStep(a: map<Vec2D, set<Vec2D>>, picked: seq<Vec2D>, uncovered: set<Vec2D>, best: Vec2D)
    requires uncovered == Covered(a) - PickedCover(a, picked) && best in a
    ensures uncovered - a[best] == Covered(a) - PickedCover(a, picked + [best])
  {
    PickedCoverSnoc(a, picked, best);
  }

  /** `select_minimal_circles` as its doc comment intends: each pick is a centre covering the
      most points still uncovered, so every pick covers at least one new point, and together
      the picks cover every point any centre covers. */
  method SelectMinimalCirclesCorrected(assignments: map<Vec2D, set<Vec2D>>) returns (selected: seq<Vec2D>)
    ensures forall i :: 0 <= i < |selected| ==> selected[i] in assignments
    ensures forall i, j :: 0 <= i < j < |selected| ==> selected[i] != selected[j]
    ensures Covered(assignments) <= PickedCover(assignments, selected)
    ensures forall i :: 0 <= i < |selected| && selected[i] in assignments ==>
      assignments[selected[i]] - PickedCover(assignments, selected[..i]) != {}
    ensures forall i, k :: 0 <= i < |selected| && selected[i] in assignments && k in assignments ==>
      |assignments[k] - PickedCover(assignments, selected[..i])| <=
      |assignments[selected[i]] - PickedCover(assignments, selected[..i])|
  {
    var left := assignments;
    selected := [];
    var uncovered := Covered(assignments);
    CorrectedInvariantInit(assignments);
    while uncovered != {}
      invariant CorrectedInvariant(assignments, left, selected, uncovered)
      decreases |left|
    {
      LeftNonEmpty(assignments, left, selected, uncovered);
      var best := MaxKey(left);
      CorrectedInvariantStep(assignments, left, selected, uncovered, best);
      ShrinkSmaller(left, best, assignments[best]);
      uncovered := uncovered - assignments[best];
      selected := selected + [best];
      left := Shrink(left, best, assignments[best]);
    }
    CorrectedInvariantDone(assignments, left, selected);
  }

  /** Once nothing is uncovered, the invariant gives the corrected loop's promises. */
  lemma CorrectedInvariantDone(a: map<Vec2D, set<Vec2D>>, left: map<Vec2D, set<Vec2D>>, picked: seq<Vec2D>)
    requires CorrectedInvariant(a, left, picked, {})
    ensures forall i :: 0 <= i < |picked| ==> picked[i] in a
    ensures forall i, j :: 0 <= i < j < |picked| ==> picked[i] != picked[j]
    ensures Covered(a) <= PickedCover(a, picked)
    ensures forall i :: 0 <= i < |picked| && picked[i] in a ==>
      a[picked[i]] - PickedCover(a, picked[..i]) != {}
    ensures forall i, k :: 0 <= i < |picked| && picked[i] in a && k in a ==>
      |a[k] - PickedCover(a, picked[..i])| <= |a[picked[i]] - PickedCover(a, picked[..i])|
  {
    forall p | p in Covered(a)
      ensures p in PickedCover(a, picked)
    {
      assert p !in Covered(a) - PickedCover(a, picked);
    }
  }

  /** Each pick covering a new point adds at least one point to the picks' cover. */
  lemma {:induction false} PickedCoverGrows(a: map<Vec2D, set<Vec2D>>, selected: seq<Vec2D>)
    requires forall i :: 0 <= i < |selected| ==> selected[i] in a
    requires PicksNew(a, selected)
    ensures |selected| <= |PickedCover(a, selected)|
    decreases |selected|
  {
    if |selected| > 0 {
      var n := |selected| - 1;
      var init := selected[..n];
      assert selected == init + [selected[n]];
      PrefixesKept(init, selected[n]);
      PickedCoverGrows(a, init);
      PickedCoverSnoc(a, init, selected[n]);
      var added := a[selected[n]] - PickedCover(a, init);
      assert added != {};
      assert PickedCover(a, selected) == PickedCover(a, init) + added;
      assert PickedCover(a, init) * added == {};
    }
  }

  /** The corrected loop never picks more centres than there are points to cover. */
  lemma CorrectedPicksBounded(a: map<Vec2D, set<Vec2D>>, selected: seq<Vec2D>)
    requires forall i :: 0 <= i < |selected| ==> selected[i] in a
    requires forall i :: 0 <= i < |selected| ==> a[selected[i]] - PickedCover(a, selected[..i]) != {}
    ensures |selected| <= |Covered(a)|
  {
    PickedCoverGrows(a, selected);
    PickedCoverWithin(a, selected);
    SubsetCard(PickedCover(a, selected), Covered(a));
  }

  lemma {:induction false} SubsetCard(s: set<Vec2D>, t: set<Vec2D>)
    requires s <= t
    ensures |s| <= |t|
  {
    assert t == s + (t - s);
  }
}

=== FILE: beacon_objective.dfy ===
/** The beacon objective of the newer snapshot (src/objective/beacon_objective.rs). Its
    candidate set type (src/objective/bayesian_set.rs) is not part of this model: the objective
    is generic over it, and `create` and `update` stand for that type's `new` and `update`. */
module BeaconObjectives {
  import opened Wrappers
  import opened Orderings
  import opened Vec2Ds
  import Text
  import HttpObjectives

  /** A beacon measurement: the beacon id, the position it was heard from, the signal reading
      and the delay in milliseconds. */
  datatype BeaconMeas = BeaconMeas(id: nat, pos: Vec2D, rssi: real, delayMs: int)

  datatype BeaconObjective<S> = BeaconObjective(id: nat, name: string, start: int, end: int,
                                                measurements: Option<S>)

  /** `new`: an objective that has heard nothing yet. */
  function New<S>(id: nat, name: string, start: int, end: int): (r: BeaconObjective<S>)
    ensures r.measurements.None?
    ensures r.id == id && r.name == name && r.start == start && r.end == end
  {
    BeaconObjective(id, name, start, end, None)
  }

  /** `append_measurement`: the first measurement creates the set, later ones update it. */
  function AppendMeasurement<S>(o: BeaconObjective<S>, meas: BeaconMeas,
                                create: BeaconMeas -> S, update: (S, BeaconMeas) -> S): (r: BeaconObjective<S>)
    ensures r.measurements.Some?
    ensures r.(measurements := None) == o.(measurements := None)
  {
    match o.measurements
    case Some(s) => o.(measurements := Some(update(s, meas)))
    case None => o.(measurements := Some(create(meas)))
  }

  /** Appending each of `ms` in turn. */
  function AppendAll<S>(o: BeaconObjective<S>, ms: seq<BeaconMeas>,
                        create: BeaconMeas -> S, update: (S, BeaconMeas) -> S): BeaconObjective<S>
    decreases |ms|
  {
    if |ms| == 0 then o else AppendAll(AppendMeasurement(o, ms[0], create, update), ms[1..], create, update)
  }

  /** `update` applied with each of `ms` in turn. */
  function UpdateAll<S>(s: S, ms: seq<BeaconMeas>, update: (S, BeaconMeas) -> S): S
    decreases |ms|
  {
    if |ms| == 0 then s else UpdateAll(update(s, ms[0]), ms[1..], update)
  }

  /** Once a set exists, appending is updating it with each measurement in turn. */
  lemma {:induction false} AppendAllUpdates<S>(o: BeaconObjective<S>, ms: seq<BeaconMeas>,
                                               create: BeaconMeas -> S, update: (S, BeaconMeas) -> S)
    requires o.measurements.Some?
    ensures AppendAll(o, ms, create, update) ==
      o.(measurements := Some(UpdateAll(o.measurements.value, ms, update)))
    decreases |ms|
  {
    if |ms| > 0 {
      AppendAllUpdates(AppendMeasurement(o, ms[0], create, update), ms[1..], create, update);
    }
  }

  /** A fresh objective's set is created by the first measurement and updated by the rest;
      nothing but the set changes. */
  lemma {:induction false} FirstAppendCreates<S>(id: nat, name: string, start: int, end: int, ms: seq<BeaconMeas>,
                                                 create: BeaconMeas -> S, update: (S, BeaconMeas) -> S)
    requires |ms| > 0
    ensures AppendAll(New<S>(id, name, start, end), ms, create, update) ==
      BeaconObjective(id, name, start, end, Some(UpdateAll(create(ms[0]), ms[1..], update)))
  {
    var o := New<S>(id, name, start, end);
    AppendAllUpdates(AppendMeasurement(o, ms[0], create, update), ms[1..], create, update);
  }

  /** `JsonDump::file_name`: `bo_{id}.json`. Different objectives get different files. */
  function FileName<S>(o: BeaconObjective<S>): (r: string)
    ensures |r| > 8 && r[..3] == "bo_" && r[|r| - 5..] == ".json"
    ensures Text.AllDigits(r[3..|r| - 5]) && Text.ParseDigits(r[3..|r| - 5]) == o.id
  {
    var digits := Text.NatToString(o.id);
    var r := "bo_" + digits + ".json";
    assert r[3..|r| - 5] == digits;
    Text.ParseNatToString(o.id);
    r
  }

  /** Two objectives share a file name exactly when they share an id. */
  lemma FileNameInjective<S>(a: BeaconObjective<S>, b: BeaconObjective<S>)
    ensures FileName(a) == FileName(b) <==> a.id == b.id
  {
  }

  /** `PartialEq`: objectives are equal when they end at the same time. */
  predicate Eq<S>(a: BeaconObjective<S>, b: BeaconObjective<S>)
  {
    a.end == b.end
  }

  /** `Ord::cmp`: by end time. */
  function Cmp<S>(a: BeaconObjective<S>, b: BeaconObjective<S>): Ordering
  {
    CmpInt(a.end, b.end)
  }

  /** `cmp` and `eq` agree, `cmp` reverses when its operands swap, and both look only at the
      end time. */
  lemma CmpAgreesWithEq<S>(a: BeaconObjective<S>, b: BeaconObjective<S>)
    ensures Cmp(a, b) == Equal <==> Eq(a, b)
    ensures Cmp(b, a) == Reverse(Cmp(a, b))
    ensures Cmp(a, b) == Less <==> a.end < b.end
  {
  }

  /** `From<http_handler::BeaconObjective>`: `new` on the announced fields. */
  function FromHttp<S>(obj: HttpObjectives.BeaconObjective): (r: BeaconObjective<S>)
    ensures r == New(obj.id, obj.name, obj.start, obj.end)
  {
    BeaconObjective(obj.id, obj.name, obj.start, obj.end, None)
  }
}

=== FILE: bitmap.dfy ===
/** The row-major coverage bitmap of the map (src/flight_control/common/bitmap.rs): one bit
    per map pixel, set where a picture has been taken. Widths are `u32`, indices `usize`.
    The camera's square radius comes from `CameraAngle::get_square_radius`, which is not
    part of this model, so it is the parameter `radius`; positions arrive already cast to
    integers. */
module Bitmaps {
  import opened Wrappers
  import opened IntArith
  import opened FlatIndex
  import Vec2Ds

  const U32_MOD: int := 0x1_0000_0000

  datatype Bitmap = Bitmap(width: nat, height: nat, data: seq<bool>)

  predicate Valid(b: Bitmap)
  {
    b.width * b.height < U32_MOD && |b.data| == b.width * b.height
  }

  /** `new`: `width * height` clear bits; a product beyond `u32` is an overflow panic. */
  function New(width: nat, height: nat): (r: Result<Bitmap>)
    requires width < U32_MOD && height < U32_MOD
    ensures r.Err? <==> width * height >= U32_MOD
    ensures r.Ok? ==> Valid(r.value) && r.value.width == width && r.value.height == height
    ensures r.Ok? ==> forall i :: 0 <= i < |r.value.data| ==> !r.value.data[i]
  {
    if width * height >= U32_MOD then Err("attempt to multiply with overflow")
    else Ok(Bitmap(width, height, seq(width * height, i => false)))
  }

  /** `from_mapsize`: one clear bit per pixel of the 21600 x 10800 map. */
  function FromMapSize(): (r: Bitmap)
    ensures Valid(r) && r.width == Vec2Ds.MAP_X && r.height == Vec2Ds.MAP_Y
    ensures |r.data| == 233_280_000 && forall i :: 0 <= i < |r.data| ==> !r.data[i]
  {
    assert Vec2Ds.MAP_X * Vec2Ds.MAP_Y == 233_280_000;
    New(Vec2Ds.MAP_X, Vec2Ds.MAP_Y).value
  }

  function Size(b: Bitmap): (r: nat)
    requires Valid(b)
    ensures r == |b.data| && r < U32_MOD
  {
    b.width * b.height
  }

  /** `get_bitmap_index`: row-major. */
  function Index(b: Bitmap, x: nat, y: nat): (r: nat)
    ensures x < b.width ==> r / b.width == y && r % b.width == x
  {
    if x < b.width then DivModUnique(y * b.width + x, b.width, y, x); y * b.width + x
    else y * b.width + x
  }

  /** Distinct pixels of the map have distinct indices, all inside the bitmap. */
  lemma IndexInjective(b: Bitmap, x1: nat, y1: nat, x2: nat, y2: nat)
    requires Valid(b) && x1 < b.width && x2 < b.width && y1 < b.height
    ensures Index(b, x1, y1) < |b.data|
    ensures Index(b, x1, y1) == Index(b, x2, y2) ==> x1 == x2 && y1 == y2
  {
    Index2InBounds(y1, x1, b.height, b.width);
    if Index(b, x1, y1) == Index(b, x2, y2) {
      Index2Injective(y1, x1, y2, x2, b.width);
    }
  }

  /** `check_pixel`: a bit outside the data reads as clear. */
  function CheckPixel(b: Bitmap, x: nat, y: nat): (r: bool)
    ensures r ==> Index(b, x, y) < |b.data|
  {
    var i := Index(b, x, y);
    i < |b.data| && b.data[i]
  }

  /** `set_pixel`: writing outside the data panics. */
  function SetPixel(b: Bitmap, x: nat, y: nat, state: bool): (r: Result<Bitmap>)
    ensures r.Err? <==> Index(b, x, y) >= |b.data|
    ensures r.Ok? ==> r.value.width == b.width && r.value.height == b.height && |r.value.data| == |b.data|
    ensures r.Ok? ==> CheckPixel(r.value, x, y) == state
    ensures r.Ok? ==> forall i :: 0 <= i < |b.data| && i != Index(b, x, y) ==> r.value.data[i] == b.data[i]
  {
    var i := Index(b, x, y);
    if i >= |b.data| then Err("index out of bounds") else Ok(b.(data := b.data[i := state]))
  }

  /** On the map, setting one pixel leaves every other pixel as it was. */
  lemma SetPixelKeepsOthers(b: Bitmap, x: nat, y: nat, state: bool, x2: nat, y2: nat)
    requires Valid(b) && x < b.width && y < b.height && x2 < b.width && (x2, y2) != (x, y)
    ensures SetPixel(b, x, y, state).Ok?
    ensures CheckPixel(SetPixel(b, x, y, state).value, x2, y2) == CheckPixel(b, x2, y2)
  {
    IndexInjective(b, x, y, x2, y2);
  }

  /** `is_photographed`: `"EDGE"` off the map, otherwise the pixel's bit. */
  function IsPhotographed(b: Bitmap, x: nat, y: nat): (r: Result<bool>)
    requires Valid(b)
    ensures r.Err? <==> x >= b.width || y >= b.height
    ensures r.Err? ==> r.msg == "EDGE"
    ensures r.Ok? ==> Index(b, x, y) < |b.data| && r.value == b.data[Index(b, x, y)]
  {
    if x >= b.width || y >= b.height then Err("EDGE")
    else
      IndexInjective(b, x, y, x, y);
      Ok(CheckPixel(b, x, y))
  }

  // ---- the square around a position, as index ranges ----

  /** Where each row of the square starts and ends, and whether `is_wrapped` holds. */
  datatype RowSpan = RowSpan(xStart: nat, xEnd: nat, wrapped: bool)

  function Span(b: Bitmap, x: int, radius: nat): (r: RowSpan)
    requires b.width > 0
    ensures r.xStart < b.width && r.xEnd < b.width
    ensures r.xStart == (x - radius) % b.width && r.xEnd == (x + radius) % b.width
  {
    var xs := Vec2Ds.WrapCoordinate(x - radius, b.width);
    var xe := Vec2Ds.WrapCoordinate(x + radius, b.width);
    RowSpan(xs, xe, Abs(xe - xs) > 2 * radius)
  }

  /** Columns a row of the square covers, read off the slices pushed for it. */
  predicate InSpan(sp: RowSpan, c: nat)
  {
    if sp.wrapped then sp.xStart <= c || c < sp.xEnd else sp.xStart <= c < sp.xEnd
  }

  /** The slices for one map row: one, or two when the row crosses the map's edge. */
  function RowSlices(b: Bitmap, sp: RowSpan, wy: nat): seq<(nat, nat)>
  {
    if sp.wrapped then [(Index(b, sp.xStart, wy), Index(b, 0, wy + 1)), (Index(b, 0, wy), Index(b, sp.xEnd, wy))]
    else [(Index(b, sp.xStart, wy), Index(b, sp.xEnd, wy))]
  }

  /** The loop over `count` rows from `y0`, each wrapped into the map. */
  function RowsFrom(b: Bitmap, sp: RowSpan, y0: int, count: nat): (r: seq<(nat, nat)>)
    requires b.height > 0
    ensures |r| == if sp.wrapped then 2 * count else count
  {
    if count == 0 then []
    else RowsFrom(b, sp, y0, count - 1) + RowSlices(b, sp, RowAt(y0, count - 1, b.height))
  }

  /** `get_region_slice_indices_from_center`. Wrapping by a zero width or height divides by
      zero. */
  function RegionSlices(b: Bitmap, x: int, y: int, radius: nat): (r: Result<seq<(nat, nat)>>)
    ensures r.Err? <==> b.width == 0 || (b.height == 0 && radius > 0)
    ensures r.Ok? ==> |r.value| == 2 * radius || |r.value| == 4 * radius
  {
    if b.width == 0 then Err("attempt to calculate the remainder with a divisor of zero")
    else if radius == 0 then Ok([])
    else if b.height == 0 then Err("attempt to calculate the remainder with a divisor of zero")
    else Ok(RowsFrom(b, Span(b, x, radius), y - radius, 2 * radius))
  }

  predicate InSlices(slices: seq<(nat, nat)>, i: nat)
  {
    exists j :: 0 <= j < |slices| && slices[j].0 <= i < slices[j].1
  }

  lemma InSlicesConcat(a: seq<(nat, nat)>, c: seq<(nat, nat)>, i: nat)
    ensures InSlices(a + c, i) <==> InSlices(a, i) || InSlices(c, i)
  {
    if InSlices(a + c, i) {
      var j :| 0 <= j < |a + c| && (a + c)[j].0 <= i < (a + c)[j].1;
      if j >= |a| {
        assert c[j - |a|] == (a + c)[j];
      }
    }
    if InSlices(a, i) {
      var j :| 0 <= j < |a| && a[j].0 <= i < a[j].1;
      assert (a + c)[j] == a[j];
    }
    if InSlices(c, i) {
      var j :| 0 <= j < |c| && c[j].0 <= i < c[j].1;
      var j' := j + |a|;
      assert (a + c)[j'] == c[j];
      assert 0 <= j' < |a + c| && (a + c)[j'].0 <= i < (a + c)[j'].1;
    }
  }

  /** An index range within row `wy` holds exactly the pixels of that row between the two
      columns. */
  lemma {:induction false} RowRange(b: Bitmap, wy: nat, xa: nat, xb: nat, i: nat)
    requires b.width > 0 && xa <= b.width && xb <= b.width
    ensures Index(b, xa, wy) <= i < Index(b, xb, wy) <==> i / b.width == wy && xa <= i % b.width < xb
  {
    var w := b.width;
    DivModUnique(i, w, i / w, i % w);
    if Index(b, xa, wy) <= i < Index(b, xb, wy) {
      Index2Decode(wy, i - wy * w, w);
    }
  }

  lemma RowSlicesCover(b: Bitmap, sp: RowSpan, wy: nat, i: nat)
    requires b.width > 0 && sp.xStart < b.width && sp.xEnd < b.width
    ensures InSlices(RowSlices(b, sp, wy), i) <==> i / b.width == wy && InSpan(sp, i % b.width)
  {
    var s := RowSlices(b, sp, wy);
    assert Index(b, 0, wy + 1) == Index(b, b.width, wy);
    RowRange(b, wy, sp.xStart, b.width, i);
    RowRange(b, wy, 0, sp.xEnd, i);
    RowRange(b, wy, sp.xStart, sp.xEnd, i);
    if i / b.width == wy && InSpan(sp, i % b.width) {
      if sp.wrapped && i % b.width < sp.xEnd {
        assert s[1].0 <= i < s[1].1;
      } else {
        assert s[0].0 <= i < s[0].1;
      }
    }
  }

  /** The map row the loop visits at step `k` from `y0`. */
  function RowAt(y0: int, k: nat, h: nat): (r: nat)
    requires h > 0
    ensures r < h && r == (y0 + k) % h
  {
    Vec2Ds.WrapCoordinate(y0 + k, h)
  }

  lemma ModAtMost(k: nat, h: nat)
    requires h > 0
    ensures k % h <= k
  {
    if k < h {
      ModInWindow(k, h, 0);
    }
  }

  lemma ReachedStep(y0: int, h: nat, row: nat, d: int, q: int)
    requires h > 0 && row < h && d == (row - y0) % h && q == (row - y0) / h
    ensures (y0 + d) % h == row
  {
    assert y0 + d == row + (-q) * h;
    ModShift(row, -q, h);
    ModInWindow(row, h, 0);
  }

  lemma ReachedBound(y0: int, h: nat, row: nat, k: nat, q: int)
    requires h > 0 && row < h && (y0 + k) % h == row && q == (y0 + k) / h
    ensures (row - y0) % h <= k
  {
    assert row - y0 == k + (-q) * h;
    ModShift(k, -q, h);
    ModAtMost(k, h);
  }

  /** Some step of `count` from `y0` wraps onto `row` exactly when `row` lies fewer than
      `count` rows after `y0`, going round the map. */
  lemma RowsReached(y0: int, count: nat, h: nat, row: nat)
    requires h > 0 && row < h
    ensures (exists k :: 0 <= k < count && RowAt(y0, k, h) == row) <==> (row - y0) % h < count
  {
    var d := (row - y0) % h;
    if d < count {
      ReachedStep(y0, h, row, d, (row - y0) / h);
      assert RowAt(y0, d, h) == row;
    }
    if k :| 0 <= k < count && RowAt(y0, k, h) == row {
      ReachedBound(y0, h, row, k, (y0 + k) / h);
    }
  }

  lemma {:induction false} RowsFromCover(b: Bitmap, sp: RowSpan, y0: int, count: nat, i: nat)
    requires b.width > 0 && b.height > 0 && sp.xStart < b.width && sp.xEnd < b.width
    ensures InSlices(RowsFrom(b, sp, y0, count), i) <==>
      (exists k :: 0 <= k < count && RowAt(y0, k, b.height) == i / b.width) && InSpan(sp, i % b.width)
  {
    if count > 0 {
      var wy := RowAt(y0, count - 1, b.height);
      InSlicesConcat(RowsFrom(b, sp, y0, count - 1), RowSlices(b, sp, wy), i);
      RowsFromCover(b, sp, y0, count - 1, i);
      RowSlicesCover(b, sp, wy, i);
      if k :| 0 <= k < count && RowAt(y0, k, b.height) == i / b.width {
        if k < count - 1 {
          assert exists k' :: 0 <= k' < count - 1 && RowAt(y0, k', b.height) == i / b.width;
        }
      }
    }
  }

  /** The column arithmetic of one row: with `xs` and `xe` the wrapped ends of a window of
      `2 * r` columns from `a`, the `is_wrapped` test is exactly "the window crosses the
      edge". */
  lemma {:induction false} WindowColumns(w: nat, r: nat, a: int, xs: nat, xe: nat, c: nat)
    requires 0 < w && 4 * r < w && c < w && xs == a % w && xe == (a + 2 * r) % w
    ensures (if Abs(xe - xs) > 2 * r then xs <= c || c < xe else xs <= c < xe) <==> (c - a) % w < 2 * r
    ensures Abs(xe - xs) <= 2 * r ==> xs <= xe
    ensures Abs(xe - xs) > 2 * r ==> xe < xs
  {
    ModAddMod(a, 2 * r, w);
    ModAddMod(a, c, w);
    WindowEnd(w, r, xs, xe);
    WindowOffset(w, xs, c);
  }

  lemma WindowEnd(w: nat, r: nat, xs: nat, xe: nat)
    requires 0 < w && 4 * r < w && xs < w && xe == (xs + 2 * r) % w
    ensures xs + 2 * r < w ==> xe == xs + 2 * r
    ensures xs + 2 * r >= w ==> xe == xs + 2 * r - w
  {
    if xs + 2 * r < w {
      ModInWindow(xs + 2 * r, w, 0);
    } else {
      ModInWindow(xs + 2 * r, w, 1);
    }
  }

  lemma WindowOffset(w: nat, xs: nat, c: nat)
    requires 0 < w && xs < w && c < w
    ensures c >= xs ==> (c - xs) % w == c - xs
    ensures c < xs ==> (c - xs) % w == c - xs + w
  {
    if c >= xs {
      ModInWindow(c - xs, w, 0);
    } else {
      ModInWindow(c - xs, w, -1);
    }
  }

  /** For a square narrower than a quarter of the map, `is_wrapped` is exactly "the row
      crosses the edge", and the covered columns are the `2 * radius` columns from
      `x - radius` round the map. */
  lemma SpanColumns(b: Bitmap, x: int, radius: nat, c: nat)
    requires 0 < b.width && 4 * radius < b.width && c < b.width
    ensures InSpan(Span(b, x, radius), c) <==> (c - (x - radius)) % b.width < 2 * radius
    ensures !Span(b, x, radius).wrapped ==> Span(b, x, radius).xStart <= Span(b, x, radius).xEnd
    ensures Span(b, x, radius).wrapped ==> Span(b, x, radius).xEnd < Span(b, x, radius).xStart
  {
    var sp := Span(b, x, radius);
    assert x + radius == (x - radius) + 2 * radius;
    WindowColumns(b.width, radius, x - radius, sp.xStart, sp.xEnd, c);
  }

  /** The pixels in the square of side `2 * radius` whose top-left corner is
      `(x - radius, y - radius)`, taken round the map in both directions. */
  predicate InSquare(b: Bitmap, x: int, y: int, radius: nat, i: nat)
    requires b.width > 0 && b.height > 0
  {
    (i / b.width - (y - radius)) % b.height < 2 * radius && (i % b.width - (x - radius)) % b.width < 2 * radius
  }

  /** The slices cover exactly the square. */
  lemma RegionSlicesCoverSquare(b: Bitmap, x: int, y: int, radius: nat, i: nat)
    requires Valid(b) && b.height > 0 && 4 * radius < b.width && i < |b.data|
    ensures RegionSlices(b, x, y, radius).Ok?
    ensures InSlices(RegionSlices(b, x, y, radius).value, i) <==> InSquare(b, x, y, radius, i)
  {
    Index2Encode(i, b.height, b.width);
    var row := i / b.width;
    SpanColumns(b, x, radius, i % b.width);
    RowsReached(y - radius, 2 * radius, b.height, row);
    if radius > 0 {
      RowsFromCover(b, Span(b, x, radius), y - radius, 2 * radius, i);
    }
  }

  /** Every slice of a row ends inside the bitmap. */
  predicate SlicesEndInside(slices: seq<(nat, nat)>, len: nat)
  {
    forall j :: 0 <= j < |slices| ==> slices[j].1 <= len
  }

  /** Every slice is a well-formed range. */
  predicate SlicesOrdered(slices: seq<(nat, nat)>)
  {
    forall j :: 0 <= j < |slices| ==> slices[j].0 <= slices[j].1
  }

  lemma RowSlicesShape(b: Bitmap, sp: RowSpan, wy: nat)
    requires Valid(b) && wy < b.height && sp.xStart < b.width && sp.xEnd < b.width
    ensures SlicesEndInside(RowSlices(b, sp, wy), |b.data|)
    ensures SlicesOrdered(RowSlices(b, sp, wy)) <==> sp.wrapped || sp.xStart <= sp.xEnd
  {
    Index2InBounds(wy, sp.xEnd, b.height, b.width);
    MulLeRight(wy + 1, b.height, b.width);
    assert Index(b, 0, wy + 1) == wy * b.width + b.width;
    var row := RowSlices(b, sp, wy);
    if sp.wrapped {
      assert row[0].0 <= row[0].1 && row[1].0 <= row[1].1;
    } else {
      assert row == [(Index(b, sp.xStart, wy), Index(b, sp.xEnd, wy))];
      assert row[0].0 <= row[0].1 <==> sp.xStart <= sp.xEnd;
    }
  }

  lemma {:induction false} RowsFromShape(b: Bitmap, sp: RowSpan, y0: int, count: nat)
    requires Valid(b) && b.height > 0 && sp.xStart < b.width && sp.xEnd < b.width
    ensures SlicesEndInside(RowsFrom(b, sp, y0, count), |b.data|)
    ensures sp.wrapped || sp.xStart <= sp.xEnd ==> SlicesOrdered(RowsFrom(b, sp, y0, count))
  {
    if count > 0 {
      RowsFromShape(b, sp, y0, count - 1);
      var prev := RowsFrom(b, sp, y0, count - 1);
      var row := RowSlices(b, sp, RowAt(y0, count - 1, b.height));
      RowSlicesShape(b, sp, RowAt(y0, count - 1, b.height));
      assert forall j :: 0 <= j < |row| ==> (prev + row)[|prev| + j] == row[j];
    }
  }

  // ---- writing and counting the square ----

  /** Ends past the data are cut back to its length, as `region_captured` does. */
  function ClampEnd(slice: (nat, nat), len: nat): (nat, nat)
  {
    (slice.0, if slice.1 >= len then len else slice.1)
  }

  /** Sets every bit of every slice to `setTo`, in order; a slice starting after its
      clamped end makes `get_mut` fail, which is a panic. */
  function FillSlices(data: seq<bool>, slices: seq<(nat, nat)>, setTo: bool): (r: Result<seq<bool>>)
    ensures r.Err? <==> exists j :: 0 <= j < |slices| && ClampEnd(slices[j], |data|).0 > ClampEnd(slices[j], |data|).1
    ensures r.Ok? ==> |r.value| == |data|
    ensures r.Ok? ==> forall i :: 0 <= i < |data| ==>
      r.value[i] == if InSlices(slices, i) then setTo else data[i]
    decreases |slices|
  {
    if slices == [] then Ok(data)
    else
      var sl := ClampEnd(slices[0], |data|);
      if sl.0 > sl.1 then Err("slice index starts after its end")
      else
        var filled := data[..sl.0] + seq(sl.1 - sl.0, _ => setTo) + data[sl.1..];
        var rest := FillSlices(filled, slices[1..], setTo);
        FillSlicesStep(data, slices, setTo, filled, rest);
        rest
  }

  lemma FillSlicesStep(data: seq<bool>, slices: seq<(nat, nat)>, setTo: bool, filled: seq<bool>, rest: Result<seq<bool>>)
    requires slices != []
    requires ClampEnd(slices[0], |data|).0 <= ClampEnd(slices[0], |data|).1
    requires var sl := ClampEnd(slices[0], |data|);
      filled == data[..sl.0] + seq(sl.1 - sl.0, _ => setTo) + data[sl.1..]
    requires rest.Err? <==> (exists j :: 0 <= j < |slices[1..]| && ClampEnd(slices[1..][j], |filled|).0 > ClampEnd(slices[1..][j], |filled|).1)
    requires rest.Ok? ==> |rest.value| == |filled| && forall i :: 0 <= i < |filled| ==>
      rest.value[i] == if InSlices(slices[1..], i) then setTo else filled[i]
    ensures rest.Err? <==> exists j :: 0 <= j < |slices| && ClampEnd(slices[j], |data|).0 > ClampEnd(slices[j], |data|).1
    ensures rest.Ok? ==> |rest.value| == |data| && forall i :: 0 <= i < |data| ==>
      rest.value[i] == if InSlices(slices, i) then setTo else data[i]
  {
    var sl := ClampEnd(slices[0], |data|);
    assert |filled| == |data|;
    assert slices == [slices[0]] + slices[1..];
    forall j | 0 <= j < |slices[1..]|
      ensures slices[1..][j] == slices[j + 1]
    {
    }
    if exists j :: 0 <= j < |slices| && ClampEnd(slices[j], |data|).0 > ClampEnd(slices[j], |data|).1 {
      var j :| 0 <= j < |slices| && ClampEnd(slices[j], |data|).0 > ClampEnd(slices[j], |data|).1;
      assert j > 0;
      assert ClampEnd(slices[1..][j - 1], |filled|).0 > ClampEnd(slices[1..][j - 1], |filled|).1;
    }
    if rest.Ok? {
      forall i | 0 <= i < |data|
        ensures rest.value[i] == if InSlices(slices, i) then setTo else data[i]
      {
        InSlicesConcat([slices[0]], slices[1..], i);
        if sl.0 <= i < sl.1 {
          assert filled[i] == setTo;
          assert InSlices([slices[0]], i);
        } else {
          assert filled[i] == data[i];
          assert !InSlices([slices[0]], i);
        }
      }
    }
  }

  /** `region_captured`: every pixel of the slices takes `setTo`. */
  function RegionCaptured(b: Bitmap, x: int, y: int, radius: nat, setTo: bool): (r: Result<Bitmap>)
    ensures r.Ok? ==> r.value.width == b.width && r.value.height == b.height && |r.value.data| == |b.data|
    ensures r.Ok? ==> RegionSlices(b, x, y, radius).Ok? && forall i :: 0 <= i < |b.data| ==>
      r.value.data[i] == if InSlices(RegionSlices(b, x, y, radius).value, i) then setTo else b.data[i]
  {
    var slices := RegionSlices(b, x, y, radius);
    if slices.Err? then Err(slices.msg)
    else
      var filled := FillSlices(b.data, slices.value, setTo);
      if filled.Err? then Err(filled.msg) else Ok(b.(data := filled.value))
  }

  /** For a square narrower than a quarter of the map, `region_captured` succeeds and sets
      exactly the pixels of the square. */
  lemma RegionCapturedSetsSquare(b: Bitmap, x: int, y: int, radius: nat, setTo: bool)
    requires Valid(b) && b.height > 0 && 4 * radius < b.width
    ensures RegionCaptured(b, x, y, radius, setTo).Ok?
    ensures forall i :: 0 <= i < |b.data| ==>
      RegionCaptured(b, x, y, radius, setTo).value.data[i] == (if InSquare(b, x, y, radius, i) then setTo else b.data[i])
  {
    var slices := RegionSlices(b, x, y, radius).value;
    if radius > 0 {
      var sp := Span(b, x, radius);
      SpanColumns(b, x, radius, 0);
      RowsFromShape(b, sp, y - radius, 2 * radius);
    }
    forall j | 0 <= j < |slices|
      ensures ClampEnd(slices[j], |b.data|) == slices[j]
    {
    }
    forall i | 0 <= i < |b.data|
      ensures InSlices(slices, i) <==> InSquare(b, x, y, radius, i)
    {
      RegionSlicesCoverSquare(b, x, y, radius, i);
    }
  }

  /** Number of set bits in `data[s..e]`. */
  function CountOnes(q: seq<bool>): (r: nat)
    ensures r <= |q|
  {
    if q == [] then 0 else (if q[0] then 1 else 0) + CountOnes(q[1..])
  }

  predicate SliceValid(slice: (nat, nat), len: nat) { slice.0 <= slice.1 <= len }

  predicate AllSlicesValid(slices: seq<(nat, nat)>, len: nat)
  {
    forall j :: 0 <= j < |slices| ==> SliceValid(slices[j], len)
  }

  function TotalOnes(data: seq<bool>, slices: seq<(nat, nat)>): nat
    requires forall j :: 0 <= j < |slices| ==> SliceValid(slices[j], |data|)
  {
    if slices == [] then 0
    else
      assert SliceValid(slices[0], |data|);
      assert forall j :: 0 <= j < |slices[1..]| ==> slices[1..][j] == slices[j + 1];
      CountOnes(data[slices[0].0..slices[0].1]) + TotalOnes(data, slices[1..])
  }

  /** The loop of `enough_ones_in_square` with `px` ones counted so far: it answers as soon
      as the count reaches `min`; a slice outside the data panics. */
  function EnoughFrom(data: seq<bool>, slices: seq<(nat, nat)>, px: nat, min: nat): (r: Result<bool>)
    ensures (forall j :: 0 <= j < |slices| ==> SliceValid(slices[j], |data|)) ==>
      r == Ok(|slices| > 0 && px + TotalOnes(data, slices) >= min)
    ensures (forall j :: 0 <= j < |slices| ==> !SliceValid(slices[j], |data|)) && |slices| > 0 ==> r.Err?
    decreases |slices|
  {
    if slices == [] then Ok(false)
    else if !SliceValid(slices[0], |data|) then Err("slice index out of range")
    else
      var px' := px + CountOnes(data[slices[0].0..slices[0].1]);
      if px' >= min then Ok(true)
      else
        assert forall j :: 0 <= j < |slices[1..]| ==> slices[1..][j] == slices[j + 1];
        EnoughFrom(data, slices[1..], px', min)
  }

  /** `enough_ones_in_square`. */
  function EnoughOnesInSquare(b: Bitmap, x: int, y: int, radius: nat, min: nat): (r: Result<bool>)
    ensures r.Ok? ==> RegionSlices(b, x, y, radius).Ok?
    ensures RegionSlices(b, x, y, radius).Ok? && (var s := RegionSlices(b, x, y, radius).value;
      forall j :: 0 <= j < |s| ==> SliceValid(s[j], |b.data|)) ==>
      r == Ok(radius > 0 && TotalOnes(b.data, RegionSlices(b, x, y, radius).value) >= min)
  {
    var slices := RegionSlices(b, x, y, radius);
    if slices.Err? then Err(slices.msg) else EnoughFrom(b.data, slices.value, 0, min)
  }

  // ---- what `enough_ones_in_square` counts ----

  /** The set bits with index in `[lo, hi)`. */
  ghost function OnesIn(data: seq<bool>, lo: nat, hi: nat): set<nat>
  {
    set i: nat | lo <= i < hi && i < |data| && data[i]
  }

  /** The set bits some slice covers. */
  ghost function SlicesOnes(data: seq<bool>, slices: seq<(nat, nat)>): set<nat>
  {
    set i: nat | i < |data| && data[i] && InSlices(slices, i)
  }

  /** `count_ones` of a range is the number of set bits in it. */
  lemma {:induction false} CountOnesIsCardinality(data: seq<bool>, lo: nat, hi: nat)
    requires lo <= hi <= |data|
    ensures CountOnes(data[lo..hi]) == |OnesIn(data, lo, hi)|
    decreases hi - lo
  {
    if lo < hi {
      CountOnesIsCardinality(data, lo + 1, hi);
      assert data[lo..hi][1..] == data[lo + 1..hi];
      var head := if data[lo] then {lo} else {};
      assert OnesIn(data, lo, hi) == head + OnesIn(data, lo + 1, hi);
      assert head * OnesIn(data, lo + 1, hi) == {};
    } else {
      assert OnesIn(data, lo, hi) == {};
    }
  }

  lemma {:induction false} TotalOnesAppend(data: seq<bool>, a: seq<(nat, nat)>, c: seq<(nat, nat)>)
    requires forall j :: 0 <= j < |a| ==> SliceValid(a[j], |data|)
    requires forall j :: 0 <= j < |c| ==> SliceValid(c[j], |data|)
    ensures forall j :: 0 <= j < |a + c| ==> SliceValid((a + c)[j], |data|)
    ensures TotalOnes(data, a + c) == TotalOnes(data, a) + TotalOnes(data, c)
  {
    assert forall j :: 0 <= j < |a + c| ==> (a + c)[j] == if j < |a| then a[j] else c[j - |a|];
    if a != [] {
      assert (a + c)[1..] == a[1..] + c;
      assert forall j :: 0 <= j < |a[1..]| ==> a[1..][j] == a[j + 1];
      TotalOnesAppend(data, a[1..], c);
    } else {
      assert a + c == c;
    }
  }

  lemma SlicesOnesConcat(data: seq<bool>, a: seq<(nat, nat)>, c: seq<(nat, nat)>)
    ensures SlicesOnes(data, a + c) == SlicesOnes(data, a) + SlicesOnes(data, c)
  {
    forall i: nat
      ensures i in SlicesOnes(data, a + c) <==> i in SlicesOnes(data, a) + SlicesOnes(data, c)
    {
      InSlicesConcat(a, c, i);
    }
  }

  lemma OneSliceCount(data: seq<bool>, s0: (nat, nat))
    requires SliceValid(s0, |data|)
    ensures SlicesOnes(data, [s0]) == OnesIn(data, s0.0, s0.1)
    ensures TotalOnes(data, [s0]) == |SlicesOnes(data, [s0])|
  {
    CountOnesIsCardinality(data, s0.0, s0.1);
    assert [s0][1..] == [];
    assert SlicesOnes(data, [s0]) == OnesIn(data, s0.0, s0.1) by {
      forall i: nat | i in OnesIn(data, s0.0, s0.1)
        ensures InSlices([s0], i)
      {
        assert [s0][0].0 <= i < [s0][0].1;
      }
      forall i: nat | i in SlicesOnes(data, [s0])
        ensures i in OnesIn(data, s0.0, s0.1)
      {
        var j :| 0 <= j < 1 && [s0][j].0 <= i < [s0][j].1;
      }
    }
  }

  /** Counting two lists of slices that share no set bit adds their counts. */
  lemma DisjointCount(data: seq<bool>, a: seq<(nat, nat)>, c: seq<(nat, nat)>)
    requires AllSlicesValid(a, |data|) && AllSlicesValid(c, |data|)
    requires TotalOnes(data, a) == |SlicesOnes(data, a)| && TotalOnes(data, c) == |SlicesOnes(data, c)|
    requires SlicesOnes(data, a) * SlicesOnes(data, c) == {}
    ensures AllSlicesValid(a + c, |data|)
    ensures TotalOnes(data, a + c) == |SlicesOnes(data, a + c)|
  {
    TotalOnesAppend(data, a, c);
    SlicesOnesConcat(data, a, c);
    var sa, sc := SlicesOnes(data, a), SlicesOnes(data, c);
    assert |sa + sc| == |sa| + |sc|;
  }

  /** Two slices, the second ending before the first starts, count each set bit once. */
  lemma TwoSlicesCount(data: seq<bool>, s0: (nat, nat), s1: (nat, nat))
    requires SliceValid(s0, |data|) && SliceValid(s1, |data|) && s1.1 <= s0.0
    ensures TotalOnes(data, [s0, s1]) == |SlicesOnes(data, [s0, s1])|
  {
    OneSliceCount(data, s0);
    OneSliceCount(data, s1);
    assert OnesIn(data, s0.0, s0.1) * OnesIn(data, s1.0, s1.1) == {};
    DisjointCount(data, [s0], [s1]);
    assert [s0] + [s1] == [s0, s1];
  }

  /** A row's one or two slices count each of its set bits once, since a wrapped row's
      second slice ends before its first one starts. */
  lemma RowCount(b: Bitmap, sp: RowSpan, wy: nat)
    requires Valid(b) && wy < b.height && sp.xStart < b.width && sp.xEnd < b.width
    requires if sp.wrapped then sp.xEnd < sp.xStart else sp.xStart <= sp.xEnd
    ensures AllSlicesValid(RowSlices(b, sp, wy), |b.data|)
    ensures TotalOnes(b.data, RowSlices(b, sp, wy)) == |SlicesOnes(b.data, RowSlices(b, sp, wy))|
  {
    RowSlicesShape(b, sp, wy);
    var row := RowSlices(b, sp, wy);
    if sp.wrapped {
      assert row[1].1 <= row[0].0;
      TwoSlicesCount(b.data, row[0], row[1]);
      assert row == [row[0], row[1]];
    } else {
      OneSliceCount(b.data, row[0]);
      assert row == [row[0]];
    }
  }

  /** Fewer than `h` steps from `y0` visit distinct rows. */
  lemma RowAtDistinct(y0: int, k1: nat, k2: nat, h: nat)
    requires 0 < h && k1 < k2 < h
    ensures RowAt(y0, k1, h) != RowAt(y0, k2, h)
  {
    var r, q := (y0 + k1) % h, (y0 + k1) / h;
    var qh := q * h;
    assert y0 + k1 == qh + r && 0 <= r < h;
    var d := k2 - k1;
    if r + d < h {
      ModInWindow(y0 + k2, h, q);
      assert (y0 + k2) % h == r + d;
    } else {
      assert (q + 1) * h == qh + h;
      ModInWindow(y0 + k2, h, q + 1);
      assert (y0 + k2) % h == r + d - h;
    }
  }

  /** Over at most `height` rows, the slices count each covered set bit once. */
  lemma {:induction false} RowsFromCount(b: Bitmap, sp: RowSpan, y0: int, count: nat)
    requires Valid(b) && 0 < b.height && count <= b.height && sp.xStart < b.width && sp.xEnd < b.width
    requires if sp.wrapped then sp.xEnd < sp.xStart else sp.xStart <= sp.xEnd
    ensures AllSlicesValid(RowsFrom(b, sp, y0, count), |b.data|)
    ensures TotalOnes(b.data, RowsFrom(b, sp, y0, count)) == |SlicesOnes(b.data, RowsFrom(b, sp, y0, count))|
  {
    if count == 0 {
      assert SlicesOnes(b.data, []) == {};
    } else {
      RowsFromCount(b, sp, y0, count - 1);
      RowsFromStep(b, sp, y0, count - 1);
    }
  }

  /** One more row keeps the count exact. */
  lemma RowsFromStep(b: Bitmap, sp: RowSpan, y0: int, count: nat)
    requires Valid(b) && 0 < b.height && count < b.height && sp.xStart < b.width && sp.xEnd < b.width
    requires if sp.wrapped then sp.xEnd < sp.xStart else sp.xStart <= sp.xEnd
    requires AllSlicesValid(RowsFrom(b, sp, y0, count), |b.data|)
    requires TotalOnes(b.data, RowsFrom(b, sp, y0, count)) == |SlicesOnes(b.data, RowsFrom(b, sp, y0, count))|
    ensures AllSlicesValid(RowsFrom(b, sp, y0, count + 1), |b.data|)
    ensures TotalOnes(b.data, RowsFrom(b, sp, y0, count + 1)) == |SlicesOnes(b.data, RowsFrom(b, sp, y0, count + 1))|
  {
    var prev := RowsFrom(b, sp, y0, count);
    var row := RowSlices(b, sp, RowAt(y0, count, b.height));
    assert RowsFrom(b, sp, y0, count + 1) == prev + row;
    RowCount(b, sp, RowAt(y0, count, b.height));
    RowsDisjoint(b, sp, y0, count);
    DisjointCount(b.data, prev, row);
  }

  /** The rows visited so far hold none of the next row's bits. */
  lemma RowsDisjoint(b: Bitmap, sp: RowSpan, y0: int, count: nat)
    requires Valid(b) && 0 < b.height && count < b.height && sp.xStart < b.width && sp.xEnd < b.width
    ensures SlicesOnes(b.data, RowsFrom(b, sp, y0, count)) * SlicesOnes(b.data, RowSlices(b, sp, RowAt(y0, count, b.height))) == {}
  {
    var wy := RowAt(y0, count, b.height);
    forall i | i in SlicesOnes(b.data, RowsFrom(b, sp, y0, count)) * SlicesOnes(b.data, RowSlices(b, sp, wy))
      ensures false
    {
      RowSlicesCover(b, sp, wy, i);
      RowsFromCover(b, sp, y0, count, i);
      var k :| 0 <= k < count && RowAt(y0, k, b.height) == i / b.width;
      RowAtDistinct(y0, k, count, b.height);
    }
  }

  /** The set pixels in the square. */
  ghost function OnesInSquare(b: Bitmap, x: int, y: int, radius: nat): set<nat>
    requires b.width > 0 && b.height > 0
  {
    set i: nat | i < |b.data| && b.data[i] && InSquare(b, x, y, radius, i)
  }

  /** For a square narrower than a quarter of the map and no taller than the map,
      `enough_ones_in_square` answers whether the square holds at least `min` set pixels
      (and is not empty). A taller square revisits rows and counts their pixels again. */
  lemma EnoughOnesInSquareCounts(b: Bitmap, x: int, y: int, radius: nat, min: nat)
    requires Valid(b) && 0 < b.height && 4 * radius < b.width && 2 * radius <= b.height
    ensures EnoughOnesInSquare(b, x, y, radius, min) == Ok(radius > 0 && |OnesInSquare(b, x, y, radius)| >= min)
  {
    if radius > 0 {
      var sp := Span(b, x, radius);
      var slices := RowsFrom(b, sp, y - radius, 2 * radius);
      SpanColumns(b, x, radius, 0);
      RowsFromCount(b, sp, y - radius, 2 * radius);
      assert SlicesOnes(b.data, slices) == OnesInSquare(b, x, y, radius) by {
        forall i: nat | i < |b.data|
          ensures InSlices(slices, i) <==> InSquare(b, x, y, radius, i)
        {
          RegionSlicesCoverSquare(b, x, y, radius, i);
        }
      }
    }
  }
}

=== FILE: camera_state.dfy ===
/** The camera lens settings and their lower-case string codec
    (src/flight_control/camera_state.rs). */
module CameraStates {
  import opened Text

  datatype CameraAngle = Narrow | Normal | Wide

  /** `From<&str>`: case-insensitive; any unrecognised name becomes `Normal`. */
  function FromStr(s: string): (r: CameraAngle)
    ensures r == Normal <==> ToLower(s) !in {"narrow", "wide"}
    ensures r != Normal ==> ToStr(r) == ToLower(s)
  {
    match ToLower(s)
    case "narrow" => Narrow
    case "normal" => Normal
    case "wide" => Wide
    case _ => Normal
  }

  /** `Into<String>`: the lower-case variant name. */
  function ToStr(a: CameraAngle): string
  {
    match a
    case Narrow => "narrow"
    case Normal => "normal"
    case Wide => "wide"
  }

  /** `Into` followed by `From` is the identity for all three angles. */
  lemma RoundTrip(a: CameraAngle)
    ensures FromStr(ToStr(a)) == a
    ensures ToLower(ToStr(a)) == ToStr(a)
  {
    var s := ToStr(a);
    assert ToLower(s) == s;
  }

  /** Parsing ignores case. */
  lemma FromStrIgnoresCase(s: string)
    ensures FromStr(s) == FromStr(ToLower(s))
  {
    ToLowerIdempotent(s);
  }
}

=== FILE: console_messages.dfy ===
/** Protobuf message types of the operator console link
    (src/console_communication/melvin_messages.rs): the satellite-state enumeration with its
    protobuf name codec, and the full-size image message. */
module ConsoleMessages {
  import opened Wrappers
  import opened Text

  /** `MapImage::THUMBNAIL_SCALE_FACTOR` (src/flight_control/imaging/map_image.rs:195). */
  const THUMBNAIL_SCALE_FACTOR: int := 25
  const MAP_WIDTH: int := 21600
  const MAP_HEIGHT: int := 10800

  datatype SatelliteState = None | Deployment | Safe | Communication | Charge | Acquisition | Transition

  /** The `#[repr(i32)]` discriminant. */
  function Discriminant(st: SatelliteState): (d: int)
    ensures 0 <= d <= 6
    ensures st == SatelliteState.None <==> d == 0
    ensures st == Deployment <==> d == 1
    ensures st == Safe <==> d == 2
    ensures st == Communication <==> d == 3
    ensures st == Charge <==> d == 4
    ensures st == Acquisition <==> d == 5
    ensures st == Transition <==> d == 6
  {
    match st
    case None => 0
    case Deployment => 1
    case Safe => 2
    case Communication => 3
    case Charge => 4
    case Acquisition => 5
    case Transition => 6
  }

  /** Distinct states have distinct discriminants. */
  lemma DiscriminantInjective(a: SatelliteState, b: SatelliteState)
    requires Discriminant(a) == Discriminant(b)
    ensures a == b
  {
  }

  /** The protobuf field name of a state. */
  function AsStrName(st: SatelliteState): (r: string)
    ensures FromStrName(r) == Some(st)
  {
    match st
    case None => "none"
    case Deployment => "deployment"
    case Safe => "safe"
    case Communication => "communication"
    case Charge => "charge"
    case Acquisition => "acquisition"
    case Transition => "transition"
  }

  const Names: set<string> := {"none", "deployment", "safe", "communication", "charge", "acquisition", "transition"}

  /** Case-sensitive lookup of a protobuf field name; anything else is `None`. */
  function FromStrName(s: string): (r: Option<SatelliteState>)
    ensures r.Some? <==> s in Names
  {
    match s
    case "none" => Some(SatelliteState.None)
    case "deployment" => Some(Deployment)
    case "safe" => Some(Safe)
    case "communication" => Some(Communication)
    case "charge" => Some(Charge)
    case "acquisition" => Some(Acquisition)
    case "transition" => Some(Transition)
    case _ => Option.None
  }

  /** Every recognised name is the name of the state it parses to. */
  lemma FromStrNameLeftInverse(s: string)
    requires FromStrName(s).Some?
    ensures AsStrName(FromStrName(s).value) == s
  {
  }

  /** Every field name is lower case. */
  lemma NameIsLowerCase(st: SatelliteState)
    ensures ToLower(AsStrName(st)) == AsStrName(st)
  {
    var s := AsStrName(st);
    assert ToLower(s) == s;
  }

  /** Lookup is case-sensitive: a name holding an upper-case letter is never recognised. */
  lemma UpperCaseNameRejected(s: string, i: nat)
    requires i < |s| && 'A' <= s[i] <= 'Z'
    ensures FromStrName(s) == Option.None
  {
    if FromStrName(s).Some? {
      var st := FromStrName(s).value;
      assert AsStrName(st) == s;
      NameIsLowerCase(st);
      assert false;
    }
  }

  datatype Image = Image(width: int, height: int, offsetX: int, offsetY: int, data: seq<bv8>)

  /** A whole-map thumbnail message: zero offsets, the map size divided by the thumbnail
      scale factor, and the encoded bytes passed through. */
  function NewFullSize(encoded: seq<bv8>): (r: Image)
    ensures r.offsetX == 0 && r.offsetY == 0 && r.data == encoded
    ensures r.width * THUMBNAIL_SCALE_FACTOR == MAP_WIDTH
    ensures r.height * THUMBNAIL_SCALE_FACTOR == MAP_HEIGHT
  {
    Image(MAP_WIDTH / THUMBNAIL_SCALE_FACTOR, MAP_HEIGHT / THUMBNAIL_SCALE_FACTOR, 0, 0, encoded)
  }
}

=== FILE: cycle_state.dfy ===
/** Bookkeeping of one imaging cycle (src/flight_control/imaging/cycle_state.rs): which
    stretches of the orbit, in seconds from a mark, were covered by pictures. Wall-clock
    times are integer milliseconds passed in by the caller, and `num_seconds` truncates
    toward zero, as chrono's does. */
module CycleStates {
  import opened Wrappers
  import opened IntArith

  const MILLIS_PER_SEC: int := 1000

  datatype CycleState = CycleState(
    lastMarkIndex: int,
    lastMarkTime: int,
    lastPic: Option<int>,
    lastImageFlag: bool,
    doneRanges: seq<(int, int)>,
    overlapSecs: int)

  /** Whole seconds of a span of milliseconds, truncated toward zero. */
  function NumSeconds(millis: int): int { TDiv(millis, MILLIS_PER_SEC) }

  /** `init_cycle`: the overlap is half the maximal picture spacing, floored, and the mark
      is moved back by it, both in orbit index and in time. */
  function InitCycle(imgMaxDt: real, startIndex: int, now: int): (r: CycleState)
    ensures r.doneRanges == [] && r.lastPic.None? && !r.lastImageFlag
    ensures r.overlapSecs == imgMaxDt.Floor / 2
    ensures r.lastMarkIndex == startIndex - imgMaxDt.Floor / 2
    ensures r.lastMarkTime == now - r.overlapSecs * MILLIS_PER_SEC
  {
    var overlap := (imgMaxDt.Floor as real / 2.0).Floor;
    assert overlap == imgMaxDt.Floor / 2;
    CycleState(startIndex - overlap, now - overlap * MILLIS_PER_SEC, None, false, [], overlap)
  }

  /** `get_p_secs`: seconds from the mark to the last good picture, plus the overlap;
      zero when no picture succeeded since the mark. */
  function PSecs(s: CycleState): (r: int)
    ensures s.lastPic.None? ==> r == 0
    ensures s.lastPic.Some? && s.lastPic.value - s.lastMarkTime + s.overlapSecs * MILLIS_PER_SEC >= 0 ==>
      0 <= r * MILLIS_PER_SEC <= s.lastPic.value - s.lastMarkTime + s.overlapSecs * MILLIS_PER_SEC < (r + 1) * MILLIS_PER_SEC
  {
    match s.lastPic
    case Some(pic) => NumSeconds(pic - s.lastMarkTime + s.overlapSecs * MILLIS_PER_SEC)
    case None => 0
  }

  /** The range the pictures since the mark covered. */
  function CurrentRange(s: CycleState): (r: (int, int))
    ensures r.0 == s.lastMarkIndex && r.1 - r.0 == PSecs(s)
  {
    (s.lastMarkIndex, s.lastMarkIndex + PSecs(s))
  }

  /** `update_failed`: closes the current range, sets a new mark at the failed picture's
      time (minus the overlap) and forgets the last good picture. */
  function UpdateFailed(s: CycleState, imgTime: int, now: int): (r: CycleState)
    ensures r.doneRanges == s.doneRanges + [CurrentRange(s)]
    ensures r.lastPic.None? && r.overlapSecs == s.overlapSecs && r.lastImageFlag == s.lastImageFlag
    ensures r.lastMarkTime == now
    ensures r.lastMarkIndex == NumSeconds(imgTime - s.lastMarkTime - s.overlapSecs * MILLIS_PER_SEC)
  {
    var totPassed := NumSeconds(imgTime - s.lastMarkTime - s.overlapSecs * MILLIS_PER_SEC);
    s.(doneRanges := s.doneRanges + [CurrentRange(s)], lastMarkIndex := totPassed, lastMarkTime := now, lastPic := None)
  }

  /** `update_success`: records the picture's time and nothing else. */
  function UpdateSuccess(s: CycleState, imgTime: int): (r: CycleState)
    ensures r.lastPic == Some(imgTime)
    ensures r.(lastPic := s.lastPic) == s
  {
    s.(lastPic := Some(imgTime))
  }

  /** `finish`: the done ranges with the current one closed. */
  function Finish(s: CycleState): (r: seq<(int, int)>)
    ensures |r| == |s.doneRanges| + 1 && r[..|s.doneRanges|] == s.doneRanges
    ensures r[|s.doneRanges|] == CurrentRange(s)
  {
    s.doneRanges + [CurrentRange(s)]
  }

  datatype Event = Failed(imgTime: int, now: int) | Succeeded(imgTime: int)

  function Run(s: CycleState, events: seq<Event>): CycleState
    decreases |events|
  {
    if events == [] then s
    else
      var next := match events[0]
        case Failed(t, now) => UpdateFailed(s, t, now)
        case Succeeded(t) => UpdateSuccess(s, t);
      Run(next, events[1..])
  }

  function Failures(events: seq<Event>): nat
  {
    if events == [] then 0 else (if events[0].Failed? then 1 else 0) + Failures(events[1..])
  }

  /** A cycle closes one range per failed picture and one more when it finishes, and earlier
      ranges are never rewritten. */
  lemma {:induction false} FinishCountsFailures(s: CycleState, events: seq<Event>)
    ensures |Finish(Run(s, events))| == |s.doneRanges| + Failures(events) + 1
    ensures Run(s, events).doneRanges[..|s.doneRanges|] == s.doneRanges
    decreases |events|
  {
    if events != [] {
      var next := match events[0]
        case Failed(t, now) => UpdateFailed(s, t, now)
        case Succeeded(t) => UpdateSuccess(s, t);
      FinishCountsFailures(next, events[1..]);
      assert next.doneRanges[..|s.doneRanges|] == s.doneRanges;
    }
  }

  /** A fresh cycle fed only successful pictures finishes with the single range from its
      mark to the last picture, plus the overlap. */
  lemma SuccessesOnlyGiveOneRange(imgMaxDt: real, startIndex: int, now: int, times: seq<int>)
    requires |times| > 0
    ensures var s := Run(InitCycle(imgMaxDt, startIndex, now), seq(|times|, k requires 0 <= k < |times| => Succeeded(times[k])));
      Finish(s) == [(startIndex - imgMaxDt.Floor / 2,
                     startIndex - imgMaxDt.Floor / 2 + NumSeconds(times[|times| - 1] - now + 2 * (imgMaxDt.Floor / 2) * MILLIS_PER_SEC))]
  {
    var s0 := InitCycle(imgMaxDt, startIndex, now);
    SuccessesKeepMark(s0, times);
  }

  lemma {:induction false} SuccessesKeepMark(s: CycleState, times: seq<int>)
    requires |times| > 0
    ensures var r := Run(s, seq(|times|, k requires 0 <= k < |times| => Succeeded(times[k])));
      r == s.(lastPic := Some(times[|times| - 1]))
    decreases |times|
  {
    var evs := seq(|times|, k requires 0 <= k < |times| => Succeeded(times[k]));
    var next := UpdateSuccess(s, times[0]);
    if |times| > 1 {
      SuccessesKeepMark(next, times[1..]);
      assert evs[1..] == seq(|times[1..]|, k requires 0 <= k < |times[1..]| => Succeeded(times[1..][k]));
    } else {
      assert evs[1..] == [];
    }
  }
}

=== FILE: decision_cube.dfy ===
/** The time-by-energy-by-state cube of decisions the dynamic program fills
    (src/scheduling/atomic_decision_cube.rs, and the identical older
    src/flight_control/task/atomic_decision_cube.rs). Cell `(t, e, s)` lives at flat index
    `t * (eLen * sLen) + (e * sLen + s)`. */
module DecisionCubes {
  import opened FlatIndex
  import opened AtomicDecisions
  import opened Wrappers

  datatype AtomicDecisionCube = AtomicDecisionCube(dtLen: nat, eLen: nat, sLen: nat, decisions: seq<AtomicDecision>)
  {
    predicate Valid() { |decisions| == dtLen * (eLen * sLen) }

    predicate InRange(t: nat, e: nat, s: nat) { t < dtLen && e < eLen && s < sLen }

    function Get(t: nat, e: nat, s: nat): AtomicDecision
      requires Valid() && InRange(t, e, s)
    {
      Index3InBounds(t, e, s, dtLen, eLen, sLen);
      decisions[t * (eLen * sLen) + (e * sLen + s)]
    }

    /** The decision at the flat index of `(t, e, s)` with no check of the dimensions, as the
        program indexes the cube: an index past the end is a panic (`None`), while an `e` or
        `s` past its own dimension reads some other cell. */
    function GetFlat(t: nat, e: nat, s: nat): (r: Option<AtomicDecision>)
      requires Valid()
      ensures InRange(t, e, s) ==> r == Some(Get(t, e, s))
      ensures r.None? <==> t * (eLen * sLen) + (e * sLen + s) >= |decisions|
    {
      var j := t * (eLen * sLen) + (e * sLen + s);
      Index3NonNeg(t, e, s, eLen, sLen);
      if InRange(t, e, s) then Index3InBounds(t, e, s, dtLen, eLen, sLen); Some(decisions[j])
      else if j < |decisions| then Some(decisions[j]) else None
    }

    /** Overwrite one cell; every other cell keeps its decision. */
    method Set(t: nat, e: nat, s: nat, d: AtomicDecision) returns (r: AtomicDecisionCube)
      requires Valid() && InRange(t, e, s)
      ensures r.Valid() && r.dtLen == dtLen && r.eLen == eLen && r.sLen == sLen
      ensures r.Get(t, e, s) == d
      ensures forall t': nat, e': nat, s': nat :: InRange(t', e', s') && (t' != t || e' != e || s' != s) ==>
        r.Get(t', e', s') == Get(t', e', s')
    {
      Index3InBounds(t, e, s, dtLen, eLen, sLen);
      r := AtomicDecisionCube(dtLen, eLen, sLen, decisions[t * (eLen * sLen) + (e * sLen + s) := d]);
      forall t': nat, e': nat, s': nat | InRange(t', e', s') && (t' != t || e' != e || s' != s)
        ensures r.Get(t', e', s') == Get(t', e', s')
      {
        SetKeepsCell(decisions, dtLen, eLen, sLen, t, e, s, d, t', e', s',
          t * (eLen * sLen) + (e * sLen + s), t' * (eLen * sLen) + (e' * sLen + s'));
      }
    }
  }

  /** Overwriting cell `(t, e, s)` of a `dtLen * (eLen * sLen)` slice does not touch a
      different cell `(t', e', s')`. */
  lemma SetKeepsCell(decisions: seq<AtomicDecision>, dtLen: nat, eLen: nat, sLen: nat,
                     t: nat, e: nat, s: nat, d: AtomicDecision, t': nat, e': nat, s': nat, k: int, j: int)
    requires |decisions| == dtLen * (eLen * sLen)
    requires t < dtLen && e < eLen && s < sLen && t' < dtLen && e' < eLen && s' < sLen
    requires t' != t || e' != e || s' != s
    requires k == t * (eLen * sLen) + (e * sLen + s) && j == t' * (eLen * sLen) + (e' * sLen + s')
    ensures 0 <= k < |decisions| && 0 <= j < |decisions|
    ensures decisions[k := d][j] == decisions[j]
  {
    Index3InBounds(t, e, s, dtLen, eLen, sLen);
    Index3InBounds(t', e', s', dtLen, eLen, sLen);
    Index3Injective(t', e', s', t, e, s, eLen, sLen);
    UpdateElsewhere(decisions, k, d, j);
  }

  /** Updating one slot of a sequence leaves every other slot as it was. */
  lemma UpdateElsewhere<T>(xs: seq<T>, k: nat, v: T, j: nat)
    requires k < |xs| && j < |xs| && j != k
    ensures xs[k := v][j] == xs[j]
  {
  }

  /** A cube of the given dimensions with every decision `StayInCharge`. */
  function New(dtLen: nat, eLen: nat, sLen: nat): (r: AtomicDecisionCube)
    ensures r.Valid() && r.dtLen == dtLen && r.eLen == eLen && r.sLen == sLen
    ensures forall t: nat, e: nat, s: nat :: r.InRange(t, e, s) ==> r.Get(t, e, s) == StayInCharge
  {
    var r := AtomicDecisionCube(dtLen, eLen, sLen, Filled(dtLen * (eLen * sLen), StayInCharge));
    assert forall t: nat, e: nat, s: nat :: r.InRange(t, e, s) ==> r.Get(t, e, s) == StayInCharge by {
      forall t: nat, e: nat, s: nat | r.InRange(t, e, s)
        ensures r.Get(t, e, s) == StayInCharge
      {
        Index3InBounds(t, e, s, dtLen, eLen, sLen);
      }
    }
    r
  }

  /** `n` copies of `v`. */
  function Filled<T>(n: nat, v: T): (xs: seq<T>)
    ensures |xs| == n && forall i :: 0 <= i < n ==> xs[i] == v
  {
    seq(n, _ => v)
  }
}

=== FILE: fc_beacon_objective.dfy ===
/** The beacon objective of the older snapshot
    (src/flight_control/objective/beacon_objective.rs): the objective's identity and time
    window, and the candidate set its measurements build up. The measurement type lives with
    the candidate set, in `BayesianSets`. */
module FcBeaconObjectives {
  import opened Wrappers
  import opened Orderings
  import opened Vec2Ds
  import opened BayesianSets
  import HttpObjectives

  datatype BeaconObjective = BeaconObjective(id: nat, name: string, start: int, end: int,
                                             measurements: Option<BayesianSet>)

  /** `new`: an objective that has heard nothing yet. */
  function New(id: nat, name: string, start: int, end: int): (r: BeaconObjective)
    ensures r.measurements.None?
    ensures r.id == id && r.name == name && r.start == start && r.end == end
  {
    BeaconObjective(id, name, start, end, None)
  }

  /** `append_measurement`: the first measurement creates the candidate set, later ones
      narrow it; the objective's identity and time window never change. `corrPos` is the
      measurement's corrected position. */
  method AppendMeasurement(o: BeaconObjective, meas: BeaconMeas, corrPos: Vec2D) returns (r: BeaconObjective)
    ensures r.measurements.Some?
    ensures r.(measurements := None) == o.(measurements := None)
    ensures o.measurements.None? ==> r.measurements.value.measurements == [meas]
    ensures o.measurements.Some? ==>
      r.measurements.value.points <= o.measurements.value.points &&
      r.measurements.value.measurements == o.measurements.value.measurements
  {
    match o.measurements {
      case Some(measSet) =>
        var updated := Update(measSet, meas, corrPos);
        r := o.(measurements := Some(updated));
      case None =>
        var created := BayesianSets.New(meas, corrPos);
        r := o.(measurements := Some(created));
    }
  }

  /** Appending measurements one after the other: the candidate set is the one the first
      measurement ever appended created, its points only shrink, and its measurement list
      stays that first measurement alone. */
  method AppendAll(o: BeaconObjective, ms: seq<(BeaconMeas, Vec2D)>) returns (r: BeaconObjective)
    ensures r.(measurements := None) == o.(measurements := None)
    ensures |ms| == 0 ==> r == o
    ensures |ms| > 0 ==> r.measurements.Some?
    ensures |ms| > 0 && o.measurements.None? ==> r.measurements.value.measurements == [ms[0].0]
    ensures o.measurements.Some? ==>
      r.measurements.Some? &&
      r.measurements.value.points <= o.measurements.value.points &&
      r.measurements.value.measurements == o.measurements.value.measurements
  {
    r := o;
    var i := 0;
    while i < |ms|
      invariant 0 <= i <= |ms|
      invariant r.(measurements := None) == o.(measurements := None)
      invariant i == 0 ==> r == o
      invariant i > 0 ==> r.measurements.Some?
      invariant i > 0 && o.measurements.None? ==> r.measurements.value.measurements == [ms[0].0]
      invariant o.measurements.Some? ==>
        r.measurements.Some? &&
        r.measurements.value.points <= o.measurements.value.points &&
        r.measurements.value.measurements == o.measurements.value.measurements
    {
      r := AppendMeasurement(r, ms[i].0, ms[i].1);
      i := i + 1;
    }
  }

  /** `PartialEq`: objectives are equal when they end at the same time. */
  predicate Eq(a: BeaconObjective, b: BeaconObjective)
  {
    a.end == b.end
  }

  /** `Ord::cmp`: by end time. */
  function Cmp(a: BeaconObjective, b: BeaconObjective): Ordering
  {
    CmpInt(a.end, b.end)
  }

  /** `cmp` and `eq` agree, `cmp` reverses when its operands swap, and both look only at the
      end time: two objectives ending together compare equal whatever else differs. */
  lemma CmpAgreesWithEq(a: BeaconObjective, b: BeaconObjective)
    ensures Cmp(a, b) == Equal <==> Eq(a, b)
    ensures Cmp(b, a) == Reverse(Cmp(a, b))
    ensures Cmp(a, b) == Less <==> a.end < b.end
  {
  }

  /** `From<http_handler::BeaconObjective>`: copies id, name and time window, with no
      measurements yet, so it is `new` on the announced fields. */
  function FromHttp(obj: HttpObjectives.BeaconObjective): (r: BeaconObjective)
    ensures r == New(obj.id, obj.name, obj.start, obj.end)
  {
    BeaconObjective(obj.id, obj.name, obj.start, obj.end, None)
  }
}

=== FILE: fc_bitmap.dfy ===
/** The earlier coverage bitmap (src/flight_control/camera_controller.rs): `usize` sides,
    a `BitVec` of pixels, and a fixed 600 x 600 block flipped per picture. */
module FcBitmaps {
  import opened Wrappers
  import opened FlatIndex
  import opened IntArith

  /** Side of the square block `flip_region` sets. */
  const REGION: nat := 600

  datatype Bitmap = Bitmap(width: nat, height: nat, data: seq<bool>)

  predicate Valid(b: Bitmap) { |b.data| == b.width * b.height }

  /** `new`: `width * height` clear bits. */
  function New(width: nat, height: nat): (r: Bitmap)
    ensures Valid(r) && r.width == width && r.height == height
    ensures forall i :: 0 <= i < |r.data| ==> !r.data[i]
  {
    Bitmap(width, height, seq(width * height, i => false))
  }

  /** `get_bitmap_index`: row-major. */
  function Index(b: Bitmap, x: nat, y: nat): (r: nat)
    ensures x < b.width ==> r / b.width == y && r % b.width == x
  {
    if x < b.width then DivModUnique(y * b.width + x, b.width, y, x); y * b.width + x
    else y * b.width + x
  }

  /** `check_pixel`: a bit outside the data reads as clear. */
  function CheckPixel(b: Bitmap, x: nat, y: nat): (r: bool)
    ensures r <==> Index(b, x, y) < |b.data| && b.data[Index(b, x, y)]
  {
    var i := Index(b, x, y);
    if i < |b.data| then b.data[i] else false
  }

  /** `is_photographed`. The source reads the bit through a `get_pixel` that `Bitmap` does
      not define; the bit is read as `check_pixel` reads it. */
  function IsPhotographed(b: Bitmap, x: nat, y: nat): (r: Result<bool>)
    requires Valid(b)
    ensures r.Err? <==> x >= b.width || y >= b.height
    ensures r.Err? ==> r.msg == "EDGE"
    ensures r.Ok? ==> r.value == CheckPixel(b, x, y) && Index(b, x, y) < |b.data|
  {
    if x >= b.width || y >= b.height then Err("EDGE")
    else
      Index2InBounds(y, x, b.height, b.width);
      Ok(CheckPixel(b, x, y))
  }

  /** `flip_pixel`: sets the bit (it never clears it); an index past the data panics. */
  function FlipPixel(b: Bitmap, x: nat, y: nat): (r: Result<Bitmap>)
    ensures r.Err? <==> Index(b, x, y) >= |b.data|
    ensures r.Ok? ==> r.value.width == b.width && r.value.height == b.height && |r.value.data| == |b.data|
    ensures r.Ok? ==> CheckPixel(r.value, x, y)
    ensures r.Ok? ==> forall i :: 0 <= i < |b.data| && i != Index(b, x, y) ==> r.value.data[i] == b.data[i]
  {
    var i := Index(b, x, y);
    if i >= |b.data| then Err("index out of bounds") else Ok(b.(data := b.data[i := true]))
  }

  /** Flipping is idempotent: a second flip of the same pixel changes nothing. */
  lemma FlipPixelIdempotent(b: Bitmap, x: nat, y: nat)
    requires FlipPixel(b, x, y).Ok?
    ensures FlipPixel(FlipPixel(b, x, y).value, x, y) == FlipPixel(b, x, y)
  {
    var once := FlipPixel(b, x, y).value;
    assert once.data[Index(b, x, y) := true] == once.data;
  }

  /** The index of the pixel `dc` columns and `dr` rows into the block at `(x, y)`. */
  function BlockIndex(w: nat, x: nat, y: nat, dr: nat, dc: nat): nat { (y + dr) * w + (x + dc) }

  /** Pixel index `i` is one of the first `rows` full rows of the block, or of the first
      `cols` pixels of the next row. */
  predicate FlippedBefore(w: nat, x: nat, y: nat, rows: nat, cols: nat, i: nat)
  {
    exists dr: nat, dc: nat :: dr < REGION && dc < REGION && (dr < rows || (dr == rows && dc < cols)) &&
      BlockIndex(w, x, y, dr, dc) == i
  }

  lemma BlockIndexMonotone(w: nat, x: nat, y: nat, dr: nat, dc: nat)
    requires dr < REGION && dc < REGION
    ensures BlockIndex(w, x, y, dr, dc) <= BlockIndex(w, x, y, REGION - 1, REGION - 1)
  {
    MulLeRight(y + dr, y + REGION - 1, w);
  }

  /** `flip_region`: flips the `600 x 600` block whose top-left corner is `(x, y)`, row by
      row, with no wrapping and no bounds check other than the one in `flip_pixel`. */
  method FlipRegion(b: Bitmap, x: nat, y: nat) returns (r: Result<Bitmap>)
    ensures r.Err? <==> BlockIndex(b.width, x, y, REGION - 1, REGION - 1) >= |b.data|
    ensures r.Ok? ==> r.value.width == b.width && r.value.height == b.height && |r.value.data| == |b.data|
    ensures r.Ok? ==> forall i :: 0 <= i < |b.data| ==>
      r.value.data[i] == (b.data[i] || FlippedBefore(b.width, x, y, REGION, 0, i))
  {
    var cur := b;
    var row := y;
    while row < y + REGION
      invariant y <= row <= y + REGION
      invariant cur.width == b.width && cur.height == b.height && |cur.data| == |b.data|
      invariant forall i :: 0 <= i < |b.data| ==> cur.data[i] == (b.data[i] || FlippedBefore(b.width, x, y, row - y, 0, i))
      invariant row > y ==> BlockIndex(b.width, x, y, row - y - 1, REGION - 1) < |b.data|
    {
      var col := x;
      while col < x + REGION
        invariant x <= col <= x + REGION
        invariant cur.width == b.width && cur.height == b.height && |cur.data| == |b.data|
        invariant forall i :: 0 <= i < |b.data| ==>
          cur.data[i] == (b.data[i] || FlippedBefore(b.width, x, y, row - y, col - x, i))
        invariant col > x ==> BlockIndex(b.width, x, y, row - y, col - x - 1) < |b.data|
        invariant row > y ==> BlockIndex(b.width, x, y, row - y - 1, REGION - 1) < |b.data|
      {
        var next := FlipPixel(cur, col, row);
        assert Index(cur, col, row) == BlockIndex(b.width, x, y, row - y, col - x);
        if next.Err? {
          BlockIndexMonotone(b.width, x, y, row - y, col - x);
          return Err(next.msg);
        }
        forall i | 0 <= i < |b.data|
          ensures next.value.data[i] == (b.data[i] || FlippedBefore(b.width, x, y, row - y, col - x + 1, i))
        {
          if i == Index(cur, col, row) {
            assert FlippedBefore(b.width, x, y, row - y, col - x + 1, i);
          } else if FlippedBefore(b.width, x, y, row - y, col - x + 1, i) {
            var dr: nat, dc: nat :| dr < REGION && dc < REGION && (dr < row - y || (dr == row - y && dc < col - x + 1)) &&
              BlockIndex(b.width, x, y, dr, dc) == i;
            assert FlippedBefore(b.width, x, y, row - y, col - x, i);
          }
        }
        cur := next.value;
        col := col + 1;
      }
      var done := row - y;
      forall i | 0 <= i < |b.data|
        ensures FlippedBefore(b.width, x, y, done, REGION, i) == FlippedBefore(b.width, x, y, done + 1, 0, i)
      {
        NextRow(b.width, x, y, done, i);
      }
      row := row + 1;
    }
    return Ok(cur);
  }

  lemma NextRow(w: nat, x: nat, y: nat, rows: nat, i: nat)
    ensures FlippedBefore(w, x, y, rows, REGION, i) == FlippedBefore(w, x, y, rows + 1, 0, i)
  {
  }
}

=== FILE: fc_common.dfy ===
/** The older `Vec2D` (src/flight_control/common.rs): a plain pair with dot product, vector
    addition, scaling and map wrapping. Its `wrap_coordinate` adds the map size once before
    the remainder, which leaves coordinates below minus the map size negative; the newer
    double remainder is the corrected form. Components are integers. */
module FcCommon {
  import opened IntArith
  import Vec2Ds

  datatype Vec2D = Vec2D(x: int, y: int)

  const MAP_X: int := 21600
  const MAP_Y: int := 10800

  function MapSize(): Vec2D { Vec2D(MAP_X, MAP_Y) }

  function Zero(): Vec2D { Vec2D(0, 0) }

  function Dot(a: Vec2D, b: Vec2D): int { a.x * b.x + a.y * b.y }

  function Add(a: Vec2D, b: Vec2D): Vec2D { Vec2D(a.x + b.x, a.y + b.y) }

  /** Scaling by a number. */
  function Mul(a: Vec2D, k: int): Vec2D { Vec2D(a.x * k, a.y * k) }

  /** `From<(T, T)>`: the first element is x. */
  function FromTuple(t: (int, int)): Vec2D { Vec2D(t.0, t.1) }

  lemma VectorSpaceLaws(a: Vec2D, b: Vec2D, c: Vec2D, k: int)
    ensures Add(a, Zero()) == a && Add(a, b) == Add(b, a) && Add(Add(a, b), c) == Add(a, Add(b, c))
    ensures Mul(Add(a, b), k) == Add(Mul(a, k), Mul(b, k))
    ensures Dot(a, b) == Dot(b, a) && Dot(a, Zero()) == 0
    ensures Dot(Add(a, b), c) == Dot(a, c) + Dot(b, c)
    ensures FromTuple((a.x, a.y)) == a
  {
    assert (a.x + b.x) * k == a.x * k + b.x * k;
    assert (a.y + b.y) * k == a.y * k + b.y * k;
    assert (a.x + b.x) * c.x == a.x * c.x + b.x * c.x;
    assert (a.y + b.y) * c.y == a.y * c.y + b.y * c.y;
  }

  /** `(value + max_value) % max_value` with Rust's truncating remainder. */
  function WrapCoordinateAsWritten(value: int, maxValue: int): (r: int)
    requires maxValue > 0
    ensures value >= -maxValue ==> 0 <= r < maxValue && r == value % maxValue
    ensures value < -maxValue ==> 0 < r + maxValue && r <= 0
  {
    if value >= -maxValue then
      ModShift(value, 1, maxValue);
      RemNonNeg(value + maxValue, maxValue);
      TRem(value + maxValue, maxValue)
    else TRem(value + maxValue, maxValue)
  }

  /** A coordinate one unit past the left edge of the map after wrapping once stays off it. */
  lemma WrapCoordinateCounterexample()
    ensures WrapCoordinateAsWritten(-21601, MAP_X) == -1
    ensures Vec2Ds.WrapCoordinate(-21601, MAP_X) == 21599
  {
    assert TRem(-1, MAP_X) == -1;
  }

  /** `wrap_around_map` as written, in place on both coordinates. */
  function WrapAroundMapAsWritten(v: Vec2D): (r: Vec2D)
    ensures -MAP_X < r.x < MAP_X && -MAP_Y < r.y < MAP_Y
    ensures v.x >= -MAP_X ==> r.x == v.x % MAP_X
    ensures v.y >= -MAP_Y ==> r.y == v.y % MAP_Y
    ensures v.x < -MAP_X ==> r.x <= 0
    ensures v.y < -MAP_Y ==> r.y <= 0
  {
    Vec2D(WrapCoordinateAsWritten(v.x, MAP_X), WrapCoordinateAsWritten(v.y, MAP_Y))
  }

  /** `wrap_around_map` with the double remainder: every point lands on the map. */
  function WrapAroundMap(v: Vec2D): (r: Vec2D)
    ensures 0 <= r.x < MAP_X && 0 <= r.y < MAP_Y
    ensures r.x == v.x % MAP_X && r.y == v.y % MAP_Y
    ensures -MAP_X <= v.x && -MAP_Y <= v.y ==> r == WrapAroundMapAsWritten(v)
  {
    Vec2D(Vec2Ds.WrapCoordinate(v.x, MAP_X), Vec2Ds.WrapCoordinate(v.y, MAP_Y))
  }
}

=== FILE: fc_decision_cube.dfy ===
/** The older snapshot's decision cube (src/flight_control/task/atomic_decision_cube.rs).
    It stores the cube as `DecisionCubes.AtomicDecisionCube` does, but writes the flat index
    as `dt * e_len * s_len + e * s_len + s`, evaluated left to right. */
module FcDecisionCubes {
  import opened AtomicDecisions
  import opened DecisionCubes
  import opened FlatIndex

  /** The older flat index of `(dt, e, s)`. */
  function OlderIndex(c: AtomicDecisionCube, dt: nat, e: nat, s: nat): int
  {
    dt * c.eLen * c.sLen + e * c.sLen + s
  }

  /** The older index is the slot the newer cube uses for the same cell. */
  lemma OlderIndexAgrees(c: AtomicDecisionCube, dt: nat, e: nat, s: nat)
    ensures OlderIndex(c, dt, e, s) == dt * (c.eLen * c.sLen) + (e * c.sLen + s)
  {
    assert dt * c.eLen * c.sLen == dt * (c.eLen * c.sLen);
  }

  /** `new`: every decision `StayInCharge`. */
  function New(dtLen: nat, eLen: nat, sLen: nat): (r: AtomicDecisionCube)
    ensures r.Valid() && r.dtLen == dtLen && r.eLen == eLen && r.sLen == sLen
    ensures forall t: nat, e: nat, s: nat :: r.InRange(t, e, s) ==> Get(r, t, e, s) == StayInCharge
  {
    DecisionCubes.New(dtLen, eLen, sLen)
  }

  /** `get`, reading the older index: the same decision the newer cube reads. */
  function Get(c: AtomicDecisionCube, dt: nat, e: nat, s: nat): (r: AtomicDecision)
    requires c.Valid() && c.InRange(dt, e, s)
    ensures r == c.Get(dt, e, s)
  {
    OlderIndexAgrees(c, dt, e, s);
    Index3InBounds(dt, e, s, c.dtLen, c.eLen, c.sLen);
    c.decisions[OlderIndex(c, dt, e, s)]
  }

  /** `set`, writing the older index: the cell reads back the new decision and every other
      cell keeps its decision. */
  method Set(c: AtomicDecisionCube, dt: nat, e: nat, s: nat, d: AtomicDecision) returns (r: AtomicDecisionCube)
    requires c.Valid() && c.InRange(dt, e, s)
    ensures r.Valid() && r.dtLen == c.dtLen && r.eLen == c.eLen && r.sLen == c.sLen
    ensures Get(r, dt, e, s) == d
    ensures forall t': nat, e': nat, s': nat :: c.InRange(t', e', s') && (t' != dt || e' != e || s' != s) ==>
      Get(r, t', e', s') == Get(c, t', e', s')
  {
    OlderIndexAgrees(c, dt, e, s);
    Index3InBounds(dt, e, s, c.dtLen, c.eLen, c.sLen);
    var k := OlderIndex(c, dt, e, s);
    r := c.(decisions := c.decisions[k := d]);
    forall t': nat, e': nat, s': nat | c.InRange(t', e', s') && (t' != dt || e' != e || s' != s)
      ensures Get(r, t', e', s') == Get(c, t', e', s')
    {
      OlderIndexAgrees(c, t', e', s');
      SetKeepsCell(c.decisions, c.dtLen, c.eLen, c.sLen, dt, e, s, d, t', e', s',
        k, t' * (c.eLen * c.sLen) + (e' * c.sLen + s'));
    }
  }
}

=== FILE: fc_known_img_objective.dfy ===
/** The known-zone imaging objective of the older snapshot
    (src/flight_control/objective/known_img_objective.rs). The zone is
    `[x_min, y_min, x_max, y_max]`; times are integer timestamps and the coverage fraction a real. */
module FcKnownImgObjectives {
  import opened IntArith
  import opened Vec2Ds
  import opened CameraStates
  import Text
  import HttpObjectives

  datatype KnownImgObjective = KnownImgObjective(id: nat, start: int, end: int, name: string,
                                                 zone: HttpObjectives.Zone, opticRequired: CameraAngle,
                                                 coverageRequired: real)

  /** `new`: the lens is parsed from its name and no coverage is required yet. */
  function New(id: nat, start: int, end: int, name: string, zone: HttpObjectives.Zone, opticStr: string): (r: KnownImgObjective)
    ensures r.coverageRequired == 0.0
    ensures r.id == id && r.start == start && r.end == end && r.name == name && r.zone == zone
    ensures r.opticRequired == Normal <==> Text.ToLower(opticStr) !in {"narrow", "wide"}
  {
    KnownImgObjective(id, start, end, name, zone, FromStr(opticStr), 0.0)
  }

  /** Naming a lens by its own name gives that lens back. */
  lemma NewKeepsNamedLens(id: nat, start: int, end: int, name: string, zone: HttpObjectives.Zone, a: CameraAngle)
    ensures New(id, start, end, name, zone, ToStr(a)).opticRequired == a
  {
    RoundTrip(a);
  }

  /** `get_imaging_points`: a single point, the middle of the zone (rounded towards its lower
      corner when not whole), wrapped onto the map. */
  function GetImagingPoints(o: KnownImgObjective): (r: seq<Vec2D>)
    ensures |r| == 1 && OnMap(r[0])
    ensures r[0] == WrapAroundMap(Vec2D(Midpoint(o.zone.0, o.zone.2), Midpoint(o.zone.1, o.zone.3)))
  {
    var xSize := o.zone.2 - o.zone.0;
    var ySize := o.zone.3 - o.zone.1;
    var pos := Vec2D(o.zone.0 + TDiv(xSize, 2), o.zone.1 + TDiv(ySize, 2));
    [WrapAroundMap(pos)]
  }

  /** For a zone inside the map, the imaging point lies within the zone. */
  lemma ImagingPointInZone(o: KnownImgObjective)
    requires 0 <= o.zone.0 <= o.zone.2 < MAP_X && 0 <= o.zone.1 <= o.zone.3 < MAP_Y
    ensures var p := GetImagingPoints(o)[0];
      o.zone.0 <= p.x <= o.zone.2 && o.zone.1 <= p.y <= o.zone.3
  {
    var c := Vec2D(Midpoint(o.zone.0, o.zone.2), Midpoint(o.zone.1, o.zone.3));
    WrapAroundMapIdempotent(c);
  }
}

=== FILE: fc_linked_box.dfy ===
/** The older bounded push-front list (src/flight_control/common/linked_box.rs). It behaves
    like `LinkedBoxes.LinkedBox` but names its capacity `max_size` and has no accessor for
    it. The older planner runs on `LinkedBoxes`; `PushAgrees` shows the two boxes move in
    step. Index 0 is the front (newest). */
module FcLinkedBoxes {
  import opened Wrappers
  import LinkedBoxes

  datatype LinkedBox<T> = LinkedBox(list: seq<T>, maxSize: nat)
  {
    function Len(): nat { |list| }

    predicate IsEmpty()
      ensures IsEmpty() <==> Len() == 0
    {
      |list| == 0
    }

    function Front(): (r: Option<T>)
      ensures r.Some? <==> Len() > 0
      ensures r.Some? ==> r.value == list[0]
    {
      if |list| == 0 then None else Some(list[0])
    }

    function Back(): (r: Option<T>)
      ensures r.Some? <==> Len() > 0
      ensures r.Some? ==> r.value == list[Len() - 1]
    {
      if |list| == 0 then None else Some(list[|list| - 1])
    }

    function PopBack(): (r: LinkedBox<T>)
      requires Len() > 0
      ensures r.maxSize == maxSize && r.Len() == Len() - 1
      ensures forall i :: 0 <= i < r.Len() ==> r.list[i] == list[i]
    {
      LinkedBox(list[..|list| - 1], maxSize)
    }

    /** `push_front`, then `pop_back` once the list has grown past `max_size`: the item
        becomes the front, the previous elements follow it, and a box within its capacity
        stays within it. */
    function Push(item: T): (r: LinkedBox<T>)
      ensures r.maxSize == maxSize && r.Len() <= Len() + 1
      ensures Len() <= maxSize ==> r.Len() <= maxSize
      ensures Len() < maxSize ==> r.Len() == Len() + 1
      ensures r.Len() > 0 ==> r.list[0] == item
      ensures maxSize > 0 ==> r.Front() == Some(item)
      ensures forall i :: 0 < i < r.Len() ==> r.list[i] == list[i - 1]
    {
      var pushed := LinkedBox([item] + list, maxSize);
      if pushed.Len() > maxSize then pushed.PopBack() else pushed
    }
  }

  function New<T>(maxSize: nat): (r: LinkedBox<T>)
    ensures r.IsEmpty() && r.maxSize == maxSize
  {
    LinkedBox([], maxSize)
  }

  /** The newer box holding the same elements with the same capacity. */
  function AsNewer<T>(b: LinkedBox<T>): LinkedBoxes.LinkedBox<T>
  {
    LinkedBoxes.LinkedBox(b.list, b.maxSize)
  }

  /** The two snapshots' boxes agree: starting empty, pushing, and reading the length, the
      front and the back all commute with the correspondence. */
  lemma PushAgrees<T>(b: LinkedBox<T>, item: T, maxSize: nat)
    ensures AsNewer(New<T>(maxSize)) == LinkedBoxes.New<T>(maxSize)
    ensures AsNewer(b.Push(item)) == AsNewer(b).Push(item)
    ensures AsNewer(b).Len() == b.Len() && AsNewer(b).Front() == b.Front() && AsNewer(b).Back() == b.Back()
  {
    var pushed := [item] + b.list;
    if |pushed| > b.maxSize {
      assert b.Push(item).list == pushed[..|pushed| - 1];
    }
  }
}

=== FILE: fc_score_grid.dfy ===
/** The older snapshot's score grid (src/flight_control/task/score_grid.rs). Its storage,
    `new`, `get`, `set`, `e_len` and `s_len` are those of `ScoreGrids.ScoreGrid`; its
    `new_from_condition` always names an end column and fills with `i32::MIN` instead of
    `MIN_SCORE`. */
module FcScoreGrids {
  import opened ScoreGrids
  import opened Wrappers

  /** `new_from_condition(e_len, s_len, (end_s, end_min_e))`: a cell is 0 exactly when it
      lies in column `endS` at or below row `endMinE`, and `i32::MIN` otherwise. A column or
      row outside the grid therefore leaves every cell at `i32::MIN`. */
  method NewFromCondition(eLen: nat, sLen: nat, endS: nat, endMinE: nat) returns (r: ScoreGrid)
    ensures r.Valid() && r.eLen == eLen && r.sLen == sLen
    ensures forall e: nat, s: nat :: e < eLen && s < sLen ==> (r.Get(e, s) == 0 <==> s == endS && e >= endMinE)
    ensures forall e: nat, s: nat :: e < eLen && s < sLen && r.Get(e, s) != 0 ==> r.Get(e, s) == I32_MIN
    ensures r == ConditionGrid(eLen, sLen, Some(endS), endMinE, I32_MIN)
  {
    r := ScoreGrids.NewFromCondition(eLen, sLen, Some(endS), endMinE, I32_MIN);
  }

  /** With the end column or the end row out of range no cell is wanted. */
  lemma OutOfRangeAllMin(eLen: nat, sLen: nat, endS: nat, endMinE: nat)
    requires endS >= sLen || endMinE >= eLen
    ensures forall e: nat, s: nat :: e < eLen && s < sLen ==>
      ConditionGrid(eLen, sLen, Some(endS), endMinE, I32_MIN).Get(e, s) == I32_MIN
  {
  }
}

=== FILE: fc_task_controller.dfy ===
/** The older task controller's charge/acquisition planner
    (src/flight_control/task/task_controller.rs): set-up of the dynamic program and replay of
    its decisions into state-switch tasks. It differs from the newer planner in its battery
    thresholds (10 and 100), its final-state grid, its unguarded switch score and a replay
    that panics instead of logging. Both the code as written and a corrected set-up are
    modelled; see the findings in the README. */
module FcTaskController {
  import opened Wrappers
  import opened FixedPoint
  import opened AtomicDecisions
  import opened ScoreGrids
  import opened DecisionCubes
  import opened LinkedBoxes
  import opened OrbitDp
  import opened TaskSchedules
  import opened FlightStates
  import FcScoreGrids

  const MAX_ORBIT_PREDICTION_SECS: nat := 80000
  const BATTERY_RESOLUTION: real := 0.1
  const MIN_BATTERY_THRESHOLD: real := 10.0
  const MAX_BATTERY_THRESHOLD: real := 100.0
  /** The number of battery levels above the minimum, `round((100 - 10) / 0.1)`. */
  const MAX_BATTERY: nat := 900
  const E_LEN: nat := MAX_BATTERY + 1

  lemma MaxBatteryMatchesThresholds()
    ensures Round((MAX_BATTERY_THRESHOLD - MIN_BATTERY_THRESHOLD) / BATTERY_RESOLUTION) == MAX_BATTERY
    ensures Round(MAX_BATTERY_THRESHOLD / BATTERY_RESOLUTION - MIN_BATTERY_THRESHOLD / BATTERY_RESOLUTION) == MAX_BATTERY
  {
  }

  /** The prediction horizon: the orbit period capped at `MAX_ORBIT_PREDICTION_SECS`, and at
      the requested duration when there is one. It never exceeds the period. */
  function PredictionSecs(period: nat, dt: Option<nat>): (r: nat)
    ensures r <= period && r <= MAX_ORBIT_PREDICTION_SECS && (dt.Some? ==> r <= dt.value)
    ensures r == period || r == MAX_ORBIT_PREDICTION_SECS || (dt.Some? && r == dt.value)
  {
    var maxPredSecs := if MAX_ORBIT_PREDICTION_SECS <= period then MAX_ORBIT_PREDICTION_SECS else period;
    if dt.Some? && dt.value < maxPredSecs then dt.value else maxPredSecs
  }

  /** `state as usize`: the position of the flight state in its declaration. */
  function Discriminant(st: FlightState): (d: nat)
    ensures d <= 5
    ensures st == Deployment <==> d == 0
    ensures st == Transition <==> d == 1
    ensures st == Acquisition <==> d == 2
    ensures st == Charge <==> d == 3
    ensures st == Comms <==> d == 4
    ensures st == Safe <==> d == 5
  {
    match st
    case Deployment => 0
    case Transition => 1
    case Acquisition => 2
    case Charge => 3
    case Comms => 4
    case Safe => 5
  }

  /** The end battery index as written: clamped and divided by the resolution, without
      subtracting the minimum threshold first. */
  function EndBattAsWritten(e: real): (r: nat)
    ensures 100 <= r <= 1000
  {
    Round(Clamp(e, MIN_BATTERY_THRESHOLD, MAX_BATTERY_THRESHOLD) / BATTERY_RESOLUTION)
  }

  /** The final-state grid as written: the flight state's discriminant is used as the column
      and `i32::MIN` as the fill; without an end status every score is 0. */
  function TerminalGridAsWritten(endStatus: Option<(FlightState, real)>): (g: ScoreGrid)
    ensures Shaped(g, E_LEN)
  {
    match endStatus
    case Some((st, batt)) => ConditionGrid(E_LEN, 2, Some(Discriminant(st)), EndBattAsWritten(batt), I32_MIN)
    case None => ScoreGrids.New(E_LEN, 2)
  }

  /** Set up and run the dynamic program as written (switching is never blocked). */
  method InitOrbitSchedCalc(period: nat, done: seq<bool>, dt: Option<nat>, endStatus: Option<(FlightState, real)>)
    returns (r: OptimalOrbitResult)
    requires |done| >= PredictionSecs(period, dt)
    ensures var c := r.decisions;
      c.Valid() && c.dtLen == PredictionSecs(period, dt) && c.eLen == E_LEN && c.sLen == 2 &&
      (forall t: nat, e: nat, s: nat :: c.InRange(t, e, s) ==>
        c.Get(t, e, s) == DecisionAt(StartBox(TerminalGridAsWritten(endStatus)), E_LEN, false, done, c.dtLen, t, e, s)) &&
      Consistent(c)
    ensures endStatus.None? ==> forall t: nat :: t < r.decisions.dtLen ==> r.decisions.Get(t, 0, 1) == SwitchToCharge
  {
    var predictionSecs := PredictionSecs(period, dt);
    var decisionBuffer := DecisionCubes.New(predictionSecs, MAX_BATTERY + 1, 2);
    var covDtTemp := ScoreGrids.New(MAX_BATTERY + 1, 2);
    var covDtFirst := covDtTemp;
    if endStatus.Some? {
      var endBatt := EndBattAsWritten(endStatus.value.1);
      covDtFirst := FcScoreGrids.NewFromCondition(MAX_BATTERY + 1, 2, Discriminant(endStatus.value.0), endBatt);
    }
    var scoreCube := LinkedBoxes.New<ScoreGrid>(SCORE_BOX_SIZE);
    scoreCube := scoreCube.Push(covDtFirst);
    r := CalculateOptimalOrbitSchedule(predictionSecs, done, scoreCube, covDtTemp, decisionBuffer, false);
    if endStatus.None? {
      assert BoxBounded(scoreCube, E_LEN, 0) by {
        assert scoreCube.list[0] == covDtTemp;
      }
      NeverStayInAcquisitionWhenEmpty(scoreCube, E_LEN, false, done, predictionSecs, 0);
    }
  }

  /** With a charge or acquisition end state the as-written final-state grid ignores the end
      condition altogether: every cell is `i32::MIN`. Whatever the end status, the empty
      battery scores `i32::MIN` in charge. */
  lemma TerminalAsWrittenIgnoresEndState(st: FlightState, batt: real)
    ensures var g := TerminalGridAsWritten(Some((st, batt)));
      g.Get(0, 0) == I32_MIN &&
      ((st == Charge || st == Acquisition) ==> forall e: nat, s: nat :: e < E_LEN && s < 2 ==> g.Get(e, s) == I32_MIN)
  {
  }

  /** On the last second of the horizon the as-written program plans to keep acquiring on an
      empty battery whenever an end status is given: staying scores `i32::MIN` and switching
      to charge scores the same, and a tie stays. */
  lemma AsWrittenStaysInAcquisitionWhenEmpty(st: FlightState, batt: real, done: seq<bool>, predDt: nat)
    requires 0 < predDt <= |done|
    ensures DecisionAt(StartBox(TerminalGridAsWritten(Some((st, batt)))), E_LEN, false, done, predDt, predDt - 1, 0, 1) == StayInAcquisition
  {
    var g := TerminalGridAsWritten(Some((st, batt)));
    var b0 := StartBox(g);
    TerminalAsWrittenIgnoresEndState(st, batt);
    assert StepGrids(b0, E_LEN, false, done, 0) == [];
    assert BoxAfter(b0, E_LEN, false, done, 0) == b0;
    assert b0.Front() == Some(g) && b0.Back() == Some(g);
  }

  /** The DP state of the satellite's flight state; any other state is a panic. */
  function DpState(st: FlightState): (r: Result<nat>)
    ensures r.Ok? <==> st == Charge || st == Acquisition
    ensures r.Ok? ==> r.value <= 1 && FlightStateOf(r.value) == st
  {
    match st
    case Acquisition => Ok(1)
    case Charge => Ok(0)
    case _ => Err("Unexpected flight state")
  }

  /** The battery index the replay starts from: the level above the minimum threshold in
      resolution steps, rounded down; a level below the minimum fails to convert to an
      unsigned index, which is a panic. */
  function StartBatt(battF: real): (r: Result<nat>)
    ensures r.Ok? <==> battF >= MIN_BATTERY_THRESHOLD
    ensures r.Ok? ==> MIN_BATTERY_THRESHOLD + r.value as real * BATTERY_RESOLUTION <= battF < MIN_BATTERY_THRESHOLD + (r.value + 1) as real * BATTERY_RESOLUTION
    ensures r.Ok? && battF <= MAX_BATTERY_THRESHOLD ==> r.value <= MAX_BATTERY
  {
    var idx := ToNumFloor((battF - MIN_BATTERY_THRESHOLD) / BATTERY_RESOLUTION);
    if idx < 0 then Result<nat>.Err("called `Option::unwrap()` on a `None` value") else Ok(idx)
  }

  /** Follow the decisions from second `dt`, battery index `batt` and DP state `state` to the
      end of the horizon. The cube is read at the flat index, so an index past its end is a
      panic, and keeping on acquiring with an empty battery is an unsigned underflow. */
  function ReplayFrom(cube: AtomicDecisionCube, dt: nat, batt: nat, state: nat): (r: Result<seq<ScheduledSwitch>>)
    requires cube.Valid() && state <= 1
    ensures r.Ok? ==> forall i :: 0 <= i < |r.value| ==> dt <= r.value[i].atDt < cube.dtLen && r.value[i].toState <= 1
    ensures r.Ok? ==> forall i :: 0 <= i < |r.value| - 1 ==> r.value[i].atDt + SCORE_BOX_SIZE <= r.value[i + 1].atDt
    decreases cube.dtLen - dt
  {
    if dt >= cube.dtLen then Ok([])
    else
      match cube.GetFlat(dt, batt, state)
      case None => Err("index out of bounds")
      case Some(d) =>
        match d
        case StayInCharge =>
          ReplayFrom(cube, dt + 1, if batt + 1 <= MAX_BATTERY then batt + 1 else MAX_BATTERY, 0)
        case StayInAcquisition =>
          if batt == 0 then Err("attempt to subtract with overflow")
          else ReplayFrom(cube, dt + 1, batt - 1, 1)
        case SwitchToCharge =>
          var rest := ReplayFrom(cube, if dt + SCORE_BOX_SIZE <= cube.dtLen then dt + SCORE_BOX_SIZE else cube.dtLen, batt, 0);
          if rest.Err? then rest else Ok([ScheduledSwitch(0, dt)] + rest.value)
        case SwitchToAcquisition =>
          var rest := ReplayFrom(cube, if dt + SCORE_BOX_SIZE <= cube.dtLen then dt + SCORE_BOX_SIZE else cube.dtLen, batt, 1);
          if rest.Err? then rest else Ok([ScheduledSwitch(1, dt)] + rest.value)
  }

  /** A consistent full-size cube that never keeps an empty battery acquiring replays to the
      end from any battery index within range. */
  lemma {:induction false} ReplayNeverUnderflows(cube: AtomicDecisionCube, dt: nat, batt: nat, state: nat)
    requires cube.Valid() && cube.eLen == E_LEN && cube.sLen == 2 && batt <= MAX_BATTERY && state <= 1
    requires Consistent(cube)
    requires forall t: nat :: t < cube.dtLen ==> cube.Get(t, 0, 1) != StayInAcquisition
    ensures ReplayFrom(cube, dt, batt, state).Ok?
    decreases cube.dtLen - dt
  {
    if dt < cube.dtLen {
      assert cube.InRange(dt, batt, state);
      var next := if dt + SCORE_BOX_SIZE <= cube.dtLen then dt + SCORE_BOX_SIZE else cube.dtLen;
      match cube.Get(dt, batt, state)
      case StayInCharge =>
        ReplayNeverUnderflows(cube, dt + 1, if batt + 1 <= MAX_BATTERY then batt + 1 else MAX_BATTERY, 0);
      case StayInAcquisition =>
        assert state == 1;
        ReplayNeverUnderflows(cube, dt + 1, batt - 1, 1);
      case SwitchToCharge =>
        ReplayNeverUnderflows(cube, next, batt, 0);
      case SwitchToAcquisition =>
        ReplayNeverUnderflows(cube, next, batt, 1);
    }
  }

  /** The plan the as-written set-up computes for a one-second horizon with a charge end
      status, replayed from a battery at the minimum threshold in acquisition, underflows. */
  lemma AsWrittenPlanUnderflows(cube: AtomicDecisionCube)
    requires cube.Valid() && cube.dtLen == 1 && cube.eLen == E_LEN && cube.sLen == 2
    requires forall t: nat, e: nat, s: nat :: cube.InRange(t, e, s) ==>
      cube.Get(t, e, s) == DecisionAt(StartBox(TerminalGridAsWritten(Some((Charge, 50.0)))), E_LEN, false, [false], 1, t, e, s)
    ensures StartBatt(MIN_BATTERY_THRESHOLD) == Ok(0) && DpState(Acquisition) == Ok(1)
    ensures ReplayFrom(cube, 0, 0, 1).Err?
  {
    AsWrittenStaysInAcquisitionWhenEmpty(Charge, 50.0, [false], 1);
    assert cube.InRange(0, 0, 1);
    assert cube.GetFlat(0, 0, 1) == Some(StayInAcquisition);
  }

  /** One turn of the replay loop: act on the decision for second `dt`. */
  method ApplyDecision(decisions: AtomicDecisionCube, dt: nat, batt: nat, state: nat, schedule: seq<Task>, baseT: int,
                       ghost base: seq<Task>, ghost emitted: seq<ScheduledSwitch>)
    returns (r: Result<(nat, nat, nat, seq<Task>)>, ghost emitted': seq<ScheduledSwitch>)
    requires decisions.Valid() && dt < decisions.dtLen && state <= 1
    requires schedule == base + SwitchTasks(baseT, emitted)
    ensures r.Err? ==> ReplayFrom(decisions, dt, batt, state).Err?
    ensures r.Ok? ==> var (dt', batt', state', schedule') := r.value;
      dt < dt' <= decisions.dtLen && state' <= 1 && schedule' == base + SwitchTasks(baseT, emitted') &&
      (ReplayFrom(decisions, dt, batt, state).Err? <==> ReplayFrom(decisions, dt', batt', state').Err?) &&
      (ReplayFrom(decisions, dt, batt, state).Ok? ==>
        emitted + ReplayFrom(decisions, dt, batt, state).value == emitted' + ReplayFrom(decisions, dt', batt', state').value)
  {
    MaxBatteryMatchesThresholds();
    var maxMapped := Round(MAX_BATTERY_THRESHOLD / BATTERY_RESOLUTION - MIN_BATTERY_THRESHOLD / BATTERY_RESOLUTION);
    var predSecs := decisions.dtLen;
    emitted' := emitted;
    var decision := decisions.GetFlat(dt, batt, state);
    if decision.None? {
      return Err("index out of bounds"), emitted';
    }
    match decision.value {
      case StayInCharge =>
        r := Ok((dt + 1, if batt + 1 <= maxMapped then batt + 1 else maxMapped, 0, schedule));
      case StayInAcquisition =>
        if batt == 0 {
          return Err("attempt to subtract with overflow"), emitted';
        }
        r := Ok((dt + 1, batt - 1, 1, schedule));
      case SwitchToCharge =>
        SwitchTasksSnoc(base, baseT, emitted, ScheduledSwitch(0, dt), schedule);
        emitted' := emitted + [ScheduledSwitch(0, dt)];
        r := Ok((if dt + SCORE_BOX_SIZE <= predSecs then dt + SCORE_BOX_SIZE else predSecs, batt, 0,
                 ScheduleSwitch(schedule, Charge, baseT + dt)));
      case SwitchToAcquisition =>
        SwitchTasksSnoc(base, baseT, emitted, ScheduledSwitch(1, dt), schedule);
        emitted' := emitted + [ScheduledSwitch(1, dt)];
        r := Ok((if dt + SCORE_BOX_SIZE <= predSecs then dt + SCORE_BOX_SIZE else predSecs, batt, 1,
                 ScheduleSwitch(schedule, Acquisition, baseT + dt)));
    }
  }

  /** Replay the decisions from `dtSh` for a satellite in `flightState` with battery level
      `battF`, enqueueing the switches after clearing the queue if `trunc`; returns the
      queue length and the queue. Any panic of the replay is an error. */
  method ScheduleOptimalOrbitResult(schedule: seq<Task>, baseT: int, res: OptimalOrbitResult, dtSh: nat, trunc: bool,
                                    battF: real, flightState: FlightState)
    returns (r: Result<(nat, seq<Task>)>)
    requires res.decisions.Valid()
    ensures DpState(flightState).Err? || StartBatt(battF).Err? ==> r.Err?
    ensures DpState(flightState).Ok? && StartBatt(battF).Ok? ==>
      var tr := ReplayFrom(res.decisions, dtSh, StartBatt(battF).value, DpState(flightState).value);
      (r.Ok? <==> tr.Ok?) &&
      (r.Ok? ==> r.value.1 == (if trunc then [] else schedule) + SwitchTasks(baseT, tr.value) && r.value.0 == |r.value.1|)
  {
    var newSchedule := schedule;
    if trunc {
      newSchedule := ClearSchedule(newSchedule);
    }
    var st := DpState(flightState);
    if st.Err? {
      return Err(st.msg);
    }
    var state := st.value;
    var dt: nat := dtSh;
    var b := StartBatt(battF);
    if b.Err? {
      return Err(b.msg);
    }
    var batt: nat := b.value;
    var predSecs := res.decisions.dtLen;
    var decisions := res.decisions;
    ghost var base := newSchedule;
    ghost var whole := ReplayFrom(decisions, dtSh, batt, state);
    ghost var emitted: seq<ScheduledSwitch> := [];
    while dt < predSecs
      invariant state <= 1
      invariant whole.Err? <==> ReplayFrom(decisions, dt, batt, state).Err?
      invariant whole.Ok? ==> emitted + ReplayFrom(decisions, dt, batt, state).value == whole.value
      invariant newSchedule == base + SwitchTasks(baseT, emitted)
      decreases predSecs - dt
    {
      var step;
      step, emitted := ApplyDecision(decisions, dt, batt, state, newSchedule, baseT, base, emitted);
      if step.Err? {
        return Err(step.msg);
      }
      dt, batt, state, newSchedule := step.value.0, step.value.1, step.value.2, step.value.3;
    }
    assert emitted == whole.value;
    r := Ok((|newSchedule|, newSchedule));
  }

  /** The DP state index an end flight state stands for; any other state selects no column. */
  function EndStateIndex(st: FlightState): (r: nat)
    ensures st == Charge || st == Acquisition ==> DpState(st) == Ok(r)
    ensures !(st == Charge || st == Acquisition) ==> r >= 2
  {
    match st
    case Charge => 0
    case Acquisition => 1
    case _ => 2
  }

  /** The end battery index measured from the minimum threshold, as the energy dimension
      counts. */
  function EndBattIndex(e: real): (r: nat)
    ensures r <= MAX_BATTERY
    ensures var c := Clamp(e, MIN_BATTERY_THRESHOLD, MAX_BATTERY_THRESHOLD);
      -0.05 <= MIN_BATTERY_THRESHOLD + r as real * BATTERY_RESOLUTION - c <= 0.05
  {
    Round((Clamp(e, MIN_BATTERY_THRESHOLD, MAX_BATTERY_THRESHOLD) - MIN_BATTERY_THRESHOLD) / BATTERY_RESOLUTION)
  }

  /** The corrected final-state grid: the end state's DP index and the battery index measured
      from the minimum select the wanted cells, and the rest score `MIN_SCORE`, strictly
      above the `i32::MIN` of an impossible stay. */
  function TerminalGrid(endStatus: Option<(FlightState, real)>): (g: ScoreGrid)
    ensures Shaped(g, E_LEN)
  {
    match endStatus
    case Some((st, batt)) => ConditionGrid(E_LEN, 2, Some(EndStateIndex(st)), EndBattIndex(batt), MIN_SCORE)
    case None => ScoreGrids.New(E_LEN, 2)
  }

  /** The corrected grid rewards exactly the wanted final cells. */
  lemma TerminalGridHonoursEndState(st: FlightState, batt: real, e: nat, s: nat)
    requires st == Charge || st == Acquisition
    requires e < E_LEN && s < 2
    ensures TerminalGrid(Some((st, batt))).Get(e, s) == 0 <==> DpState(st) == Ok(s) && e >= EndBattIndex(batt)
    ensures TerminalGrid(Some((st, batt))).Get(e, s) != 0 ==> TerminalGrid(Some((st, batt))).Get(e, s) == MIN_SCORE
  {
  }

  /** Set up and run the dynamic program with the corrected final-state grid. The plan
      never keeps an empty battery acquiring, so its replay never underflows. */
  method InitOrbitSchedCalcCorrected(period: nat, done: seq<bool>, dt: Option<nat>, endStatus: Option<(FlightState, real)>)
    returns (r: OptimalOrbitResult)
    requires |done| >= PredictionSecs(period, dt)
    ensures var c := r.decisions;
      c.Valid() && c.dtLen == PredictionSecs(period, dt) && c.eLen == E_LEN && c.sLen == 2 &&
      (forall t: nat, e: nat, s: nat :: c.InRange(t, e, s) ==>
        c.Get(t, e, s) == DecisionAt(StartBox(TerminalGrid(endStatus)), E_LEN, false, done, c.dtLen, t, e, s)) &&
      Consistent(c) &&
      (forall t: nat :: t < c.dtLen ==> c.Get(t, 0, 1) == SwitchToCharge)
    ensures forall batt: nat, state: nat :: batt <= MAX_BATTERY && state <= 1 ==> ReplayFrom(r.decisions, 0, batt, state).Ok?
  {
    var predictionSecs := PredictionSecs(period, dt);
    var decisionBuffer := DecisionCubes.New(predictionSecs, MAX_BATTERY + 1, 2);
    var covDtTemp := ScoreGrids.New(MAX_BATTERY + 1, 2);
    var covDtFirst := covDtTemp;
    if endStatus.Some? {
      var endBatt := EndBattIndex(endStatus.value.1);
      covDtFirst := NewFromCondition(MAX_BATTERY + 1, 2, Some(EndStateIndex(endStatus.value.0)), endBatt, MIN_SCORE);
    }
    var scoreCube := LinkedBoxes.New<ScoreGrid>(SCORE_BOX_SIZE);
    scoreCube := scoreCube.Push(covDtFirst);
    r := CalculateOptimalOrbitSchedule(predictionSecs, done, scoreCube, covDtTemp, decisionBuffer, false);
    CorrectedTerminalBoxBounded(endStatus);
    NeverStayInAcquisitionWhenEmpty(scoreCube, E_LEN, false, done, predictionSecs, 0);
    PlanReplaysFromEveryStart(r.decisions);
  }

  lemma {:induction false} CorrectedTerminalBoxBounded(endStatus: Option<(FlightState, real)>)
    ensures BoxBounded(StartBox(TerminalGrid(endStatus)), E_LEN, 0)
  {
    var g := TerminalGrid(endStatus);
    assert StartBox(g).list[0] == g;
    assert Bounded(g, E_LEN, 0);
  }

  /** A consistent plan that switches an empty acquiring battery to charge replays without
      underflow from every battery level and state. */
  lemma PlanReplaysFromEveryStart(c: AtomicDecisionCube)
    requires c.Valid() && c.eLen == E_LEN && c.sLen == 2 && Consistent(c)
    requires forall t: nat :: t < c.dtLen ==> c.Get(t, 0, 1) == SwitchToCharge
    ensures forall batt: nat, state: nat :: batt <= MAX_BATTERY && state <= 1 ==> ReplayFrom(c, 0, batt, state).Ok?
  {
    forall batt: nat, state: nat | batt <= MAX_BATTERY && state <= 1
      ensures ReplayFrom(c, 0, batt, state).Ok?
    {
      ReplayNeverUnderflows(c, 0, batt, state);
    }
  }
}

=== FILE: fixed_point.dfy ===
/** Rounding conversions of the `fixed` crate's `I32F32` numbers, on exact reals. The
    program's battery levels and resolutions are `I32F32`; here they are reals, so `0.1` is
    exact rather than the nearest multiple of 2^-32. */
module FixedPoint {

  /** `round()`: to the nearest integer, halves away from zero. */
  function Round(x: real): (r: int)
    ensures (r as real) - 0.5 <= x <= (r as real) + 0.5
    ensures x >= 0.0 ==> r >= 0
    ensures x == (r as real) - 0.5 ==> x > 0.0
    ensures x == (r as real) + 0.5 ==> x < 0.0
  {
    if x >= 0.0 then (x + 0.5).Floor else -((-x + 0.5).Floor)
  }

  /** `to_num::<integer>()`: fractional bits are discarded, rounding toward minus infinity. */
  function ToNumFloor(x: real): (r: int)
    ensures r as real <= x < (r as real) + 1.0
  {
    x.Floor
  }

  /** `ceil()`: the least integer at least `x`. */
  function Ceil(x: real): (r: int)
    ensures r as real - 1.0 < x <= r as real
  {
    -((-x).Floor)
  }

  function Clamp(x: real, lo: real, hi: real): (r: real)
    requires lo <= hi
    ensures lo <= r <= hi
    ensures lo <= x <= hi ==> r == x
  {
    if x < lo then lo else if x > hi then hi else x
  }

  function MinReal(a: real, b: real): real { if a <= b then a else b }

  function MaxReal(a: real, b: real): real { if a >= b then a else b }
}

=== FILE: flat_index.dfy ===
/** Arithmetic facts about the row-major flat indices that the score grid and the decision
    cube use to store a 2D and a 3D array in one slice. */
module FlatIndex {

  lemma MulLeRight(a: nat, b: nat, c: nat)
    requires a <= b
    ensures a * c <= b * c
  {
  }

  /** A 2D index `e * width + s` lies inside a `rows * width` slice. */
  lemma {:induction false} Index2InBounds(e: nat, s: nat, rows: nat, width: nat)
    requires e < rows && s < width
    ensures 0 <= e * width + s < rows * width
  {
    MulLeRight(e + 1, rows, width);
    MulLeRight(0, e, width);
  }

  /** Every 3D flat index, in range or not, is a natural number. */
  lemma Index3NonNeg(t: nat, e: nat, s: nat, rows: nat, width: nat)
    ensures 0 <= t * (rows * width) + (e * width + s)
  {
    MulLeRight(0, e, width);
    MulLeRight(0, rows, width);
    MulLeRight(0, t, rows * width);
  }

  /** Distinct 2D positions have distinct flat indices. */
  lemma {:induction false} Index2Injective(e1: nat, s1: nat, e2: nat, s2: nat, width: nat)
    requires s1 < width && s2 < width
    requires e1 * width + s1 == e2 * width + s2
    ensures e1 == e2 && s1 == s2
  {
    if e1 < e2 {
      MulLeRight(e1 + 1, e2, width);
      assert false;
    } else if e2 < e1 {
      MulLeRight(e2 + 1, e1, width);
      assert false;
    }
  }

  /** The 3D index `t * (rows * width) + (e * width + s)` lies inside a `depth * (rows * width)` slice. */
  lemma {:induction false} Index3InBounds(t: nat, e: nat, s: nat, depth: nat, rows: nat, width: nat)
    requires t < depth && e < rows && s < width
    ensures 0 <= e * width + s < rows * width
    ensures 0 <= t * (rows * width) + (e * width + s) < depth * (rows * width)
  {
    Index2InBounds(e, s, rows, width);
    Index2InBounds(t, e * width + s, depth, rows * width);
  }

  /** Distinct 3D positions have distinct flat indices. */
  lemma {:induction false} Index3Injective(t1: nat, e1: nat, s1: nat, t2: nat, e2: nat, s2: nat, rows: nat, width: nat)
    requires e1 < rows && s1 < width && e2 < rows && s2 < width
    requires t1 != t2 || e1 != e2 || s1 != s2
    ensures t1 * (rows * width) + (e1 * width + s1) != t2 * (rows * width) + (e2 * width + s2)
  {
    Index2InBounds(e1, s1, rows, width);
    Index2InBounds(e2, s2, rows, width);
    if t1 * (rows * width) + (e1 * width + s1) == t2 * (rows * width) + (e2 * width + s2) {
      Index2Injective(t1, e1 * width + s1, t2, e2 * width + s2, rows * width);
      Index2Injective(e1, s1, e2, s2, width);
    }
  }

  /** Decoding a 2D flat index by division and remainder recovers the position. */
  lemma {:induction false} Index2Decode(e: nat, s: nat, width: nat)
    requires s < width
    ensures (e * width + s) / width == e && (e * width + s) % width == s
  {
    var j := e * width + s;
    var q, r := j / width, j % width;
    assert j == q * width + r && 0 <= r < width;
    Index2Injective(q, r, e, s, width);
  }

  /** Every flat index inside a `rows * width` slice decodes to a position inside the grid. */
  lemma {:induction false} Index2Encode(j: nat, rows: nat, width: nat)
    requires j < rows * width
    ensures width > 0 && 0 <= j / width < rows && 0 <= j % width < width
    ensures j == (j / width) * width + j % width
  {
    if width == 0 {
      assert false;
    }
    var q := j / width;
    if q >= rows {
      MulLeRight(rows, q, width);
      assert false;
    }
  }
}

=== FILE: flight_state.dfy ===
/** The satellite's flight states and their lower-case string codec
    (src/flight_control/flight_state.rs). */
module FlightStates {
  import opened Text

  datatype FlightState = Deployment | Transition | Acquisition | Charge | Comms | Safe

  /** `From<&str>`: case-insensitive; any unrecognised name becomes `Safe`. */
  function FromStr(s: string): (r: FlightState)
    ensures r == Safe <==> ToLower(s) !in {"deployment", "transition", "acquisition", "charge", "comms"}
    ensures r != Safe ==> ToStr(r) == ToLower(s)
  {
    match ToLower(s)
    case "deployment" => Deployment
    case "transition" => Transition
    case "acquisition" => Acquisition
    case "charge" => Charge
    case "comms" => Comms
    case "safe" => Safe
    case _ => Safe
  }

  /** `Into<String>`: the lower-case variant name. */
  function ToStr(st: FlightState): string
  {
    match st
    case Deployment => "deployment"
    case Transition => "transition"
    case Acquisition => "acquisition"
    case Charge => "charge"
    case Comms => "comms"
    case Safe => "safe"
  }

  /** Rendering a state and parsing it back gives the state again, for all six variants. */
  lemma RoundTrip(st: FlightState)
    ensures FromStr(ToStr(st)) == st
    ensures ToLower(ToStr(st)) == ToStr(st)
  {
    var s := ToStr(st);
    assert ToLower(s) == s;
  }

  /** Parsing ignores case: the input and its lower-cased form parse alike. */
  lemma FromStrIgnoresCase(s: string)
    ensures FromStr(s) == FromStr(ToLower(s))
  {
    ToLowerIdempotent(s);
  }

  /** A state's name in any mixture of letter cases parses to that state. */
  lemma AnyCaseParses(st: FlightState, s: string)
    requires ToLower(s) == ToStr(st)
    ensures FromStr(s) == st
  {
  }
}

=== FILE: global_mode.dfy ===
/** The controller's top-level mode (src/global_mode.rs), with the objective each mode works on. */
module GlobalModes {
  import FcKnownImgObjectives
  import FcBeaconObjectives

  datatype GlobalMode =
    | MappingMode
    | ZonedObjectivePrepMode(known: FcKnownImgObjectives.KnownImgObjective)
    | ZonedObjectiveRetrievalMode(known: FcKnownImgObjectives.KnownImgObjective)
    | ZonedObjectiveReturnMode
    | BeaconObjectivePassiveScanningMode(beacon: FcBeaconObjectives.BeaconObjective)
    | BeaconObjectiveActiveScanningMode(beacon: FcBeaconObjectives.BeaconObjective)

  /** The derived `Display`: the variant's name. */
  function Name(m: GlobalMode): string
  {
    match m
    case MappingMode => "MappingMode"
    case ZonedObjectivePrepMode(_) => "ZonedObjectivePrepMode"
    case ZonedObjectiveRetrievalMode(_) => "ZonedObjectiveRetrievalMode"
    case ZonedObjectiveReturnMode => "ZonedObjectiveReturnMode"
    case BeaconObjectivePassiveScanningMode(_) => "BeaconObjectivePassiveScanningMode"
    case BeaconObjectiveActiveScanningMode(_) => "BeaconObjectiveActiveScanningMode"
  }

  /** The modes in which the camera keeps mapping, by name. */
  const MAPPING_MODES: set<string> := {"MappingMode", "BeaconObjectivePassiveScanningMode", "ZonedObjectivePrepMode"}

  /** `should_map`: mapping continues while mapping, while passively listening for beacons
      and while preparing a zoned objective, and stops in the other three modes. */
  function ShouldMap(m: GlobalMode): (r: bool)
    ensures r <==> Name(m) in MAPPING_MODES
  {
    match m
    case MappingMode | BeaconObjectivePassiveScanningMode(_) | ZonedObjectivePrepMode(_) => true
    case _ => false
  }

  /** The answer depends on the variant only: two modes of the same variant, whatever
      objectives they carry, agree. */
  lemma ShouldMapIgnoresPayload(a: GlobalMode, b: GlobalMode)
    requires Name(a) == Name(b)
    ensures ShouldMap(a) == ShouldMap(b)
  {
  }

  /** Retrieving or returning from a zoned objective and actively homing in on a beacon stop
      the mapping. */
  lemma ShouldMapFalseCases(m: GlobalMode)
    requires m.ZonedObjectiveRetrievalMode? || m.ZonedObjectiveReturnMode? || m.BeaconObjectiveActiveScanningMode?
    ensures !ShouldMap(m)
  {
  }
}

=== FILE: http_objectives.dfy ===
/** The objectives as the mission server announces them (src/http_handler/common.rs), only
    the fields the controller's own objectives copy. Times are integer timestamps. */
module HttpObjectives {
  /** A zone's corners `[x_min, y_min, x_max, y_max]`. */
  type Zone = (int, int, int, int)

  /** Where an imaging objective lies: a known rectangle, or a secret the controller must
      find itself. */
  datatype ZoneType = KnownZone(zone: Zone) | SecretZone(secret: string)

  datatype ImageObjective = ImageObjective(id: nat, name: string, start: int, end: int,
                                           zoneType: ZoneType, opticRequired: string,
                                           coverageRequired: real)

  datatype BeaconObjective = BeaconObjective(id: nat, name: string, start: int, end: int)
}

=== FILE: img_buffer.dfy ===
/** The RGB raster buffer (src/flight_control/common/img_buffer.rs): `width * height`
    pixels in row-major order, with `u32` sizes and indices. */
module Buffers {
  import opened Wrappers
  import opened FlatIndex
  import Vec2Ds

  const U32_MOD: int := 0x1_0000_0000

  newtype u8 = x: int | 0 <= x < 256

  datatype Rgb = Rgb(r: u8, g: u8, b: u8)

  const BLACK: Rgb := Rgb(0, 0, 0)

  datatype Buffer = Buffer(width: nat, height: nat, data: seq<Rgb>)

  predicate Valid(buf: Buffer)
  {
    buf.width * buf.height < U32_MOD && |buf.data| == buf.width * buf.height
  }

  /** `new`: every pixel black; a pixel count beyond `u32` is an overflow panic. */
  function New(width: nat, height: nat): (r: Result<Buffer>)
    requires width < U32_MOD && height < U32_MOD
    ensures r.Err? <==> width * height >= U32_MOD
    ensures r.Ok? ==> Valid(r.value) && Dimensions(r.value) == (width, height)
    ensures r.Ok? ==> forall i :: 0 <= i < |r.value.data| ==> r.value.data[i] == BLACK
  {
    if width * height >= U32_MOD then Err("attempt to multiply with overflow")
    else Ok(Buffer(width, height, seq(width * height, i => BLACK)))
  }

  /** `from_map_size`: a black 21600 x 10800 buffer. */
  function FromMapSize(): (r: Buffer)
    ensures Valid(r) && Dimensions(r) == (Vec2Ds.MAP_X, Vec2Ds.MAP_Y)
    ensures forall i :: 0 <= i < |r.data| ==> r.data[i] == BLACK
  {
    assert Vec2Ds.MAP_X * Vec2Ds.MAP_Y < U32_MOD;
    New(Vec2Ds.MAP_X, Vec2Ds.MAP_Y).value
  }

  function Dimensions(buf: Buffer): (nat, nat) { (buf.width, buf.height) }

  /** `get_buffer_index`: `y * width + x` in `u32`; past `u32` it is an overflow panic. */
  function BufferIndex(buf: Buffer, x: nat, y: nat): (r: Result<nat>)
    ensures r.Err? <==> y * buf.width + x >= U32_MOD
    ensures r.Ok? ==> r.value < U32_MOD
    ensures r.Ok? && x < buf.width ==> r.value / buf.width == y && r.value % buf.width == x
  {
    if y * buf.width + x >= U32_MOD then Err("attempt to add with overflow")
    else
      if x < buf.width then
        Index2Decode(y, x, buf.width);
        Ok(y * buf.width + x)
      else Ok(y * buf.width + x)
  }

  /** The documented example: on a 4 x 4 buffer pixel (2, 3) has index 14. */
  lemma BufferIndexExample()
    ensures BufferIndex(Buffer(4, 4, seq(16, i => BLACK)), 2, 3) == Ok(14)
  {
  }

  /** Every pixel of the buffer has an index inside the data. */
  lemma BufferIndexInside(buf: Buffer, x: nat, y: nat)
    requires Valid(buf) && x < buf.width && y < buf.height
    ensures BufferIndex(buf, x, y).Ok? && BufferIndex(buf, x, y).value < |buf.data|
  {
    Index2InBounds(y, x, buf.height, buf.width);
  }

  /** `save_pixel`: writes one pixel; an index past the data panics. */
  function SavePixel(buf: Buffer, x: nat, y: nat, rgb: Rgb): (r: Result<Buffer>)
    ensures r.Err? <==> BufferIndex(buf, x, y).Err? || BufferIndex(buf, x, y).value >= |buf.data|
    ensures r.Ok? ==> Dimensions(r.value) == Dimensions(buf) && |r.value.data| == |buf.data|
    ensures r.Ok? ==> GetPixel(r.value, x, y) == Ok(rgb)
    ensures r.Ok? ==> forall i :: 0 <= i < |buf.data| && i != BufferIndex(buf, x, y).value ==>
      r.value.data[i] == buf.data[i]
  {
    var idx := BufferIndex(buf, x, y);
    if idx.Err? then Err(idx.msg)
    else if idx.value >= |buf.data| then Err("index out of bounds")
    else Ok(buf.(data := buf.data[idx.value := rgb]))
  }

  /** `get_pixel`: the pixel at the same index `save_pixel` writes. */
  function GetPixel(buf: Buffer, x: nat, y: nat): (r: Result<Rgb>)
    ensures r.Err? <==> BufferIndex(buf, x, y).Err? || BufferIndex(buf, x, y).value >= |buf.data|
    ensures r.Ok? ==> r.value == buf.data[BufferIndex(buf, x, y).value]
  {
    var idx := BufferIndex(buf, x, y);
    if idx.Err? then Err(idx.msg)
    else if idx.value >= |buf.data| then Err("index out of bounds")
    else Ok(buf.data[idx.value])
  }

  /** On the map, saving a pixel leaves every other pixel as it was. */
  lemma SaveKeepsOtherPixels(buf: Buffer, x: nat, y: nat, rgb: Rgb, x2: nat, y2: nat)
    requires Valid(buf) && x < buf.width && y < buf.height && x2 < buf.width && y2 < buf.height
    requires (x2, y2) != (x, y)
    ensures SavePixel(buf, x, y, rgb).Ok?
    ensures GetPixel(SavePixel(buf, x, y, rgb).value, x2, y2) == GetPixel(buf, x2, y2)
  {
    BufferIndexInside(buf, x, y);
    BufferIndexInside(buf, x2, y2);
    if y * buf.width + x == y2 * buf.width + x2 {
      Index2Injective(y, x, y2, x2, buf.width);
    }
  }
}

=== FILE: int_arith.dfy ===
/** Integer facts the geometry and number-theory modules share, and Rust's truncating
    remainder. Dafny's `/` and `%` are Euclidean; Rust's `%` keeps the sign of the dividend. */
module IntArith {
  function Abs(a: int): nat { if a < 0 then -a else a }

  function Max(a: int, b: int): int { if a >= b then a else b }

  function Min(a: int, b: int): int { if a <= b then a else b }

  lemma MulAtLeast(m: int, d: int)
    requires m > 0 && d >= 1
    ensures m * d >= m
  {
    var k := d - 1;
    assert m * d == m * k + m;
  }

  /** Quotient and remainder are unique. */
  lemma {:induction false} DivModUnique(a: int, m: int, q: int, r: int)
    requires m > 0 && a == q * m + r && 0 <= r < m
    ensures a % m == r && a / m == q
  {
    var q', r' := a / m, a % m;
    assert a == q' * m + r';
    if q > q' {
      MulAtLeast(m, q - q');
      assert false;
    } else if q < q' {
      MulAtLeast(m, q' - q);
      assert false;
    }
  }

  lemma {:induction false} ModShift(a: int, k: int, m: int)
    requires m > 0
    ensures (a + k * m) % m == a % m
  {
    DivModUnique(a + k * m, m, a / m + k, a % m);
  }

  /** A value in the `k`-th window of width `m` has quotient `k`. */
  lemma ModInWindow(a: int, m: int, k: int)
    requires m > 0 && k * m <= a < k * m + m
    ensures a % m == a - k * m && a / m == k
  {
    DivModUnique(a, m, k, a - k * m);
  }

  /** The remainder of a sum depends only on the remainder of a summand. */
  lemma ModAddMod(a: int, c: int, m: int)
    requires m > 0
    ensures (a + c) % m == (a % m + c) % m
    ensures (c - a) % m == (c - a % m) % m
  {
    AddMod(a, c, m);
    SubMod(a, c, m);
  }

  lemma AddMod(a: int, c: int, m: int)
    requires m > 0
    ensures (a + c) % m == (a % m + c) % m
  {
    var q, r := a / m, a % m;
    ModShift(r + c, q, m);
    assert (r + c) + q * m == a + c;
  }

  lemma SubMod(a: int, c: int, m: int)
    requires m > 0
    ensures (c - a) % m == (c - a % m) % m
  {
    var q, r := a / m, a % m;
    ModShift(c - r, -q, m);
    assert (c - r) + (-q) * m == c - a;
  }

  /** Rust's `%`: truncating division, so the result has the sign of `a`. */
  function TRem(a: int, m: int): (r: int)
    requires m != 0
    ensures a >= 0 ==> 0 <= r < Abs(m)
    ensures a < 0 ==> 0 < r + Abs(m) && r <= 0
    ensures (a - r) % Abs(m) == 0
  {
    var M := Abs(m);
    if a >= 0 then
      RemNonNeg(a, M);
      a % M
    else
      RemNonNeg(-a, M);
      DivModUnique(a + (-a) % M, M, -((-a) / M), 0);
      -((-a) % M)
  }

  lemma RemNonNeg(a: nat, m: int)
    requires m > 0
    ensures 0 <= a % m < m
    ensures a - a % m == (a / m) * m
    ensures (a - a % m) % m == 0
  {
    DivModUnique(a - a % m, m, a / m, 0);
  }

  /** Rust's `/` on integers: truncating division. */
  function TDiv(a: int, m: int): (q: int)
    requires m != 0
    ensures q * m + TRem(a, m) == a
  {
    var M := Abs(m);
    var qa := if a >= 0 then a / M else -((-a) / M);
    TDivMagnitude(a, m, M, qa);
    if m > 0 then qa else -qa
  }

  /** The quotient of the magnitudes, signed like `a`, rebuilds `a` together with `TRem`. */
  lemma TDivMagnitude(a: int, m: int, M: int, qa: int)
    requires m != 0 && M == Abs(m)
    requires qa == if a >= 0 then a / M else -((-a) / M)
    ensures qa * M + TRem(a, m) == a
    ensures (-qa) * m == qa * M || m > 0
  {
    if a >= 0 {
      RemNonNeg(a, M);
    } else {
      RemNonNeg(-a, M);
    }
    if m < 0 {
      assert M == -m;
      assert (-qa) * m == qa * (-m);
    }
  }

  /** `a + (b - a) / 2` with Rust's truncating division: the middle of `a` and `b`, rounded
      towards `a` when it is not whole. */
  function Midpoint(a: int, b: int): (c: int)
    ensures a <= b ==> a <= c <= b && a + b - 1 <= 2 * c <= a + b
    ensures b < a ==> b <= c <= a && a + b <= 2 * c <= a + b + 1
  {
    var w := b - a;
    if w >= 0 then RemNonNeg(w, 2); a + TDiv(w, 2)
    else RemNonNeg(-w, 2); a + TDiv(w, 2)
  }
}

=== FILE: known_img_objective.dfy ===
/** The known-zone imaging objective of the newer snapshot (src/objective/known_img_objective.rs).
    The lens type of that snapshot (src/imaging) is not part of this model: the objective is
    generic over it, and `angleOf` stands for its conversion from the announced lens name. */
module KnownImgObjectives {
  import opened Wrappers
  import opened IntArith
  import opened Orderings
  import opened Vec2Ds
  import HttpObjectives

  datatype KnownImgObjective<A> = KnownImgObjective(id: nat, name: string, start: int, end: int,
                                                    zone: HttpObjectives.Zone, opticRequired: A,
                                                    coverageRequired: real)

  /** `width`: `zone[2] - zone[0]`. */
  function Width<A>(o: KnownImgObjective<A>): (r: int)
    ensures o.zone.0 + r == o.zone.2
    ensures r >= 0 <==> o.zone.0 <= o.zone.2
  {
    o.zone.2 - o.zone.0
  }

  /** `height`: `zone[3] - zone[1]`. */
  function Height<A>(o: KnownImgObjective<A>): (r: int)
    ensures o.zone.1 + r == o.zone.3
    ensures r >= 0 <==> o.zone.1 <= o.zone.3
  {
    o.zone.3 - o.zone.1
  }

  /** `get_single_image_point`: the middle of the zone, rounded towards its lower corner when
      not whole, wrapped onto the map. */
  function GetSingleImagePoint<A>(o: KnownImgObjective<A>): (r: Vec2D)
    ensures OnMap(r)
    ensures r == WrapAroundMap(Vec2D(Midpoint(o.zone.0, o.zone.2), Midpoint(o.zone.1, o.zone.3)))
  {
    var xSize := o.zone.2 - o.zone.0;
    var ySize := o.zone.3 - o.zone.1;
    WrapAroundMap(Vec2D(o.zone.0 + TDiv(xSize, 2), o.zone.1 + TDiv(ySize, 2)))
  }

  /** For a zone inside the map, the image point lies within the zone, half its width and
      height (rounded down) from its lower corner. */
  lemma SingleImagePointInZone<A>(o: KnownImgObjective<A>)
    requires 0 <= o.zone.0 <= o.zone.2 < MAP_X && 0 <= o.zone.1 <= o.zone.3 < MAP_Y
    ensures var p := GetSingleImagePoint(o);
      o.zone.0 <= p.x <= o.zone.2 && o.zone.1 <= p.y <= o.zone.3 &&
      p.x == o.zone.0 + Width(o) / 2 && p.y == o.zone.1 + Height(o) / 2
  {
    var c := Vec2D(Midpoint(o.zone.0, o.zone.2), Midpoint(o.zone.1, o.zone.3));
    WrapAroundMapIdempotent(c);
    RemNonNeg(Width(o), 2);
    RemNonNeg(Height(o), 2);
  }

  /** `get_corners`: the four corners, each with the shortest vector to the opposite one. */
  function GetCorners<A>(o: KnownImgObjective<A>): (r: seq<(Vec2D, Vec2D)>)
    ensures |r| == 4
    ensures r[0].0 == Vec2D(o.zone.0, o.zone.1) && r[3].0 == Add(r[0].0, Vec2D(Width(o), Height(o)))
    ensures r[1].0 == Vec2D(o.zone.0, o.zone.3) && r[2].0 == Add(r[1].0, Vec2D(Width(o), -Height(o)))
  {
    var first := Vec2D(o.zone.0, o.zone.1);
    var second := Vec2D(o.zone.0, o.zone.3);
    var third := Vec2D(o.zone.2, o.zone.1);
    var fourth := Vec2D(o.zone.2, o.zone.3);
    [(first, UnwrappedTo(first, fourth)), (second, UnwrappedTo(second, third)),
     (third, UnwrappedTo(third, second)), (fourth, UnwrappedTo(fourth, first))]
  }

  /** For a zone whose corners are on the map, each corner's vector is at most half the map
      long in each direction and leads, wrapped, to the diagonally opposite corner. */
  lemma {:induction false} CornersPointAcross<A>(o: KnownImgObjective<A>, i: nat)
    requires OnMap(Vec2D(o.zone.0, o.zone.1)) && OnMap(Vec2D(o.zone.2, o.zone.3)) && i < 4
    ensures var c := GetCorners(o);
      WrapAroundMap(Add(c[i].0, c[i].1)) == c[3 - i].0 &&
      -MAP_X / 2 <= c[i].1.x <= MAP_X / 2 && -MAP_Y / 2 <= c[i].1.y <= MAP_Y / 2
  {
    var c := GetCorners(o);
    UnwrappedToIsShortest(c[i].0, c[3 - i].0);
  }

  const CONVERSION_ERROR: string := "[FATAL] Wrong objective conversion!"

  /** `TryFrom<ImageObjective>`: only an objective with a known zone converts. */
  function TryFrom<A>(obj: HttpObjectives.ImageObjective, angleOf: string -> A): (r: Result<KnownImgObjective<A>>)
    ensures r.Ok? <==> obj.zoneType.KnownZone?
    ensures r.Ok? ==> r.value.zone == obj.zoneType.zone && r.value.opticRequired == angleOf(obj.opticRequired)
    ensures r.Ok? ==> (r.value.id == obj.id && r.value.name == obj.name && r.value.start == obj.start &&
                       r.value.end == obj.end && r.value.coverageRequired == obj.coverageRequired)
  {
    match obj.zoneType
    case KnownZone(zone) =>
      Ok(KnownImgObjective(obj.id, obj.name, obj.start, obj.end, zone, angleOf(obj.opticRequired), obj.coverageRequired))
    case SecretZone(_) => Err(CONVERSION_ERROR)
  }

  /** `TryFrom<(ImageObjective, [i32; 4])>`: a secret-zone objective together with the zone
      found for it converts; a known-zone objective does not. */
  function TryFromWithZone<A>(obj: HttpObjectives.ImageObjective, zone: HttpObjectives.Zone,
                              angleOf: string -> A): (r: Result<KnownImgObjective<A>>)
    ensures r.Ok? <==> obj.zoneType.SecretZone?
    ensures r.Ok? ==> r.value.zone == zone && r.value.opticRequired == angleOf(obj.opticRequired)
    ensures r.Ok? ==> (r.value.id == obj.id && r.value.name == obj.name && r.value.start == obj.start &&
                       r.value.end == obj.end && r.value.coverageRequired == obj.coverageRequired)
  {
    match obj.zoneType
    case SecretZone(_) =>
      Ok(KnownImgObjective(obj.id, obj.name, obj.start, obj.end, zone, angleOf(obj.opticRequired), obj.coverageRequired))
    case KnownZone(_) => Err(CONVERSION_ERROR)
  }

  /** Exactly one of the two conversions accepts a given announced objective, and for a known
      zone both would build the same objective from the same zone. */
  lemma ExactlyOneConversion<A>(obj: HttpObjectives.ImageObjective, zone: HttpObjectives.Zone, angleOf: string -> A)
    ensures TryFrom(obj, angleOf).Ok? != TryFromWithZone(obj, zone, angleOf).Ok?
    ensures obj.zoneType.KnownZone? ==>
      TryFrom(obj, angleOf) ==
      TryFromWithZone(obj.(zoneType := HttpObjectives.SecretZone("")), obj.zoneType.zone, angleOf)
  {
  }

  /** `PartialEq`: objectives are equal when they end at the same time. */
  predicate Eq<A>(a: KnownImgObjective<A>, b: KnownImgObjective<A>)
  {
    a.end == b.end
  }

  /** `Ord::cmp`: by end time. */
  function Cmp<A>(a: KnownImgObjective<A>, b: KnownImgObjective<A>): Ordering
  {
    CmpInt(a.end, b.end)
  }

  /** `cmp` and `eq` agree, `cmp` reverses when its operands swap, and both look only at the
      end time. */
  lemma CmpAgreesWithEq<A>(a: KnownImgObjective<A>, b: KnownImgObjective<A>)
    ensures Cmp(a, b) == Equal <==> Eq(a, b)
    ensures Cmp(b, a) == Reverse(Cmp(a, b))
    ensures Cmp(a, b) == Less <==> a.end < b.end
  {
  }
}

=== FILE: linked_box.dfy ===
/** A bounded push-front list that drops its oldest element once it holds more than `size`
    elements (src/scheduling/linked_box.rs; the older src/flight_control/common/linked_box.rs
    behaves identically and has no `size` accessor). Index 0 is the front (newest). */
module LinkedBoxes {
  import opened Wrappers

  datatype LinkedBox<T> = LinkedBox(list: seq<T>, size: nat)
  {
    function Len(): nat { |list| }

    function Size(): nat { size }

    predicate IsEmpty()
      ensures IsEmpty() <==> Len() == 0
    {
      |list| == 0
    }

    function Front(): (r: Option<T>)
      ensures r.Some? <==> Len() > 0
      ensures r.Some? ==> r.value == list[0]
    {
      if |list| == 0 then None else Some(list[0])
    }

    function Back(): (r: Option<T>)
      ensures r.Some? <==> Len() > 0
      ensures r.Some? ==> r.value == list[Len() - 1]
    {
      if |list| == 0 then None else Some(list[|list| - 1])
    }

    /** Push to the front, then drop the back element if the capacity is exceeded. On a
        box within its capacity, the result holds the item followed by the previous
        elements, truncated to the capacity. */
    function Push(item: T): (r: LinkedBox<T>)
      ensures r.size == size
      ensures r.Len() == if Len() + 1 > size then Len() else Len() + 1
      ensures r.Len() > 0 ==> r.list[0] == item
      ensures size > 0 ==> r.Front() == Some(item)
      ensures forall i :: 0 < i < r.Len() && i <= Len() ==> r.list[i] == list[i - 1]
    {
      var pushed := [item] + list;
      if |pushed| > size then LinkedBox(pushed[..|pushed| - 1], size) else LinkedBox(pushed, size)
    }
  }

  function New<T>(size: nat): (r: LinkedBox<T>)
    ensures r.IsEmpty() && r.Size() == size
  {
    LinkedBox([], size)
  }

  /** The box after pushing `items` one by one, first element first. */
  function PushAll<T>(b: LinkedBox<T>, items: seq<T>): (r: LinkedBox<T>)
    ensures r.size == b.size
    decreases |items|
  {
    if |items| == 0 then b else PushAll(b, items[..|items| - 1]).Push(items[|items| - 1])
  }

  function Min(a: nat, b: nat): nat { if a <= b then a else b }

  /** A box filled from empty holds the last `size` pushed items, newest first: the element
      at position `i` is the one pushed `i` pushes ago. */
  lemma {:induction false} PushAllWindow<T>(size: nat, items: seq<T>)
    ensures PushAll(New<T>(size), items).Len() == Min(|items|, size)
    ensures forall i :: 0 <= i < PushAll(New<T>(size), items).Len() ==>
      PushAll(New<T>(size), items).list[i] == items[|items| - 1 - i]
    decreases |items|
  {
    if |items| > 0 {
      var prefix := items[..|items| - 1];
      PushAllWindow(size, prefix);
      var b := PushAll(New<T>(size), prefix);
      var r := b.Push(items[|items| - 1]);
      assert r == PushAll(New<T>(size), items);
      assert |prefix| == |items| - 1;
      assert b.Len() == Min(|prefix|, size) <= size;
      assert r.Len() == Min(|items|, size);
      forall i | 0 <= i < r.Len()
        ensures r.list[i] == items[|items| - 1 - i]
      {
        if i > 0 {
          assert r.list[i] == b.list[i - 1] == prefix[|prefix| - 1 - (i - 1)];
        }
      }
    }
  }

  /** Consequences for a box of capacity `size` after `k + 1` pushes: the front is the
      newest item, and once the box is full the back is the item pushed `size - 1` pushes
      earlier; before that the back is the very first item. */
  lemma {:induction false} FrontBackAfterPushes<T>(size: nat, items: seq<T>, b: LinkedBox<T>)
    requires size > 0 && |items| > 0 && b == PushAll(New<T>(size), items)
    ensures b.Size() == size
    ensures b.Front() == Some(items[|items| - 1])
    ensures |items| >= size ==> b.Len() == size && b.Back() == Some(items[|items| - size])
    ensures |items| < size ==> b.Len() < size && b.Back() == Some(items[0])
  {
    PushAllWindow(size, items);
    assert b.list[0] == items[|items| - 1];
    assert b.list[b.Len() - 1] == items[|items| - 1 - (b.Len() - 1)];
  }

  /** Pushing two runs of items is pushing their concatenation. */
  lemma {:induction false} PushAllAppend<T>(b: LinkedBox<T>, xs: seq<T>, ys: seq<T>)
    ensures PushAll(PushAll(b, xs), ys) == PushAll(b, xs + ys)
    decreases |ys|
  {
    if |ys| > 0 {
      var zs := xs + ys;
      PushAllAppend(b, xs, ys[..|ys| - 1]);
      assert zs[..|zs| - 1] == xs + ys[..|ys| - 1];
      assert zs[|zs| - 1] == ys[|ys| - 1];
    } else {
      assert xs + ys == xs;
    }
  }
}

=== FILE: math.dfy ===
/** Integer greatest common divisor and least common multiple on `i32`
    (src/flight_control/common/math.rs). The floating-point variants are not modelled. */
module IntMath {
  import opened Wrappers
  import opened IntArith

  const I32_MIN: int := -0x8000_0000
  const I32_MAX: int := 0x7fff_ffff

  predicate IsI32(a: int) { I32_MIN <= a <= I32_MAX }

  /** `d` divides `n`. */
  predicate Divides(d: nat, n: int) { if d == 0 then n == 0 else n % d == 0 }

  /** Reference greatest common divisor: Euclid's recursion on the absolute values. */
  function GcdNat(x: nat, y: nat): (r: nat)
    ensures r == 0 <==> x == 0 && y == 0
    decreases y
  {
    if y == 0 then x else GcdNat(y, x % y)
  }

  function Gcd(a: int, b: int): (r: nat)
    ensures r == 0 <==> a == 0 && b == 0
  {
    GcdNat(Abs(a), Abs(b))
  }

  lemma {:induction false} DividesCombination(d: nat, x: int, y: int, q: int)
    requires d > 0 && Divides(d, x) && Divides(d, y)
    ensures Divides(d, x - q * y)
  {
    var a, b := x / d, y / d;
    assert x == a * d && y == b * d;
    assert q * y == (q * b) * d;
    DivModUnique(x - q * y, d, a - q * b, 0);
  }

  /** The common divisors of `x` and `y` are those of `y` and `x % y`. */
  lemma {:induction false} EuclidStep(d: nat, x: nat, y: nat)
    requires d > 0 && y > 0
    ensures Divides(d, x) && Divides(d, y) <==> Divides(d, y) && Divides(d, x % y)
  {
    var q := x / y;
    assert x % y == x - q * y;
    if Divides(d, x) && Divides(d, y) {
      DividesCombination(d, x, y, q);
    }
    if Divides(d, y) && Divides(d, x % y) {
      DividesCombination(d, x % y, y, -q);
      assert x % y - (-q) * y == x;
    }
  }

  lemma DividesAbs(d: nat, n: int)
    requires d > 0
    ensures Divides(d, n) <==> Divides(d, Abs(n))
  {
    if n < 0 {
      if Divides(d, n) { DividesCombination(d, 0, n, 1); }
      if Divides(d, -n) { DividesCombination(d, 0, -n, 1); }
    }
  }

  /** `gcd_i32`: Euclid's algorithm on the absolute values. `i32::MIN` has no `i32`
      absolute value, which is an overflow panic. The result is non-negative, divides both
      inputs, and every common divisor divides it. */
  method GcdI32(a: int, b: int) returns (r: Result<int>)
    requires IsI32(a) && IsI32(b)
    ensures r.Err? <==> a == I32_MIN || b == I32_MIN
    ensures r.Ok? ==> IsI32(r.value) && r.value >= 0
    ensures r.Ok? ==> Divides(r.value, a) && Divides(r.value, b)
    ensures r.Ok? ==> forall d: nat :: d > 0 && Divides(d, a) && Divides(d, b) ==> Divides(d, r.value)
    ensures r.Ok? ==> r.value == Gcd(a, b)
  {
    if a == I32_MIN || b == I32_MIN {
      return Err("attempt to negate with overflow");
    }
    var x: nat := Abs(a);
    var y: nat := Abs(b);
    forall d: nat | d > 0
      ensures Divides(d, a) <==> Divides(d, x)
      ensures Divides(d, b) <==> Divides(d, y)
    {
      DividesAbs(d, a);
      DividesAbs(d, b);
    }
    while y != 0
      invariant x <= I32_MAX && y <= I32_MAX
      invariant forall d: nat :: d > 0 ==> (Divides(d, x) && Divides(d, y) <==> Divides(d, a) && Divides(d, b))
      invariant GcdNat(x, y) == Gcd(a, b)
      decreases y
    {
      forall d: nat | d > 0
        ensures Divides(d, x) && Divides(d, y) <==> Divides(d, y) && Divides(d, x % y)
      {
        EuclidStep(d, x, y);
      }
      var temp := y;
      y := x % y;
      x := temp;
    }
    if x > 0 {
      assert Divides(x, x) && Divides(x, 0);
    } else {
      var big: nat := Abs(a) + Abs(b) + 1;
      assert Divides(big, x) && Divides(big, 0);
      SmallMultipleIsZero(big, a);
      SmallMultipleIsZero(big, b);
    }
    r := Ok(x);
  }

  /** `lcm_i32`: `(a / gcd) * b` with truncating division. Both zero divides by zero, and a
      product outside `i32` is an overflow panic. A result is a common multiple of the two
      inputs whose product with the gcd is `a * b`. */
  method LcmI32(a: int, b: int) returns (r: Result<int>)
    requires IsI32(a) && IsI32(b)
    ensures (a == 0 && b == 0) || a == I32_MIN || b == I32_MIN ==> r.Err?
    ensures r.Err? && !(a == 0 && b == 0) && a != I32_MIN && b != I32_MIN ==> !IsI32(a * b / Gcd(a, b))
    ensures r.Ok? ==> IsI32(r.value) && Divides(Abs(a), r.value) && Divides(Abs(b), r.value)
    ensures r.Ok? ==> r.value * Gcd(a, b) == a * b
  {
    var g := GcdI32(a, b);
    if g.Err? {
      return Err(g.msg);
    }
    if g.value == 0 {
      return Err("attempt to divide by zero");
    }
    var gv: nat := g.value;
    var q := TDiv(a, gv);
    assert TRem(a, gv) == 0 by {
      RemOfMultiple(a, gv);
    }
    assert q * gv == a;
    var prod := q * b;
    CommonMultiple(a, b, gv, q);
    DivModUnique(a * b, gv, prod, 0);
    if !IsI32(prod) {
      return Err("attempt to multiply with overflow");
    }
    r := Ok(prod);
  }

  lemma SmallMultipleIsZero(d: nat, n: int)
    requires Abs(n) < d && Divides(d, n)
    ensures n == 0
  {
    DividesAbs(d, n);
  }

  /** A multiple of `m` leaves no truncating remainder. */
  lemma RemOfMultiple(a: int, m: nat)
    requires m > 0 && Divides(m, a)
    ensures TRem(a, m) == 0
  {
    if a < 0 {
      DividesAbs(m, a);
    }
  }

  lemma {:induction false} CommonMultiple(a: int, b: int, g: nat, q: int)
    requires g > 0 && Divides(g, b) && q * g == a
    ensures Divides(Abs(a), q * b) && Divides(Abs(b), q * b)
    ensures (q * b) * g == a * b
  {
    assert (q * b) * g == (q * g) * b;
    var c := b / g;
    assert b == c * g;
    assert q * b == a * c by {
      calc {
        q * b;
        q * (c * g);
        (q * g) * c;
        a * c;
      }
    }
    MultipleDivides(Abs(a), a, c);
    MultipleDivides(Abs(b), b, q);
  }

  lemma {:induction false} MultipleDivides(d: nat, n: int, k: int)
    requires d == Abs(n)
    ensures Divides(d, n * k) && Divides(d, k * n)
  {
    if d > 0 {
      assert n * k == k * n;
      if n >= 0 {
        DivModUnique(n * k, d, k, 0);
      } else {
        assert n * k == (-k) * d;
        DivModUnique(n * k, d, -k, 0);
      }
    }
  }
}

=== FILE: matrix.dfy ===
/** Fixed-size matrices (src/flight_control/common/matrix.rs). The element type is idealised
    as the exact field of reals; the const-generic dimensions become explicit parameters
    checked by `Shaped`. */
module Matrices {
  import opened Wrappers

  datatype Matrix = Matrix(data: seq<seq<real>>)

  /** `m` rows of `n` entries each: the Rust type `Matrix<T, M, N>`. */
  predicate Shaped(a: Matrix, m: nat, n: nat)
  {
    |a.data| == m && forall i :: 0 <= i < m ==> |a.data[i]| == n
  }

  function Get(a: Matrix, row: nat, col: nat): real
    requires row < |a.data| && col < |a.data[row]|
  {
    a.data[row][col]
  }

  /** `set`: one entry changes; shape and every other entry stay. */
  function Set(a: Matrix, row: nat, col: nat, value: real): (r: Matrix)
    requires row < |a.data| && col < |a.data[row]|
    ensures |r.data| == |a.data| && forall i :: 0 <= i < |a.data| ==> |r.data[i]| == |a.data[i]|
    ensures Get(r, row, col) == value
    ensures forall i, j :: 0 <= i < |a.data| && 0 <= j < |a.data[i]| && (i, j) != (row, col) ==>
      r.data[i][j] == a.data[i][j]
  {
    Matrix(a.data[row := a.data[row][col := value]])
  }

  /** Row `i` of the `n`-column identity-like matrix: 1 on the diagonal, 0 elsewhere. */
  function UnitRow(n: nat, i: nat): (r: seq<real>)
    ensures |r| == n && forall j :: 0 <= j < n ==> r[j] == if i == j then 1.0 else 0.0
  {
    seq(n, j => if i == j then 1.0 else 0.0)
  }

  function Zero(m: nat, n: nat): (r: Matrix)
    ensures Shaped(r, m, n) && forall i, j :: 0 <= i < m && 0 <= j < n ==> r.data[i][j] == 0.0
  {
    Matrix(seq(m, i => seq(n, j => 0.0)))
  }

  /** `eye`: ones on the diagonal as far as it exists (`min(M, N)` entries), zeros elsewhere. */
  function Eye(m: nat, n: nat): (r: Matrix)
    ensures Shaped(r, m, n)
    ensures forall i, j :: 0 <= i < m && 0 <= j < n ==> r.data[i][j] == if i == j then 1.0 else 0.0
  {
    Matrix(seq(m, i requires 0 <= i < m => UnitRow(n, i)))
  }

  function Identity(n: nat): (r: Matrix)
    ensures r == Eye(n, n)
  {
    Matrix(seq(n, i requires 0 <= i < n => UnitRow(n, i)))
  }

  function Add(a: Matrix, b: Matrix, m: nat, n: nat): (r: Matrix)
    requires Shaped(a, m, n) && Shaped(b, m, n)
    ensures Shaped(r, m, n)
    ensures forall i, j :: 0 <= i < m && 0 <= j < n ==> r.data[i][j] == a.data[i][j] + b.data[i][j]
  {
    Matrix(seq(m, i requires 0 <= i < m => seq(n, j requires 0 <= j < n => a.data[i][j] + b.data[i][j])))
  }

  function Sub(a: Matrix, b: Matrix, m: nat, n: nat): (r: Matrix)
    requires Shaped(a, m, n) && Shaped(b, m, n)
    ensures Shaped(r, m, n)
    ensures forall i, j :: 0 <= i < m && 0 <= j < n ==> r.data[i][j] == a.data[i][j] - b.data[i][j]
  {
    Matrix(seq(m, i requires 0 <= i < m => seq(n, j requires 0 <= j < n => a.data[i][j] - b.data[i][j])))
  }

  /** Subtraction undoes addition and `A - A` is the zero matrix. */
  lemma AddSubInverse(a: Matrix, b: Matrix, m: nat, n: nat)
    requires Shaped(a, m, n) && Shaped(b, m, n)
    ensures Sub(Add(a, b, m, n), b, m, n) == a
    ensures Sub(a, a, m, n) == Zero(m, n)
  {
    var s := Sub(Add(a, b, m, n), b, m, n);
    assert forall i :: 0 <= i < m ==> s.data[i] == a.data[i];
    var z := Sub(a, a, m, n);
    assert forall i :: 0 <= i < m ==> z.data[i] == Zero(m, n).data[i];
  }

  /** The running sum of `mul`'s inner loop after `k` terms: `Σ_{l<k} row[l] * b[l][j]`,
      accumulated from the left. */
  function DotCol(row: seq<real>, b: seq<seq<real>>, j: nat, k: nat): real
    requires k <= |row| && k <= |b| && forall l :: 0 <= l < k ==> j < |b[l]|
  {
    if k == 0 then 0.0 else DotCol(row, b, j, k - 1) + row[k - 1] * b[k - 1][j]
  }

  /** A row vector times an `n`×`p` matrix. */
  function RowTimes(row: seq<real>, b: seq<seq<real>>, n: nat, p: nat): (r: seq<real>)
    requires |row| == n && |b| == n && forall l :: 0 <= l < n ==> |b[l]| == p
    ensures |r| == p
  {
    seq(p, j requires 0 <= j < p => DotCol(row, b, j, n))
  }

  /** `mul`: row `i` of the product is row `i` of `a` times `b`. */
  function Mul(a: Matrix, b: Matrix, m: nat, n: nat, p: nat): (r: Matrix)
    requires Shaped(a, m, n) && Shaped(b, n, p)
    ensures Shaped(r, m, p)
    ensures forall i :: 0 <= i < m ==> r.data[i] == RowTimes(a.data[i], b.data, n, p)
  {
    Matrix(seq(m, i requires 0 <= i < m => RowTimes(a.data[i], b.data, n, p)))
  }

  function Transpose(a: Matrix, m: nat, n: nat): (r: Matrix)
    requires Shaped(a, m, n)
    ensures Shaped(r, n, m)
    ensures forall i, j :: 0 <= i < m && 0 <= j < n ==> r.data[j][i] == a.data[i][j]
  {
    Matrix(seq(n, j requires 0 <= j < n => seq(m, i requires 0 <= i < m => a.data[i][j])))
  }

  lemma TransposeInvolution(a: Matrix, m: nat, n: nat)
    requires Shaped(a, m, n)
    ensures Transpose(Transpose(a, m, n), n, m) == a
  {
    var t := Transpose(Transpose(a, m, n), n, m);
    assert forall i :: 0 <= i < m ==> t.data[i] == a.data[i];
  }

  /** Only the `i`-th term of a sum against a unit row survives. */
  lemma {:induction false} DotUnitRow(i: nat, b: seq<seq<real>>, j: nat, n: nat, k: nat)
    requires k <= n && |b| == n && forall l :: 0 <= l < n ==> j < |b[l]|
    ensures DotCol(UnitRow(n, i), b, j, k) == if i < k then b[i][j] else 0.0
  {
    if k > 0 {
      DotUnitRow(i, b, j, n, k - 1);
    }
  }

  lemma {:induction false} DotUnitCol(row: seq<real>, j: nat, n: nat, k: nat)
    requires k <= n == |row| && j < n
    ensures DotCol(row, Identity(n).data, j, k) == if j < k then row[j] else 0.0
  {
    if k > 0 {
      DotUnitCol(row, j, n, k - 1);
    }
  }

  /** The identity is neutral on both sides of `mul`. */
  lemma IdentityNeutral(a: Matrix, m: nat, n: nat)
    requires Shaped(a, m, n)
    ensures Mul(Identity(m), a, m, m, n) == a
    ensures Mul(a, Identity(n), m, n, n) == a
  {
    var l := Mul(Identity(m), a, m, m, n);
    forall i | 0 <= i < m
      ensures l.data[i] == a.data[i]
    {
      forall j | 0 <= j < n
        ensures l.data[i][j] == a.data[i][j]
      {
        DotUnitRow(i, a.data, j, m, m);
      }
    }
    var r := Mul(a, Identity(n), m, n, n);
    forall i | 0 <= i < m
      ensures r.data[i] == a.data[i]
    {
      forall j | 0 <= j < n
        ensures r.data[i][j] == a.data[i][j]
      {
        DotUnitCol(a.data[i], j, n, n);
      }
    }
  }

  // ---- try_inverse: Gauss-Jordan elimination without row exchanges ----

  /** Every entry of a row divided by the pivot. */
  function ScaleRow(u: seq<real>, p: real): (r: seq<real>)
    requires p != 0.0
    ensures |r| == |u| && forall j :: 0 <= j < |u| ==> r[j] == u[j] / p
  {
    seq(|u|, j requires 0 <= j < |u| => u[j] / p)
  }

  /** `u - f * v`, entry by entry. */
  function Axpy(u: seq<real>, f: real, v: seq<real>): (r: seq<real>)
    requires |u| == |v|
    ensures |r| == |u| && forall j :: 0 <= j < |u| ==> r[j] == u[j] - f * v[j]
  {
    seq(|u|, j requires 0 <= j < |u| => u[j] - f * v[j])
  }

  predicate Square(x: seq<seq<real>>, n: nat)
  {
    |x| == n && forall k :: 0 <= k < n ==> |x[k]| == n
  }

  /** Rows `k..n` of the elimination loop for pivot column `i`: every other row has the
      pivot row, scaled by its entry in column `i`, subtracted from it, on both sides. */
  function EliminateFrom(left: seq<seq<real>>, right: seq<seq<real>>, i: nat, k: nat, n: nat)
    : (r: (seq<seq<real>>, seq<seq<real>>))
    requires Square(left, n) && Square(right, n) && i < n && k <= n
    ensures Square(r.0, n) && Square(r.1, n)
    ensures r.0[i] == left[i] && r.1[i] == right[i]
    decreases n - k
  {
    if k == n then (left, right)
    else if k == i then EliminateFrom(left, right, i, k + 1, n)
    else
      var factor := left[k][i];
      EliminateFrom(left[k := Axpy(left[k], factor, left[i])],
                    right[k := Axpy(right[k], factor, right[i])], i, k + 1, n)
  }

  /** The outer loop from pivot column `i` on: a zero pivot gives up, otherwise the pivot
      row is normalised and the column cleared. */
  function GaussJordan(left: seq<seq<real>>, right: seq<seq<real>>, i: nat, n: nat)
    : (r: Option<seq<seq<real>>>)
    requires Square(left, n) && Square(right, n) && i <= n
    ensures r.Some? ==> Square(r.value, n)
    decreases n - i
  {
    if i == n then Some(right)
    else if left[i][i] == 0.0 then None
    else
      var pivot := left[i][i];
      var left1 := left[i := ScaleRow(left[i], pivot)];
      var right1 := right[i := ScaleRow(right[i], pivot)];
      var next := EliminateFrom(left1, right1, i, 0, n);
      GaussJordan(next.0, next.1, i + 1, n)
  }

  /** `try_inverse`. A result is a left inverse of `a` (`InverseIsLeftInverse`); a zero on
      the diagonal at the moment it becomes the pivot gives `None` even for some invertible
      matrices (`SwapHasNoInverse`), since rows are never exchanged. */
  function TryInverse(a: Matrix, n: nat): (r: Option<Matrix>)
    requires Shaped(a, n, n)
    ensures r.Some? ==> Shaped(r.value, n, n)
    ensures n > 0 && a.data[0][0] == 0.0 ==> r.None?
    ensures n == 0 ==> r == Some(a)
  {
    var res := GaussJordan(a.data, Identity(n).data, 0, n);
    if res.Some? then Some(Matrix(res.value)) else None
  }

  // ---- correctness of the elimination ----

  lemma {:induction false} DotScale(u: seq<real>, p: real, b: seq<seq<real>>, j: nat, k: nat)
    requires p != 0.0 && k <= |u| && k <= |b| && forall l :: 0 <= l < k ==> j < |b[l]|
    ensures DotCol(ScaleRow(u, p), b, j, k) == DotCol(u, b, j, k) / p
  {
    if k > 0 {
      DotScale(u, p, b, j, k - 1);
      var s := DotCol(u, b, j, k - 1);
      var t := u[k - 1] * b[k - 1][j];
      assert ScaleRow(u, p)[k - 1] * b[k - 1][j] == t / p;
      assert s / p + t / p == (s + t) / p;
    }
  }

  lemma {:induction false} DotAxpy(u: seq<real>, f: real, v: seq<real>, b: seq<seq<real>>, j: nat, k: nat)
    requires |u| == |v| && k <= |u| && k <= |b| && forall l :: 0 <= l < k ==> j < |b[l]|
    ensures DotCol(Axpy(u, f, v), b, j, k) == DotCol(u, b, j, k) - f * DotCol(v, b, j, k)
  {
    if k > 0 {
      DotAxpy(u, f, v, b, j, k - 1);
      var x, y := u[k - 1], v[k - 1];
      var c := b[k - 1][j];
      assert Axpy(u, f, v)[k - 1] * c == x * c - f * (y * c);
      assert f * DotCol(v, b, j, k) == f * DotCol(v, b, j, k - 1) + f * (y * c);
    }
  }

  /** Scaling a row commutes with multiplying it by `b`. */
  lemma RowTimesScale(u: seq<real>, p: real, b: seq<seq<real>>, n: nat)
    requires p != 0.0 && |u| == n && Square(b, n)
    ensures RowTimes(ScaleRow(u, p), b, n, n) == ScaleRow(RowTimes(u, b, n, n), p)
  {
    forall j | 0 <= j < n
      ensures RowTimes(ScaleRow(u, p), b, n, n)[j] == ScaleRow(RowTimes(u, b, n, n), p)[j]
    {
      DotScale(u, p, b, j, n);
    }
  }

  /** So does a row operation `u - f * v`. */
  lemma RowTimesAxpy(u: seq<real>, f: real, v: seq<real>, b: seq<seq<real>>, n: nat)
    requires |u| == n && |v| == n && Square(b, n)
    ensures RowTimes(Axpy(u, f, v), b, n, n) == Axpy(RowTimes(u, b, n, n), f, RowTimes(v, b, n, n))
  {
    forall j | 0 <= j < n
      ensures RowTimes(Axpy(u, f, v), b, n, n)[j] == Axpy(RowTimes(u, b, n, n), f, RowTimes(v, b, n, n))[j]
    {
      DotAxpy(u, f, v, b, j, n);
    }
  }

  /** The elimination state: `left` is `right` times the original matrix `a`. */
  predicate Tracks(left: seq<seq<real>>, right: seq<seq<real>>, a: seq<seq<real>>, n: nat)
    requires Square(left, n) && Square(right, n) && Square(a, n)
  {
    forall k :: 0 <= k < n ==> left[k] == RowTimes(right[k], a, n, n)
  }

  /** Columns before `c` of `left` are already those of the identity. */
  predicate ReducedBefore(left: seq<seq<real>>, c: nat, n: nat)
    requires Square(left, n)
  {
    forall k, col :: 0 <= k < n && 0 <= col < c && col < n ==> left[k][col] == if k == col then 1.0 else 0.0
  }

  /** Column `i` reduced to the unit column extends the identity prefix by one. */
  lemma ReducedExtend(left: seq<seq<real>>, i: nat, n: nat)
    requires Square(left, n) && i < n && ReducedBefore(left, i, n)
    requires left[i][i] == 1.0
    requires forall k' :: 0 <= k' < n && k' != i ==> left[k'][i] == 0.0
    ensures ReducedBefore(left, i + 1, n)
  {
  }

  /** Subtracting `left[k][i]` times the pivot row from row `k` keeps the tracking and the
      identity prefix and clears cell `(k, i)`. */
  lemma RowOpCorrect(left: seq<seq<real>>, right: seq<seq<real>>, a: seq<seq<real>>, i: nat, k: nat, n: nat)
    requires Square(left, n) && Square(right, n) && Square(a, n) && i < n && k < n && k != i
    requires Tracks(left, right, a, n) && ReducedBefore(left, i, n)
    requires left[i][i] == 1.0
    ensures var factor := left[k][i];
      var left' := left[k := Axpy(left[k], factor, left[i])];
      var right' := right[k := Axpy(right[k], factor, right[i])];
      Square(left', n) && Square(right', n) &&
      Tracks(left', right', a, n) && ReducedBefore(left', i, n) && left'[k][i] == 0.0 &&
      (forall k' :: 0 <= k' < n && k' != k ==> left'[k'] == left[k'])
  {
    var factor := left[k][i];
    var row := Axpy(left[k], factor, left[i]);
    var left' := left[k := row];
    var right' := right[k := Axpy(right[k], factor, right[i])];
    RowTimesAxpy(right[k], factor, right[i], a, n);
    assert Tracks(left', right', a, n);
    assert row[i] == 0.0;
    forall col | 0 <= col < i
      ensures row[col] == left[k][col]
    {
      assert left[i][col] == 0.0;
    }
  }

  lemma {:induction false} EliminateFromCorrect(left: seq<seq<real>>, right: seq<seq<real>>, a: seq<seq<real>>,
                                                i: nat, k: nat, n: nat)
    requires Square(left, n) && Square(right, n) && Square(a, n) && i < n && k <= n
    requires Tracks(left, right, a, n) && ReducedBefore(left, i, n)
    requires left[i][i] == 1.0
    requires forall k' :: 0 <= k' < k && k' != i ==> left[k'][i] == 0.0
    ensures var r := EliminateFrom(left, right, i, k, n);
      Tracks(r.0, r.1, a, n) && ReducedBefore(r.0, i + 1, n)
    decreases n - k
  {
    if k == n {
      ReducedExtend(left, i, n);
    } else if k == i {
      EliminateFromCorrect(left, right, a, i, k + 1, n);
    } else {
      var factor := left[k][i];
      var left' := left[k := Axpy(left[k], factor, left[i])];
      var right' := right[k := Axpy(right[k], factor, right[i])];
      RowOpCorrect(left, right, a, i, k, n);
      EliminateFromCorrect(left', right', a, i, k + 1, n);
    }
  }

  /** Scaling the pivot row by the pivot keeps the tracking and the identity prefix and puts
      1 on the diagonal. */
  lemma ScalePivotCorrect(left: seq<seq<real>>, right: seq<seq<real>>, a: seq<seq<real>>, i: nat, n: nat)
    requires Square(left, n) && Square(right, n) && Square(a, n) && i < n
    requires Tracks(left, right, a, n) && ReducedBefore(left, i, n) && left[i][i] != 0.0
    ensures var pivot := left[i][i];
      var left1 := left[i := ScaleRow(left[i], pivot)];
      var right1 := right[i := ScaleRow(right[i], pivot)];
      Square(left1, n) && Square(right1, n) &&
      Tracks(left1, right1, a, n) && ReducedBefore(left1, i, n) && left1[i][i] == 1.0
  {
    var pivot := left[i][i];
    var left1 := left[i := ScaleRow(left[i], pivot)];
    var right1 := right[i := ScaleRow(right[i], pivot)];
    RowTimesScale(right[i], pivot, a, n);
    assert left1[i][i] == pivot / pivot == 1.0;
    assert Tracks(left1, right1, a, n);
  }

  lemma {:induction false} GaussJordanCorrect(left: seq<seq<real>>, right: seq<seq<real>>, a: seq<seq<real>>,
                                              i: nat, n: nat)
    requires Square(left, n) && Square(right, n) && Square(a, n) && i <= n
    requires Tracks(left, right, a, n) && ReducedBefore(left, i, n)
    ensures var r := GaussJordan(left, right, i, n);
      r.Some? ==> forall k :: 0 <= k < n ==> RowTimes(r.value[k], a, n, n) == UnitRow(n, k)
    decreases n - i
  {
    if i == n {
      forall k | 0 <= k < n
        ensures left[k] == UnitRow(n, k)
      {
      }
    } else if left[i][i] != 0.0 {
      var pivot := left[i][i];
      var left1 := left[i := ScaleRow(left[i], pivot)];
      var right1 := right[i := ScaleRow(right[i], pivot)];
      ScalePivotCorrect(left, right, a, i, n);
      EliminateFromCorrect(left1, right1, a, i, 0, n);
      var next := EliminateFrom(left1, right1, i, 0, n);
      GaussJordanCorrect(next.0, next.1, a, i + 1, n);
    }
  }

  /** Whatever `try_inverse` returns, multiplied on the left of `a`, gives the identity. */
  lemma InverseIsLeftInverse(a: Matrix, n: nat)
    requires Shaped(a, n, n)
    ensures TryInverse(a, n).Some? ==> Mul(TryInverse(a, n).value, a, n, n, n) == Identity(n)
  {
    var id := Identity(n).data;
    forall k | 0 <= k < n
      ensures RowTimes(id[k], a.data, n, n) == a.data[k]
    {
      forall j | 0 <= j < n
        ensures RowTimes(id[k], a.data, n, n)[j] == a.data[k][j]
      {
        DotUnitRow(k, a.data, j, n, n);
      }
    }
    assert Tracks(a.data, id, a.data, n);
    GaussJordanCorrect(a.data, id, a.data, 0, n);
    if TryInverse(a, n).Some? {
      var prod := Mul(TryInverse(a, n).value, a, n, n, n);
      assert forall k :: 0 <= k < n ==> prod.data[k] == Identity(n).data[k];
    }
  }

  /** The exchange matrix is its own inverse, yet its zero leading pivot makes
      `try_inverse` report it singular. */
  lemma SwapHasNoInverse()
    ensures var s := Matrix([[0.0, 1.0], [1.0, 0.0]]);
      Shaped(s, 2, 2) && Mul(s, s, 2, 2, 2) == Identity(2) && TryInverse(s, 2).None?
  {
    var s := Matrix([[0.0, 1.0], [1.0, 0.0]]);
    var p := Mul(s, s, 2, 2, 2);
    assert p.data[0] == [1.0, 0.0] && p.data[1] == [0.0, 1.0];
    assert Identity(2).data[0] == UnitRow(2, 0) == [1.0, 0.0];
    assert Identity(2).data[1] == UnitRow(2, 1) == [0.0, 1.0];
  }
}

=== FILE: melvin_messages.dfy ===
/** The satellite-state enumeration of the older protobuf message file
    (src/melvin_messages.rs) and its protobuf name codec. */
module MelvinMessages {
  import opened Wrappers
  import opened Text

  datatype SatelliteState = None | Deployment | Safe | Communication | Charge | Acquisition | Transition

  /** The `#[repr(i32)]` discriminant. */
  function Discriminant(st: SatelliteState): (d: int)
    ensures 0 <= d <= 6
    ensures st == SatelliteState.None <==> d == 0
    ensures st == Deployment <==> d == 1
    ensures st == Safe <==> d == 2
    ensures st == Communication <==> d == 3
    ensures st == Charge <==> d == 4
    ensures st == Acquisition <==> d == 5
    ensures st == Transition <==> d == 6
  {
    match st
    case None => 0
    case Deployment => 1
    case Safe => 2
    case Communication => 3
    case Charge => 4
    case Acquisition => 5
    case Transition => 6
  }

  /** Distinct states have distinct discriminants. */
  lemma DiscriminantInjective(a: SatelliteState, b: SatelliteState)
    requires Discriminant(a) == Discriminant(b)
    ensures a == b
  {
  }

  /** The protobuf field name of a state. */
  function AsStrName(st: SatelliteState): (r: string)
    ensures FromStrName(r) == Some(st)
  {
    match st
    case None => "none"
    case Deployment => "deployment"
    case Safe => "safe"
    case Communication => "communication"
    case Charge => "charge"
    case Acquisition => "acquisition"
    case Transition => "transition"
  }

  /** Distinct states have distinct names. */
  lemma AsStrNameInjective(a: SatelliteState, b: SatelliteState)
    requires AsStrName(a) == AsStrName(b)
    ensures a == b
  {
    assert FromStrName(AsStrName(a)) == Some(a);
  }

  /** Case-sensitive lookup of a protobuf field name; anything else is `None`. */
  function FromStrName(s: string): (r: Option<SatelliteState>)
    ensures r.Some? <==> s in {"none", "deployment", "safe", "communication", "charge", "acquisition", "transition"}
  {
    match s
    case "none" => Some(SatelliteState.None)
    case "deployment" => Some(Deployment)
    case "safe" => Some(Safe)
    case "communication" => Some(Communication)
    case "charge" => Some(Charge)
    case "acquisition" => Some(Acquisition)
    case "transition" => Some(Transition)
    case _ => Option.None
  }

  /** Every field name is lower case. */
  lemma NameIsLowerCase(st: SatelliteState)
    ensures ToLower(AsStrName(st)) == AsStrName(st)
  {
    var s := AsStrName(st);
    assert ToLower(s) == s;
  }

  /** Lookup is case-sensitive: a name holding an upper-case letter is never recognised. */
  lemma UpperCaseNameRejected(s: string, i: nat)
    requires i < |s| && 'A' <= s[i] <= 'Z'
    ensures FromStrName(s) == Option.None
  {
    if FromStrName(s).Some? {
      var st := FromStrName(s).value;
      assert AsStrName(st) == s;
      NameIsLowerCase(st);
      assert false;
    }
  }
}

=== FILE: orbit_dp.dfy ===
/** The backward dynamic program over (time, battery level, state) that plans when to
    charge and when to acquire, as both snapshots compute it
    (`calculate_optimal_orbit_schedule` in src/scheduling/task_controller.rs and in
    src/flight_control/task/task_controller.rs). Step `k` computes the scores for time
    `t = predDt - 1 - k` from the box of the most recent score grids: staying looks at the
    grid one second later (the box's front), switching at the grid `SCORE_BOX_SIZE` seconds
    later (the box's back). The newer snapshot does not switch until the box is full
    (`guarded`); the older one switches against whatever grid is at the back. */
module OrbitDp {
  import opened AtomicDecisions
  import opened ScoreGrids
  import opened DecisionCubes
  import opened LinkedBoxes
  import opened Wrappers

  /** `LinkedBox::new(180)`: also the seconds a state switch takes. */
  const SCORE_BOX_SIZE: nat := 180

  datatype OptimalOrbitResult = OptimalOrbitResult(decisions: AtomicDecisionCube, coverageSlice: LinkedBox<ScoreGrid>)

  /** A grid with `eLen` battery levels and the two states charge and acquisition. */
  predicate Shaped(g: ScoreGrid, eLen: nat)
  {
    g.Valid() && g.eLen == eLen && g.sLen == 2
  }

  predicate BoxShaped(b: LinkedBox<ScoreGrid>, eLen: nat)
  {
    forall i :: 0 <= i < b.Len() ==> Shaped(b.list[i], eLen)
  }

  /** The reward of one second: 1 when the orbit position is not yet covered. */
  function PDt(done: seq<bool>, k: nat): (p: int)
    requires k < |done|
    ensures 0 <= p <= 1 && (p == 1 <==> !done[k])
  {
    if done[k] then 0 else 1
  }

  /** Score of staying in state `s`: charging gains one battery level up to the top,
      acquiring spends one and earns the reward, and acquiring on an empty battery is
      impossible. */
  function StayScore(front: ScoreGrid, p: int, e: nat, s: nat): int
    requires front.Valid() && front.sLen == 2 && e < front.eLen && s <= 1
  {
    var maxBattery := front.eLen - 1;
    if s == 0 then front.Get(if e + 1 <= maxBattery then e + 1 else maxBattery, s)
    else if e > 0 then front.Get(e - 1, s) + p
    else I32_MIN
  }

  /** Score of switching from state `s` to the other state. */
  function SwitchScore(back: ScoreGrid, blocked: bool, e: nat, s: nat): int
    requires back.Valid() && back.sLen == 2 && e < back.eLen && s <= 1
  {
    if blocked then MIN_SCORE - 1 else back.Get(e, 1 - s)
  }

  /** Keep the better of the two; staying wins a tie. */
  function Decide(stay: int, switch: int, s: nat): (r: (AtomicDecision, int))
    requires s <= 1
    ensures r.1 >= stay && r.1 >= switch && (r.1 == stay || r.1 == switch)
    ensures IsStay(r.0) <==> stay >= switch
    ensures IsStay(r.0) ==> r.1 == stay && TargetState(r.0) == s
    ensures !IsStay(r.0) ==> r.1 == switch && TargetState(r.0) == 1 - s
  {
    if stay >= switch then (Stay(s), stay) else (Switch(1 - s), switch)
  }

  /** The decision and score the program computes for cell `(e, s)` from `box`. */
  function Cell(box: LinkedBox<ScoreGrid>, eLen: nat, guarded: bool, p: int, e: nat, s: nat): (AtomicDecision, int)
    requires box.Len() > 0 && BoxShaped(box, eLen) && e < eLen && s <= 1
  {
    var front := box.Front().value;
    var back := box.Back().value;
    Decide(StayScore(front, p, e, s), SwitchScore(back, guarded && box.Len() < box.Size(), e, s), s)
  }

  /** The score grid one step computes, cell by cell. */
  function StepGrid(box: LinkedBox<ScoreGrid>, eLen: nat, guarded: bool, p: int): (g: ScoreGrid)
    requires box.Len() > 0 && BoxShaped(box, eLen)
    ensures Shaped(g, eLen)
    ensures forall e: nat, s: nat :: e < eLen && s < 2 ==> g.Get(e, s) == Cell(box, eLen, guarded, p, e, s).1
  {
    var g := ScoreGrid(eLen, 2, seq(eLen * 2, j requires 0 <= j < eLen * 2 => Cell(box, eLen, guarded, p, j / 2, j % 2).1));
    assert forall e: nat, s: nat :: e < eLen && s < 2 ==> g.Get(e, s) == Cell(box, eLen, guarded, p, e, s).1 by {
      forall e: nat, s: nat | e < eLen && s < 2
        ensures g.Get(e, s) == Cell(box, eLen, guarded, p, e, s).1
      {
        assert (e * 2 + s) / 2 == e && (e * 2 + s) % 2 == s;
      }
    }
    g
  }

  lemma {:induction false} PushShaped(b: LinkedBox<ScoreGrid>, g: ScoreGrid, eLen: nat)
    requires BoxShaped(b, eLen) && Shaped(g, eLen)
    ensures BoxShaped(b.Push(g), eLen)
  {
    var r := b.Push(g);
    forall i | 0 <= i < r.Len()
      ensures Shaped(r.list[i], eLen)
    {
      if i > 0 {
        assert r.list[i] == b.list[i - 1];
      }
    }
  }

  /** The grids the first `k` steps push, oldest first. */
  function StepGrids(b0: LinkedBox<ScoreGrid>, eLen: nat, guarded: bool, done: seq<bool>, k: nat): (gs: seq<ScoreGrid>)
    requires b0.Len() > 0 && BoxShaped(b0, eLen) && k <= |done|
    ensures |gs| == k
    ensures PushAll(b0, gs).Len() > 0 && BoxShaped(PushAll(b0, gs), eLen)
  {
    if k == 0 then []
    else
      var prev := StepGrids(b0, eLen, guarded, done, k - 1);
      var b := PushAll(b0, prev);
      var g := StepGrid(b, eLen, guarded, PDt(done, k - 1));
      var gs := prev + [g];
      assert gs[..|gs| - 1] == prev;
      PushShaped(b, g, eLen);
      gs
  }

  /** The box after `k` steps. */
  function BoxAfter(b0: LinkedBox<ScoreGrid>, eLen: nat, guarded: bool, done: seq<bool>, k: nat): (b: LinkedBox<ScoreGrid>)
    requires b0.Len() > 0 && BoxShaped(b0, eLen) && k <= |done|
    ensures b.Len() > 0 && BoxShaped(b, eLen) && b.Size() == b0.Size()
  {
    PushAll(b0, StepGrids(b0, eLen, guarded, done, k))
  }

  /** One step pushes the grid computed from the current box. */
  lemma {:induction false} BoxAfterStep(b0: LinkedBox<ScoreGrid>, eLen: nat, guarded: bool, done: seq<bool>, k: nat)
    requires b0.Len() > 0 && BoxShaped(b0, eLen) && k < |done|
    ensures BoxAfter(b0, eLen, guarded, done, k + 1) ==
      BoxAfter(b0, eLen, guarded, done, k).Push(StepGrid(BoxAfter(b0, eLen, guarded, done, k), eLen, guarded, PDt(done, k)))
  {
    var prev := StepGrids(b0, eLen, guarded, done, k);
    var gs := StepGrids(b0, eLen, guarded, done, k + 1);
    assert gs[..|gs| - 1] == prev;
  }

  /** The decision the program stores for cell `(t, e, s)`. */
  function DecisionAt(b0: LinkedBox<ScoreGrid>, eLen: nat, guarded: bool, done: seq<bool>, predDt: nat, t: nat, e: nat, s: nat): AtomicDecision
    requires b0.Len() > 0 && BoxShaped(b0, eLen) && predDt <= |done| && t < predDt && e < eLen && s <= 1
  {
    var k := predDt - 1 - t;
    Cell(BoxAfter(b0, eLen, guarded, done, k), eLen, guarded, PDt(done, k), e, s).0
  }

  /** Every stored decision either stays in the cell's state or switches to the other one. */
  ghost predicate Consistent(cube: AtomicDecisionCube)
    requires cube.Valid()
  {
    forall t: nat, e: nat, s: nat :: cube.InRange(t, e, s) && s <= 1 ==>
      TargetState(cube.Get(t, e, s)) == if IsStay(cube.Get(t, e, s)) then s else 1 - s
  }

  predicate CellsBefore(e1: nat, s1: nat, e2: nat, s2: nat) { e1 < e2 || (e1 == e2 && s1 < s2) }

  /** Score one cell (lines computing `stay`, `switch` and the decision in the source). */
  method ScoreCell(box: LinkedBox<ScoreGrid>, eLen: nat, guarded: bool, pDt: int, e: nat, s: nat)
    returns (d: AtomicDecision, score: int)
    requires box.Len() > 0 && BoxShaped(box, eLen) && e < eLen && s <= 1
    ensures (d, score) == Cell(box, eLen, guarded, pDt, e, s)
    // charging one more second is never worse than the grid one second later at the
    // next battery level (capped at the top level)
    ensures s == 0 ==> score >= box.Front().value.Get(if e + 1 < eLen then e + 1 else e, 0)
    // acquiring one more second earns the reward on top of one level less battery
    ensures s == 1 && e > 0 ==> score >= box.Front().value.Get(e - 1, 1) + pDt
    // once the box is full (or unguarded), switching is an option the score dominates
    ensures !(guarded && box.Len() < box.Size()) ==> score >= box.Back().value.Get(e, 1 - s)
    // the decision names the state the satellite is in one second later
    ensures TargetState(d) == if IsStay(d) then s else 1 - s
    // staying wins a tie
    ensures IsStay(d) <==> StayScore(box.Front().value, pDt, e, s) >= SwitchScore(box.Back().value, guarded && box.Len() < box.Size(), e, s)
    // the score is the score of the decision taken
    ensures IsStay(d) ==> score == StayScore(box.Front().value, pDt, e, s)
    ensures !IsStay(d) ==> score == SwitchScore(box.Back().value, guarded && box.Len() < box.Size(), e, s)
    // acquiring on an empty battery never stays when switching is allowed
    ensures s == 1 && e == 0 && !(guarded && box.Len() < box.Size()) && box.Back().value.Get(0, 0) > I32_MIN ==>
      d == SwitchToCharge
  {
    var front := box.Front().value;
    var back := box.Back().value;
    var maxBattery := eLen - 1;
    var newE := if s == 0 then e + 1 else e - 1;
    var stay;
    if s == 0 {
      stay := front.Get(if newE <= maxBattery then newE else maxBattery, s);
    } else if e > 0 {
      stay := front.Get(newE, s) + pDt;
    } else {
      stay := I32_MIN;
    }
    var switch;
    if guarded && box.Len() < box.Size() {
      switch := MIN_SCORE - 1;
    } else {
      switch := back.Get(e, 1 - s);
    }
    if stay >= switch {
      d, score := Stay(s), stay;
    } else {
      d, score := Switch(1 - s), switch;
    }
  }

  /** One backward step: fill row `t` of the cube and compute the new score grid. */
  method FillRow(box: LinkedBox<ScoreGrid>, eLen: nat, guarded: bool, pDt: int, t: nat,
                 scoreGridDefault: ScoreGrid, cube0: AtomicDecisionCube)
    returns (covDt: ScoreGrid, cube: AtomicDecisionCube)
    requires box.Len() > 0 && BoxShaped(box, eLen) && eLen >= 1
    requires Shaped(scoreGridDefault, eLen)
    requires cube0.Valid() && t < cube0.dtLen && cube0.eLen == eLen && cube0.sLen == 2
    ensures covDt == StepGrid(box, eLen, guarded, pDt)
    ensures cube.Valid() && cube.dtLen == cube0.dtLen && cube.eLen == eLen && cube.sLen == 2
    ensures forall e: nat, s: nat :: e < eLen && s < 2 ==> cube.Get(t, e, s) == Cell(box, eLen, guarded, pDt, e, s).0
    ensures forall t': nat, e: nat, s: nat :: t' != t && cube.InRange(t', e, s) ==> cube.Get(t', e, s) == cube0.Get(t', e, s)
  {
    var maxBattery := eLen - 1;
    covDt := scoreGridDefault;
    cube := cube0;
    var e := 0;
    while e <= maxBattery
      invariant e <= eLen
      invariant Shaped(covDt, eLen)
      invariant cube.Valid() && cube.dtLen == cube0.dtLen && cube.eLen == eLen && cube.sLen == 2
      invariant forall e': nat, s': nat :: e' < e && s' < 2 ==>
        covDt.Get(e', s') == Cell(box, eLen, guarded, pDt, e', s').1 &&
        cube.Get(t, e', s') == Cell(box, eLen, guarded, pDt, e', s').0
      invariant forall t': nat, e': nat, s': nat :: t' != t && cube.InRange(t', e', s') ==> cube.Get(t', e', s') == cube0.Get(t', e', s')
    {
      var s := 0;
      while s <= 1
        invariant s <= 2
        invariant Shaped(covDt, eLen)
        invariant cube.Valid() && cube.dtLen == cube0.dtLen && cube.eLen == eLen && cube.sLen == 2
        invariant forall e': nat, s': nat :: e' < eLen && s' < 2 && CellsBefore(e', s', e, s) ==>
          covDt.Get(e', s') == Cell(box, eLen, guarded, pDt, e', s').1 &&
          cube.Get(t, e', s') == Cell(box, eLen, guarded, pDt, e', s').0
        invariant forall t': nat, e': nat, s': nat :: t' != t && cube.InRange(t', e', s') ==> cube.Get(t', e', s') == cube0.Get(t', e', s')
      {
        var d, score := ScoreCell(box, eLen, guarded, pDt, e, s);
        cube := cube.Set(t, e, s, d);
        covDt := covDt.Set(e, s, score);
        s := s + 1;
      }
      e := e + 1;
    }
    GridExtensionality(covDt, StepGrid(box, eLen, guarded, pDt));
  }

  /** A cell's decision stays in the cell's state or switches to the other one. */
  lemma CellConsistent(box: LinkedBox<ScoreGrid>, eLen: nat, guarded: bool, p: int, e: nat, s: nat)
    requires box.Len() > 0 && BoxShaped(box, eLen) && e < eLen && s <= 1
    ensures var d := Cell(box, eLen, guarded, p, e, s).0;
      TargetState(d) == if IsStay(d) then s else 1 - s
  {
  }

  /** A cube holding the decisions the program computes is consistent. */
  lemma DecisionsConsistent(cube: AtomicDecisionCube, b0: LinkedBox<ScoreGrid>, eLen: nat, guarded: bool,
                            done: seq<bool>, predDt: nat)
    requires cube.Valid() && cube.dtLen == predDt && cube.eLen == eLen && cube.sLen == 2
    requires b0.Len() > 0 && BoxShaped(b0, eLen) && predDt <= |done|
    requires forall t: nat, e: nat, s: nat :: cube.InRange(t, e, s) ==>
      cube.Get(t, e, s) == DecisionAt(b0, eLen, guarded, done, predDt, t, e, s)
    ensures Consistent(cube)
  {
    forall t: nat, e: nat, s: nat | cube.InRange(t, e, s) && s <= 1
      ensures TargetState(cube.Get(t, e, s)) == if IsStay(cube.Get(t, e, s)) then s else 1 - s
    {
      var k := predDt - 1 - t;
      CellConsistent(BoxAfter(b0, eLen, guarded, done, k), eLen, guarded, PDt(done, k), e, s);
    }
  }

  /** Filling row `t` with the cells of the box after `predDt - 1 - t` steps extends the
      stored decisions from `t + 1` down to `t`. */
  lemma {:induction false} RowFilled(cube0: AtomicDecisionCube, cube: AtomicDecisionCube, b0: LinkedBox<ScoreGrid>,
                                     eLen: nat, guarded: bool, done: seq<bool>, predDt: nat, t: nat)
    requires b0.Len() > 0 && BoxShaped(b0, eLen) && t < predDt <= |done|
    requires cube0.Valid() && cube0.dtLen == predDt && cube0.eLen == eLen && cube0.sLen == 2
    requires cube.Valid() && cube.dtLen == predDt && cube.eLen == eLen && cube.sLen == 2
    requires forall t': nat, e: nat, s: nat :: t + 1 <= t' < predDt && e < eLen && s < 2 ==>
      cube0.Get(t', e, s) == DecisionAt(b0, eLen, guarded, done, predDt, t', e, s)
    requires forall e: nat, s: nat :: e < eLen && s < 2 ==>
      cube.Get(t, e, s) == Cell(BoxAfter(b0, eLen, guarded, done, predDt - 1 - t), eLen, guarded, PDt(done, predDt - 1 - t), e, s).0
    requires forall t': nat, e: nat, s: nat :: t' != t && cube.InRange(t', e, s) ==> cube.Get(t', e, s) == cube0.Get(t', e, s)
    ensures forall t': nat, e: nat, s: nat :: t <= t' < predDt && e < eLen && s < 2 ==>
      cube.Get(t', e, s) == DecisionAt(b0, eLen, guarded, done, predDt, t', e, s)
  {
    forall t': nat, e: nat, s: nat | t <= t' < predDt && e < eLen && s < 2
      ensures cube.Get(t', e, s) == DecisionAt(b0, eLen, guarded, done, predDt, t', e, s)
    {
      if t' != t {
        assert cube.InRange(t', e, s);
      }
    }
  }

  /** Fill the decision cube backward in time, one score grid per second. */
  method CalculateOptimalOrbitSchedule(predDt: nat, done: seq<bool>, scoreCube: LinkedBox<ScoreGrid>,
                                       scoreGridDefault: ScoreGrid, decCube: AtomicDecisionCube, guarded: bool)
    returns (r: OptimalOrbitResult)
    requires |done| >= predDt
    requires scoreGridDefault.Valid() && scoreGridDefault.sLen == 2 && scoreGridDefault.eLen >= 1
    requires scoreCube.Len() > 0 && BoxShaped(scoreCube, scoreGridDefault.eLen)
    requires decCube.Valid() && decCube.dtLen == predDt && decCube.eLen == scoreGridDefault.eLen && decCube.sLen == 2
    ensures r.coverageSlice == BoxAfter(scoreCube, scoreGridDefault.eLen, guarded, done, predDt)
    ensures r.decisions.Valid() && r.decisions.dtLen == predDt && r.decisions.eLen == scoreGridDefault.eLen && r.decisions.sLen == 2
    ensures forall t: nat, e: nat, s: nat :: r.decisions.InRange(t, e, s) ==>
      r.decisions.Get(t, e, s) == DecisionAt(scoreCube, scoreGridDefault.eLen, guarded, done, predDt, t, e, s)
    ensures Consistent(r.decisions)
  {
    var eLen := scoreGridDefault.eLen;
    var box := scoreCube;
    var cube := decCube;
    var t: nat := predDt;
    while t > 0
      invariant t <= predDt
      invariant box == BoxAfter(scoreCube, eLen, guarded, done, predDt - t)
      invariant cube.Valid() && cube.dtLen == predDt && cube.eLen == eLen && cube.sLen == 2
      invariant forall t': nat, e: nat, s: nat :: t <= t' < predDt && e < eLen && s < 2 ==>
        cube.Get(t', e, s) == DecisionAt(scoreCube, eLen, guarded, done, predDt, t', e, s)
    {
      t := t - 1;
      var consumed := predDt - 1 - t;
      var pDt := if done[consumed] then 0 else 1;
      var covDt;
      ghost var cube0 := cube;
      covDt, cube := FillRow(box, eLen, guarded, pDt, t, scoreGridDefault, cube);
      RowFilled(cube0, cube, scoreCube, eLen, guarded, done, predDt, t);
      BoxAfterStep(scoreCube, eLen, guarded, done, consumed);
      box := box.Push(covDt);
    }
    DecisionsConsistent(cube, scoreCube, eLen, guarded, done, predDt);
    r := OptimalOrbitResult(cube, box);
  }

  /** The box the program starts from: an empty box of capacity `SCORE_BOX_SIZE` holding the
      final-state grid. */
  function StartBox(first: ScoreGrid): (b: LinkedBox<ScoreGrid>)
    ensures b.Len() == 1 && b.list[0] == first && b.Size() == SCORE_BOX_SIZE
  {
    LinkedBoxes.New<ScoreGrid>(SCORE_BOX_SIZE).Push(first)
  }

  /** Later steps keep the grids of earlier ones: grid `i` is fixed once step `i` is done. */
  lemma {:induction false} StepGridsStable(b0: LinkedBox<ScoreGrid>, eLen: nat, guarded: bool, done: seq<bool>, i: nat, k: nat)
    requires b0.Len() > 0 && BoxShaped(b0, eLen) && i < k <= |done|
    ensures StepGrids(b0, eLen, guarded, done, k)[i] == StepGrids(b0, eLen, guarded, done, i + 1)[i]
    decreases k
  {
    if i + 1 < k {
      StepGridsStable(b0, eLen, guarded, done, i, k - 1);
      StepGridsLastAppended(b0, eLen, guarded, done, k, i);
    }
  }

  /** Step `k` only appends: the grids before it are those of step `k - 1`. */
  lemma StepGridsLastAppended(b0: LinkedBox<ScoreGrid>, eLen: nat, guarded: bool, done: seq<bool>, k: nat, i: nat)
    requires b0.Len() > 0 && BoxShaped(b0, eLen) && i + 1 < k <= |done|
    ensures StepGrids(b0, eLen, guarded, done, k)[i] == StepGrids(b0, eLen, guarded, done, k - 1)[i]
  {
  }

  /** The score grid for time `tau`, `tau == predDt` being the final-state grid. */
  function ScoreAt(first: ScoreGrid, eLen: nat, guarded: bool, done: seq<bool>, predDt: nat, tau: nat): ScoreGrid
    requires Shaped(first, eLen) && predDt <= |done| && tau <= predDt
  {
    ([first] + StepGrids(StartBox(first), eLen, guarded, done, predDt))[predDt - tau]
  }

  /* When cell scores for time `t` are computed, the box holds `k == predDt - 1 - t` step
     grids. Staying reads the box's front, the scores for `t + 1`; switching reads its back,
     the scores for `t + SCORE_BOX_SIZE`, the duration of a switch. Until that far ahead lies
     past the horizon, the box is not yet full and its back is the final-state grid. The
     three lemmas below state this for the front, a full box and a filling box. */

  /** The front of the box after `k` steps is the grid of the latest step, the one for
      time `tau == predDt - k`. */
  lemma WindowFront(first: ScoreGrid, eLen: nat, guarded: bool, done: seq<bool>, predDt: nat, k: nat, tau: nat)
    requires Shaped(first, eLen) && k < predDt <= |done| && tau == predDt - k
    ensures BoxAfter(StartBox(first), eLen, guarded, done, k).Front() == Some(ScoreAt(first, eLen, guarded, done, predDt, tau))
  {
    var items := [first] + StepGrids(StartBox(first), eLen, guarded, done, k);
    BoxAfterAsWindow(first, eLen, guarded, done, k);
    FrontBackAfterPushes(SCORE_BOX_SIZE, items, BoxAfter(StartBox(first), eLen, guarded, done, k));
    ItemIsScoreAt(first, eLen, guarded, done, predDt, k, |items| - 1, tau);
  }

  /** After `SCORE_BOX_SIZE - 1` steps or more the box is full, and its back is the grid
      pushed `SCORE_BOX_SIZE - 1` steps before the front, the one for time `tau`. */
  lemma WindowFullBack(first: ScoreGrid, eLen: nat, guarded: bool, done: seq<bool>, predDt: nat, k: nat, tau: nat)
    requires Shaped(first, eLen) && k < predDt <= |done| && k + 1 >= SCORE_BOX_SIZE
    requires tau == predDt - (k + 1 - SCORE_BOX_SIZE)
    ensures var b := BoxAfter(StartBox(first), eLen, guarded, done, k);
      b.Len() == b.Size() && b.Back() == Some(ScoreAt(first, eLen, guarded, done, predDt, tau))
  {
    var items := [first] + StepGrids(StartBox(first), eLen, guarded, done, k);
    BoxAfterAsWindow(first, eLen, guarded, done, k);
    FrontBackAfterPushes(SCORE_BOX_SIZE, items, BoxAfter(StartBox(first), eLen, guarded, done, k));
    ItemIsScoreAt(first, eLen, guarded, done, predDt, k, |items| - SCORE_BOX_SIZE, tau);
  }

  /** Before that the box is not full and its back is still the first grid. */
  lemma WindowPartialBack(first: ScoreGrid, eLen: nat, guarded: bool, done: seq<bool>, k: nat)
    requires Shaped(first, eLen) && k <= |done| && k + 1 < SCORE_BOX_SIZE
    ensures var b := BoxAfter(StartBox(first), eLen, guarded, done, k);
      b.Len() < b.Size() && b.Back() == Some(first)
  {
    var items := [first] + StepGrids(StartBox(first), eLen, guarded, done, k);
    BoxAfterAsWindow(first, eLen, guarded, done, k);
    FrontBackAfterPushes(SCORE_BOX_SIZE, items, BoxAfter(StartBox(first), eLen, guarded, done, k));
  }

  /** The box after `k` steps is an empty box with the first grid and the `k` step grids
      pushed. */
  lemma BoxAfterAsWindow(first: ScoreGrid, eLen: nat, guarded: bool, done: seq<bool>, k: nat)
    requires Shaped(first, eLen) && k <= |done|
    ensures BoxAfter(StartBox(first), eLen, guarded, done, k) ==
      PushAll(LinkedBoxes.New<ScoreGrid>(SCORE_BOX_SIZE), [first] + StepGrids(StartBox(first), eLen, guarded, done, k))
  {
    var b0 := StartBox(first);
    assert b0 == PushAll(LinkedBoxes.New<ScoreGrid>(SCORE_BOX_SIZE), [first]);
    PushAllAppend(LinkedBoxes.New<ScoreGrid>(SCORE_BOX_SIZE), [first], StepGrids(b0, eLen, guarded, done, k));
  }

  /** Item `idx` of the first grid followed by `k` step grids is the score grid for time
      `tau == predDt - idx`. */
  lemma ItemIsScoreAt(first: ScoreGrid, eLen: nat, guarded: bool, done: seq<bool>, predDt: nat, k: nat, idx: nat, tau: nat)
    requires Shaped(first, eLen) && k < predDt <= |done| && idx <= k && tau == predDt - idx
    ensures ([first] + StepGrids(StartBox(first), eLen, guarded, done, k))[idx] == ScoreAt(first, eLen, guarded, done, predDt, tau)
  {
    var b0 := StartBox(first);
    var gs := StepGrids(b0, eLen, guarded, done, k);
    var all := StepGrids(b0, eLen, guarded, done, predDt);
    ScoreAtIndex(first, eLen, guarded, done, predDt, tau, idx);
    if idx > 0 {
      StepGridsStable(b0, eLen, guarded, done, idx - 1, k);
      StepGridsStable(b0, eLen, guarded, done, idx - 1, predDt);
      assert ([first] + gs)[idx] == gs[idx - 1];
      assert ([first] + all)[idx] == all[idx - 1];
    }
  }

  lemma ScoreAtIndex(first: ScoreGrid, eLen: nat, guarded: bool, done: seq<bool>, predDt: nat, tau: nat, idx: nat)
    requires Shaped(first, eLen) && predDt <= |done| && tau <= predDt && idx == predDt - tau
    ensures ScoreAt(first, eLen, guarded, done, predDt, tau) == ([first] + StepGrids(StartBox(first), eLen, guarded, done, predDt))[idx]
  {
  }

  /** Score bounds the program keeps: charge scores never fall below `MIN_SCORE`,
      acquisition scores never below `MIN_SCORE - 1`, and none exceeds `hi`. */
  ghost predicate Bounded(g: ScoreGrid, eLen: nat, hi: int)
  {
    Shaped(g, eLen) &&
    forall e: nat :: e < eLen ==> MIN_SCORE <= g.Get(e, 0) <= hi && MIN_SCORE - 1 <= g.Get(e, 1) <= hi
  }

  ghost predicate BoxBounded(b: LinkedBox<ScoreGrid>, eLen: nat, hi: int)
  {
    forall i :: 0 <= i < b.Len() ==> Bounded(b.list[i], eLen, hi)
  }

  /** One step raises the upper bound by at most the one-second reward. */
  lemma {:induction false} StepBounded(box: LinkedBox<ScoreGrid>, eLen: nat, guarded: bool, p: int, hi: int)
    requires box.Len() > 0 && BoxShaped(box, eLen) && BoxBounded(box, eLen, hi)
    requires 0 <= p <= 1 && hi >= MIN_SCORE
    ensures Bounded(StepGrid(box, eLen, guarded, p), eLen, hi + 1)
  {
    var g := StepGrid(box, eLen, guarded, p);
    var front := box.Front().value;
    var back := box.Back().value;
    assert Bounded(front, eLen, hi) && Bounded(back, eLen, hi);
    forall e: nat | e < eLen
      ensures MIN_SCORE <= g.Get(e, 0) <= hi + 1 && MIN_SCORE - 1 <= g.Get(e, 1) <= hi + 1
    {
      if e > 0 {
        assert MIN_SCORE - 1 <= front.Get(e - 1, 1) <= hi;
      }
    }
  }

  lemma {:induction false} PushBounded(b: LinkedBox<ScoreGrid>, g: ScoreGrid, eLen: nat, hi: int)
    requires BoxBounded(b, eLen, hi) && Bounded(g, eLen, hi)
    ensures BoxBounded(b.Push(g), eLen, hi)
  {
    var r := b.Push(g);
    forall i | 0 <= i < r.Len()
      ensures Bounded(r.list[i], eLen, hi)
    {
      if i > 0 {
        assert r.list[i] == b.list[i - 1];
      }
    }
  }

  lemma {:induction false} BoxBoundedWeaken(b: LinkedBox<ScoreGrid>, eLen: nat, hi: int, hi': int)
    requires BoxBounded(b, eLen, hi) && hi <= hi'
    ensures BoxBounded(b, eLen, hi')
  {
    forall i | 0 <= i < b.Len()
      ensures Bounded(b.list[i], eLen, hi')
    {
      assert Bounded(b.list[i], eLen, hi);
    }
  }

  /** After `k` steps every score lies between `MIN_SCORE - 1` and `hi0 + k`. */
  lemma {:induction false} BoxAfterBounded(b0: LinkedBox<ScoreGrid>, eLen: nat, guarded: bool, done: seq<bool>, k: nat, hi0: int)
    requires b0.Len() > 0 && BoxShaped(b0, eLen) && k <= |done|
    requires BoxBounded(b0, eLen, hi0) && hi0 >= MIN_SCORE
    ensures BoxBounded(BoxAfter(b0, eLen, guarded, done, k), eLen, hi0 + k)
  {
    if k > 0 {
      BoxAfterBounded(b0, eLen, guarded, done, k - 1, hi0);
      BoxAfterStepBounded(b0, eLen, guarded, done, k, hi0);
    }
  }

  /** One more step of the program raises the bound of the box by one. */
  lemma BoxAfterStepBounded(b0: LinkedBox<ScoreGrid>, eLen: nat, guarded: bool, done: seq<bool>, k: nat, hi0: int)
    requires b0.Len() > 0 && BoxShaped(b0, eLen) && 0 < k <= |done| && hi0 >= MIN_SCORE
    requires BoxBounded(BoxAfter(b0, eLen, guarded, done, k - 1), eLen, hi0 + (k - 1))
    ensures BoxBounded(BoxAfter(b0, eLen, guarded, done, k), eLen, hi0 + k)
  {
    var j := k - 1;
    BoxAfterStep(b0, eLen, guarded, done, j);
    PushStepBounded(BoxAfter(b0, eLen, guarded, done, j), eLen, guarded, PDt(done, j), hi0 + j);
  }

  /** Pushing one step onto a box bounded by `hi` gives a box bounded by `hi + 1`. */
  lemma PushStepBounded(b: LinkedBox<ScoreGrid>, eLen: nat, guarded: bool, p: int, hi: int)
    requires b.Len() > 0 && BoxShaped(b, eLen) && BoxBounded(b, eLen, hi)
    requires 0 <= p <= 1 && hi >= MIN_SCORE
    ensures BoxBounded(b.Push(StepGrid(b, eLen, guarded, p)), eLen, hi + 1)
  {
    StepBounded(b, eLen, guarded, p, hi);
    BoxBoundedWeaken(b, eLen, hi, hi + 1);
    PushBounded(b, StepGrid(b, eLen, guarded, p), eLen, hi + 1);
  }

  /** With bounded scores, an empty battery in acquisition always switches to charge:
      staying scores `i32::MIN`, below every switch score. */
  lemma EmptyBatterySwitchesToCharge(box: LinkedBox<ScoreGrid>, eLen: nat, guarded: bool, p: int, hi: int)
    requires box.Len() > 0 && BoxShaped(box, eLen) && BoxBounded(box, eLen, hi) && eLen > 0
    ensures Cell(box, eLen, guarded, p, 0, 1).0 == SwitchToCharge
  {
    assert Bounded(box.Back().value, eLen, hi);
  }

  /** From a bounded start, no stored decision lets an empty battery stay in acquisition. */
  lemma {:induction false} NeverStayInAcquisitionWhenEmpty(b0: LinkedBox<ScoreGrid>, eLen: nat, guarded: bool, done: seq<bool>, predDt: nat, hi0: int)
    requires b0.Len() > 0 && BoxShaped(b0, eLen) && predDt <= |done| && eLen > 0
    requires BoxBounded(b0, eLen, hi0) && hi0 >= MIN_SCORE
    ensures forall t: nat :: t < predDt ==> DecisionAt(b0, eLen, guarded, done, predDt, t, 0, 1) == SwitchToCharge
  {
    forall t: nat | t < predDt
      ensures DecisionAt(b0, eLen, guarded, done, predDt, t, 0, 1) == SwitchToCharge
    {
      var k := predDt - 1 - t;
      BoxAfterBounded(b0, eLen, guarded, done, k, hi0);
      EmptyBatterySwitchesToCharge(BoxAfter(b0, eLen, guarded, done, k), eLen, guarded, PDt(done, k), hi0 + k);
    }
  }

  /** From a bounded start whose bound leaves room for the horizon, every stay and switch
      score the program adds or compares fits an `i32`. */
  lemma {:induction false} ScoresFitI32(b0: LinkedBox<ScoreGrid>, eLen: nat, guarded: bool, done: seq<bool>, k: nat, hi0: int, e: nat, s: nat)
    requires b0.Len() > 0 && BoxShaped(b0, eLen) && k < |done|
    requires BoxBounded(b0, eLen, hi0) && hi0 >= MIN_SCORE && hi0 + k < I32_MAX
    requires e < eLen && s <= 1
    ensures var b := BoxAfter(b0, eLen, guarded, done, k);
      I32_MIN <= StayScore(b.Front().value, PDt(done, k), e, s) <= I32_MAX &&
      I32_MIN <= SwitchScore(b.Back().value, guarded && b.Len() < b.Size(), e, s) <= I32_MAX
  {
    BoxAfterBounded(b0, eLen, guarded, done, k, hi0);
    var b := BoxAfter(b0, eLen, guarded, done, k);
    assert Bounded(b.Front().value, eLen, hi0 + k);
    assert Bounded(b.Back().value, eLen, hi0 + k);
    if s == 1 && e > 0 {
      assert MIN_SCORE - 1 <= b.Front().value.Get(e - 1, 1) <= hi0 + k;
    }
  }
}

=== FILE: ordering.dfy ===
/** Rust's `std::cmp::Ordering` and the total order on integers (which `DateTime` timestamps
    compare by). The objectives order themselves by their end time through it. */
module Orderings {
  datatype Ordering = Less | Equal | Greater

  /** `Ordering::reverse`. */
  function Reverse(o: Ordering): Ordering
  {
    match o
    case Less => Greater
    case Equal => Equal
    case Greater => Less
  }

  /** `Ord::cmp` on integers. */
  function CmpInt(a: int, b: int): (r: Ordering)
    ensures r == Less <==> a < b
    ensures r == Equal <==> a == b
    ensures r == Greater <==> a > b
  {
    if a < b then Less else if a == b then Equal else Greater
  }

  /** Swapping the operands reverses the answer. */
  lemma CmpIntAntisymmetric(a: int, b: int)
    ensures CmpInt(b, a) == Reverse(CmpInt(a, b))
  {
  }

  /** Two `Less` answers in a row give `Less`. */
  lemma CmpIntTransitive(a: int, b: int, c: int)
    requires CmpInt(a, b) == Less && CmpInt(b, c) == Less
    ensures CmpInt(a, c) == Less
  {
  }
}

=== FILE: pinned_dt.dfy ===
/** A delay pinned to a start instant (src/flight_control/common/pinned_dt.rs). Instants and
    deltas are whole numbers of one time unit; the wall clock is passed in as `now`. */
module PinnedDt {

  datatype PinnedTimeDelay = PinnedTimeDelay(startTime: int, delay: int)
  {
    function GetEnd(): int { startTime + delay }

    function GetStart(): int { startTime }

    function RemoveDelay(delta: int): (r: PinnedTimeDelay)
      ensures r.GetStart() == GetStart() && r.GetEnd() == GetEnd() - delta
    {
      this.(delay := delay - delta)
    }

    function AddDelay(delta: int): (r: PinnedTimeDelay)
      ensures r.GetStart() == GetStart() && r.GetEnd() == GetEnd() + delta
    {
      this.(delay := delay + delta)
    }

    function SetDelay(delta: int): (r: PinnedTimeDelay)
      ensures r.GetStart() == GetStart() && r.GetEnd() == GetStart() + delta
    {
      this.(delay := delta)
    }

    /** Time until the end instant, as seen at `now`. */
    function TimeLeft(now: int): (r: int)
      ensures now + r == GetEnd()
    {
      GetEnd() - now
    }
  }

  /** A delay of `delta` starting at the current instant. */
  function New(now: int, delta: int): (r: PinnedTimeDelay)
    ensures r.GetStart() == now && r.GetEnd() == now + delta && r.TimeLeft(now) == delta
  {
    PinnedTimeDelay(now, delta)
  }

  /** Adding and then removing the same delta restores the original delay. */
  lemma AddThenRemove(p: PinnedTimeDelay, delta: int)
    ensures p.AddDelay(delta).RemoveDelay(delta) == p
  {
  }
}

=== FILE: sched_task_controller.dfy ===
/** The newer task controller's charge/acquisition planner (src/scheduling/task_controller.rs):
    battery-level discretisation, set-up of the dynamic program, replay of its decisions into
    state-switch tasks, and the objective time window. Instants are whole seconds; the orbit
    enters only through its period and the sequence of per-second coverage bits the program
    iterates over. */
module SchedTaskController {
  import opened Wrappers
  import opened FixedPoint
  import opened AtomicDecisions
  import opened ScoreGrids
  import opened DecisionCubes
  import opened LinkedBoxes
  import opened OrbitDp
  import opened TaskSchedules
  import FlightStates

  const MAX_ORBIT_PREDICTION_SECS: nat := 80000
  const BATTERY_RESOLUTION: real := 0.1
  const MIN_BATTERY_THRESHOLD: real := 10.0
  const MAX_BATTERY_THRESHOLD: real := 90.0
  const OBJECTIVE_MIN_RETRIEVAL_TOL: nat := 100
  /** The clamp on the time left before an objective's deadline: eight hours. */
  const MAX_TIME_LEFT_SECS: nat := 8 * 3600
  /** The number of battery levels above the minimum, `round((90 - 10) / 0.1)`. */
  const MAX_BATTERY: nat := 800
  /** The energy dimension of every grid and of the decision cube. */
  const E_LEN: nat := MAX_BATTERY + 1

  lemma MaxBatteryMatchesThresholds()
    ensures Round((MAX_BATTERY_THRESHOLD - MIN_BATTERY_THRESHOLD) / BATTERY_RESOLUTION) == MAX_BATTERY
  {
  }

  /** The DP battery index of a battery level: clamped to the thresholds, then rounded to
      the nearest resolution step. */
  function MapEToDp(e: real): (r: nat)
    ensures r <= MAX_BATTERY
    ensures -0.05 <= MapDpToE(r) - Clamp(e, MIN_BATTERY_THRESHOLD, MAX_BATTERY_THRESHOLD) <= 0.05
  {
    var eClamp := Clamp(e, MIN_BATTERY_THRESHOLD, MAX_BATTERY_THRESHOLD);
    Round((eClamp - MIN_BATTERY_THRESHOLD) / BATTERY_RESOLUTION)
  }

  /** The battery level of a DP battery index, capped at the upper threshold. */
  function MapDpToE(dp: nat): (r: real)
    ensures MIN_BATTERY_THRESHOLD <= r <= MAX_BATTERY_THRESHOLD
    ensures dp <= MAX_BATTERY ==> r == MIN_BATTERY_THRESHOLD + dp as real * BATTERY_RESOLUTION
  {
    MinReal(MIN_BATTERY_THRESHOLD + dp as real * BATTERY_RESOLUTION, MAX_BATTERY_THRESHOLD)
  }

  /** Every index of the energy dimension survives the trip to a battery level and back,
      and indices beyond it come back as the top index. */
  lemma DpToEToDp(dp: nat)
    ensures MapEToDp(MapDpToE(dp)) == if dp <= MAX_BATTERY then dp else MAX_BATTERY
  {
    if dp <= MAX_BATTERY {
      assert (MapDpToE(dp) - MIN_BATTERY_THRESHOLD) / BATTERY_RESOLUTION == dp as real;
    } else {
      assert MapDpToE(dp) == MAX_BATTERY_THRESHOLD;
    }
  }

  /** Battery index of the upper threshold, `max_mapped` in the replay. */
  lemma MaxMappedIsTopIndex()
    ensures MapEToDp(MAX_BATTERY_THRESHOLD) == MAX_BATTERY
  {
    DpToEToDp(MAX_BATTERY);
  }

  /** The prediction horizon: the requested duration, else the orbit period capped at
      `MAX_ORBIT_PREDICTION_SECS`. */
  function PredictionSecs(period: nat, dt: Option<nat>): nat
  {
    if dt.Some? then dt.value
    else if MAX_ORBIT_PREDICTION_SECS <= period then MAX_ORBIT_PREDICTION_SECS else period
  }

  /** The final-state grid: without an end battery level no cell qualifies, so every score
      is `MIN_SCORE`. */
  function TerminalGrid(endState: Option<nat>, endBatt: Option<real>): (g: ScoreGrid)
    ensures Shaped(g, E_LEN)
  {
    var batt := if endBatt.Some? then MapEToDp(endBatt.value) else MAX_BATTERY + 1;
    ConditionGrid(E_LEN, 2, endState, batt, MIN_SCORE)
  }

  lemma {:induction false} TerminalBoxBounded(endState: Option<nat>, endBatt: Option<real>)
    ensures BoxBounded(StartBox(TerminalGrid(endState, endBatt)), E_LEN, 0)
  {
    var g := TerminalGrid(endState, endBatt);
    assert StartBox(g).list[0] == g;
    assert Bounded(g, E_LEN, 0);
  }

  /** Set up and run the dynamic program. The orbit period minus the horizon is an unsigned
      subtraction, so a horizon longer than the period is an error. */
  method InitSchedDp(period: nat, done: seq<bool>, dt: Option<nat>, endState: Option<nat>, endBatt: Option<real>)
    returns (r: Result<OptimalOrbitResult>)
    requires |done| >= PredictionSecs(period, dt)
    ensures r.Err? <==> PredictionSecs(period, dt) > period
    ensures r.Ok? ==> var c := r.value.decisions;
      c.Valid() && c.dtLen == PredictionSecs(period, dt) && c.eLen == E_LEN && c.sLen == 2 &&
      (forall t: nat, e: nat, s: nat :: c.InRange(t, e, s) ==>
        c.Get(t, e, s) == DecisionAt(StartBox(TerminalGrid(endState, endBatt)), E_LEN, true, done, c.dtLen, t, e, s)) &&
      Consistent(c) &&
      (forall t: nat :: t < c.dtLen ==> c.Get(t, 0, 1) == SwitchToCharge)
  {
    var predictionSecs := PredictionSecs(period, dt);
    if period < predictionSecs {
      return Err("attempt to subtract with overflow");
    }
    var decisionBuffer := DecisionCubes.New(predictionSecs, MAX_BATTERY + 1, 2);
    var covDtTemp := ScoreGrids.New(MAX_BATTERY + 1, 2);
    var batt := if endBatt.Some? then MapEToDp(endBatt.value) else MAX_BATTERY + 1;
    var covDtFirst := NewFromCondition(MAX_BATTERY + 1, 2, endState, batt, MIN_SCORE);
    var scoreCube := LinkedBoxes.New<ScoreGrid>(SCORE_BOX_SIZE);
    scoreCube := scoreCube.Push(covDtFirst);
    var res := CalculateOptimalOrbitSchedule(predictionSecs, done, scoreCube, covDtTemp, decisionBuffer, true);
    TerminalBoxBounded(endState, endBatt);
    NeverStayInAcquisitionWhenEmpty(scoreCube, E_LEN, true, done, predictionSecs, 0);
    r := Ok(res);
  }

  /** What replaying the decisions yields: the switches in order, the final battery index and
      how many times an empty battery was told to keep acquiring (logged as an error). */
  datatype ReplayTrace = ReplayTrace(switches: seq<ScheduledSwitch>, finalBatt: nat, emptyBatteryErrors: nat)

  predicate ReplayableCube(cube: AtomicDecisionCube)
  {
    cube.Valid() && cube.eLen > MAX_BATTERY && cube.sLen == 2
  }

  /** Follow the decisions from second `dt`, battery index `batt` and DP state `state` to the
      end of the horizon. A switch takes `SCORE_BOX_SIZE` seconds, cut at the horizon. */
  function ReplayFrom(cube: AtomicDecisionCube, dt: nat, batt: nat, state: nat): (r: ReplayTrace)
    requires ReplayableCube(cube) && batt <= MAX_BATTERY && state <= 1
    ensures r.finalBatt <= MAX_BATTERY
    ensures forall i :: 0 <= i < |r.switches| ==> dt <= r.switches[i].atDt < cube.dtLen && r.switches[i].toState <= 1
    ensures forall i :: 0 <= i < |r.switches| - 1 ==> r.switches[i].atDt + SCORE_BOX_SIZE <= r.switches[i + 1].atDt
    decreases cube.dtLen - dt
  {
    if dt >= cube.dtLen then ReplayTrace([], batt, 0)
    else
      match cube.Get(dt, batt, state)
      case StayInCharge =>
        ReplayFrom(cube, dt + 1, if batt + 1 <= MAX_BATTERY then batt + 1 else MAX_BATTERY, 0)
      case StayInAcquisition =>
        if batt == 0 then
          var rest := ReplayFrom(cube, dt + 1, batt, 1);
          rest.(emptyBatteryErrors := rest.emptyBatteryErrors + 1)
        else ReplayFrom(cube, dt + 1, batt - 1, 1)
      case SwitchToCharge =>
        var rest := ReplayFrom(cube, if dt + SCORE_BOX_SIZE <= cube.dtLen then dt + SCORE_BOX_SIZE else cube.dtLen, batt, 0);
        rest.(switches := [ScheduledSwitch(0, dt)] + rest.switches)
      case SwitchToAcquisition =>
        var rest := ReplayFrom(cube, if dt + SCORE_BOX_SIZE <= cube.dtLen then dt + SCORE_BOX_SIZE else cube.dtLen, batt, 1);
        rest.(switches := [ScheduledSwitch(1, dt)] + rest.switches)
  }

  /** The switches start with the state other than `state` and then alternate. */
  predicate Alternating(sw: seq<ScheduledSwitch>, state: nat)
  {
    (|sw| > 0 ==> sw[0].toState != state) &&
    forall i :: 0 <= i < |sw| - 1 ==> sw[i].toState != sw[i + 1].toState
  }

  /** Prepending a switch into `to` keeps alternation from the state left behind. */
  lemma ConsAlternating(to: nat, dt: nat, rest: seq<ScheduledSwitch>, state: nat)
    requires Alternating(rest, to) && to != state
    ensures Alternating([ScheduledSwitch(to, dt)] + rest, state)
  {
    var sw := [ScheduledSwitch(to, dt)] + rest;
    forall i | 0 <= i < |sw| - 1
      ensures sw[i].toState != sw[i + 1].toState
    {
      if i > 0 {
        assert sw[i] == rest[i - 1] && sw[i + 1] == rest[i];
      }
    }
  }

  /** With a cube whose decisions stay or switch to the other state, the scheduled switches
      alternate between the two states, starting with the state the satellite is not in. */
  lemma {:induction false} ReplayAlternates(cube: AtomicDecisionCube, dt: nat, batt: nat, state: nat)
    requires ReplayableCube(cube) && batt <= MAX_BATTERY && state <= 1 && Consistent(cube)
    ensures Alternating(ReplayFrom(cube, dt, batt, state).switches, state)
    decreases cube.dtLen - dt
  {
    if dt < cube.dtLen {
      var d := cube.Get(dt, batt, state);
      assert cube.InRange(dt, batt, state);
      assert TargetState(d) == if IsStay(d) then state else 1 - state;
      var next := if dt + SCORE_BOX_SIZE <= cube.dtLen then dt + SCORE_BOX_SIZE else cube.dtLen;
      match d
      case StayInCharge =>
        ReplayAlternates(cube, dt + 1, if batt + 1 <= MAX_BATTERY then batt + 1 else MAX_BATTERY, 0);
      case StayInAcquisition =>
        ReplayAlternates(cube, dt + 1, if batt == 0 then batt else batt - 1, 1);
      case SwitchToCharge =>
        ReplayAlternates(cube, next, batt, 0);
        ConsAlternating(0, dt, ReplayFrom(cube, next, batt, 0).switches, state);
      case SwitchToAcquisition =>
        ReplayAlternates(cube, next, batt, 1);
        ConsAlternating(1, dt, ReplayFrom(cube, next, batt, 1).switches, state);
    }
  }

  /** A consistent cube that never tells an empty battery to keep acquiring never triggers
      the empty-battery error. */
  lemma {:induction false} ReplayNeverDrainsEmptyBattery(cube: AtomicDecisionCube, dt: nat, batt: nat, state: nat)
    requires ReplayableCube(cube) && batt <= MAX_BATTERY && state <= 1 && Consistent(cube)
    requires forall t: nat :: t < cube.dtLen ==> cube.Get(t, 0, 1) != StayInAcquisition
    ensures ReplayFrom(cube, dt, batt, state).emptyBatteryErrors == 0
    decreases cube.dtLen - dt
  {
    if dt < cube.dtLen {
      var next := if dt + SCORE_BOX_SIZE <= cube.dtLen then dt + SCORE_BOX_SIZE else cube.dtLen;
      match cube.Get(dt, batt, state)
      case StayInCharge =>
        ReplayNeverDrainsEmptyBattery(cube, dt + 1, if batt + 1 <= MAX_BATTERY then batt + 1 else MAX_BATTERY, 0);
      case StayInAcquisition =>
        assert cube.InRange(dt, batt, state);
        assert state == 1;
        ReplayNeverDrainsEmptyBattery(cube, dt + 1, if batt == 0 then batt else batt - 1, 1);
      case SwitchToCharge =>
        ReplayNeverDrainsEmptyBattery(cube, next, batt, 0);
      case SwitchToAcquisition =>
        ReplayNeverDrainsEmptyBattery(cube, next, batt, 1);
    }
  }

  /** A stay decision leaves the switches and the final battery of the replay to the next second. */
  lemma ReplayStayStep(cube: AtomicDecisionCube, dt: nat, batt: nat, state: nat, batt': nat, state': nat)
    requires ReplayableCube(cube) && dt < cube.dtLen && batt <= MAX_BATTERY && state <= 1
    requires (cube.Get(dt, batt, state) == StayInCharge && state' == 0 &&
              batt' == (if batt + 1 <= MAX_BATTERY then batt + 1 else MAX_BATTERY)) ||
             (cube.Get(dt, batt, state) == StayInAcquisition && state' == 1 &&
              batt' == (if batt == 0 then batt else batt - 1))
    ensures batt' <= MAX_BATTERY && state' <= 1
    ensures ReplayFrom(cube, dt, batt, state).switches == ReplayFrom(cube, dt + 1, batt', state').switches
    ensures ReplayFrom(cube, dt, batt, state).finalBatt == ReplayFrom(cube, dt + 1, batt', state').finalBatt
  {
  }

  /** A switch decision emits the switch and leaves the rest of the replay to the end of the
      switch. */
  lemma ReplaySwitchStep(cube: AtomicDecisionCube, dt: nat, batt: nat, state: nat, to: nat, emitted: seq<ScheduledSwitch>)
    requires ReplayableCube(cube) && dt < cube.dtLen && batt <= MAX_BATTERY && state <= 1 && to <= 1
    requires cube.Get(dt, batt, state) == (if to == 0 then SwitchToCharge else SwitchToAcquisition)
    ensures var next := if dt + SCORE_BOX_SIZE <= cube.dtLen then dt + SCORE_BOX_SIZE else cube.dtLen;
      emitted + ReplayFrom(cube, dt, batt, state).switches ==
        (emitted + [ScheduledSwitch(to, dt)]) + ReplayFrom(cube, next, batt, to).switches &&
      ReplayFrom(cube, dt, batt, state).finalBatt == ReplayFrom(cube, next, batt, to).finalBatt
  {
    var next := if dt + SCORE_BOX_SIZE <= cube.dtLen then dt + SCORE_BOX_SIZE else cube.dtLen;
    var rest := ReplayFrom(cube, next, batt, to).switches;
    assert ReplayFrom(cube, dt, batt, state).switches == [ScheduledSwitch(to, dt)] + rest;
    assert emitted + ([ScheduledSwitch(to, dt)] + rest) == (emitted + [ScheduledSwitch(to, dt)]) + rest;
  }

  /** One turn of the replay loop: act on the decision for second `dt`. */
  method ApplyDecision(decisions: AtomicDecisionCube, dt: nat, batt: nat, state: nat, schedule: seq<Task>, baseT: int,
                       ghost base: seq<Task>, ghost emitted: seq<ScheduledSwitch>)
    returns (dt': nat, batt': nat, state': nat, schedule': seq<Task>, ghost emitted': seq<ScheduledSwitch>)
    requires ReplayableCube(decisions) && dt < decisions.dtLen && batt <= MAX_BATTERY && state <= 1
    requires schedule == base + SwitchTasks(baseT, emitted)
    ensures dt < dt' <= decisions.dtLen && batt' <= MAX_BATTERY && state' <= 1
    ensures schedule' == base + SwitchTasks(baseT, emitted')
    ensures emitted + ReplayFrom(decisions, dt, batt, state).switches == emitted' + ReplayFrom(decisions, dt', batt', state').switches
    ensures ReplayFrom(decisions, dt, batt, state).finalBatt == ReplayFrom(decisions, dt', batt', state').finalBatt
  {
    MaxMappedIsTopIndex();
    var maxMapped := MapEToDp(MAX_BATTERY_THRESHOLD);
    var predSecs := decisions.dtLen;
    schedule' := schedule;
    emitted' := emitted;
    match decisions.Get(dt, batt, state) {
      case StayInCharge =>
        state' := 0;
        batt' := if batt + 1 <= maxMapped then batt + 1 else maxMapped;
        dt' := dt + 1;
        ReplayStayStep(decisions, dt, batt, state, batt', state');
      case StayInAcquisition =>
        state' := 1;
        batt' := if batt == 0 then batt else batt - 1;
        dt' := dt + 1;
        ReplayStayStep(decisions, dt, batt, state, batt', state');
      case SwitchToCharge =>
        ReplaySwitchStep(decisions, dt, batt, state, 0, emitted);
        SwitchTasksSnoc(base, baseT, emitted, ScheduledSwitch(0, dt), schedule);
        schedule' := ScheduleSwitch(schedule, FlightStates.Charge, baseT + dt);
        emitted' := emitted + [ScheduledSwitch(0, dt)];
        state' := 0;
        batt' := batt;
        dt' := if dt + SCORE_BOX_SIZE <= predSecs then dt + SCORE_BOX_SIZE else predSecs;
      case SwitchToAcquisition =>
        ReplaySwitchStep(decisions, dt, batt, state, 1, emitted);
        SwitchTasksSnoc(base, baseT, emitted, ScheduledSwitch(1, dt), schedule);
        schedule' := ScheduleSwitch(schedule, FlightStates.Acquisition, baseT + dt);
        emitted' := emitted + [ScheduledSwitch(1, dt)];
        state' := 1;
        batt' := batt;
        dt' := if dt + SCORE_BOX_SIZE <= predSecs then dt + SCORE_BOX_SIZE else predSecs;
    }
  }

  /** Replay the decisions from `dtSh` and enqueue the switches, after clearing the queue if
      `trunc`. Returns the queue length and the battery level the replay ends with. An empty
      battery told to keep acquiring stays empty (the source logs an error). */
  method SchedOptOrbitRes(schedule: seq<Task>, baseT: int, res: OptimalOrbitResult, dtSh: nat, trunc: bool,
                          battF: real, state0: nat)
    returns (count: nat, battOut: real, newSchedule: seq<Task>)
    requires ReplayableCube(res.decisions) && state0 <= 1
    ensures var tr := ReplayFrom(res.decisions, dtSh, MapEToDp(battF), state0);
      newSchedule == (if trunc then [] else schedule) + SwitchTasks(baseT, tr.switches) &&
      count == |newSchedule| && battOut == MapDpToE(tr.finalBatt)
  {
    newSchedule := schedule;
    if trunc {
      newSchedule := ClearSchedule(newSchedule);
    }
    ghost var base := newSchedule;
    var state := state0;
    var dt: nat := dtSh;
    var batt: nat := MapEToDp(battF);
    var predSecs := res.decisions.dtLen;
    var decisions := res.decisions;
    ghost var whole := ReplayFrom(decisions, dtSh, batt, state0);
    ghost var emitted: seq<ScheduledSwitch> := [];
    while dt < predSecs
      invariant batt <= MAX_BATTERY && state <= 1
      invariant emitted + ReplayFrom(decisions, dt, batt, state).switches == whole.switches
      invariant ReplayFrom(decisions, dt, batt, state).finalBatt == whole.finalBatt
      invariant newSchedule == base + SwitchTasks(baseT, emitted)
      decreases predSecs - dt
    {
      dt, batt, state, newSchedule, emitted := ApplyDecision(decisions, dt, batt, state, newSchedule, baseT, base, emitted);
    }
    assert emitted == whole.switches;
    count := |newSchedule|;
    battOut := MapDpToE(batt);
  }

  /** The window of offsets from `curr` in which an objective between `startTime` and
      `endTime` may be scheduled: from the tolerance after its start (or now, if it has
      started) to the tolerance before its deadline, the deadline capped at eight hours
      ahead. Less than the tolerance left is an unsigned underflow. */
  function GetMinMaxDt(startTime: int, endTime: int, curr: int): (r: Result<(nat, nat)>)
    ensures r.Err? <==> endTime - curr < OBJECTIVE_MIN_RETRIEVAL_TOL
    ensures r.Ok? ==> r.value.1 + OBJECTIVE_MIN_RETRIEVAL_TOL <= MAX_TIME_LEFT_SECS
    ensures r.Ok? ==> curr + r.value.1 + OBJECTIVE_MIN_RETRIEVAL_TOL <= endTime
    ensures r.Ok? && endTime - curr <= MAX_TIME_LEFT_SECS ==> curr + r.value.1 + OBJECTIVE_MIN_RETRIEVAL_TOL == endTime
    ensures r.Ok? && endTime - curr > MAX_TIME_LEFT_SECS ==> r.value.1 + OBJECTIVE_MIN_RETRIEVAL_TOL == MAX_TIME_LEFT_SECS
    ensures r.Ok? && startTime > curr ==> curr + r.value.0 == startTime + OBJECTIVE_MIN_RETRIEVAL_TOL
    ensures r.Ok? && startTime <= curr ==> r.value.0 == 0
  {
    var timeLeft := if endTime - curr < 0 then 0 else if endTime - curr > MAX_TIME_LEFT_SECS then MAX_TIME_LEFT_SECS else endTime - curr;
    if timeLeft < OBJECTIVE_MIN_RETRIEVAL_TOL then Err("attempt to subtract with overflow")
    else
      var maxDt := timeLeft - OBJECTIVE_MIN_RETRIEVAL_TOL;
      var timeToStart := if startTime - curr > 0 then startTime - curr else 0;
      var minDt := if timeToStart > 0 then timeToStart + OBJECTIVE_MIN_RETRIEVAL_TOL else 0;
      Ok((minDt, maxDt))
  }

  /** A later deadline never shortens the window: `max_dt` is monotone in the deadline, and
      the earliest offset does not depend on it. */
  lemma GetMinMaxDtLaterDeadline(startTime: int, end1: int, end2: int, curr: int)
    requires end1 <= end2 && GetMinMaxDt(startTime, end1, curr).Ok?
    ensures GetMinMaxDt(startTime, end2, curr).Ok?
    ensures GetMinMaxDt(startTime, end1, curr).value.1 <= GetMinMaxDt(startTime, end2, curr).value.1
    ensures GetMinMaxDt(startTime, end1, curr).value.0 == GetMinMaxDt(startTime, end2, curr).value.0
  {
  }
}

=== FILE: score_grid.dfy ===
/** The energy-by-state score grid of the charge/acquisition dynamic program
    (src/scheduling/score_grid.rs, and the older src/flight_control/task/score_grid.rs).
    Scores are `i32` in the program; here they are integers whose range the dynamic-program
    lemmas bound. Cell `(e, s)` lives at flat index `e * sLen + s`. */
module ScoreGrids {
  import opened Wrappers
  import opened FlatIndex

  const I32_MIN: int := -0x8000_0000
  const I32_MAX: int := 0x7fff_ffff
  /** The newer snapshot's fill value for unwanted final states, two above `i32::MIN` so
      that `MIN_SCORE - 1` and `i32::MIN` both rank below it. */
  const MIN_SCORE: int := I32_MIN + 2

  datatype ScoreGrid = ScoreGrid(eLen: nat, sLen: nat, score: seq<int>)
  {
    predicate Valid() { |score| == eLen * sLen }

    function Get(e: nat, s: nat): int
      requires Valid() && e < eLen && s < sLen
    {
      Index2InBounds(e, s, eLen, sLen);
      score[e * sLen + s]
    }

    /** Overwrite one cell; every other cell keeps its score. */
    method Set(e: nat, s: nat, v: int) returns (r: ScoreGrid)
      requires Valid() && e < eLen && s < sLen
      ensures r.Valid() && r.eLen == eLen && r.sLen == sLen
      ensures r.Get(e, s) == v
      ensures forall e': nat, s': nat :: e' < eLen && s' < sLen && (e' != e || s' != s) ==> r.Get(e', s') == Get(e', s')
    {
      Index2InBounds(e, s, eLen, sLen);
      r := ScoreGrid(eLen, sLen, score[e * sLen + s := v]);
      forall e': nat, s': nat | e' < eLen && s' < sLen && (e' != e || s' != s)
        ensures r.Get(e', s') == Get(e', s')
      {
        Index2InBounds(e', s', eLen, sLen);
        if e' * sLen + s' == e * sLen + s {
          Index2Injective(e', s', e, s, sLen);
        }
      }
    }

    /** The state with the highest score in row `e`; on a tie the last such state, as
        `Iterator::max_by_key` returns. An empty state dimension is a panic. */
    function GetMaxS(e: nat): (r: nat)
      requires Valid() && e < eLen && sLen > 0
      ensures r < sLen
      ensures forall i :: 0 <= i < sLen ==> Get(e, i) <= Get(e, r)
      ensures forall i :: r < i < sLen ==> Get(e, i) < Get(e, r)
    {
      MaxSIn(e, sLen)
    }

    function MaxSIn(e: nat, n: nat): (r: nat)
      requires Valid() && e < eLen && 0 < n <= sLen
      ensures r < n
      ensures forall i :: 0 <= i < n ==> Get(e, i) <= Get(e, r)
      ensures forall i :: r < i < n ==> Get(e, i) < Get(e, r)
    {
      if n == 1 then 0
      else
        var m := MaxSIn(e, n - 1);
        if Get(e, n - 1) >= Get(e, m) then n - 1 else m
    }
  }

  /** A grid of the given dimensions with every score `v` (`vec![v; e_len * s_len]`). */
  function Filled(eLen: nat, sLen: nat, v: int): (r: ScoreGrid)
    ensures r.Valid() && r.eLen == eLen && r.sLen == sLen
    ensures forall e: nat, s: nat :: e < eLen && s < sLen ==> r.Get(e, s) == v
  {
    var r := ScoreGrid(eLen, sLen, seq(eLen * sLen, _ => v));
    assert forall e: nat, s: nat :: e < eLen && s < sLen ==> r.Get(e, s) == v by {
      forall e: nat, s: nat | e < eLen && s < sLen
        ensures r.Get(e, s) == v
      {
        Index2InBounds(e, s, eLen, sLen);
      }
    }
    r
  }

  /** A grid of the given dimensions with every score 0. */
  function New(eLen: nat, sLen: nat): (r: ScoreGrid)
    ensures r.Valid() && r.eLen == eLen && r.sLen == sLen
    ensures forall e: nat, s: nat :: e < eLen && s < sLen ==> r.Get(e, s) == 0
  {
    Filled(eLen, sLen, 0)
  }

  /** Whether cell `(e, s)` is a wanted final state: energy at least `endMinE` and, if an
      end state is given, that state. */
  predicate InEndCondition(endS: Option<nat>, endMinE: nat, e: nat, s: nat)
  {
    e >= endMinE && (endS.None? || s == endS.value)
  }

  /** The final-state grid described by an end condition. */
  ghost predicate IsConditionGrid(g: ScoreGrid, eLen: nat, sLen: nat, endS: Option<nat>, endMinE: nat, fill: int)
  {
    g.Valid() && g.eLen == eLen && g.sLen == sLen &&
    forall e: nat, s: nat :: e < eLen && s < sLen ==> g.Get(e, s) == if InEndCondition(endS, endMinE, e, s) then 0 else fill
  }

  /** The final-state grid described by an end condition, as a reference definition. */
  function ConditionGrid(eLen: nat, sLen: nat, endS: Option<nat>, endMinE: nat, fill: int): (r: ScoreGrid)
    ensures IsConditionGrid(r, eLen, sLen, endS, endMinE, fill)
  {
    var r := ScoreGrid(eLen, sLen, seq(eLen * sLen, j requires 0 <= j < eLen * sLen =>
      if sLen > 0 && InEndCondition(endS, endMinE, j / sLen, j % sLen) then 0 else fill));
    assert IsConditionGrid(r, eLen, sLen, endS, endMinE, fill) by {
      forall e: nat, s: nat | e < eLen && s < sLen
        ensures r.Get(e, s) == if InEndCondition(endS, endMinE, e, s) then 0 else fill
      {
        Index2InBounds(e, s, eLen, sLen);
        Index2Decode(e, s, sLen);
      }
    }
    r
  }

  /** Two grids of the same shape with the same score in every cell are equal. */
  lemma {:induction false} GridExtensionality(a: ScoreGrid, b: ScoreGrid)
    requires a.Valid() && b.Valid() && a.eLen == b.eLen && a.sLen == b.sLen
    requires forall e: nat, s: nat :: e < a.eLen && s < a.sLen ==> a.Get(e, s) == b.Get(e, s)
    ensures a == b
  {
    forall j | 0 <= j < |a.score|
      ensures a.score[j] == b.score[j]
    {
      Index2Encode(j, a.eLen, a.sLen);
      var e: nat, s: nat := j / a.sLen, j % a.sLen;
      assert a.Get(e, s) == b.Get(e, s);
    }
  }

  predicate LexLt(e1: nat, s1: nat, e2: nat, s2: nat) { e1 < e2 || (e1 == e2 && s1 < s2) }

  /** The final-state grid: every cell `fill`, except that the cells from row `endMinE` on
      are 0, in column `endS` if given and in every column otherwise. The newer program
      passes `MIN_SCORE` as `fill`; the older one always gives a column and fills with
      `i32::MIN`. */
  method NewFromCondition(eLen: nat, sLen: nat, endS: Option<nat>, endMinE: nat, fill: int) returns (r: ScoreGrid)
    ensures IsConditionGrid(r, eLen, sLen, endS, endMinE, fill)
    ensures r == ConditionGrid(eLen, sLen, endS, endMinE, fill)
  {
    var endSt, step := if endS.Some? then endS.value else 0, if endS.Some? then sLen else 1;
    r := Filled(eLen, sLen, fill);
    if endSt < sLen && endMinE < eLen {
      var startInd := endMinE * sLen + endSt;
      var endInd := sLen * eLen;
      var i := startInd;
      var row: nat, col: nat := endMinE, endSt;
      while i < endInd
        invariant r.Valid() && r.eLen == eLen && r.sLen == sLen
        invariant col < sLen && i == row * sLen + col
        invariant endS.Some? ==> col == endSt
        invariant !LexLt(row, col, endMinE, endSt)
        invariant forall e: nat, s: nat :: e < eLen && s < sLen ==>
          r.Get(e, s) == if !LexLt(e, s, endMinE, endSt) && LexLt(e, s, row, col) && (endS.None? || s == endSt) then 0 else fill
        decreases endInd - i
      {
        // the flat index `i` is cell (row, col)
        if row >= eLen {
          MulLeRight(eLen, row, sLen);
          assert false;
        }
        r := r.Set(row, col, 0);
        i := i + step;
        if endS.Some? {
          assert (row + 1) * sLen == row * sLen + sLen;
          row := row + 1;
        } else if col + 1 < sLen {
          col := col + 1;
        } else {
          assert (row + 1) * sLen == row * sLen + sLen;
          row, col := row + 1, 0;
        }
      }
      if row < eLen {
        Index2InBounds(row, col, eLen, sLen);
      } else {
        SweptIsCondition(r, eLen, sLen, endS, endMinE, endSt, row, col, fill);
      }
    } else {
      UntouchedIsCondition(r, eLen, sLen, endS, endMinE, endSt, fill);
    }
  }

  /** Once the sweep has passed the last row, the grid is the final-state grid. */
  lemma SweptIsCondition(r: ScoreGrid, eLen: nat, sLen: nat, endS: Option<nat>, endMinE: nat, endSt: nat,
                         row: nat, col: nat, fill: int)
    requires r.Valid() && r.eLen == eLen && r.sLen == sLen && row >= eLen
    requires endSt == if endS.Some? then endS.value else 0
    requires forall e: nat, s: nat :: e < eLen && s < sLen ==>
      r.Get(e, s) == if !LexLt(e, s, endMinE, endSt) && LexLt(e, s, row, col) && (endS.None? || s == endSt) then 0 else fill
    ensures r == ConditionGrid(eLen, sLen, endS, endMinE, fill)
  {
    var c := ConditionGrid(eLen, sLen, endS, endMinE, fill);
    forall e: nat, s: nat | e < eLen && s < sLen
      ensures r.Get(e, s) == c.Get(e, s)
    {
      assert LexLt(e, s, row, col);
    }
    GridExtensionality(r, c);
  }

  /** With the end state outside the grid or the energy bound past the last row, no cell is
      wanted and the filled grid is the final-state grid. */
  lemma UntouchedIsCondition(r: ScoreGrid, eLen: nat, sLen: nat, endS: Option<nat>, endMinE: nat, endSt: nat, fill: int)
    requires r.Valid() && r.eLen == eLen && r.sLen == sLen
    requires endSt == if endS.Some? then endS.value else 0
    requires !(endSt < sLen && endMinE < eLen)
    requires forall e: nat, s: nat :: e < eLen && s < sLen ==> r.Get(e, s) == fill
    ensures r == ConditionGrid(eLen, sLen, endS, endMinE, fill)
  {
    var c := ConditionGrid(eLen, sLen, endS, endMinE, fill);
    forall e: nat, s: nat | e < eLen && s < sLen
      ensures r.Get(e, s) == c.Get(e, s)
    {
      assert !InEndCondition(endS, endMinE, e, s);
    }
    GridExtensionality(r, c);
  }
}

=== FILE: state_vector.dfy ===
/** Fixed-size state vectors for the Kalman filters
    (src/flight_control/common/state_vector.rs), over the reals. The const-generic length
    `N` is the explicit parameter `n`. */
module StateVectors {
  import opened Wrappers
  import Matrices
  import Vec2Ds

  datatype StateVector = StateVector(data: seq<real>)

  function Zero(n: nat): (r: StateVector)
    ensures |r.data| == n && forall i :: 0 <= i < n ==> r.data[i] == 0.0
  {
    StateVector(seq(n, i => 0.0))
  }

  /** `from_matrix`: the single column of an `n`×1 matrix. */
  function FromMatrix(m: Matrices.Matrix, n: nat): (r: StateVector)
    requires Matrices.Shaped(m, n, 1)
    ensures |r.data| == n && forall i :: 0 <= i < n ==> r.data[i] == Matrices.Get(m, i, 0)
  {
    StateVector(seq(n, i requires 0 <= i < n => m.data[i][0]))
  }

  /** `to_matrix`: the vector as an `n`×1 column. */
  function ToMatrix(v: StateVector): (r: Matrices.Matrix)
    ensures Matrices.Shaped(r, |v.data|, 1)
    ensures forall i :: 0 <= i < |v.data| ==> Matrices.Get(r, i, 0) == v.data[i]
  {
    Matrices.Matrix(seq(|v.data|, i requires 0 <= i < |v.data| => [v.data[i]]))
  }

  /** The two conversions are mutually inverse. */
  lemma MatrixRoundTrip(v: StateVector, m: Matrices.Matrix, n: nat)
    requires Matrices.Shaped(m, n, 1)
    ensures FromMatrix(ToMatrix(v), |v.data|) == v
    ensures ToMatrix(FromMatrix(m, n)) == m
  {
    var back := ToMatrix(FromMatrix(m, n));
    assert forall i :: 0 <= i < n ==> back.data[i] == m.data[i];
  }

  /** `from_vec2d`: `[x, y, 0, ...]`; writing index 1 of a shorter vector panics. */
  function FromVec2D(v: Vec2Ds.Vec2D, n: nat): (r: Result<StateVector>)
    ensures r.Err? <==> n < 2
    ensures r.Ok? ==> |r.value.data| == n && r.value.data[0] == v.x as real && r.value.data[1] == v.y as real
    ensures r.Ok? ==> forall i :: 2 <= i < n ==> r.value.data[i] == 0.0
  {
    if n < 2 then Err("index out of bounds")
    else Ok(StateVector(Zero(n).data[0 := v.x as real][1 := v.y as real]))
  }

  /** `get_slice`: `range` entries from `start`; a range past the end panics. */
  function GetSlice(v: StateVector, start: nat, range: nat): (r: Result<seq<real>>)
    ensures r.Err? <==> start + range > |v.data|
    ensures r.Ok? ==> |r.value| == range && forall k :: 0 <= k < range ==> r.value[k] == v.data[start + k]
  {
    if start + range > |v.data| then Err("range end index out of range") else Ok(v.data[start..start + range])
  }

  /** `Index`: a read past the end panics. */
  function At(v: StateVector, idx: nat): (r: Result<real>)
    ensures r.Err? <==> idx >= |v.data|
    ensures r.Ok? ==> GetSlice(v, idx, 1) == Ok([r.value])
  {
    if idx < |v.data| then
      assert v.data[idx..idx + 1] == [v.data[idx]];
      Ok(v.data[idx])
    else Err("index out of bounds")
  }

  function Add(a: StateVector, b: StateVector): (r: StateVector)
    requires |a.data| == |b.data|
    ensures |r.data| == |a.data| && forall i :: 0 <= i < |a.data| ==> r.data[i] == a.data[i] + b.data[i]
  {
    StateVector(seq(|a.data|, i requires 0 <= i < |a.data| => a.data[i] + b.data[i]))
  }

  function Sub(a: StateVector, b: StateVector): (r: StateVector)
    requires |a.data| == |b.data|
    ensures |r.data| == |a.data| && forall i :: 0 <= i < |a.data| ==> r.data[i] == a.data[i] - b.data[i]
  {
    StateVector(seq(|a.data|, i requires 0 <= i < |a.data| => a.data[i] - b.data[i]))
  }

  /** `v - v` is the zero vector and subtraction undoes addition. */
  lemma SubInvertsAdd(a: StateVector, b: StateVector)
    requires |a.data| == |b.data|
    ensures Sub(a, a) == Zero(|a.data|)
    ensures Sub(Add(a, b), b) == a
  {
    assert Sub(a, a).data == Zero(|a.data|).data;
    assert Sub(Add(a, b), b).data == a.data;
  }
}

=== FILE: sub_buffer.dfy ===
/** A view of a window of an image that wraps round the image's edges
    (src/flight_control/imaging/sub_buffer.rs). The wrapped image is a `Buffers.Buffer`;
    coordinates are `u32`. */
module SubBuffers {
  import opened Wrappers
  import Buffers
  import Vec2Ds
  import IntArith

  const U32_MOD: int := 0x1_0000_0000

  datatype SubBuffer = SubBuffer(buffer: Buffers.Buffer, bufferSize: Vec2Ds.Vec2D, offset: Vec2Ds.Vec2D,
                                 size: Vec2Ds.Vec2D)

  predicate IsU32(v: Vec2Ds.Vec2D) { 0 <= v.x < U32_MOD && 0 <= v.y < U32_MOD }

  predicate Valid(sb: SubBuffer) { IsU32(sb.bufferSize) && IsU32(sb.offset) && IsU32(sb.size) }

  /** `dimensions`: the size of the window, not of the underlying image. */
  function Dimensions(sb: SubBuffer): (r: (int, int))
    ensures r == (sb.size.x, sb.size.y)
  {
    (sb.size.x, sb.size.y)
  }

  /** The underlying cell of window pixel `(x, y)`: `(x + offset) % buffer_size` per axis,
      in `u32`; an overflowing sum or a zero buffer side panics. */
  function Loc(sb: SubBuffer, x: nat, y: nat): (r: Result<(nat, nat)>)
    requires Valid(sb)
    ensures r.Err? <==> x + sb.offset.x >= U32_MOD || sb.bufferSize.x == 0 ||
                        y + sb.offset.y >= U32_MOD || sb.bufferSize.y == 0
    ensures r.Ok? ==> r.value.0 < sb.bufferSize.x && r.value.1 < sb.bufferSize.y
    ensures r.Ok? ==> r.value.0 == (x + sb.offset.x) % sb.bufferSize.x && r.value.1 == (y + sb.offset.y) % sb.bufferSize.y
  {
    if x + sb.offset.x >= U32_MOD then Result<(nat, nat)>.Err("attempt to add with overflow")
    else if sb.bufferSize.x == 0 then Result<(nat, nat)>.Err("attempt to calculate the remainder with a divisor of zero")
    else if y + sb.offset.y >= U32_MOD then Result<(nat, nat)>.Err("attempt to add with overflow")
    else if sb.bufferSize.y == 0 then Result<(nat, nat)>.Err("attempt to calculate the remainder with a divisor of zero")
    else Ok(((x + sb.offset.x) % sb.bufferSize.x, (y + sb.offset.y) % sb.bufferSize.y))
  }

  /** Moving a whole buffer width or height through the window lands on the same cell. */
  lemma LocPeriodic(sb: SubBuffer, x: nat, y: nat)
    requires Valid(sb) && Loc(sb, x, y).Ok?
    requires x + sb.bufferSize.x + sb.offset.x < U32_MOD && y + sb.bufferSize.y + sb.offset.y < U32_MOD
    ensures Loc(sb, x + sb.bufferSize.x, y) == Loc(sb, x, y + sb.bufferSize.y) == Loc(sb, x, y)
  {
    IntArithShift(x + sb.offset.x, sb.bufferSize.x);
    IntArithShift(y + sb.offset.y, sb.bufferSize.y);
  }

  lemma IntArithShift(a: int, m: int)
    requires m > 0
    ensures (a + m) % m == a % m
  {
    assert a + m == a + 1 * m;
    IntArith.ModShift(a, 1, m);
  }

  /** `get_pixel`. */
  function GetPixel(sb: SubBuffer, x: nat, y: nat): (r: Result<Buffers.Rgb>)
    requires Valid(sb)
    ensures r.Ok? ==> Loc(sb, x, y).Ok? && Buffers.GetPixel(sb.buffer, Loc(sb, x, y).value.0, Loc(sb, x, y).value.1) == r
    ensures Loc(sb, x, y).Err? ==> r.Err?
  {
    var loc := Loc(sb, x, y);
    if loc.Err? then Err(loc.msg) else Buffers.GetPixel(sb.buffer, loc.value.0, loc.value.1)
  }

  /** `get_pixel_mut`: the cell the returned reference points at. */
  function GetPixelMut(sb: SubBuffer, x: nat, y: nat): (r: Result<(nat, nat)>)
    requires Valid(sb)
    ensures r.Ok? ==> GetPixel(sb, x, y) == Buffers.GetPixel(sb.buffer, r.value.0, r.value.1)
    ensures r.Err? <==> Loc(sb, x, y).Err? || Buffers.GetPixel(sb.buffer, Loc(sb, x, y).value.0, Loc(sb, x, y).value.1).Err?
  {
    var loc := Loc(sb, x, y);
    if loc.Err? then Err(loc.msg)
    else if Buffers.GetPixel(sb.buffer, loc.value.0, loc.value.1).Err? then Err("pixel out of bounds")
    else loc
  }

  /** `put_pixel`: writes the mapped cell. */
  function PutPixel(sb: SubBuffer, x: nat, y: nat, pixel: Buffers.Rgb): (r: Result<SubBuffer>)
    requires Valid(sb)
    ensures r.Ok? ==> Valid(r.value) && r.value.bufferSize == sb.bufferSize
    ensures r.Ok? ==> r.value.offset == sb.offset && r.value.size == sb.size
    ensures r.Ok? ==> GetPixel(r.value, x, y) == Ok(pixel)
    ensures r.Err? <==> GetPixelMut(sb, x, y).Err?
  {
    var loc := Loc(sb, x, y);
    if loc.Err? then Err(loc.msg)
    else
      var saved := Buffers.SavePixel(sb.buffer, loc.value.0, loc.value.1, pixel);
      if saved.Err? then Err(saved.msg) else Ok(sb.(buffer := saved.value))
  }

  /** `blend_pixel`: combines the pixel with the one in the mapped cell. How the image
      library blends two pixels is the parameter `blend`. */
  function BlendPixel(sb: SubBuffer, x: nat, y: nat, pixel: Buffers.Rgb, blend: (Buffers.Rgb, Buffers.Rgb) -> Buffers.Rgb)
    : (r: Result<SubBuffer>)
    requires Valid(sb)
    ensures r.Ok? ==> Valid(r.value) && r.value.bufferSize == sb.bufferSize
    ensures r.Ok? ==> r.value.offset == sb.offset && r.value.size == sb.size
    ensures r.Ok? ==> GetPixel(sb, x, y).Ok? && GetPixel(r.value, x, y) == Ok(blend(GetPixel(sb, x, y).value, pixel))
    ensures r.Err? <==> GetPixelMut(sb, x, y).Err?
  {
    var current := GetPixel(sb, x, y);
    if current.Err? then Err(current.msg) else PutPixel(sb, x, y, blend(current.value, pixel))
  }

  /** Writing through the view touches no other cell of the image. */
  lemma PutPixelKeepsOthers(sb: SubBuffer, x: nat, y: nat, pixel: Buffers.Rgb, x2: nat, y2: nat)
    requires Valid(sb) && Buffers.Valid(sb.buffer)
    requires sb.bufferSize == Vec2Ds.Vec2D(sb.buffer.width, sb.buffer.height)
    requires PutPixel(sb, x, y, pixel).Ok? && Loc(sb, x2, y2).Ok? && Loc(sb, x2, y2) != Loc(sb, x, y)
    ensures GetPixel(PutPixel(sb, x, y, pixel).value, x2, y2) == GetPixel(sb, x2, y2)
  {
    var l1 := Loc(sb, x, y).value;
    var l2 := Loc(sb, x2, y2).value;
    Buffers.SaveKeepsOtherPixels(sb.buffer, l1.0, l1.1, pixel, l2.0, l2.1);
  }
}

=== FILE: switch_state_task.dfy ===
/** A task that switches the flight state (src/flight_control/task/switch_state_task.rs). */
module SwitchStateTasks {
  import opened Wrappers
  import opened FlightStates

  datatype SwitchStateTask = SwitchStateTask(targetState: FlightState)

  /** Only Charge, Comms and Acquisition are states one may switch into. */
  function New(target: FlightState): (r: Option<SwitchStateTask>)
    ensures r.Some? <==> target in {Charge, Comms, Acquisition}
    ensures r.Some? ==> r.value.targetState == target
  {
    match target
    case Charge => Some(SwitchStateTask(target))
    case Comms => Some(SwitchStateTask(target))
    case Acquisition => Some(SwitchStateTask(target))
    case _ => None
  }
}

=== FILE: task_schedule.dfy ===
/** The task controller's task queue and the operations both snapshots perform on it
    (src/scheduling/task_controller.rs and src/flight_control/task/task_controller.rs).
    A task is reduced to its kind and its due instant in whole seconds; the older snapshot's
    `PinnedTimeDelay` end instant is that due instant. */
module TaskSchedules {
  import opened FlightStates

  datatype TaskKind = SwitchState(target: FlightState) | TakeImage | ChangeVelocity

  datatype Task = Task(kind: TaskKind, due: int)

  /** `push_back` onto the queue. */
  function EnqueueTask(q: seq<Task>, task: Task): (r: seq<Task>)
    ensures |r| == |q| + 1 && r[..|q|] == q && r[|q|] == task
  {
    q + [task]
  }

  /** Empty the queue. */
  function ClearSchedule(q: seq<Task>): (r: seq<Task>)
    ensures |r| == 0
  {
    []
  }

  /** Enqueue a switch into `target` due at `t`. */
  function ScheduleSwitch(q: seq<Task>, target: FlightState, t: int): (r: seq<Task>)
    ensures |r| == |q| + 1 && r[..|q|] == q
    ensures r[|q|].kind == SwitchState(target) && r[|q|].due == t
  {
    EnqueueTask(q, Task(SwitchState(target), t))
  }

  predicate SortedByDue(q: seq<Task>)
  {
    forall i, j :: 0 <= i < j < |q| ==> q[i].due <= q[j].due
  }

  /** The index of the first task at or after `from` due after `dt`, or `|q|` when there
      is none. */
  function FirstDueAfter(q: seq<Task>, dt: int, from: nat): (r: nat)
    requires from <= |q|
    ensures from <= r <= |q|
    ensures forall j :: from <= j < r ==> q[j].due <= dt
    ensures r < |q| ==> q[r].due > dt
    decreases |q| - from
  {
    if from == |q| then |q|
    else if q[from].due > dt then from
    else FirstDueAfter(q, dt, from + 1)
  }

  /** `clear_after_dt` as written: it returns early whenever the queue is NOT empty, and on
      an empty queue drains an empty range, so it never removes anything. */
  function ClearAfterDtAsWritten(q: seq<Task>, dt: int): (r: seq<Task>)
    ensures r == q
  {
    if |q| != 0 then q
    else
      // `first_remove` stays 0 when no task is due after `dt`
      var first := FirstDueAfter(q, dt, 0);
      q[..if first == |q| then 0 else first]
  }

  /** `clear_after_dt` as documented: remove the tasks from the first one due after `dt` on,
      and nothing when no task is due after `dt`. */
  function ClearAfterDt(q: seq<Task>, dt: int): (r: seq<Task>)
    ensures |r| <= |q| && r == q[..|r|]
    ensures forall i :: 0 <= i < |r| ==> r[i].due <= dt
    ensures |r| < |q| ==> q[|r|].due > dt
    ensures SortedByDue(q) ==> forall i :: |r| <= i < |q| ==> q[i].due > dt
  {
    q[..FirstDueAfter(q, dt, 0)]
  }

  /** A one-task queue whose task is due after the cutoff: the as-written operation keeps
      it, the documented one removes it. */
  lemma ClearAfterDtKeepsLateTask()
    ensures ClearAfterDtAsWritten([Task(TakeImage, 10)], 5) == [Task(TakeImage, 10)]
    ensures ClearAfterDt([Task(TakeImage, 10)], 5) == []
  {
  }

  /** A state switch the replay schedules: the DP state switched to and the second it is due. */
  datatype ScheduledSwitch = ScheduledSwitch(toState: nat, atDt: nat)

  function FlightStateOf(s: nat): FlightStates.FlightState
  {
    if s == 0 then FlightStates.Charge else FlightStates.Acquisition
  }

  /** The switch tasks for `switches`, due `baseT` plus their offsets. */
  function SwitchTasks(baseT: int, switches: seq<ScheduledSwitch>): (r: seq<Task>)
    ensures |r| == |switches|
    ensures forall i :: 0 <= i < |r| ==>
      r[i].kind == SwitchState(FlightStateOf(switches[i].toState)) && r[i].due == baseT + switches[i].atDt
  {
    seq(|switches|, i requires 0 <= i < |switches| => Task(SwitchState(FlightStateOf(switches[i].toState)), baseT + switches[i].atDt))
  }

  lemma SwitchTasksSnoc(base: seq<Task>, baseT: int, sw: seq<ScheduledSwitch>, x: ScheduledSwitch, q: seq<Task>)
    requires q == base + SwitchTasks(baseT, sw)
    ensures ScheduleSwitch(q, FlightStateOf(x.toState), baseT + x.atDt) == base + SwitchTasks(baseT, sw + [x])
  {
    var q' := ScheduleSwitch(q, FlightStateOf(x.toState), baseT + x.atDt);
    assert q'[..|q|] == q;
  }
}

=== FILE: text.dfy ===
/** Character and number formatting helpers: ASCII lower-casing and decimal rendering of
    integers, each with the inverse needed to state round trips. */
module Text {

  /** Lower-cases one ASCII letter; every other character is left alone. Rust's Unicode
      `to_lowercase` agrees on every character whose lowercase form is an ASCII letter
      except the Kelvin sign (U+212A), which maps to 'k'. */
  function LowerChar(c: char): char
  {
    if 'A' <= c <= 'Z' then (c as int + 32) as char else c
  }

  function ToLower(s: string): (r: string)
    ensures |r| == |s|
    ensures forall i :: 0 <= i < |s| ==> r[i] == LowerChar(s[i])
  {
    seq(|s|, i requires 0 <= i < |s| => LowerChar(s[i]))
  }

  /** Lower-casing twice is lower-casing once. */
  lemma ToLowerIdempotent(s: string)
    ensures ToLower(ToLower(s)) == ToLower(s)
  {
    var l := ToLower(s);
    forall i | 0 <= i < |l|
      ensures ToLower(l)[i] == l[i]
    {
      assert LowerChar(LowerChar(s[i])) == LowerChar(s[i]);
    }
  }

  predicate IsDigit(c: char)
  {
    '0' <= c <= '9'
  }

  predicate AllDigits(s: string)
  {
    forall i :: 0 <= i < |s| ==> IsDigit(s[i])
  }

  function DigitChar(d: nat): (c: char)
    requires d < 10
    ensures IsDigit(c) && c as int - '0' as int == d
  {
    (d + '0' as int) as char
  }

  /** Decimal rendering of a natural number, most significant digit first, without leading zeros. */
  function NatToString(n: nat): (r: string)
    ensures 1 <= |r| && AllDigits(r)
    ensures |r| > 1 ==> r[0] != '0'
    decreases n
  {
    if n < 10 then [DigitChar(n)] else NatToString(n / 10) + [DigitChar(n % 10)]
  }

  /** Reads a string of decimal digits back into a number. */
  function ParseDigits(s: string): nat
    requires AllDigits(s)
    decreases |s|
  {
    if s == [] then 0
    else ParseDigits(s[..|s| - 1]) * 10 + (s[|s| - 1] as int - '0' as int)
  }

  lemma {:induction false} ParseNatToString(n: nat)
    ensures ParseDigits(NatToString(n)) == n
    decreases n
  {
    if n >= 10 {
      var r := NatToString(n);
      assert r[..|r| - 1] == NatToString(n / 10);
      ParseNatToString(n / 10);
    }
  }

  /** Rust's `Display` of a signed integer: a leading '-' for negatives. */
  function IntToString(i: int): (r: string)
    ensures 1 <= |r|
    ensures forall k :: 0 <= k < |r| ==> r[k] != ',' && r[k] != ' ' && r[k] != '[' && r[k] != ']'
  {
    if i < 0 then "-" + NatToString(-i) else NatToString(i)
  }

  function ParseInt(s: string): int
  {
    if |s| > 0 && s[0] == '-' && AllDigits(s[1..]) then -(ParseDigits(s[1..]) as int)
    else if AllDigits(s) then ParseDigits(s)
    else 0
  }

  lemma IntToStringRoundTrip(i: int)
    ensures ParseInt(IntToString(i)) == i
  {
    if i < 0 {
      ParseNatToString(-i);
      assert IntToString(i)[1..] == NatToString(-i);
    } else {
      ParseNatToString(i);
    }
  }
}

=== FILE: vec2d.dfy ===
/** Two-dimensional vectors on the toroidal 21600 x 10800 map
    (src/flight_control/common/vec2d.rs). Components are integers: the program's `i32`,
    `u32` and `I32F0` instances exactly, and its `I32F32` instance on whole map units.
    Rust's `%` keeps the sign of the dividend, which `TRem` models. */
module Vec2Ds {
  import opened Wrappers
  import opened IntArith
  import Text

  const MAP_X: int := 21600
  const MAP_Y: int := 10800
  const U32_MOD: int := 0x1_0000_0000
  const I32_MIN: int := -0x8000_0000
  const I32_MAX: int := 0x7fff_ffff

  datatype Vec2D = Vec2D(x: int, y: int)

  /** `((value % max_value) + max_value) % max_value`. */
  function WrapCoordinate(value: int, maxValue: int): (r: int)
    requires maxValue != 0
    ensures maxValue > 0 ==> 0 <= r < maxValue && r == value % maxValue
  {
    if maxValue > 0 then DoubleRemIsMod(value, maxValue); TRem(TRem(value, maxValue) + maxValue, maxValue)
    else TRem(TRem(value, maxValue) + maxValue, maxValue)
  }

  lemma {:induction false} DoubleRemIsMod(value: int, m: int)
    requires m > 0
    ensures TRem(TRem(value, m) + m, m) == value % m
  {
    var t := TRem(value, m);
    var q := (value - t) / m;
    DivModUnique(value - t, m, q, 0);
    ModShift(value, 1 - q, m);
    assert t + m == value + (1 - q) * m;
  }

  /** Wrapping a coordinate already on the map leaves it alone, so wrapping is idempotent. */
  lemma WrapCoordinateIdempotent(value: int, maxValue: int)
    requires maxValue > 0
    ensures WrapCoordinate(WrapCoordinate(value, maxValue), maxValue) == WrapCoordinate(value, maxValue)
    ensures 0 <= value < maxValue ==> WrapCoordinate(value, maxValue) == value
  {
    var r := WrapCoordinate(value, maxValue);
    DivModUnique(r, maxValue, 0, r);
    if 0 <= value < maxValue {
      DivModUnique(value, maxValue, 0, value);
    }
  }

  /** Adding whole map widths does not change where a coordinate wraps to. */
  lemma WrapCoordinatePeriodic(value: int, k: int, maxValue: int)
    requires maxValue > 0
    ensures WrapCoordinate(value + k * maxValue, maxValue) == WrapCoordinate(value, maxValue)
  {
    ModShift(value, k, maxValue);
  }

  predicate OnMap(v: Vec2D) { 0 <= v.x < MAP_X && 0 <= v.y < MAP_Y }

  function WrapAroundMap(v: Vec2D): (r: Vec2D)
    ensures OnMap(r)
    ensures r.x == v.x % MAP_X && r.y == v.y % MAP_Y
  {
    Vec2D(WrapCoordinate(v.x, MAP_X), WrapCoordinate(v.y, MAP_Y))
  }

  lemma WrapAroundMapIdempotent(v: Vec2D)
    ensures WrapAroundMap(WrapAroundMap(v)) == WrapAroundMap(v)
    ensures OnMap(v) ==> WrapAroundMap(v) == v
  {
    WrapCoordinateIdempotent(v.x, MAP_X);
    WrapCoordinateIdempotent(v.y, MAP_Y);
  }

  function Add(a: Vec2D, b: Vec2D): Vec2D { Vec2D(a.x + b.x, a.y + b.y) }
  function Sub(a: Vec2D, b: Vec2D): Vec2D { Vec2D(a.x - b.x, a.y - b.y) }

  /** The vector from `self` to `other`. */
  function To(self: Vec2D, other: Vec2D): (r: Vec2D)
    ensures Add(self, r) == other
    ensures r == Sub(other, self)
  {
    Vec2D(other.x - self.x, other.y - self.y)
  }

  function Dot(a: Vec2D, b: Vec2D): int { a.x * b.x + a.y * b.y }
  function Cross(a: Vec2D, b: Vec2D): int { a.x * b.y - a.y * b.x }
  function AbsSq(a: Vec2D): (r: nat) { a.x * a.x + a.y * a.y }

  /** `Add`, `Sub`, `dot` and `cross`: subtraction undoes addition, addition commutes, the
      dot product is symmetric with `a . a` the squared length, and the cross product is
      antisymmetric, so a vector is parallel to itself. */
  lemma ArithmeticLaws(a: Vec2D, b: Vec2D)
    ensures Sub(Add(a, b), b) == a && Add(a, b) == Add(b, a)
    ensures Dot(a, b) == Dot(b, a) && Dot(a, a) == AbsSq(a)
    ensures Cross(a, b) == -Cross(b, a) && Cross(a, a) == 0
  {
  }

  /** Whether `other` lies clockwise of `self`: `None` when they are parallel. */
  function IsClockwiseTo(self: Vec2D, other: Vec2D): (r: Option<bool>)
    ensures r == Some(true) <==> Cross(self, other) < 0
    ensures r == Some(false) <==> Cross(self, other) > 0
    ensures r.None? <==> Cross(self, other) == 0
  {
    var cross := Cross(self, other);
    if cross < 0 then Some(true) else if cross > 0 then Some(false) else None
  }

  /** Swapping the two vectors flips the answer. */
  lemma IsClockwiseAntisymmetric(a: Vec2D, b: Vec2D)
    ensures IsClockwiseTo(b, a) == if IsClockwiseTo(a, b).None? then None else Some(!IsClockwiseTo(a, b).value)
  {
    assert Cross(b, a) == -Cross(a, b);
  }

  /** The vector from `self` to `to` shifted by `kx` map widths and `ky` map heights, with its
      squared length. */
  function Projected(self: Vec2D, to: Vec2D, kx: int, ky: int): (r: (Vec2D, nat))
    ensures r.1 == AbsSq(r.0)
  {
    var target := Vec2D(to.x + MAP_X * kx, to.y + MAP_Y * ky);
    var toTarget := To(self, target);
    (toTarget, AbsSq(toTarget))
  }

  /** The projections for every shift, the outer loop over `xs` and the inner over `ys`. */
  function ProjectedInRange(self: Vec2D, to: Vec2D, xs: seq<int>, ys: seq<int>): (r: seq<(Vec2D, nat)>)
    ensures |r| == |xs| * |ys|
  {
    if |xs| == 0 then []
    else
      var row := seq(|ys|, j requires 0 <= j < |ys| => Projected(self, to, xs[0], ys[j]));
      row + ProjectedInRange(self, to, xs[1..], ys)
  }

  /** `min_by` on the squared lengths: the position of the first smallest option. */
  function MinByIndex(options: seq<(Vec2D, nat)>, n: nat): (k: nat)
    requires 0 < n <= |options|
    ensures k < n
    ensures forall i :: 0 <= i < n ==> options[k].1 <= options[i].1
    ensures forall i :: 0 <= i < k ==> options[i].1 > options[k].1
  {
    if n == 1 then 0
    else
      var m := MinByIndex(options, n - 1);
      if options[m].1 > options[n - 1].1 then n - 1 else m
  }

  const SIGNS: seq<int> := [1, 0, -1]

  /** The `k`-th option `unwrapped_to` weighs: shift `SIGNS[k / 3]` in x, `SIGNS[k % 3]` in y. */
  function Option9(self: Vec2D, other: Vec2D, k: nat): (Vec2D, nat)
    requires k < 9
  {
    Projected(self, other, SIGNS[k / 3], SIGNS[k % 3])
  }

  lemma {:induction false} NineOptions(self: Vec2D, to: Vec2D)
    ensures var o := ProjectedInRange(self, to, SIGNS, SIGNS);
      |o| == 9 && forall k: nat :: k < 9 ==> o[k] == Option9(self, to, k)
  {
    var o := ProjectedInRange(self, to, SIGNS, SIGNS);
    var o1 := ProjectedInRange(self, to, SIGNS[1..], SIGNS);
    var o2 := ProjectedInRange(self, to, SIGNS[2..], SIGNS);
    assert SIGNS[1..][1..] == SIGNS[2..];
    assert SIGNS[2..][1..] == [];
    assert o2 == seq(3, j requires 0 <= j < 3 => Projected(self, to, SIGNS[2], SIGNS[j]));
    assert o1 == seq(3, j requires 0 <= j < 3 => Projected(self, to, SIGNS[1], SIGNS[j])) + o2;
    assert o == seq(3, j requires 0 <= j < 3 => Projected(self, to, SIGNS[0], SIGNS[j])) + o1;
  }

  /** The position, in iteration order, of the option `UnwrappedTo` picks. */
  function ChosenShift(self: Vec2D, other: Vec2D): (k: nat)
    ensures k < 9
    ensures forall i: nat :: i < 9 ==> Option9(self, other, k).1 <= Option9(self, other, i).1
    ensures forall i: nat :: i < k ==> Option9(self, other, i).1 > Option9(self, other, k).1
  {
    NineOptions(self, other);
    MinByIndex(ProjectedInRange(self, other, SIGNS, SIGNS), 9)
  }

  /** The shortest vector from `self` to `other` on the torus: of the nine shifts of `other`
      by one map size either way or none, the first with the smallest squared length. */
  function UnwrappedTo(self: Vec2D, other: Vec2D): (r: Vec2D)
    ensures r == Option9(self, other, ChosenShift(self, other)).0
    ensures forall i: nat :: i < 9 ==> AbsSq(r) <= AbsSq(Option9(self, other, i).0)
    ensures forall i: nat :: i < ChosenShift(self, other) ==> AbsSq(Option9(self, other, i).0) > AbsSq(r)
  {
    var options := ProjectedInRange(self, other, SIGNS, SIGNS);
    NineOptions(self, other);
    options[MinByIndex(options, 9)].0
  }

  lemma SquareGrows(a: int, b: int)
    requires a > b >= 0
    ensures a * a > b * b
  {
    MulAtLeast(a + b, a - b);
    assert a * a == (a + b) * (a - b) + b * b;
  }

  lemma SquareBound(a: int, b: nat)
    requires a * a <= b * b
    ensures a <= b && 0 <= a + b
  {
    if a > b {
      SquareGrows(a, b);
      assert false;
    } else if a + b < 0 {
      SquareGrows(-a, b);
      assert false;
    }
  }

  lemma ShiftedCoordinateWraps(v: int, k: int, m: int)
    requires m > 0 && 0 <= v < m
    ensures WrapCoordinate(v + m * k, m) == v
  {
    assert v + m * k == v + k * m;
    WrapCoordinatePeriodic(v, k, m);
    WrapCoordinateIdempotent(v, m);
  }

  /** The option with x shift `SIGNS[ci]` and y shift `SIGNS[cj]`, written out. */
  lemma OptionComponents(self: Vec2D, other: Vec2D, ci: nat, cj: nat)
    requires ci < 3 && cj < 3
    ensures Option9(self, other, 3 * ci + cj).0 ==
      Vec2D(other.x - self.x + MAP_X * SIGNS[ci], other.y - self.y + MAP_Y * SIGNS[cj])
  {
    assert (3 * ci + cj) / 3 == ci && (3 * ci + cj) % 3 == cj;
  }

  /** The position in `SIGNS` of the shift that brings a difference `d` of two coordinates
      on a circle of length `m` within half the circle. */
  function HalfShift(d: int, m: int): (c: nat)
    ensures c < 3
  {
    if d > m / 2 then 2 else if d < -m / 2 then 0 else 1
  }

  lemma ShiftLandsWithinHalf(d: int, m: int)
    requires m > 0 && -m < d < m
    ensures -m / 2 <= d + m * SIGNS[HalfShift(d, m)] <= m / 2
  {
    if d > m / 2 {
      assert SIGNS[2] == -1;
    } else if d < -m / 2 {
      assert SIGNS[0] == 1;
    } else {
      assert SIGNS[1] == 0;
    }
  }

  /** A vector no longer than one with the same `y` and an `x` within `h` has its `x`
      within `h` too. */
  lemma WithinHalfByLength(r: Vec2D, c: Vec2D, h: nat)
    requires r.y == c.y && AbsSq(r) <= AbsSq(c)
    requires c.x <= h && -c.x <= h
    ensures r.x <= h && -r.x <= h
  {
    SameYShorter(r, c);
    if c.x >= 0 {
      SquareBound(r.x, c.x);
    } else {
      NegSquare(c.x);
      SquareBound(r.x, -c.x);
    }
  }

  lemma SameYShorter(r: Vec2D, c: Vec2D)
    requires r.y == c.y && AbsSq(r) <= AbsSq(c)
    ensures r.x * r.x <= c.x * c.x
  {
  }

  lemma NegSquare(a: int)
    ensures (-a) * (-a) == a * a
  {
  }

  lemma {:induction false} UnwrappedXWithinHalf(self: Vec2D, other: Vec2D)
    requires OnMap(self) && OnMap(other)
    ensures -MAP_X / 2 <= UnwrappedTo(self, other).x <= MAP_X / 2
  {
    var k := ChosenShift(self, other);
    var ci := HalfShift(other.x - self.x, MAP_X);
    OptionComponents(self, other, k / 3, k % 3);
    OptionComponents(self, other, ci, k % 3);
    ShiftLandsWithinHalf(other.x - self.x, MAP_X);
    var c := Option9(self, other, 3 * ci + k % 3).0;
    WithinHalfByLength(UnwrappedTo(self, other), c, MAP_X / 2);
  }

  lemma {:induction false} UnwrappedYWithinHalf(self: Vec2D, other: Vec2D)
    requires OnMap(self) && OnMap(other)
    ensures -MAP_Y / 2 <= UnwrappedTo(self, other).y <= MAP_Y / 2
  {
    var k := ChosenShift(self, other);
    var cj := HalfShift(other.y - self.y, MAP_Y);
    OptionComponents(self, other, k / 3, k % 3);
    OptionComponents(self, other, k / 3, cj);
    ShiftLandsWithinHalf(other.y - self.y, MAP_Y);
    var c := Option9(self, other, 3 * (k / 3) + cj).0;
    var r := UnwrappedTo(self, other);
    WithinHalfByLength(Vec2D(r.y, r.x), Vec2D(c.y, c.x), MAP_Y / 2);
  }

  /** Between two points on the map the shortest vector is at most half the map size in each
      direction, and it leads from `self` to `other` once wrapped. */
  lemma {:induction false} UnwrappedToIsShortest(self: Vec2D, other: Vec2D)
    requires OnMap(self) && OnMap(other)
    ensures var r := UnwrappedTo(self, other);
      -MAP_X / 2 <= r.x <= MAP_X / 2 && -MAP_Y / 2 <= r.y <= MAP_Y / 2 &&
      WrapAroundMap(Add(self, r)) == other
  {
    UnwrappedXWithinHalf(self, other);
    UnwrappedYWithinHalf(self, other);
    var k := ChosenShift(self, other);
    ShiftedCoordinateWraps(other.x, SIGNS[k / 3], MAP_X);
    ShiftedCoordinateWraps(other.y, SIGNS[k % 3], MAP_Y);
  }

  const UNIT_SIGNS: seq<int> := [1, 0]

  /** The `k`-th option `unwrapped_to_top_right` weighs: shift `UNIT_SIGNS[k / 2]` in x and
      `UNIT_SIGNS[k % 2]` in y, never towards smaller coordinates. */
  function Option4(self: Vec2D, other: Vec2D, k: nat): (Vec2D, nat)
    requires k < 4
  {
    Projected(self, other, UNIT_SIGNS[k / 2], UNIT_SIGNS[k % 2])
  }

  lemma {:induction false} FourOptions(self: Vec2D, to: Vec2D)
    ensures var o := ProjectedInRange(self, to, UNIT_SIGNS, UNIT_SIGNS);
      |o| == 4 && forall k: nat :: k < 4 ==> o[k] == Option4(self, to, k)
  {
    var o := ProjectedInRange(self, to, UNIT_SIGNS, UNIT_SIGNS);
    var o1 := ProjectedInRange(self, to, UNIT_SIGNS[1..], UNIT_SIGNS);
    assert UNIT_SIGNS[1..][1..] == [];
    assert o1 == seq(2, j requires 0 <= j < 2 => Projected(self, to, UNIT_SIGNS[1], UNIT_SIGNS[j]));
    assert o == seq(2, j requires 0 <= j < 2 => Projected(self, to, UNIT_SIGNS[0], UNIT_SIGNS[j])) + o1;
  }

  /** The position, in iteration order, of the option `UnwrappedToTopRight` picks. */
  function ChosenTopRightShift(self: Vec2D, other: Vec2D): (k: nat)
    ensures k < 4
    ensures forall i: nat :: i < 4 ==> Option4(self, other, k).1 <= Option4(self, other, i).1
    ensures forall i: nat :: i < k ==> Option4(self, other, i).1 > Option4(self, other, k).1
  {
    FourOptions(self, other);
    MinByIndex(ProjectedInRange(self, other, UNIT_SIGNS, UNIT_SIGNS), 4)
  }

  /** The shortest vector from `self` to a copy of `other` shifted by no map size or by one
      map size towards larger coordinates, the first such when several are equally short. */
  function UnwrappedToTopRight(self: Vec2D, other: Vec2D): (r: Vec2D)
    ensures r == Option4(self, other, ChosenTopRightShift(self, other)).0
    ensures forall i: nat :: i < 4 ==> AbsSq(r) <= AbsSq(Option4(self, other, i).0)
    ensures forall i: nat :: i < ChosenTopRightShift(self, other) ==> AbsSq(Option4(self, other, i).0) > AbsSq(r)
  {
    var options := ProjectedInRange(self, other, UNIT_SIGNS, UNIT_SIGNS);
    FourOptions(self, other);
    options[MinByIndex(options, 4)].0
  }

  /** Between two points on the map, `self` plus the top-right vector is a copy of `other`
      at most one map size further right and up, and it wraps back onto `other`. */
  lemma {:induction false} UnwrappedToTopRightWraps(self: Vec2D, other: Vec2D)
    requires OnMap(self) && OnMap(other)
    ensures var p := Add(self, UnwrappedToTopRight(self, other));
      other.x <= p.x < other.x + MAP_X + 1 && other.y <= p.y < other.y + MAP_Y + 1 &&
      (p.x == other.x || p.x == other.x + MAP_X) && (p.y == other.y || p.y == other.y + MAP_Y) &&
      WrapAroundMap(p) == other
  {
    var k := ChosenTopRightShift(self, other);
    ShiftedCoordinateWraps(other.x, UNIT_SIGNS[k / 2], MAP_X);
    ShiftedCoordinateWraps(other.y, UNIT_SIGNS[k % 2], MAP_Y);
  }

  /** `as u32` on each `i32` component: negative values wrap modulo 2^32. */
  function ToUnsigned(v: Vec2D): (r: Vec2D)
    requires I32_MIN <= v.x <= I32_MAX && I32_MIN <= v.y <= I32_MAX
    ensures 0 <= r.x < U32_MOD && 0 <= r.y < U32_MOD
    ensures (r.x - v.x) % U32_MOD == 0 && (r.y - v.y) % U32_MOD == 0
  {
    Vec2D(if v.x < 0 then v.x + U32_MOD else v.x, if v.y < 0 then v.y + U32_MOD else v.y)
  }

  /** `as i32` on a `u32`, the inverse cast. */
  function ToSignedComponent(u: int): int
    requires 0 <= u < U32_MOD
  {
    if u > I32_MAX then u - U32_MOD else u
  }

  lemma ToUnsignedRoundTrip(v: Vec2D)
    requires I32_MIN <= v.x <= I32_MAX && I32_MIN <= v.y <= I32_MAX
    ensures var u := ToUnsigned(v); Vec2D(ToSignedComponent(u.x), ToSignedComponent(u.y)) == v
  {
  }

  function FromTuple(t: (int, int)): Vec2D { Vec2D(t.0, t.1) }
  function ToTuple(v: Vec2D): (int, int) { (v.x, v.y) }

  /** `From<&[T; 2]>`: the first element is x. */
  function FromArray(a: seq<int>): (r: Vec2D)
    requires |a| == 2
    ensures ToTuple(r) == (a[0], a[1])
  {
    Vec2D(a[0], a[1])
  }

  lemma TupleRoundTrip(v: Vec2D, t: (int, int))
    ensures FromTuple(ToTuple(v)) == v && ToTuple(FromTuple(t)) == t
  {
  }

  /** `Display`: `[x, y]`. */
  function Display(v: Vec2D): (r: string)
    ensures |r| >= 6 && r[0] == '[' && r[|r| - 1] == ']'
  {
    "[" + Text.IntToString(v.x) + ", " + Text.IntToString(v.y) + "]"
  }

  function IndexOf(s: string, c: char): (r: nat)
    ensures r <= |s|
    ensures r < |s| ==> s[r] == c
    ensures forall k :: 0 <= k < r ==> s[k] != c
  {
    if |s| == 0 then 0 else if s[0] == c then 0 else 1 + IndexOf(s[1..], c)
  }

  /** Read back a `Display` rendering; anything else is `None`. */
  function ParseDisplay(s: string): Option<Vec2D>
  {
    if |s| < 2 || s[0] != '[' || s[|s| - 1] != ']' then None
    else
      var inner := s[1..|s| - 1];
      var c := IndexOf(inner, ',');
      if c + 1 < |inner| && inner[c + 1] == ' ' then
        Some(Vec2D(Text.ParseInt(inner[..c]), Text.ParseInt(inner[c + 2..])))
      else None
  }

  lemma DisplayRoundTrip(v: Vec2D)
    ensures ParseDisplay(Display(v)) == Some(v)
  {
    var a, b := Text.IntToString(v.x), Text.IntToString(v.y);
    var s := Display(v);
    var inner := s[1..|s| - 1];
    assert inner == a + ", " + b;
    var c := IndexOf(inner, ',');
    assert inner[|a|] == ',';
    assert c == |a|;
    assert inner[..c] == a;
    assert inner[c + 2..] == b;
    Text.IntToStringRoundTrip(v.x);
    Text.IntToStringRoundTrip(v.y);
  }
}

=== FILE: wrappers.dfy ===
/** Failure-carrying wrappers shared by every module of the model.
    `Err` stands for a Rust panic or an `Err(String)` return; its message is informative only. */
module Wrappers {

  datatype Option<+T> = None | Some(value: T)

  datatype Result<+T> = Ok(value: T) | Err(msg: string)
}
